=== FILE: README.md ===
# Agrivalah in Dafny

Agrivalah is an organic-farming marketplace: an Express/MongoDB backend (customer, mitra and
seller accounts with OTP verification, products, orders, an admin console, search and file
upload), a React front end, and Python scripts that drive the API end to end. This project models
the decision logic of that system as pure Dafny functions and proves what each piece promises.

- Every route handler is a function from the request and the collections it touches to a reply
  (`Http.Reply`: status, message and data, or an error) and the collections afterwards. A
  collection is a sequence of documents where lookup order matters (`findOne`), and a map from id
  to document where only `findById` is used.
- The clock, random numbers, uuids, ObjectIds, bcrypt, JWT signing and verification, e-mail and
  SMS delivery, S3 and the database's text and regular-expression queries are parameters: each
  arrives as a value or a function whose result the handler uses, so the model says what the
  handler does with every possible answer.
- The React pages are modelled as their state (form fields, errors, step) and the event handlers
  as functions on that state; the API calls they make are parameters that say how each request
  ended.
- The test script `auth_test.py` is modelled as its counters, its request verdict, its summary
  and the early stop when the backend is unreachable.

One module per source file or component: `Records` (the user model), `Otp`, `RefreshTokens`,
`AuthMiddleware`, `AuthRoutes`, `Sellers`, `Validation`, `Admin`, `Orders` with `OrderLifecycle`
and `Paging`, `Sorting`, `Products`, `Search`, `Uploads`, `Users`, `Migrate`, `Server`, `Pages`,
`Markets`, `Patterns`, `AuthPage`, `SellerSignup` and `TestHarness`, over the helper modules
`Wrappers`, `Text`, `Collections` and `Http`.

Lengths are counted two ways, as the source counts them. JavaScript's `length`, and Mongoose's
`minlength` and `maxlength` with it, count UTF-16 code units (`Text.JsLength`): a character beyond
the Basic Multilingual Plane, such as an emoji, counts twice. The validation chains' `isLength`
counts characters (`Text.GlyphLength`), leaving out the variation selectors U+FE0E and U+FE0F.
"Characters" in the table below means the second count, "code units" the first.

Where the code does something its own design evidently did not intend, the model keeps the code
as written in one member, exhibits the difference in a lemma, and uses a corrected member
everywhere else; see "Findings".

## Model

| member | source | states |
|---|---|---|
| Records.FindByLogin | backend/src/routes/auth.js:66-71 | the first user whose stored e-mail equals the lower-cased identifier or whose phone equals it is found, and none is reported iff no user matches |
| Records.FindByKey | backend/src/routes/auth.js:66-71 | the first user matching the e-mail or the phone is found, and none iff no user matches either |
| Records.ContactFoundAgain | backend/src/routes/auth.js:98-103 | a user stored from an identifier, after the schema's setters, is matched again by the lookup on that identifier |
| Records.FoundAtEnd | backend/src/routes/auth.js:66-71 | a matching user appended behind users that do not match is the one the lookup finds |
| Records.FindById | backend/src/middlewares/auth.js:20 | the user with the id is found, and none iff no user has it |
| Records.IdAtEnd | backend/src/middlewares/auth.js:20 | a user appended with an unused id is the one found by that id |
| Records.InsertUser | backend/src/models/User.js:9-43 | a save succeeds iff the name trims to 1..100 code units, the e-mail is non-empty and unused, the password as typed has at least 6 code units, the role and subscription type lie in their enums; the stored user has the trimmed name and trimmed lower-case e-mail and is appended behind the others |
| Text.JsLength | backend/src/models/User.js:13 | the code-unit count lies between the character count and twice it |
| Text.JsLengthExact | backend/src/models/User.js:31 | the code-unit count equals the character count iff no character lies beyond the Basic Multilingual Plane |
| Text.GlyphLength | backend/src/middlewares/validation.js:29 | the validator's count never exceeds the number of characters |
| Text.GlyphLengthExact | backend/src/middlewares/validation.js:36 | the validator's count equals the number of characters iff the text holds no variation selector |
| Text.EmojiLengths | backend/src/models/User.js:31 | three emoji are three characters to the validator and six code units to Mongoose |
| Records.InsertKeepsEmailsUnique | backend/src/models/User.js:20 | saving keeps stored e-mails unique |
| Records.RecordLogin | backend/src/models/User.js:130-134 | the login count rises by one, the last login is now, and nothing else changes |
| Otp.GenerateCode | backend/src/models/OTP.js:51-54 | for any random draw in [0, 1) the code is six decimal digits whose value lies in [100000, 999999] |
| Otp.Verify | backend/src/models/OTP.js:57-80 | a used code fails "OTP already used", an expired one "OTP expired", one with 3 attempts "Maximum attempts exceeded", all without change; otherwise attempts rise by exactly 1, a wrong code fails "Invalid OTP" leaving it unused, and a matching code is accepted and marked used |
| Otp.VerifyRun | backend/src/models/OTP.js:57-80 | successive `verify` calls on one document give one verdict per input |
| Otp.VerifyRunBounds | backend/src/models/OTP.js:24-28 | however many codes are tried, attempts never pass 3, the guesses consumed plus the starting attempts equal the final attempts, and at most one guess is ever accepted (none if the code was already used) |
| Otp.UsedIsFinal | backend/src/models/OTP.js:58-60 | once used, every later `verify` fails with "OTP already used" and leaves the document unchanged |
| Otp.AcceptThenRejected | backend/src/models/OTP.js:77-79 | a correct code is accepted, and the next `verify` with any code at any time fails with "OTP already used" |
| Otp.CleanupExpired | backend/src/models/OTP.js:84-89 | exactly the documents expiring before now are deleted, and the count returned is the number deleted |
| Otp.DropPending | backend/src/services/otpService.js:34 | exactly the unused documents of the pair are deleted; afterwards the pair has none and no other pair gains one |
| Otp.PendingCountAppend | backend/src/services/otpService.js:44-50 | appending a document raises a pair's unused count by one exactly when the document is unused and belongs to that pair |
| Otp.SendOtp | backend/src/services/otpService.js:31-75 | a send succeeds iff the target and purpose are valid and delivery works; the fresh document is unused, six digits ("123456" in development) and expires five minutes after issue; the message names the e-mail channel iff the target contains '@'; every failure is "Failed to send OTP"; no other pair's documents change and at most one unused code remains for the pair |
| Otp.SendKeepsAtMostOnePending | backend/src/services/otpService.js:34-50 | issuing a code preserves "at most one unused code per (target, purpose)", whatever the outcome |
| Otp.LatestPending | backend/src/services/otpService.js:114-118 | the newest unused document of the pair is found, and none is reported iff the pair has no unused document |
| Otp.VerifyOtp | backend/src/services/otpService.js:112-142 | with no unused code the reply is "OTP not found or expired" with nothing changed; otherwise the newest unused code is checked by `verify` and its verdict and message are returned as `success`/`message`, never as a throw; success implies that code matched |
| Otp.SmsDestination | backend/src/services/otpService.js:107 | the SMS number always starts with "+91": unchanged if it already does, prefixed otherwise |
| Otp.SmsDestinationIdempotent | backend/src/services/otpService.js:107 | prefixing twice is the same as prefixing once |
| Otp.EmailSubject | backend/src/services/otpService.js:145-155 | each of the six purposes has its own subject (signup's being "Welcome to AgriValah - Verify Your Account") and any other purpose gets "AgriValah Verification" |
| RefreshTokens.Issue | backend/src/models/RefreshToken.js:14-30 | a token is stored, unrevoked and expiring 30 days after issue, iff no stored document already holds the same string |
| RefreshTokens.IssueKeepsTokensUnique | backend/src/models/RefreshToken.js:14-19 | issuing keeps token strings unique |
| RefreshTokens.FindActive | backend/src/middlewares/auth.js:136-139 | an unrevoked document with the token is found, and none iff there is no such document |
| RefreshTokens.FindToken | backend/src/routes/auth.js:331-334 | the first document with the token is found, whatever its revocation, and none iff no document holds it |
| RefreshTokens.Revoke | backend/src/models/RefreshToken.js:47-52 | the token becomes revoked with revokedAt now and revokedBy the revoker, and nothing else changes |
| RefreshTokens.RevokeAllForUser | backend/src/models/RefreshToken.js:55-65 | exactly the user's unrevoked tokens are revoked with the user as revoker; every other document is unchanged |
| RefreshTokens.RevokeAllCount | backend/src/models/RefreshToken.js:64 | the count returned is the number of live tokens the user had, and none is live afterwards |
| RefreshTokens.RevokeAllIdempotent | backend/src/models/RefreshToken.js:55-65 | revoking all a second time changes nothing and reports zero |
| RefreshTokens.NoLiveNoChange | backend/src/models/RefreshToken.js:57 | a user without live tokens leaves the collection unchanged |
| RefreshTokens.CleanupExpired | backend/src/models/RefreshToken.js:68-76 | exactly the tokens expired before now or revoked more than seven days ago are deleted, and the count is the number deleted |
| AuthMiddleware.AccessToken | backend/src/middlewares/auth.js:89-99 | the access token carries the user's id, role and e-mail |
| AuthMiddleware.BearerToken | backend/src/middlewares/auth.js:9-10 | a token is taken only from a present header, is non-empty and space-free, and is exactly what follows the header's first space; a header without a space yields none |
| AuthMiddleware.BeforeFirstIsPrefix | backend/src/middlewares/auth.js:10 | the text before the first space is the header up to that space |
| AuthMiddleware.BearerRoundTrip | backend/src/middlewares/auth.js:10 | the header "Bearer " + t yields t back for every non-empty token without spaces |
| AuthMiddleware.BeforeFirstAll | backend/src/middlewares/auth.js:10 | text without a space is its own first field |
| AuthMiddleware.Authenticate | backend/src/middlewares/auth.js:7-46 | a request is admitted iff its bearer token decodes to the id of an existing user, who is attached; no token gives 401 "Access token required", an expired token 401 TOKEN_EXPIRED, any other verification error 403, and a decoded id with no user 401 "Invalid token - user not found" |
| AuthMiddleware.Authorize | backend/src/middlewares/auth.js:49-67 | a request passes iff a user is attached and the role list is empty or holds the user's role; no user gives 401, a role outside a non-empty list 403 |
| AuthMiddleware.Guard | backend/src/middlewares/auth.js:7-67 | token check then role check: an authentication failure is returned as is, an authenticated user outside a non-empty role list gets 403, and an admitted user has an allowed role |
| AuthMiddleware.OptionalAuth | backend/src/middlewares/auth.js:70-86 | never rejects; a user is attached exactly when the strict check would admit the request, and it is the same user |
| AuthMiddleware.GenerateRefreshToken | backend/src/middlewares/auth.js:102-121 | the new token is appended, unrevoked, for that user and expiring 30 days later, and is then found active; storing fails exactly when the token string is already stored (it is unique) |
| AuthMiddleware.RefreshAccess | backend/src/middlewares/auth.js:124-191 | no token gives 401; an unstored or revoked token 403 "Invalid refresh token"; an expired one 403 "Refresh token expired"; a missing user 403; another verification error 500; success, and only success, returns a new access token for the user and records the last use, changing nothing else |
| AuthRoutes.SignupUser | backend/src/routes/auth.js:80-103 | the new user is unverified, has the trimmed name, the body's role or 'customer', the typed password (hashed on save), the lower-cased e-mail or the phone with a placeholder e-mail; a mitra gets credits (default 0), an active subscription and today's date, any other role none of these |
| AuthRoutes.CreateAccount | backend/src/routes/auth.js:105-134 | the signup answers 200 iff the save is accepted and the OTP is sent; the reply names the channel, echoes the role and carries the mitra fields iff the role is mitra; a rejected save writes nothing, and every failure is a 500 |
| AuthRoutes.Signup | backend/src/routes/auth.js:45-143 | a missing name, identifier or password gives 400 with no change; an identifier that matches an existing user by lower-cased e-mail or phone gives 400 "User already exists with this email/phone" with no change; otherwise the account is created |
| AuthRoutes.SignupChecked | backend/src/middlewares/validation.js:52-55 | with the role rule of the register chain applied, a role other than customer or mitra is refused with 400 before anything is written, and every created user has one of those two roles |
| AuthRoutes.SignupAcceptsAdmin | backend/src/routes/auth.js:51-85 | the route as written accepts a signup with role 'admin' and stores an admin user |
| AuthRoutes.SignupCheckedRefusesAdmin | backend/src/middlewares/validation.js:52-55 | with the role rule applied the same request is refused with 400 "Validation failed" and nothing changes |
| AuthRoutes.AdminSignupWitness | backend/src/routes/auth.js:3-85 | a concrete request (role 'admin', e-mail "a@b", password "secret") is accepted as an admin on an empty database by the route as written and refused by the checked route |
| AuthRoutes.RepeatedSignupRejected | backend/src/routes/auth.js:66-78 | repeating a successful signup is rejected with "User already exists with this email/phone" |
| AuthRoutes.SignupKeepsEmailsUnique | backend/src/models/User.js:20 | signup never stores two users with the same e-mail |
| AuthRoutes.OpenSession | backend/src/routes/auth.js:193-298 | the session opens iff the refresh token can be stored; it carries an access token and the user's public fields, and records the login; on failure it is a 500 and nothing changes |
| AuthRoutes.ConfirmUser | backend/src/routes/auth.js:188-214 | the matched user becomes verified (also when issuing the token then fails with 500), no other user changes, and the session reports the user as verified |
| AuthRoutes.VerifySignup | backend/src/routes/auth.js:152-223 | a missing identifier or OTP gives 400 with no change; an OTP rejected by the service gives 400 with its message (after the attempt is recorded); a missing user gives 404; otherwise the user is confirmed and the session opened |
| AuthRoutes.Login | backend/src/routes/auth.js:232-307 | missing fields give 400; an unknown user and a wrong password both give 401 "Invalid credentials"; an unverified user gives 401 ACCOUNT_NOT_VERIFIED; tokens are issued iff all checks pass; a refusal changes nothing |
| AuthRoutes.SignupThenLoginUnverified | backend/src/routes/auth.js:86-274 | right after a successful signup the same credentials get 401 ACCOUNT_NOT_VERIFIED |
| AuthRoutes.Logout | backend/src/routes/auth.js:325-341 | logout always answers "Logged out successfully"; it marks the first stored token equal to the given one as revoked at now, and changes nothing when no token is given or none matches |
| AuthRoutes.LogoutThenRefreshRefused | backend/src/routes/auth.js:329-335 | after logout the same refresh token is refused with 403 "Invalid refresh token" |
| AuthRoutes.ResendOtp | backend/src/routes/auth.js:358-391 | a missing identifier gives 400 with no change; otherwise the purpose defaults to 'signup' and the reply is "OTP sent successfully" iff the send succeeds, else 500 "Failed to send OTP" |
| Sellers.SellerRole | backend/src/routes/sellers.js:70-72 | farmer, reseller and startup map to farmer, reseller and agritech_startup, and any other designation to service_provider; the result is always a user role and a seller type |
| Sellers.MappingsAgree | backend/src/routes/sellers.js:70-93 | for every accepted designation the lookup table and the nested conditional give the same value, a schema seller type, so user role and profile type match |
| Sellers.SellerUser | backend/src/routes/sellers.js:66-82 | the seller's user is unverified, has the role for the designation, and the lower-cased e-mail or the phone with a placeholder e-mail |
| Sellers.Register | backend/src/routes/sellers.js:15-132 | the checks run in order (missing field, password mismatch, designation outside farmer/reseller/startup/service, existing user), each a 400 with nothing written; success appends the unverified user and an inactive, KYC-pending profile of the mapped type, and replies with both ids and status 'pending_approval' |
| Sellers.Enrol | backend/src/routes/sellers.js:84-125 | an accepted registration writes the user and then the profile whose type the mapping table gives, replying 'pending_approval' with both ids; a failed user save is a 500 with nothing written |
| Sellers.FindProfile | backend/src/routes/sellers.js:174-245 | the profile of the user is found, and none iff no profile belongs to the user |
| Sellers.ActivateProfile | backend/src/routes/sellers.js:174-179 | the user's profile, if any, becomes active with KYC status pending; every other profile is unchanged |
| Sellers.VerifySellerOtp | backend/src/routes/sellers.js:141-199 | a missing field or a code other than "123456" gives 400 with no change, an unknown user 404; success verifies the user, activates the profile and reports status 'waiting_list' |
| Sellers.RegisterThenVerify | backend/src/routes/sellers.js:15-199 | registration followed by the demo code leaves the new user verified and the new profile active, KYC-pending and of the designation's type |
| Sellers.VerifyNewSeller | backend/src/routes/sellers.js:164-181 | the demo code for a user and profile just appended succeeds and leaves exactly that user verified and that profile active with KYC pending |
| Sellers.ProfileAtEnd | backend/src/routes/sellers.js:111-174 | a profile appended for a user without one is the one the lookup finds |
| Sellers.SendSellerOtp | backend/src/routes/sellers.js:208-232 | the reply succeeds iff an identifier is given, else 400 "Email or phone is required" |
| Sellers.GetProfile | backend/src/routes/sellers.js:241-253 | the reply succeeds iff some profile belongs to that user id, returning such a profile, else 404 "Seller profile not found" |
| Validation.Failures | backend/src/middlewares/validation.js:5-10 | the failures are exactly the failing checks with their field and message, none iff every check passes |
| Validation.AllPassAppend | backend/src/middlewares/validation.js:48-57 | a concatenated chain passes iff both parts pass |
| Validation.Then | backend/src/middlewares/validation.js:48-57 | a chain with one more check in front passes iff that check and the rest pass |
| Validation.HandleValidationErrors | backend/src/middlewares/validation.js:4-14 | the request goes on iff no check failed; otherwise 400 "Validation failed" with the non-empty list of failures |
| Validation.DotStarThenMeaning | backend/src/middlewares/validation.js:31 | the anchored lookahead `(?=.*X)` holds iff a wanted character occurs before the first line terminator |
| Validation.StrongPasswordSingleLine | backend/src/middlewares/validation.js:28-32 | on a one-line password the rule is: at least 6 characters with a lower-case letter, an upper-case letter and a digit |
| Validation.PasswordChecks | backend/src/middlewares/validation.js:28-32 | the two password checks pass iff the password is present and strong |
| Validation.NameChecks | backend/src/middlewares/validation.js:34-39 | the two name checks pass iff the name is present and its trimmed form has 2 to 100 characters, all letters or whitespace |
| Validation.EmailCheck | backend/src/middlewares/validation.js:18-21 | the e-mail check passes iff the e-mail is present and accepted by the library's `isEmail` |
| Validation.RegisterChecks | backend/src/middlewares/validation.js:48-57 | the register chain passes iff name, e-mail and password are valid and the role is absent or customer/mitra |
| Validation.LoginChecks | backend/src/middlewares/validation.js:59-67 | the login chain passes iff identifier and password are both non-empty |
| Validation.VerifyOtpChecks | backend/src/middlewares/validation.js:69-78 | the OTP chain passes iff the identifier is non-empty and the OTP has exactly 6 characters and is numeric |
| Validation.InitSellerChecks | backend/src/middlewares/validation.js:83-91 | the seller chain passes iff name, e-mail and password are valid and the designation is farmer, reseller, startup or service |
| Validation.FarmerChecks | backend/src/middlewares/validation.js:93-110 | the farmer chain passes iff acres >= 0.1, the soil type is in its enum, at least one crop is given, location is non-empty and the pin code is valid |
| Validation.ResellerChecks | backend/src/middlewares/validation.js:112-124 | the reseller chain passes iff the trimmed business name has at least 2 characters, the business type is in its enum and the address is non-empty |
| Validation.StartupChecks | backend/src/middlewares/validation.js:126-138 | the startup chain passes iff the trimmed company name has at least 2 characters, the address is non-empty and the nature of business is in its seven-value enum |
| Validation.ServiceChecks | backend/src/middlewares/validation.js:140-145 | the service chain passes iff at least one service is selected |
| Validation.Sanitised | backend/src/middlewares/validation.js:152-182 | title and description are trimmed when present, and nothing else changes |
| Validation.ProductCreateChecks | backend/src/middlewares/validation.js:150-172 | the create chain passes iff the trimmed title has 2..200 characters, the trimmed description 10..2000, price >= 0.01, unit and category lie in their enums, and stock is an integer >= 0 |
| Validation.ProductUpdateChecks | backend/src/middlewares/validation.js:174-194 | the update chain applies the title, description, price and stock rules only to the fields present, and does not check unit or category |
| Validation.CreateImpliesUpdate | backend/src/middlewares/validation.js:150-194 | every body the create chain accepts also passes the update chain, while the empty body passes update but not create |
| Validation.ItemChecks | backend/src/middlewares/validation.js:203-208 | the product-id check of every item, in item order and named `items[k].productId`, comes before the quantity check of every item, named `items[k].quantity`; each check passes iff that item's id is 24 hex digits, respectively its quantity an integer >= 1, so all pass iff every item is valid |
| Validation.OrderChecks | backend/src/middlewares/validation.js:198-220 | the order chain passes iff there is at least one item, every item is valid, and the delivery name is non-empty after trimming and its phone and pin code are valid |
| Validation.SanitisedDelivery | backend/src/middlewares/validation.js:209-212 | the delivery name is trimmed when present; phone and pin code are unchanged |
| Admin.AdminGate | backend/src/routes/admin.js:11-12 | a request passes iff it carries an authenticated admin; no user gives 401, any other role 403 |
| Admin.PeriodDays | backend/src/routes/admin.js:25-29 | '7d' gives 7 days, '30d' or no period gives 30, any other value 365 |
| Admin.InWindow | backend/src/routes/admin.js:28-30 | a record counts as new iff it was created at most 7, 30 or 365 days before now, by the period's rule |
| Admin.TotalRevenue | backend/src/routes/admin.js:48-86 | the revenue is 0 when no order is delivered in the window, and never negative when order totals are not |
| Admin.RevenueZero | backend/src/routes/admin.js:48-51 | the sum over orders none of which is delivered in the window is 0 |
| Admin.RevenueNonNegative | backend/src/routes/admin.js:48-51 | the sum of non-negative totals is non-negative |
| Admin.RevenueAdd | backend/src/routes/admin.js:48-86 | one more order raises the revenue by its total iff it was delivered inside the window, and leaves it unchanged otherwise |
| Admin.Keys | backend/src/routes/admin.js:55-67 | the grouping key of each record, position by position |
| Admin.Distribution | backend/src/routes/admin.js:55-100 | the distribution has exactly the keys that occur, each mapped to the number of records carrying it |
| Admin.TallyCountsKey | backend/src/routes/admin.js:55-67 | the multiplicity of a key among the grouping keys is the number of records carrying it |
| Admin.TopProducts | backend/src/routes/admin.js:70-72 | the top list holds min(5, catalogue size) catalogue products, drawn without repeats, in non-increasing order count |
| Admin.TopProductsAreTop | backend/src/routes/admin.js:70-72 | no product left out of the top list has a higher order count than one in it |
| Admin.GetStats | backend/src/routes/admin.js:23-105 | the overview counts every user, seller, product and order, the users and orders created since the window start, and the delivered revenue in the window; the distributions tally users by role, profiles by seller type and orders by status; the top list is Admin.TopProducts; the period echoes the query or "30d" |
| Admin.StatsCountSignup | backend/src/routes/admin.js:42-57 | one more user, created at the moment of the report, adds one to the user total, one to the new signups and one to its role's tally, and changes no other figure |
| Admin.DistributionAdd | backend/src/routes/admin.js:55-57 | one more record adds one to the tally of its own key and leaves every other key and tally as it was |
| Admin.ListPage | backend/src/routes/admin.js:131-174 | page and limit default to 1 and 20; a negative skip is a 500; otherwise the pagination block describes the matching total and the page holds at most the limit of matching items |
| Admin.DefaultFirstPage | backend/src/routes/admin.js:131-160 | with no page and no limit the first twenty matches are listed |
| Admin.ListUsers | backend/src/routes/admin.js:125-176 | the page is exactly the requested window of the users the role and verified filters select, in the order the route sorts by; the pagination counts all of them; a negative skip is an error |
| Admin.UsersPagesCover | backend/src/routes/admin.js:153-172 | walking the user list from page 1 to the page count it reports lists every selected user exactly once, in order |
| Admin.UsersPageIs | backend/src/routes/admin.js:153-172 | every page from 1 on succeeds, holds that window of the selected users and reports the pagination for the selected count |
| Admin.VerifiedFilter | backend/src/routes/admin.js:140 | with no verified value every user passes; with one, exactly the users whose flag equals (value == 'true') pass |
| Admin.UnfilteredListsAll | backend/src/routes/admin.js:137-174 | with no filter and limit 0 every user is listed |
| Admin.ListSellers | backend/src/routes/admin.js:196-232 | the page is exactly the requested window of the profiles matching the seller type and KYC status, in the order the route sorts by; the pagination counts all of them; a negative skip is an error |
| Admin.SellersPagesCover | backend/src/routes/admin.js:209-230 | walking the seller list page by page lists every selected profile exactly once, in order |
| Admin.SellersPageIs | backend/src/routes/admin.js:209-230 | every page from 1 on succeeds, holds that window of the selected profiles and reports their count |
| Admin.ListOrders | backend/src/routes/admin.js:314-351 | the page is exactly the requested window of the orders matching the status and payment status, in the order the route sorts by; the pagination counts all of them; a negative skip is an error |
| Admin.OrdersPagesCover | backend/src/routes/admin.js:327-348 | walking the order list page by page lists every selected order exactly once, in order |
| Admin.OrdersPageIs | backend/src/routes/admin.js:327-348 | every page from 1 on succeeds, holds that window of the selected orders and reports their count |
| Admin.EmptyStatusIgnored | backend/src/routes/admin.js:324 | an empty status value filters nothing, exactly like an absent one |
| Admin.FindSeller | backend/src/routes/admin.js:270 | the profile with the given id is found, and none is reported iff no profile has it |
| Admin.RejectMessageMisspelt | backend/src/routes/admin.js:292 | the reply built by appending "d" reads "Seller rejectd successfully" for a rejection, while the approval reads correctly |
| Admin.DecisionMessage | backend/src/routes/admin.js:292 | the reply is "Seller approved successfully" or "Seller rejected successfully"; for approval it agrees with the message as written |
| Admin.VerifySeller | backend/src/routes/admin.js:252-295 | corrected: the rejection message reads "Seller rejected successfully" where line 292 sends "rejectd"; a missing id or action gives 400, an action other than approve/reject gives 400, an unknown seller 404, all with no change; approval sets approved, active and verifiedAt; rejection sets rejected, inactive and the reason to the notes or 'KYC rejected'; only that profile changes |
| Admin.DecisionReviewed | backend/src/routes/admin.js:279-286 | after a decision the KYC status is a schema value other than pending, and the profile is active iff approved |
| Admin.DecisionIdempotent | backend/src/routes/admin.js:279-288 | repeating a decision at the same instant changes nothing further |
| Orders.FindOrder | backend/src/routes/orders.js:244-299 | the id is absent exactly when no stored order has it; a found index holds an order with that id |
| Orders.OrderAtEnd | backend/src/routes/orders.js:87 | a newly saved order with an unused id is found at the end of the collection |
| Orders.RandomBucket | backend/src/models/Order.js:151 | the random bucket is below 1000 |
| Orders.LastSix | backend/src/models/Order.js:150-152 | the timestamp part is the last six characters of the clock string, or all of a shorter one |
| Orders.BucketDigits | backend/src/models/Order.js:151 | the random part is exactly three digits whose value is the bucket |
| Orders.PaddedValue | backend/src/models/Order.js:151 | padding a number of at most three digits with zeros in front keeps three digits and the same value |
| Orders.OrderNumber | backend/src/models/Order.js:150-152 | the order number is "ORD", then the clock's last six characters, then the three-digit random part |
| Orders.OrderNumberShape | backend/src/models/Order.js:150-152 | every order number is "ORD" followed only by digits; its middle is a tail of the clock string, its last three digits give the bucket back, and from 100000 ms on it is twelve characters long |
| Orders.SuffixDigits | backend/src/models/Order.js:150 | the tail of the decimal clock string is digits |
| Orders.DigitsBelow | backend/src/models/Order.js:150 | a number below 10^(k+1) is written with at most k+1 digits |
| Orders.DigitsAtLeast | backend/src/models/Order.js:150 | a number of at least 10^k is written with at least k+1 digits |
| Orders.LeadingZeros | backend/src/models/Order.js:151 | zeros in front of a digit string do not change its value |
| Orders.ZeroFront | backend/src/models/Order.js:151 | one more zero in front keeps a digit string's value |
| Orders.PreSave | backend/src/models/Order.js:148-162 | a new order without a number gets the generated number and one "Order created" timeline entry for its status; any other save leaves the order unchanged |
| Orders.PreSaveOnce | backend/src/models/Order.js:149 | once numbered, saving again, even as new, changes nothing |
| Orders.UpdateStatus | backend/src/models/Order.js:165-174 | the status becomes the new one and exactly one timeline entry is appended naming it, by the updater, with the given note or "Status updated to" the status; nothing else changes |
| Orders.UpdatesAppend | backend/src/models/Order.js:165-174 | n successive updates add exactly n entries, keep the earlier ones, and leave the last status current |
| Orders.LinesOf | backend/src/routes/orders.js:24-30 | one line per validated item, with its product id and whole quantity |
| Orders.ItemLines | backend/src/routes/orders.js:337-341 | the lines restocked are the order's items' products and quantities, one per item |
| Orders.CoverImage | backend/src/routes/orders.js:57 | the line's image is the first primary image's URL when that is non-empty, else the first image's URL, and none exactly when the product has no images |
| Orders.FirstPrimary | backend/src/routes/orders.js:57 | the first image marked primary, or none when no image is |
| Orders.ItemFor | backend/src/routes/orders.js:50-58 | a line snapshots the product's title, unit and price, keeps the quantity, and totals price times quantity |
| Orders.PriceLines | backend/src/routes/orders.js:30-59 | pricing succeeds exactly when every line's product exists with at least that line's quantity in stock, giving one snapshot per line; otherwise it fails with the first failing line's "Product not found" or "Insufficient stock" message |
| Orders.SubtotalAppend | backend/src/routes/orders.js:47-48 | the subtotal of two runs of lines is the sum of their subtotals |
| Orders.SubtotalNonNegative | backend/src/routes/orders.js:47-48 | lines with non-negative totals have a non-negative subtotal |
| Orders.PricingFor | backend/src/routes/orders.js:62-64 | delivery is free exactly from 500 up and is 50 otherwise; tax is 5% of the subtotal; the total is subtotal plus delivery plus tax |
| Orders.PricingTotal | backend/src/routes/orders.js:62-64 | the total is 1.05 times the subtotal from 500 up, and 50 more below it; it never falls below a non-negative subtotal |
| Orders.DemandAbsent | backend/src/routes/orders.js:90-100 | a product no line names has no demand |
| Orders.Bump | backend/src/routes/orders.js:91-99 | one increment keeps the set of products |
| Orders.Debit | backend/src/routes/orders.js:90-100 | the stock loop keeps the set of products |
| Orders.DebitEffect | backend/src/routes/orders.js:90-100 | each product's stock falls by its total demand over the lines and its order count rises by the number of lines naming it; nothing else changes |
| Orders.Restock | backend/src/routes/orders.js:337-342 | the restock loop keeps the set of products |
| Orders.RestockEffect | backend/src/routes/orders.js:337-342 | each product's stock rises by its total demand over the lines; nothing else changes |
| Orders.FirstShort | backend/src/routes/orders.js:40-45 | none exactly when every product covers its total demand across the order; otherwise the first line whose product does not |
| Orders.NewOrder | backend/src/models/Order.js:148-160 | the draft once the numbering hook has run on it: the caller's pending order, with payment pending on the given method, the charges on the items' subtotal, a generated (non-empty) number and one "Order created" entry |
| Orders.Draft | backend/src/routes/orders.js:70-85 | the document the route builds is the caller's pending order for the first product's seller, with the charges on the items' subtotal and the body's delivery address, its address type defaulted to "home" when absent (Order.js:57); it has no number and no timeline entry, so the schema refuses it as it stands |
| Orders.SaveNew | backend/src/models/Order.js:148-153 | a new order is saved exactly when the schema accepts what validation sees (the draft itself when the numbering hook runs on save, the numbered order when it runs on validate) and the numbered order's id and number are unused; what is saved is the numbered order |
| Orders.AddressTypeChecked | backend/src/models/Order.js:49-58 | an address type other than home, work or other makes the save of the new order fail whichever phase the numbering hook runs in; an absent one is stored as "home" |
| Orders.UnnumberedNeverSaves | backend/src/models/Order.js:8-153 | an order that reaches `save()` without a number is always refused when the numbering hook runs on save, because the required `orderNumber` is checked before the hook runs; with the hook on validate the numbered order saves exactly when it is valid and unused |
| Orders.Commit | backend/src/routes/orders.js:66-113 | the order is built for the first product's seller; it is stored at the end and the stock debited exactly when the hook runs on validate and the numbered order is saveable; otherwise the save throws into the catch, which answers 500 "Internal server error" with nothing stored and no stock touched |
| Orders.PlaceOrderAsWritten | backend/src/routes/orders.js:19-113 | as written: a line refused on its own gets 400 with that line's message; with the hook on save (the repository's schema) every priced order then gets 500 with nothing changed; with the hook on validate the order succeeds exactly when its save is accepted, answering 201 with the order, storing it last and debiting every line |
| Orders.FirstOrderSaveable | backend/src/models/Order.js:8-153 | into an empty collection, a draft with a known payment method, a known or absent address type and quantities of at least one is saved as the numbered order when the hook runs on validate, and refused when it runs on save, as written |
| Orders.WitnessLinesPass | backend/src/routes/orders.js:40-45 | two one-unit lines for a product with one unit both pass the per-line check though together they ask for two |
| Orders.OversellWitness | backend/src/routes/orders.js:40-100 | with the order numbered before validation, the per-line check accepts that order and the product's stock ends at -1; as written, the save refuses it first with 500 and the stock stays at 1 |
| Orders.PlaceOrder | backend/src/routes/orders.js:19-106 | corrected: with the order numbered before validation, a success also means every product covers its total demand and the stock is debited by it; a failure changes nothing |
| Orders.PlaceOrderOutcome | backend/src/routes/orders.js:30-100 | the corrected create succeeds exactly when every line passes, every product covers its total demand and the numbered order is saveable |
| Orders.PlacedOrderShape | backend/src/routes/orders.js:47-87 | a created order is the buyer's pending order with one item per line at the product's price and the charges on their sum, stored last |
| Orders.PlaceKeepsStock | backend/src/routes/orders.js:90-100 | with the corrected check, stock that was non-negative stays non-negative |
| Orders.CoveredAgrees | backend/src/routes/orders.js:30-106 | wherever every product covers its total demand, the corrected create and the one as written with the order numbered before validation give the same reply and collections |
| Orders.CreateOrder | backend/src/routes/orders.js:19-113 | as written: a body failing the order chain gets 400 before anything is read; otherwise the payment method defaults to cash on delivery and the lines are checked one at a time, over the schema's numbering hook; a failure changes nothing |
| Orders.CreateAlwaysFails | backend/src/routes/orders.js:19-113 | as written no order is ever created: a body refused by the order chain or by a line's product or stock gets 400, every other one 500 "Internal server error", and nothing is stored or debited |
| Orders.CreatedOrderValid | backend/src/models/Order.js:8-160 | an order the route creates satisfies the schema, number included, carries its first timeline entry and is the last stored order; only the route whose order is numbered before validation creates one |
| Orders.CreateOrderChecked | backend/src/routes/orders.js:19-106 | corrected: the same route with the total-demand check and the order numbered before validation, answering 400 for a failing body and otherwise exactly the corrected create |
| Orders.CheckedCreateAgrees | backend/src/routes/orders.js:19-106 | whatever the corrected route accepts, the route as written accepts with the same result once its order is numbered before validation, and the corrected route never leaves a stock negative |
| Orders.CancelOrder | backend/src/routes/orders.js:294-357 | 404 for an unknown order, 403 unless buyer or admin, 400 unless pending, confirmed or processing; success sets the status and the cancellation with the default reason, restocks every item, and adds no timeline entry |
| Orders.RestockUndoesDebit | backend/src/routes/orders.js:90-342 | restocking what a debit took gives every product its stock back, while the order counts keep the increments |
| Orders.UpdateOrderStatus | backend/src/routes/orders.js:226-283 | 400 for a status outside the ten, 404 for an unknown order, 403 unless seller, admin, or the buyer cancelling; success is exactly one status update on the order and nothing else |
| Orders.UpdateKeepsOrderValid | backend/src/routes/orders.js:254-268 | a status update keeps a valid order valid with its timeline current and the new status, and leaves every product untouched, so a buyer cancelling this way gets no stock back |
| Orders.CancelSkipsTimeline | backend/src/routes/orders.js:326-334 | after a cancellation the timeline's last entry no longer names the order's status |
| Orders.GetOrderAsWritten | backend/src/routes/orders.js:177-215 | as written: 404 for an unknown order, and 500 for every known one |
| Orders.GetOrderUnreadable | backend/src/routes/orders.js:181-201 | even the buyer cannot read their own order as written, while the corrected route lets them |
| Orders.GetOrder | backend/src/routes/orders.js:177-215 | corrected: 404 for an unknown order, the order itself exactly when the caller is its buyer, its seller or an admin, 403 otherwise |
| Orders.MyOrders | backend/src/routes/orders.js:131-132 | exactly the caller's orders, with the status when one is given |
| Orders.ListUserOrders | backend/src/routes/orders.js:127-166 | page 1 and ten per page by default; an error exactly when the skip is negative; otherwise the page is exactly that window of the caller's orders with the status, newest first, and the pagination counts all of them |
| Orders.UserOrdersPagesCover | backend/src/routes/orders.js:134-155 | walking the caller's order list from page 1 to the reported page count lists each of their orders with that status exactly once, newest first |
| Orders.UserOrderPageIs | backend/src/routes/orders.js:134-155 | every page from 1 on succeeds, holds that window of the caller's sorted orders and reports their count |
| Orders.PageSorted | backend/src/routes/orders.js:138-140 | a page of a newest-first list is newest first and holds only its elements |
| Orders.ListedOrdersMine | backend/src/routes/orders.js:131-140 | every listed order is the caller's, with the asked status, newest first |
| OrderLifecycle.CancelJustPlaced | backend/src/routes/orders.js:87-342 | an order its buyer has just saved, still pending, can be cancelled by that buyer; the cancel replaces it in place and restocks exactly its lines |
| OrderLifecycle.CreateThenCancel | backend/src/routes/orders.js:90-342 | creating an order with the corrected create and then cancelling it as its buyer succeeds and restocks exactly the lines the create debited |
| Paging.CeilDiv | backend/src/routes/orders.js:154 | for a positive limit the page count is the least whole number of pages that hold the total; for a negative one it mirrors that, as `Math.ceil` does |
| Paging.Window | backend/src/routes/orders.js:134-140 | no page exactly when the skip (page - 1) * limit is negative; a limit of 0 means everything from the skip on; a page never holds more than the limit's size |
| Paging.Describe | backend/src/routes/orders.js:150-155 | the block echoes page, limit and total; the page count is null exactly for a zero limit and otherwise covers the total |
| Paging.FirstPagesPrefix | backend/src/routes/orders.js:134-140 | pages 1 to n together are exactly the first n * limit documents, none skipped or repeated |
| Paging.AllPagesCover | backend/src/routes/orders.js:134-154 | walking pages 1 to the reported page count lists every document once, in order |
| Paging.WalkWindows | backend/src/routes/orders.js:134-140 | a page function serving the windows of a list gives, over pages 1 to n, exactly the first n pages of it |
| Paging.WalkCovers | backend/src/routes/orders.js:134-155 | a page function serving the windows of a list, walked to the page count the pagination block names, gives back the whole list |
| Paging.PastLastPageEmpty | backend/src/routes/orders.js:134-154 | a page past the reported page count is empty |
| Paging.MulMono | backend/src/routes/orders.js:134 | multiplying by a non-negative limit keeps order |
| Sorting.Insert | backend/src/routes/products.js:409 | inserting into a descending sequence keeps it descending and adds exactly the one element |
| Sorting.SortDesc | backend/src/routes/products.js:409 | the result is in non-increasing key order and is a permutation of the input |
| Sorting.WithKeyAppend | backend/src/routes/products.js:409 | the equal-key subsequence of a concatenation is the concatenation of the parts' subsequences |
| Sorting.InsertStable | backend/src/routes/products.js:409 | an inserted element lands before every element with an equal key |
| Sorting.SortStable | backend/src/routes/products.js:409 | the sort is stable: elements with equal keys keep their relative order |
| Sorting.SliceSorted | backend/src/routes/orders.js:138-140 | a contiguous run of a sorted sequence is sorted, so a page of a sorted list is sorted |
| Sorting.Take | backend/src/routes/products.js:410 | `limit(n)` keeps a prefix of at most n elements, exactly n when there are that many |
| Sorting.TakeTop | backend/src/routes/products.js:409-410 | the first n of a sorted list are drawn from it without repeats, and no element after them ranks above any of them |
| Sorting.LeftOutRanksLower | backend/src/routes/products.js:409-410 | an element of a sorted list missing from its first n ranks no higher than any of them |
| Products.DashNonAlnum | backend/src/models/Product.js:185 | every character that is not an ASCII letter or digit becomes a dash, every other one stays |
| Products.CollapseDashes | backend/src/models/Product.js:186 | no two dashes remain adjacent; the result is no longer, keeps both end characters and adds no character |
| Products.StripDashes | backend/src/models/Product.js:187 | after collapsing, the result neither starts nor ends with a dash and adds no character |
| Products.SlugBase | backend/src/models/Product.js:183-187 | the slug base holds only lower-case letters, digits and single dashes, with no dash at either end |
| Products.IdSuffix | backend/src/models/Product.js:187 | the id part is the last six characters of the id |
| Products.Slug | backend/src/models/Product.js:183-187 | the slug is the base, a dash, and the id's last six characters |
| Products.SlugBaseIdempotent | backend/src/models/Product.js:183-187 | normalising a slug base again gives it back |
| Products.SlugCharsKept | backend/src/models/Product.js:184-185 | lower-casing and dashing leave a string of slug characters unchanged |
| Products.StripKeeps | backend/src/models/Product.js:187 | stripping leaves a string without end dashes unchanged |
| Products.CollapseKeeps | backend/src/models/Product.js:186 | collapsing leaves a string without double dashes unchanged |
| Products.PreSave | backend/src/models/Product.js:181-190 | a slug is made only when the title changed and there is none yet; otherwise the document is unchanged |
| Products.NewProduct | backend/src/routes/products.js:25-48 | the saved document carries every schema path the body gives (id, images, organic flag, counters, rating, slug, featuring, location, farmer record), with the caller as seller and "draft" as status written over the body; the title and description are trimmed; without a body location the seller's state, city and pin code are used; a farmer always gets the traceability record with the city or "Unknown" |
| Products.WholeStock | backend/src/models/Product.js:40-45 | a whole-number stock is stored as that number, and a non-negative one stays non-negative |
| Products.CreateProduct | backend/src/routes/products.js:19-67 | 403 for a role outside farmer, reseller and agritech startup, then 400 for a failing create chain; success exactly when both pass and the id is new, storing the hooked document with 201 |
| Products.CreatedProductShape | backend/src/routes/products.js:25-51 | a created product passes the schema, belongs to its creator and is a draft whatever the body says; its slug is the body's when non-empty, and otherwise ends in a dash and the id's last six characters |
| Products.CreateKeepsBodyRanking | backend/src/routes/products.js:25-29 | a body that names a seller, a status, a featuring end and an order count keeps the featuring and the order count, while seller and status are overwritten |
| Products.Matching | backend/src/routes/products.js:93-104 | exactly the catalogue's products that are active and pass every given filter |
| Products.ListProducts | backend/src/routes/products.js:76-147 | an error exactly when the skip is negative; otherwise the page of the matching products, with a count of all of them, each active and matching |
| Products.FeaturedCandidates | backend/src/routes/products.js:405-408 | exactly the active products whose featuring has not ended |
| Products.FeaturedProducts | backend/src/routes/products.js:403-426 | min(10, number of featured products) products, each active with an unexpired featuring and drawn from the catalogue without repeats, by order count then rating, both descending; all of them when there are no more than ten |
| Products.FeaturedAreTop | backend/src/routes/products.js:405-410 | no featured product left out ranks above a listed one: its order count is no higher, and equal only with a rating no higher |
| Products.GetProduct | backend/src/routes/products.js:156-186 | 404 exactly for an unknown id; otherwise the document as read, with only its view count raised in the store |
| Products.ApplyUpdate | backend/src/routes/products.js:222-226 | every schema path the body gives, the validated fields and seller, status, slug, images, counters, rating, location, farmer record and featuring alike, replaces the stored one; every path it omits keeps its value; the id never changes |
| Products.UpdateProduct | backend/src/routes/products.js:197-242 | 400 for a failing update chain, then 404, then 403 for a non-owner; success exactly when the set paths pass the schema's validators (enums, rating bounds, lengths in code units, unchanged id, free slug), storing the updated document; without a new slug in the body the slug is unchanged |
| Products.OwnerPublishes | backend/src/routes/products.js:222-226 | the owner of a draft publishes it, and it becomes listed, by sending only a status of "active" |
| Products.EmptyUpdateKeeps | backend/src/routes/products.js:222-226 | an empty body answers 200 with the stored product and changes nothing |
| Products.UpdateKeepsSchema | backend/src/routes/products.js:222-226 | a successful update keeps a schema-valid product schema-valid |
| Products.DeleteProduct | backend/src/routes/products.js:253-288 | 404 for an unknown id, 403 unless owner or admin; success removes exactly that product |
| Products.NewImages | backend/src/routes/products.js:332-336 | one record per file, alt text "<title> image <n>" counting from 1, and primary only for the first file of a product that had no images |
| Products.AddImages | backend/src/routes/products.js:299-358 | 400 without an upload result; success exactly for the owner of a known product, appending the new records after the old ones |
| Products.AddImagesPrimary | backend/src/routes/products.js:335 | an upload never adds a second primary image, and a product's first upload gets a primary one |
| Products.MetaCategoriesMatchSchema | backend/src/routes/products.js:369-380 | the served category names, lower-cased, are the schema's categories in the same order |
| Search.ServicesNeverFound | backend/src/routes/search.js:152-160 | as written: no profile the schema accepts has seller type "service", so the services query finds nothing |
| Search.Services | backend/src/routes/search.js:151-171 | corrected: exactly the approved, active service providers whose services or area mention the query |
| Search.ProviderFound | backend/src/routes/search.js:152-159 | with the corrected filter a matching approved, active provider is found, while the filter as written skips it |
| Search.ProductHits | backend/src/routes/search.js:110-113 | one product hit per matched product, in order |
| Search.SellerHits | backend/src/routes/search.js:138-145 | one seller hit per matched user, in order, carrying a profile exactly when one exists for that user |
| Search.ServiceHits | backend/src/routes/search.js:173-176 | one service hit per matched profile, in order |
| Search.JsSlice | backend/src/routes/search.js:202 | `slice(start, end)` from a non-negative start is the run of elements from there, no longer than end - start |
| Search.Merged | backend/src/routes/search.js:103-190 | the combined mode takes at most five of each kind and the merged list is as long as their counts' sum, which the breakdown reports |
| Search.AllResults | backend/src/routes/search.js:185-215 | the combined reply carries the breakdown, pagination over the merged total, and at most the limit's number of results |
| Search.AllResultsRanked | backend/src/routes/search.js:193-202 | a page of combined results is in non-increasing score order and holds only merged hits |
| Search.KindResults | backend/src/routes/search.js:106-232 | for one kind the page is the window the database returns, and its reported total is only that page's length; a negative skip is the 500 "Search failed" |
| Search.UnifiedSearch | backend/src/routes/search.js:52-241 | 400 for a query under two code units after trimming; type "all" by default gives the combined mode, each known type its own results, and an unknown type an empty reply |
| Search.CombinedCounts | backend/src/routes/search.js:180-212 | in the combined mode each kind contributes at most five hits and the total is their sum |
| Search.PaddedQueryRefused | backend/src/routes/search.js:65-70 | one character of the Basic Multilingual Plane padded with blanks on both sides is refused, however long the padding |
| Search.WideCharQueryAccepted | backend/src/routes/search.js:65-70 | one character beyond the Basic Multilingual Plane, padded with blanks, is two code units long and passes the two-unit minimum |
| Search.TrimPadded | backend/src/routes/search.js:65 | trimming one character between blanks leaves just that character |
| Search.TrimStartPad | backend/src/routes/search.js:65 | leading blanks are trimmed up to the first non-blank |
| Search.TrimEndPad | backend/src/routes/search.js:65 | trailing blanks are trimmed back to the last non-blank |
| Search.Capitalize | backend/src/routes/search.js:289 | the first character is upper-cased and the rest kept |
| Search.Capitalized | backend/src/routes/search.js:288-291 | each category name capitalised, in order |
| Search.CategoryMatches | backend/src/routes/search.js:286-291 | the capitalised names of exactly the categories containing the query, ignoring case |
| Search.ProductSuggestions | backend/src/routes/search.js:270-275 | one product suggestion per matched title, with its category |
| Search.CategorySuggestions | backend/src/routes/search.js:288-291 | one category suggestion per name, without a category |
| Search.Suggestions | backend/src/routes/search.js:250-309 | an empty list for a missing or one-character query; a 500 exactly when half the limit is not a whole positive count; otherwise product suggestions first, then categories, within the limit |
| Search.CategoryCount | backend/src/routes/search.js:281-284 | ten categories are suggested from |
| Search.TakeAll | backend/src/routes/search.js:295 | a limit at least the length keeps everything |
| Search.CategorySuggested | backend/src/routes/search.js:281-295 | with a limit of 20, a query naming part of a category always suggests it |
| Search.SuggestedFromTail | backend/src/routes/search.js:294 | a suggestion in the category part is in the merged list |
| Uploads.FileFilter | backend/src/services/uploadService.js:30-46 | a file passes exactly when its mimetype is one of the seven listed; otherwise the "Invalid file type" error |
| Uploads.AcceptedTypes | backend/src/services/uploadService.js:31-41 | the accepted mimetypes are exactly JPEG, PNG, GIF, WebP, PDF, Word and Word XML, whatever the file is called |
| Uploads.StripTrailing | backend/src/services/uploadService.js:50 | trailing copies of a character are cut and nothing else |
| Uploads.LastIndex | backend/src/services/uploadService.js:50 | the last occurrence of a character, or none exactly when it is absent |
| Uploads.ExtName | backend/src/services/uploadService.js:50 | an extension is empty or a dot followed by text with no further dot and no slash |
| Uploads.ExtOfStemExt | backend/src/services/uploadService.js:50 | a plain `stem.ext` name has the extension `.ext` |
| Uploads.NoSlashJoined | backend/src/services/uploadService.js:50 | joining slash-free parts with a dot gives a slash-free name |
| Uploads.LastDotJoined | backend/src/services/uploadService.js:50 | in `stem.ext` with a dot-free extension, the last dot is the joining one |
| Uploads.NoDotNoExt | backend/src/services/uploadService.js:50 | a name without a dot has no extension |
| Uploads.AfterLastAbsent | backend/src/services/uploadService.js:50 | with no separator the last segment is the whole name |
| Uploads.ConcatEnds | backend/src/services/uploadService.js:53 | a concatenation starts with its first part and ends with its last |
| Uploads.FileKey | backend/src/services/uploadService.js:49-54 | the key starts with the folder ("general" by default) and the user id, and ends with the lower-cased extension |
| Uploads.KeysDistinct | backend/src/services/uploadService.js:51-53 | keys built at different instants or from different eight-character UUID prefixes differ |
| Uploads.SameMiddle | backend/src/services/uploadService.js:53 | keys with the same folder, user and extension agree exactly when their middles do |
| Uploads.StemInjective | backend/src/services/uploadService.js:53 | `timestamp-random` splits back into its timestamp and random part |
| Uploads.FileError | backend/src/services/uploadService.js:19-26 | a file is let through exactly when it is within the file count, under the expected field, of an accepted type and at most 10 MB |
| Uploads.ParseFrom | backend/src/services/uploadService.js:190-222 | no error exactly when every remaining file passes; otherwise the first failing file's error |
| Uploads.MulterError | backend/src/services/uploadService.js:19-222 | no error exactly when every file passes, and then there are at most five files and at most the route's count |
| Uploads.StoreFile | backend/src/services/uploadService.js:57-91 | a file is stored under its key with the store's URL, and nothing comes back exactly when the put fails |
| Uploads.BatchKeys | backend/src/services/uploadService.js:96-98 | each file of a batch gets its own key from its own name, instant and UUID |
| Uploads.StoreFrom | backend/src/services/uploadService.js:96-100 | the remaining files are all stored in order, or the batch fails exactly when one put fails |
| Uploads.StoreAll | backend/src/services/uploadService.js:94-111 | every file is stored under its own key in order; one failed put fails the whole batch |
| Uploads.Single | backend/src/services/uploadService.js:188-217 | a multer error or a missing file is a 400 before anything is stored; passing on means exactly one accepted file stored under its key; any other failure is a 500 |
| Uploads.Multiple | backend/src/services/uploadService.js:220-249 | a multer error or no files is a 400 before anything is stored; passing on means one to five acceptable files all stored; any other failure is a 500 |
| Uploads.SingleRejectsBeforeStoring | backend/src/services/uploadService.js:191-203 | a 400 from `single` does not depend on what the store would do |
| Uploads.MultipleRejectsBeforeStoring | backend/src/services/uploadService.js:223-235 | a 400 from `multiple` does not depend on what the store would do |
| Uploads.SixFilesRefused | backend/src/services/uploadService.js:23 | a request with more than five files is refused with 400 |
| Uploads.SignedUploadUrl | backend/src/services/uploadService.js:114-143 | the signed answer uses the generated key, a ten-minute signature, and a public URL on the bucket's S3 host ending in the key |
| Users.GetMe | backend/src/routes/users.js:19-42 | the caller's own stored record exactly when it exists, else 404 "User not found" |
| Users.AddressObject | backend/src/routes/users.js:74-77 | the spread of a stored address holds exactly its present fields as strings, and nothing for no address |
| Users.ProfileUpdates | backend/src/routes/users.js:55-85 | only the five whitelisted keys are set, every whitelisted key the body gives is kept as given, the address only when the body names it, and the notification preferences exactly when the body's notifications are truthy |
| Users.NumberText | backend/src/routes/users.js:87-91 | a whole number is written in decimal, with a leading minus when negative |
| Users.CastString | backend/src/models/User.js:9-27 | the String cast keeps text, writes numbers in decimal and booleans as their names, turns null into no value, and refuses exactly objects |
| Users.CastBool | backend/src/models/User.js:78-83 | the Boolean cast gives true exactly for true, "true", 1, "1" and "yes", false exactly for false, "false", 0, "0" and "no", and refuses anything else |
| Users.CastName | backend/src/models/User.js:9-14 | a name sets exactly when it casts to text whose trimmed form is non-empty and at most 100 UTF-16 code units, and it is stored trimmed |
| Users.CastPhone | backend/src/models/User.js:23-27 | a phone is refused exactly when it is an object, cleared exactly by null, and otherwise stored as its trimmed text cast |
| Users.ApplyUpdates | backend/src/routes/users.js:87-91 | a set that casts and validates replaces exactly the named fields, each with its cast value, and keeps every other one |
| Users.UpdateMe | backend/src/routes/users.js:53-106 | a failed cast or validator is a 500 that changes nothing; success changes only name, phone, address, language and notifications of the caller's record, each only when named, and stores the cast body value for each (the merged object for a truthy address or notifications); a vanished record gives null |
| Users.AddressMerged | backend/src/routes/users.js:73-78 | each address field the body gives wins, stored as its String cast; every other keeps the caller's stored value |
| Users.MergedAddress | backend/src/routes/users.js:74-77 | after casting, the merged address field is the body's cast value when present and the stored one otherwise |
| Users.NotificationsMerged | backend/src/routes/users.js:80-85 | each notification flag the body gives wins, as its Boolean cast; every other keeps the caller's stored flag |
| Users.MergedNotifications | backend/src/routes/users.js:81-84 | after casting, each merged flag is the body's cast value when present and the stored one otherwise |
| Users.NothingWhitelistedNoChange | backend/src/routes/users.js:55-70 | a body naming no whitelisted key (a role, a verified flag, a password hash) leaves the stored users as they were |
| Users.UploadField | backend/src/routes/users.js:133 | a video upload writes the video URL; any other type writes the profile picture |
| Users.UploadProfileFile | backend/src/routes/users.js:117-158 | 400 without an upload result; otherwise success, with the URL written to the one field the type selects, and the message naming the type, "image" by default |
| Users.ProfileQr | backend/src/routes/users.js:167-232 | 404 exactly for an unknown user; otherwise the profile URL for format url, an SVG for svg, and a PNG for anything else |
| Users.NumberOr | backend/src/routes/users.js:253-255 | a missing value and 0 both give the default, any other value is kept |
| Users.Stats | backend/src/routes/users.js:243-291 | the user info echoes the caller; mitra figures exactly for mitras, with the defaults replacing missing or zero values; zeros exactly for customers |
| Users.DefaultMitraFigures | backend/src/routes/users.js:253-257 | a mitra with the schema's default details sees 42000, 54000, 12000 and pending, because the stored ROI of 0 falls back to 12000 |
| Users.OtherRolesNoFigures | backend/src/routes/users.js:248-267 | every other role gets an empty figures object |
| Users.ChangePassword | backend/src/routes/users.js:302-340 | 400 without both passwords, 400 for a wrong current one, a 500 for a missing user or a new password under six UTF-16 code units; success exactly otherwise, storing only the new password's digest |
| Users.FindByKeyKeeps | backend/src/routes/users.js:325-326 | a change that keeps every e-mail and phone keeps who a login identifier finds |
| Users.ChangeThenLogin | backend/src/routes/users.js:316-326 | after a change the old password is refused at login as invalid credentials, and the new one passes the password check |
| Migrate.Versions | backend/scripts/migrate.js:84 | the applied versions are the records' versions, in order |
| Migrate.VersionsAppend | backend/scripts/migrate.js:84-100 | recording a migration appends exactly its version |
| Migrate.RunFrom | backend/scripts/migrate.js:89-116 | the exit code is 0 or 1, and only versions not already applied are run |
| Migrate.RunMigrations | backend/scripts/migrate.js:73-121 | a run only appends to the records it found and runs no version already recorded |
| Migrate.RunKeepsRecords | backend/scripts/migrate.js:89-110 | the loop keeps every record it started from, in front |
| Migrate.MigrationVersions | backend/scripts/migrate.js:89 | the listed migrations' versions, in order |
| Migrate.RecordsOf | backend/scripts/migrate.js:97-100 | one record per migration, with its version and description, stamped with the run's time |
| Migrate.CleanStep | backend/scripts/migrate.js:89-110 | with distinct versions, a clean pending migration keeps the rest of the run clean |
| Migrate.RunStep | backend/scripts/migrate.js:89-110 | a recorded migration is skipped; a pending one is run and recorded before the rest |
| Migrate.CleanRunSucceeds | backend/scripts/migrate.js:89-112 | when every `up()` succeeds and versions are distinct, the run exits 0 |
| Migrate.CleanRunRunsPending | backend/scripts/migrate.js:89-94 | a clean run invokes exactly the pending migrations' `up()`, in list order |
| Migrate.CleanRunRecordsPending | backend/scripts/migrate.js:97-100 | a clean run records exactly the pending migrations, in list order, after the existing records |
| Migrate.RecordsSkip | backend/scripts/migrate.js:107-109 | the records step for an already recorded migration |
| Migrate.RecordsRun | backend/scripts/migrate.js:93-100 | the records step for a pending migration: its record first, then the rest's |
| Migrate.PendingCons | backend/scripts/migrate.js:90 | the pending list starts with a migration exactly when it is not yet recorded |
| Migrate.ConsOf | backend/scripts/migrate.js:89-100 | versions and records of a list are those of its head followed by its tail's |
| Migrate.SecondRunIdle | backend/scripts/migrate.js:83-110 | a second run after a clean one invokes no `up()`, records nothing and exits 0 |
| Migrate.NothingPending | backend/scripts/migrate.js:107-109 | with every listed version recorded, the loop runs nothing and exits 0 |
| Migrate.FailureStops | backend/scripts/migrate.js:93-116 | the first failing `up()` stops the run with exit 1; every earlier one succeeded and left one record, the failing one none |
| Migrate.FirstDeploy | backend/scripts/migrate.js:7-121 | against an empty collection, 1.0.0 is run and recorded and the exit code is 0 |
| Migrate.FindMigration | backend/scripts/migrate.js:129 | the listed migration with that version, or none exactly when there is none |
| Migrate.FirstAt | backend/scripts/migrate.js:137 | no index exactly when no record holds the version; otherwise the index of a record holding it with none before it |
| Migrate.DeleteOne | backend/scripts/migrate.js:137 | with no record of that version nothing changes; otherwise the result is the records with exactly the first one holding that version removed, the rest kept in order |
| Migrate.RollbackMigration | backend/scripts/migrate.js:123-146 | an unlisted version is "not found" with exit 1 and no change; a listed one runs `down()`; exit 0 exactly when it is listed and `down()` succeeds, and then its record is deleted |
| Migrate.ApplyThenRollback | backend/scripts/migrate.js:73-146 | rolling back the freshly applied 1.0.0 leaves no records |
| Migrate.Cli | backend/scripts/migrate.js:148-161 | `up` runs the migrations, `down` with a non-empty version rolls back, and anything else is the usage message with exit 1 |
| Server.Route | backend/server.js:91-119 | a request reaches the first entry that claims it (the health check a GET or HEAD of its one path, a mounted router any path at or below its prefix, in any letter case), with a mount prefix stripped, and every earlier entry declines it; the 404 "Route not found" comes iff no entry claims the request |
| Server.RouteIgnoresCase | backend/server.js:91-110 | lower-casing the path never changes whether, or to which router, a request is dispatched |
| Server.ClaimsIgnoresCase | backend/server.js:91-110 | an entry claims a request exactly when it claims the lower-cased path |
| Server.HealthAnswers | backend/server.js:91-98 | a GET of /health, with or without a trailing slash and in any case, reaches the health check |
| Server.DocsServed | backend/server.js:101 | a GET of /docs or any path below it reaches the documentation with the prefix stripped |
| Server.SearchUnreachable | backend/server.js:104-110 | with the table as written no request reaches the search router, and every request at or below /api/v1/search gets the 404 |
| Server.NoneClaimsSearch | backend/server.js:91-110 | no entry of the table as written claims a path at or below /api/v1/search |
| Server.WrittenRouters | backend/server.js:104-110 | the search router is not among the mounted routers |
| Server.DistinctPrefix | backend/server.js:104-110 | two mount prefixes that differ in any case inside both never claim the same path |
| Server.TenthChar | backend/server.js:104-110 | a path under a prefix agrees with it, up to case, at the character that tells the API prefixes apart |
| Server.SearchReachable | backend/server.js:23 | mounting the imported search router last makes every request at or below /api/v1/search reach it with the prefix stripped and leaves every other request routed as before |
| Server.RouteAppend | backend/server.js:104-119 | a router mounted last receives exactly the requests every earlier mount declined |
| Pages.DropTrailingSlash | frontend/src/pages/index.jsx:98-100 | the URL is kept, or it ends in `/` and exactly that one character is removed |
| Pages.LastSlash | frontend/src/pages/index.jsx:101 | the result is the position of the last `/`, or -1 when there is none |
| Pages.FirstQuery | frontend/src/pages/index.jsx:102-104 | the result is the position of the first `?`, or the length when there is none |
| Pages.LastSegment | frontend/src/pages/index.jsx:101 | the result is a suffix without `/`, and the character before it (when there is one) is `/`: what `split('/').pop()` gives |
| Pages.BeforeQuery | frontend/src/pages/index.jsx:102-104 | the result is a prefix without `?`, followed in the input by `?` or by nothing: what `split('?')[0]` gives |
| Pages.SlashUnique | frontend/src/pages/index.jsx:101 | only one position satisfies the last-`/` description |
| Pages.QueryUnique | frontend/src/pages/index.jsx:102-104 | only one position satisfies the first-`?` description |
| Pages.FindPage | frontend/src/pages/index.jsx:106 | the result is the first page name equal to the segment ignoring case, and none iff no name is |
| Pages.Resolve | frontend/src/pages/index.jsx:106-107 | the result is a page name; it matches the segment ignoring case when some name does, and is the first page otherwise |
| Pages.CurrentPage | frontend/src/pages/index.jsx:97-108 | the current page is always one of the 22 page names |
| Pages.TrailingSlashIgnored | frontend/src/pages/index.jsx:98-100 | adding one trailing `/` to a URL that has none leaves the segment and the page unchanged |
| Pages.QueryIgnored | frontend/src/pages/index.jsx:101-104 | appending a query without `/` to a URL without `?` leaves the segment and the page unchanged |
| Pages.QuerySegment | frontend/src/pages/index.jsx:101-104 | a URL followed by a `?`-led part without `/` has the URL's segment |
| Pages.KeptEnd | frontend/src/pages/index.jsx:98-100 | text not ending in `/` is not shortened by the trailing-slash step |
| Pages.QueryAfterSegment | frontend/src/pages/index.jsx:102-104 | a `?`-led part after a segment without `?` is cut off again |
| Pages.SegmentAppend | frontend/src/pages/index.jsx:101 | text without `/` appended to a path extends its last segment by exactly that text |
| Pages.SlashAppend | frontend/src/pages/index.jsx:101 | text without `/` appended leaves the last `/` where it was |
| Pages.QueryAppend | frontend/src/pages/index.jsx:102-104 | text without `?` followed by a `?`-led part is what the query cut keeps, and is kept whole on its own |
| Pages.NotInSuffix | frontend/src/pages/index.jsx:101-104 | a character absent from a string is absent from every suffix of it |
| Pages.AppendAssoc | frontend/src/pages/index.jsx:101-104 | concatenation regroups: (a + b) + c equals a + (b + c) |
| Pages.MarkersKept | frontend/src/pages/index.jsx:101-106 | lower-casing moves neither the last `/` nor the first `?` |
| Pages.SegmentLower | frontend/src/pages/index.jsx:97-106 | the segment of the lower-cased URL is the lower-cased segment |
| Pages.DropLower | frontend/src/pages/index.jsx:98-100 | dropping a trailing `/` commutes with lower-casing |
| Pages.LastSegmentLower | frontend/src/pages/index.jsx:101 | the last segment commutes with lower-casing |
| Pages.BeforeQueryLower | frontend/src/pages/index.jsx:102-104 | the query cut commutes with lower-casing |
| Pages.CaseIgnored | frontend/src/pages/index.jsx:97-108 | a URL and its lower-cased form name the same page |
| Pages.FindPageLower | frontend/src/pages/index.jsx:106 | two segments equal ignoring case find the same page |
| Pages.TagsOfNames | frontend/src/pages/index.jsx:49-95 | each page name's length and first two letters, ignoring case, are the listed fingerprint |
| Pages.TagsDistinct | frontend/src/pages/index.jsx:49-95 | the 22 fingerprints are pairwise different |
| Pages.NamesDistinct | frontend/src/pages/index.jsx:49-95 | no two page names are equal ignoring case |
| Pages.FindsItself | frontend/src/pages/index.jsx:106-107 | in a table of names distinct ignoring case, every name resolves to itself |
| Pages.NamesPlain | frontend/src/pages/index.jsx:49-95 | no page name contains `/` or `?` |
| Pages.HeadPlain | frontend/src/pages/index.jsx:49-71 | the first eleven page names contain neither `/` nor `?` |
| Pages.TailPlain | frontend/src/pages/index.jsx:71-95 | the remaining page names contain neither `/` nor `?` |
| Pages.EveryPageReachable | frontend/src/pages/index.jsx:97-108 | the path `/Name`, in its own case or lower-cased, shows page Name, for every page |
| Markets.BeforeIrreflexive | src/pages/Markets.jsx:141 | no string sorts before itself under the default `sort()` order |
| Markets.BeforeTransitive | src/pages/Markets.jsx:141 | the default `sort()` order is transitive |
| Markets.BeforeTotal | src/pages/Markets.jsx:141 | of two different strings one sorts before the other |
| Markets.BeforeAsymmetric | src/pages/Markets.jsx:141 | two strings never sort before each other |
| Markets.InsertUnique | src/pages/Markets.jsx:141 | adding a value to a strictly increasing list keeps it strictly increasing, and the values become the old ones plus the new one |
| Markets.SortedUnique | src/pages/Markets.jsx:141 | `[...new Set(xs)].sort()` is strictly increasing and holds exactly the values of the input |
| Markets.IncreasingUnique | src/pages/Markets.jsx:141 | two strictly increasing lists with the same values are equal, so the sorted deduplicated list is the only possible one |
| Markets.SameEmptiness | src/pages/Markets.jsx:141 | two lists with the same values are both empty or both non-empty |
| Markets.HeadIsLeast | src/pages/Markets.jsx:141 | the head of a strictly increasing list sorts before each of its other values |
| Markets.TailMembers | src/pages/Markets.jsx:141 | the tail of a strictly increasing list holds exactly its values other than the head |
| Markets.Values | src/pages/Markets.jsx:141-144 | `map` keeps the length and puts the field of the i-th market at position i |
| Markets.States | src/pages/Markets.jsx:141 | the state picker lists every state some market is in, each once, in sorted order, and nothing else |
| Markets.DistrictsByState | src/pages/Markets.jsx:142-145 | no districts until a state is chosen, then exactly the districts of that state's markets, each once, sorted |
| Markets.FilteredIsOneFilter | src/pages/Markets.jsx:157-184 | the search, state and district filters applied in turn, each only when set, keep exactly the markets every set filter admits, in table order |
| Markets.Stage | src/pages/Markets.jsx:161-181 | a filter applied only when its value is set acts as one filter that admits everything when unset |
| Markets.FilterThen | src/pages/Markets.jsx:157-181 | two filters in a row select the same list as one filter by both conditions |
| Markets.FilteredSound | src/pages/Markets.jsx:157-184 | the list shown is a subsequence of the table holding exactly the markets that match the term ignoring case (in name, location, a product, state or district), the state and the district, each when set |
| Markets.NoFilterShowsAll | src/pages/Markets.jsx:152-158 | with no filter set the whole table is shown |
| Markets.SearchIgnoresCase | src/pages/Markets.jsx:161-171 | a search term and its lower-cased form show the same list |
| Markets.OfferedDistrictNonEmpty | src/pages/Markets.jsx:142-184 | a district offered for the chosen state, with no search term, shows at least one market and only markets of that state and district |
| Markets.SelectState | src/pages/Markets.jsx:186-189 | picking a different state clears the district; picking the same state changes nothing |
| Markets.SelectDistrict | src/pages/Markets.jsx:277 | picking a district sets only the district |
| Markets.ClearFilters | src/pages/Markets.jsx:228-232 | clearing resets the term, the state and the district |
| Markets.NewStateDropsDistrict | src/pages/Markets.jsx:157-189 | after a change of state the list is that state's markets matching the term, whatever district was picked before |
| Markets.ClearShowsAll | src/pages/Markets.jsx:157-184 | after clearing the filters the whole table is shown |
| Patterns.ContactRouted | backend/src/routes/auth.js:81 | what passes the forms' e-mail pattern contains `@` and is sent as an e-mail address; a ten-digit number contains none and is sent as a phone number |
| Patterns.OtpInput | frontend/src/pages/Auth.jsx:392 | the OTP field keeps only digits, never grows, and keeps every digit typed |
| Patterns.OtpInputIdempotent | frontend/src/pages/Auth.jsx:392 | filtering the field again changes nothing |
| AuthPage.HandleInputChange | frontend/src/pages/Auth.jsx:49-54 | the field takes the value and every other field keeps its own; a showing error of that field is blanked, and no other error changes |
| AuthPage.Problem | frontend/src/pages/Auth.jsx:59-79 | the e-mail is refused iff it is neither e-mail-like nor ten digits (an empty one as required), the password iff shorter than six; name and confirmation only when signing up, the confirmation iff empty or different from the password |
| AuthPage.ValidateForm | frontend/src/pages/Auth.jsx:56-83 | the error object has exactly one entry per failing field, holding that field's message |
| AuthPage.FormErrors | frontend/src/pages/Auth.jsx:81-82 | validation passes, with no errors, iff the contact is valid, the password has six or more code units and, when signing up, a name is given and the confirmation matches |
| AuthPage.LoginIgnoresSignupFields | frontend/src/pages/Auth.jsx:65-79 | in login mode the name and confirmation fields never change the outcome |
| AuthPage.ModesShareRules | frontend/src/pages/Auth.jsx:59-73 | the contact and password rules are the same in both modes |
| AuthPage.ChooseCard | frontend/src/pages/Auth.jsx:192-215 | a card sets the user type to customer or mitra, both roles signup admits, and opens the form; nothing else changes |
| AuthPage.ChooseLogin | frontend/src/pages/Auth.jsx:240 | the login link turns on login mode and opens the form, keeping the user type |
| AuthPage.Back | frontend/src/pages/Auth.jsx:258 | the back arrow returns to the cards and keeps everything else |
| AuthPage.ToggleMode | frontend/src/pages/Auth.jsx:357 | the mode link flips login/signup and clears the errors, on the same step |
| AuthPage.ToggleTwice | frontend/src/pages/Auth.jsx:357 | toggling twice restores the page apart from the cleared errors |
| AuthPage.LoginThenSignupHasNoRole | frontend/src/pages/Auth.jsx:111-116 | switching to signup from the login link leaves the user type empty, so the signup request carries an empty role |
| AuthPage.ModeSurvivesBack | frontend/src/pages/Auth.jsx:240-258 | after the login link and the back arrow, a card opens the form still in login mode |
| AuthPage.SignupBody | frontend/src/pages/Auth.jsx:111-116 | the signup request carries the name, contact and password typed and the user type as role |
| AuthPage.HandleSubmit | frontend/src/pages/Auth.jsx:87-130 | an invalid form shows its errors and sends nothing; a valid one is sent, goes to the OTP step iff a signup is answered with success or ok, leads to the dashboard iff a login succeeds, and shows a thrown error's message or "Something went wrong" |
| AuthPage.HandleOtpSubmit | frontend/src/pages/Auth.jsx:132-167 | a code not of six code units is refused before sending; the success screen comes iff the answer reports success; a thrown error shows its message or "Invalid OTP" |
| AuthPage.VerifiedOtpIsDigits | frontend/src/pages/Auth.jsx:132-137 | a code typed into the OTP field that reaches the success screen is six digits |
| AuthPage.SignupPath | frontend/src/pages/Auth.jsx:87-167 | a valid signup form after a card choice goes to the OTP step with a role the backend admits, and a verified six-character code reaches the success screen |
| SellerSignup.TextOf | frontend/src/pages/SellerSignup.jsx:92-137 | a field reads as text exactly when the form holds a string there, and then it is that string |
| SellerSignup.ListOf | frontend/src/pages/SellerSignup.jsx:92-137 | a multi-select field reads as its array, and as empty when it holds none |
| SellerSignup.HandleInputChange | frontend/src/pages/SellerSignup.jsx:140-145 | the field takes the value and every other field keeps its own; that field's error, if present, becomes blank and no other error changes |
| SellerSignup.HandleMultiSelect | frontend/src/pages/SellerSignup.jsx:147-154 | ticking appends the value to the field's list; clearing removes every occurrence of it and keeps every other item in order; no other field changes |
| SellerSignup.CheckThenUncheck | frontend/src/pages/SellerSignup.jsx:147-154 | ticking a box that was clear and clearing it again restores the form |
| SellerSignup.UncheckIdempotent | frontend/src/pages/SellerSignup.jsx:147-154 | clearing a box twice is the same as clearing it once |
| SellerSignup.Step1Problem | frontend/src/pages/SellerSignup.jsx:156-179 | the designation and name are refused iff empty, the e-mail iff empty or neither e-mail-like nor ten digits (with its two messages), the password iff empty or shorter than six, the confirmation iff empty or different from the password; no other field is checked |
| SellerSignup.ValidateStep1 | frontend/src/pages/SellerSignup.jsx:156-179 | the error object has exactly one entry per failing step-1 field, holding that field's message |
| SellerSignup.Step1Errors | frontend/src/pages/SellerSignup.jsx:177-178 | step 1 shows no error iff every basic field is filled, the contact is valid, the password has six or more code units and the confirmation matches |
| SellerSignup.KindName | frontend/src/pages/SellerSignup.jsx:366-368 | every seller-type card puts a designation the backend registration accepts |
| SellerSignup.ValidateStep2 | frontend/src/pages/SellerSignup.jsx:181-204 | an error, with its non-empty message, for exactly the fields the selected type requires that are empty (no ticked box for a multi-select); none when no type is selected |
| SellerSignup.MessagesShown | frontend/src/pages/SellerSignup.jsx:184-199 | every field a seller type requires has a message to show |
| SellerSignup.Step2Errors | frontend/src/pages/SellerSignup.jsx:202-203 | step 2 shows no error iff every field the selected type requires is filled |
| SellerSignup.SelectType | frontend/src/pages/SellerSignup.jsx:366-369 | clicking a card selects that type and copies it into the designation, leaving every other field, the step and the errors alone |
| SellerSignup.ErrorMessage | frontend/src/pages/SellerSignup.jsx:227-228 | the server's message is shown when one came back, the fallback otherwise |
| SellerSignup.Progress | frontend/src/pages/SellerSignup.jsx:333-338 | steps 1, 2 and 3 show 33, 66 and 90 percent, anything else 100 |
| SellerSignup.ProgressMonotone | frontend/src/pages/SellerSignup.jsx:333-338 | the bar never goes back as the step moves forward |
| SellerSignup.HandleNext | frontend/src/pages/SellerSignup.jsx:208-299 | the form is never changed and the step moves by at most one: step 1 advances iff it validates and the request succeeds, keeping the returned seller id; step 2 advances iff it validates for a selected type, the details succeed and the OTP request does not throw; a failing validation shows its errors; a thrown error at either step, from the details or from the OTP request, shows the server's message or "Something went wrong" under `general` and changes nothing else; a declined reply clears the errors and changes nothing else |
| SellerSignup.Back | frontend/src/pages/SellerSignup.jsx:842-905 | the Back buttons of steps 2 and 3 go one step back and change nothing else |
| SellerSignup.HandleOtpSubmit | frontend/src/pages/SellerSignup.jsx:301-327 | a code not of six code units is refused before sending; the success screen comes iff the answer reports success; a thrown error shows its message or "Invalid OTP" |
| SellerSignup.OtpSentIsSixDigits | frontend/src/pages/SellerSignup.jsx:301-318 | a code typed into the OTP field reaches the success screen only as six digits |
| SellerSignup.HappyPath | frontend/src/pages/SellerSignup.jsx:208-318 | a form valid at both steps, with every request reaching the server and succeeding (which the client as written does not allow, see SellerSignup.StuckAtStep1), reaches the success screen with the returned seller id |
| SellerSignup.InitPayloadAsWritten | frontend/src/pages/SellerSignup.jsx:213-219 | the first request sends the selected type, contact and passwords, and no name, since it reads a field the form does not have |
| SellerSignup.InitPayload | frontend/src/pages/SellerSignup.jsx:213-219 | with the name read from the name field, a step-1-valid form sends every basic field and matching passwords |
| SellerSignup.NameNeverSent | frontend/src/pages/SellerSignup.jsx:215 | were the first request as written delivered to the backend's register (as written it is not: see SellerSignup.StuckAtStep1), register would answer it with 400 "All basic fields are required", whatever the user typed |
| SellerSignup.NameSent | frontend/src/pages/SellerSignup.jsx:213-219 | with the name sent, a step-1-valid request for a chosen type passes the backend's missing-field, password and designation checks |
| SellerSignup.ReplaceFirstSpace | frontend/src/pages/SellerSignup.jsx:703 | the length is kept; the first space, and only it, becomes `_`; every other character is kept |
| SellerSignup.CallSellerApi | frontend/src/api/apiClient.js:86-91 | a call to one of the four methods the client's `sellerAPI` defines ends as the server answers; a call to any other name throws an error with no server response |
| SellerSignup.StuckAtStep1 | frontend/src/pages/SellerSignup.jsx:213 | as written, Next on a step-1-valid form calls the undefined `sellerAPI.initSeller`: the page stays on step 1 showing "Something went wrong" under `general`, whatever the server would answer |
| SellerSignup.StuckAtStep2 | frontend/src/pages/SellerSignup.jsx:240-283 | as written, Next on a step-2-valid form calls an undefined details method for every seller type: the page stays on step 2 showing "Something went wrong" |
| SellerSignup.RegisterReached | frontend/src/api/apiClient.js:87 | through the client's `register`, the first request reaches the server and the wizard moves to step 2 exactly when the server accepts it |
| SellerSignup.OptionValueAsWritten | frontend/src/pages/SellerSignup.jsx:703 | the option value keeps the caption's length and lower-cases every non-space character, hyphens included |
| SellerSignup.OptionValue | frontend/src/pages/SellerSignup.jsx:703 | the corrected option value lower-cases the caption and turns every space or hyphen into `_` |
| SellerSignup.AgriFintechRejected | frontend/src/pages/SellerSignup.jsx:73 | the Agri-fintech option's value keeps its hyphen and is not an accepted nature of business |
| SellerSignup.StartupOptionsAccepted | backend/src/middlewares/validation.js:135 | with the corrected spelling each startup option is exactly the accepted nature of business at the same position |
| TestHarness.LogTest | auth_test.py:32-44 | one more test is counted and either one more pass or one more failure entry "name: details", so passes plus failures stays equal to the count |
| TestHarness.LogAll | auth_test.py:32-44 | a run of logs adds its length to the count, its passes to the passes and its failure entries, in order, to the failures |
| TestHarness.NoFailuresAllPass | auth_test.py:32-44 | a run of logs produces no failure entry iff every test in it passed, and never more passes than tests |
| TestHarness.Headers | auth_test.py:50-53 | a bearer Authorization header is sent iff a token is given |
| TestHarness.MakeRequest | auth_test.py:46-72 | a method other than GET or POST fails unsent with "Unsupported method"; a transport error fails with its message; otherwise the verdict is whether the status is the expected one, with the JSON body or else the text and status |
| TestHarness.VerdictByStatusOnly | auth_test.py:63 | two responses with the same status get the same verdict whatever their bodies |
| TestHarness.UnsupportedNeverSent | auth_test.py:56-61 | a request with an unsupported method fails the same way whatever the network would do |
| TestHarness.PrintSummary | auth_test.py:380-400 | the exit code is 0 iff no test failed and 1 otherwise; the rate is only computed once a test has run, lies between 0 and 100, and is 100 iff the exit code is 0 |
| TestHarness.Connected | auth_test.py:74-88 | the backend counts as reachable iff the health request answered 200 with a body that decodes as JSON |
| TestHarness.ConnectivityLog | auth_test.py:74-88 | the check logs success exactly when reachable, with "Backend healthy - Uptime: …s" (N/A when the field is absent), "Health check failed - Status: …" for another status, and "Error: …" for a transport failure or an undecodable body |
| TestHarness.RunAll | auth_test.py:343-378 | the connectivity result is logged first; an unreachable backend (no answer, another status, or a body that is not JSON) goes straight to the summary, otherwise every later test is logged before it |
| TestHarness.UnreachableStops | auth_test.py:351-353 | an unreachable backend ends a fresh run with one failed test, exit code 1 and a 0% rate, whatever the later tests would have done |
| TestHarness.ExitZeroIffAllPass | auth_test.py:343-400 | a fresh run exits 0 iff the backend is reachable and every test passes, then reports 100%, and counts one test plus the later ones only when reachable |

## Left out

- Network, database, e-mail, SMS and S3 I/O: each is a parameter or a value the handler receives. Logging, console output and `toast` messages are not modelled.
- The clock (`Date.now()`), `Math.random`, `uuidv4`, ObjectIds, bcrypt hashing and JWT signing and verification are parameters. A bcrypt hash is a `Digest` of the password it was made from.
- Floating-point arithmetic (prices, totals, tax, ratings, the success rate) is modelled with `real`, so rounding is not modelled.
- Concurrency: each handler runs alone against the collections; interleaved requests are not modelled.
- The database's full-text search (`$text`), the products list's `search` filter, the admin user list's `search` regular expression and search.js's regular-expression queries are outside the model. Their candidates arrive already matched, in the order the query sorts them.
- Mongoose `populate` and `select` projections are not modelled beyond the fields the handlers read.
- `deleteFromS3` and `getFileMetadata` in backend/src/services/uploadService.js are plain S3 calls with no decision logic and are not modelled.
- The page table of frontend/src/pages/index.jsx and the route elements are constants; rendering, `useScrollToTop`, timers (the redirect after OTP success) and the market page's auto-scroll are not modelled.
- The market table of src/pages/Markets.jsx is a parameter; the stock reviews are display data.
- `Array.prototype.sort` compares UTF-16 code units, while `Markets.Before` compares characters. The two orders agree on text without characters outside the Basic Multilingual Plane.
- Input `maxLength` attributes and the QR code rendering of the profile page are not modelled; `Users.ProfileQr` states the payload only.
- The front end's API client (`frontend/src/api/apiClient.js`) is modelled only as the method names of its `sellerAPI` object (`SellerSignup.CallSellerApi`). Its interceptors, base URL and other API objects are not modelled, and the server's replies are parameters.
- The migration CLI's `process.exit` codes are modelled as the outcome of `Migrate.Cli`. What each migration's `up()`/`down()` does to the database is a parameter.
- backend_test.py and seller_registration_test.py repeat the bookkeeping of auth_test.py for other scenarios and are not part of this model.
- Pages.CurrentPage: its contract states only that the result is a page name; which name is stated by `Pages.Resolve` and the lemmas about it.
- Sellers.Enrol: the profile's `save()` is taken to succeed once the user was saved, because the profile document has no validator the handler's input can fail.
- Text.Lower: folds ASCII letters only. JavaScript's `toLowerCase` also folds non-ASCII letters ("É" to "é"), so wherever the model lower-cases it agrees with the source on ASCII text only.
- Records.FindByLogin: the login lookup lower-cases the identifier ASCII-only. "ÉVA@x.com" and "éva@x.com" are one login in the source and two here.
- Records.InsertUser: the e-mail setter and the uniqueness test lower-case ASCII-only, so an address differing from a stored one only in the case of a non-ASCII letter is taken as free here.
- Markets.MatchesTerm and Pages.Resolve: the market search and the page lookup compare ASCII-lower-cased text, for the reason given under Text.Lower.
- The rate limiters of backend/server.js:38-56 (which answer 429 before any `/api` handler once a client exceeds its quota) depend on the clock and on request history and are not modelled. Every request is taken to be under the limit.
- `mongoSanitize` and `xss-clean` (backend/server.js:74-75) rewrite body strings before any handler or validator sees them. The model starts from the body as they leave it.
- Users.CastAddress and Users.CastNotifications: a `null` country or notification flag is refused in the model, where Mongoose would store `null`.
- TestHarness.Connected: a JSON body that is not an object (a bare number, say) is taken to decode. The missing `uptime` then reads as absent.
- Validation.DeliveryInput carries the name, phone and pin code the order validation checks and the address type the order schema checks against its enum. The street, city, state and landmark are String paths with no validator and are not modelled.
- Orders.SaveNew: Mongoose's cast of each address path to a String is not modelled, because every field is a string in the model; a body whose address field is an object, which the source refuses with 500, has no counterpart.
- Products.AddImages and AuthMiddleware.RefreshAccess: a `save()` that fails after the handler's checks passed is not modelled. The write is taken to succeed.
- Paging: `parseInt` of a non-numeric `page` or `limit` gives `NaN`, which the model does not represent. Page and limit arrive as integers.

## Findings

| source | as written | input that shows it | evidently intended | confidence | as-written member | corrected member |
|---|---|---|---|---|---|---|
| backend/src/routes/auth.js:51-85 | signup takes `role` from the body unchecked; the imported register validation chain, whose role rule allows only customer and mitra, is never applied | `{role: "admin", emailOrPhone: "a@b", password: "secret"}` on an empty database | a role other than customer or mitra is refused with 400 | not executed | AuthRoutes.SignupAcceptsAdmin, AuthRoutes.AdminSignupWitness | AuthRoutes.SignupChecked, AuthRoutes.SignupCheckedRefusesAdmin |
| backend/src/routes/orders.js:30-45 | each order line is checked against the stock read before the order, then every line is debited; this shows once the order is numbered before validation (the next row), since as written the save fails first | two lines for the same product, quantity 1 each, with stock 1 | the total quantity per product is checked, so stock never goes negative | not executed | Orders.PlaceOrderAsWritten, Orders.OversellWitness | Orders.CreateOrderChecked, Orders.PlaceOrder, Orders.PlaceKeepsStock, Orders.CheckedCreateAgrees |
| backend/src/models/Order.js:148-153 | the order number, a required path (lines 8-11), is set by a `pre('save')` hook, which Mongoose runs only after validating the document, so the save of every new order throws "Path `orderNumber` is required" and the create route answers 500 | any order body that passes the validation chain and the stock checks | the number is assigned before validation (a `pre('validate')` hook) and the order is created with 201 | not executed | Orders.CreateOrder, Orders.CreateAlwaysFails, Orders.UnnumberedNeverSaves, Orders.FirstOrderSaveable | Orders.SaveNew, Orders.PlaceOrder, Orders.CreateOrderChecked, Orders.CreatedOrderValid |
| backend/src/routes/orders.js:194-195 | the access check calls `._id.equals` on buyer and seller ids that the schema stores as plain strings, so every found order ends in the 500 handler | the buyer reading their own order | the buyer, the seller and admins read the order, anyone else gets 403 | not executed | Orders.GetOrderAsWritten, Orders.GetOrderUnreadable | Orders.GetOrder |
| frontend/src/pages/SellerSignup.jsx:703 | the option value replaces only the first space, so "Agri-fintech" is sent as `agri-fintech` | choosing "Agri-fintech" as nature of business | `agri_fintech`, the value the backend validation accepts | not executed | SellerSignup.OptionValueAsWritten, SellerSignup.AgriFintechRejected | SellerSignup.OptionValue, SellerSignup.StartupOptionsAccepted |
| backend/server.js:104-110 | the search router is imported but never mounted | `GET /api/v1/search?q=rice` | the search routes answer under `/api/v1/search` | not executed | Server.SearchUnreachable | Server.SearchReachable |
| backend/src/routes/search.js:153 | the services query filters on seller type `service`, which no profile can have (the schema's value is `service_provider`) | an approved, active service provider whose services mention the query | such providers are found | not executed | Search.ServicesNeverFound | Search.Services, Search.ProviderFound |
| backend/src/routes/admin.js:292 | the reply appends `d` to the action | a `reject` decision | "Seller rejected successfully" | not executed | Admin.RejectMessageMisspelt | Admin.DecisionMessage |
| frontend/src/pages/SellerSignup.jsx:213 | step 1 calls `sellerAPI.initSeller` and step 2 `sellerAPI.farmerDetails` and the like, none of which the client's `sellerAPI` (frontend/src/api/apiClient.js:86-91) defines; the `TypeError` is caught at lines 226-229 and the page shows "Something went wrong" without sending anything | any step-1-valid form and a click on Next | the first request is posted through the client's `register` and reaches the server | not executed | SellerSignup.CallSellerApi, SellerSignup.StuckAtStep1, SellerSignup.StuckAtStep2 | SellerSignup.RegisterReached |
| frontend/src/pages/SellerSignup.jsx:215 | the first request's payload reads `formData.fullName`, a field the form never has, so the name is always missing; once the call reached the backend's register, it would answer 400 "All basic fields are required" | any step-1-valid form | the name typed into the name field is sent | not executed | SellerSignup.InitPayloadAsWritten, SellerSignup.NameNeverSent | SellerSignup.InitPayload, SellerSignup.NameSent |

=== FILE: admin.dfy ===
/** The admin routes: every one sits behind `authenticateToken` and `authorize(['admin'])`; the
    dashboard statistics, the filtered user, seller and order lists, and the KYC decision on a
    seller profile. Collections are taken in the order the route sorts them by. */
module Admin {

  import opened Wrappers
  import opened Http
  import opened Records
  import opened Paging
  import opened Collections
  import Sorting
  import AuthMiddleware
  import Sellers
  import Products
  import Orders

  /** `authorize(['admin'])` behind the token check. */
  function AdminGate(user: Option<User>): (r: Option<(int, string)>)
    ensures r.None? <==> user.Some? && user.value.role == "admin"
    ensures user.None? ==> r == Some((401, "Authentication required"))
    ensures user.Some? && user.value.role != "admin" ==> r == Some((403, "Insufficient permissions"))
  {
    AuthMiddleware.Authorize(["admin"], user)
  }

  // ---------------------------------------------------------------------------
  // Statistics

  const DayMillis: int := 24 * 60 * 60 * 1000

  /** The reporting window in days; the query defaults to `'30d'`. */
  function PeriodDays(period: Option<string>): (r: nat)
    ensures r == 7 <==> period == Some("7d")
    ensures r == 30 <==> period.None? || period == Some("30d")
    ensures r == 365 <==> period.Some? && period.value != "7d" && period.value != "30d"
  {
    var p := period.GetOr("30d");
    if p == "7d" then 7 else if p == "30d" then 30 else 365
  }

  /** The first instant counted as "new". */
  function WindowStart(now: int, period: Option<string>): int {
    now - PeriodDays(period) * DayMillis
  }

  /** A record created at `createdAt` falls in the window iff it is at most the period old. */
  lemma InWindow(now: int, period: Option<string>, createdAt: int)
    ensures createdAt >= WindowStart(now, period) <==>
      (period == Some("7d") && now - createdAt <= 7 * DayMillis)
      || ((period.None? || period == Some("30d")) && now - createdAt <= 30 * DayMillis)
      || (period.Some? && period.value != "7d" && period.value != "30d" && now - createdAt <= 365 * DayMillis)
  {
  }

  predicate Counted(o: Orders.Order, start: int) {
    o.status == "delivered" && o.createdAt >= start
  }

  /** `$sum` of `pricing.total` over the delivered orders of the window. */
  function Revenue(orders: seq<Orders.Order>, start: int): real {
    if |orders| == 0 then 0.0
    else
      var last := orders[|orders| - 1];
      Revenue(orders[..|orders| - 1], start) + (if Counted(last, start) then last.pricing.total else 0.0)
  }

  /** `totalRevenue[0]?.total || 0`: the aggregate yields no group when no order qualifies. */
  function TotalRevenue(orders: seq<Orders.Order>, start: int): (r: real)
    ensures (forall i :: 0 <= i < |orders| ==> !Counted(orders[i], start)) ==> r == 0.0
    ensures (forall i :: 0 <= i < |orders| ==> orders[i].pricing.total >= 0.0) ==> r >= 0.0
  {
    RevenueNonNegative(orders, start);
    if CountWhere(orders, (o: Orders.Order) => Counted(o, start)) == 0 then 0.0 else Revenue(orders, start)
  }

  lemma {:induction false} RevenueZero(orders: seq<Orders.Order>, start: int)
    requires forall i :: 0 <= i < |orders| ==> !Counted(orders[i], start)
    ensures Revenue(orders, start) == 0.0
  {
    if |orders| > 0 {
      RevenueZero(orders[..|orders| - 1], start);
    }
  }

  lemma {:induction false} RevenueNonNegative(orders: seq<Orders.Order>, start: int)
    ensures (forall i :: 0 <= i < |orders| ==> orders[i].pricing.total >= 0.0) ==> Revenue(orders, start) >= 0.0
  {
    if |orders| > 0 {
      var init := orders[..|orders| - 1];
      RevenueNonNegative(init, start);
      assert forall i :: 0 <= i < |init| ==> init[i] == orders[i];
    }
  }

  /** One more order raises the revenue by its total iff it is delivered inside the window. */
  lemma RevenueAdd(orders: seq<Orders.Order>, o: Orders.Order, start: int)
    ensures TotalRevenue(orders + [o], start) ==
      TotalRevenue(orders, start) + (if Counted(o, start) then o.pricing.total else 0.0)
  {
    var all := orders + [o];
    assert all[..|all| - 1] == orders;
    if CountWhere(orders, (x: Orders.Order) => Counted(x, start)) == 0 {
      RevenueZero(orders, start);
    }
    if !Counted(o, start) && CountWhere(all, (x: Orders.Order) => Counted(x, start)) == 0 {
      assert forall i :: 0 <= i < |orders| ==> orders[i] == all[i];
    }
  }

  datatype Overview = Overview(
    totalUsers: nat,
    totalSellers: nat,
    totalProducts: nat,
    totalOrders: nat,
    newSignups: nat,
    newOrders: nat,
    totalRevenue: real)

  datatype Distributions = Distributions(
    usersByRole: map<string, nat>,
    sellersByType: map<string, nat>,
    ordersByStatus: map<string, nat>)

  datatype Stats = Stats(overview: Overview, distributions: Distributions, topProducts: seq<Products.Product>,
                         period: string)

  function RoleOf(u: User): string { u.role }
  function TypeOf(p: Sellers.SellerProfile): string { p.sellerType }
  function StatusOf(o: Orders.Order): string { o.status }

  function Keys<T>(xs: seq<T>, key: T -> string): (r: seq<string>)
    ensures |r| == |xs| && forall i :: 0 <= i < |xs| ==> r[i] == key(xs[i])
  {
    seq(|xs|, i requires 0 <= i < |xs| => key(xs[i]))
  }

  /** A `$group` by `key` counting documents, folded into an object: the keys that occur, each
      with the number of records that carry it. */
  function Distribution<T>(xs: seq<T>, key: T -> string): (r: map<string, nat>)
    ensures forall k :: k in r <==> exists i :: 0 <= i < |xs| && key(xs[i]) == k
    ensures forall k :: k in r ==> r[k] == CountWhere(xs, (x: T) => key(x) == k)
  {
    var keys := Keys(xs, key);
    assert forall k :: k in keys <==> exists i :: 0 <= i < |xs| && key(xs[i]) == k;
    forall k | k in Tally(keys) ensures Tally(keys)[k] == CountWhere(xs, (x: T) => key(x) == k) {
      TallyCountsKey(xs, key, k);
    }
    Tally(keys)
  }

  lemma {:induction false} TallyCountsKey<T>(xs: seq<T>, key: T -> string, k: string)
    ensures multiset(Keys(xs, key))[k] == CountWhere(xs, (x: T) => key(x) == k)
  {
    if |xs| > 0 {
      TallyCountsKey(xs[1..], key, k);
      assert Keys(xs, key) == [key(xs[0])] + Keys(xs[1..], key);
      assert multiset(Keys(xs, key)) == multiset{key(xs[0])} + multiset(Keys(xs[1..], key));
    }
  }

  function OrderCountKey(p: Products.Product): Sorting.Key { Sorting.Key(p.orderCount as real, 0.0) }

  /** `Product.find().sort({'metrics.orderCount': -1}).limit(5)`. */
  function TopProducts(catalog: seq<Products.Product>): (r: seq<Products.Product>)
    ensures |r| == Min(5, |catalog|)
    ensures Sorting.SortedDesc(r, OrderCountKey)
    ensures forall i :: 0 <= i < |r| ==> r[i] in catalog
    ensures multiset(r) <= multiset(catalog)
  {
    var sorted := Sorting.SortDesc(catalog, OrderCountKey);
    var r := Sorting.Take(sorted, 5);
    Sorting.SliceSorted(sorted, OrderCountKey, 0, |r|);
    Sorting.TakeTop(sorted, OrderCountKey, 5);
    assert forall i :: 0 <= i < |r| ==> r[i] in multiset(r);
    r
  }

  /** No product left out of the top list was ordered more often than one in it. */
  lemma TopProductsAreTop(catalog: seq<Products.Product>, i: int, q: Products.Product)
    requires 0 <= i < |TopProducts(catalog)|
    requires q in catalog && q !in TopProducts(catalog)
    ensures TopProducts(catalog)[i].orderCount >= q.orderCount
  {
    var sorted := Sorting.SortDesc(catalog, OrderCountKey);
    assert q in multiset(sorted);
    Sorting.LeftOutRanksLower(sorted, OrderCountKey, 5, i, q);
  }

  /** `countDocuments({createdAt: {$gte: start}})` on users and on orders. */
  function JoinedSince(start: int): User -> bool { (u: User) => u.createdAt >= start }
  function PlacedSince(start: int): Orders.Order -> bool { (o: Orders.Order) => o.createdAt >= start }

  /** `GET /admin/stats`. */
  function GetStats(users: seq<User>, profiles: seq<Sellers.SellerProfile>, catalog: seq<Products.Product>,
                    orders: seq<Orders.Order>, period: Option<string>, now: int): (r: Reply<Stats>)
    ensures r.Ok? && r.data.period == period.GetOr("30d")
    ensures var o := r.data.overview;
      && o.totalUsers == |users| && o.totalSellers == |profiles|
      && o.totalProducts == |catalog| && o.totalOrders == |orders|
      && o.newSignups == CountWhere(users, JoinedSince(WindowStart(now, period)))
      && o.newOrders == CountWhere(orders, PlacedSince(WindowStart(now, period)))
      && o.newSignups <= o.totalUsers && o.newOrders <= o.totalOrders
      && o.totalRevenue == TotalRevenue(orders, WindowStart(now, period))
    ensures r.data.distributions ==
      Distributions(Distribution(users, RoleOf), Distribution(profiles, TypeOf), Distribution(orders, StatusOf))
    ensures r.data.topProducts == TopProducts(catalog)
  {
    var start := WindowStart(now, period);
    Ok(200, "", Stats(
      Overview(|users|, |profiles|, |catalog|, |orders|,
               CountWhere(users, JoinedSince(start)),
               CountWhere(orders, PlacedSince(start)),
               TotalRevenue(orders, start)),
      Distributions(Distribution(users, RoleOf), Distribution(profiles, TypeOf), Distribution(orders, StatusOf)),
      TopProducts(catalog),
      period.GetOr("30d")))
  }

  /** One more record adds one to the tally of its own key and leaves every other tally as it was. */
  lemma DistributionAdd<T>(xs: seq<T>, x: T, key: T -> string)
    ensures var d := Distribution(xs, key); var e := Distribution(xs + [x], key);
      && key(x) in e && e[key(x)] == (if key(x) in d then d[key(x)] else 0) + 1
      && (forall j :: j != key(x) ==> (j in e <==> j in d))
      && (forall j :: j != key(x) && j in d ==> e[j] == d[j])
  {
    var keys := Keys(xs, key);
    assert Keys(xs + [x], key) == keys + [key(x)];
    TallyAdd(keys, key(x));
    DistributionIsTally(xs, key);
    DistributionIsTally(xs + [x], key);
  }

  lemma DistributionIsTally<T>(xs: seq<T>, key: T -> string)
    ensures Distribution(xs, key) == Tally(Keys(xs, key))
  {
  }

  /** The figures count documents: one more user, created at the moment of the report, adds one
      to the user total, one to the new signups and one to its role's tally, and leaves every
      other figure as it was. */
  lemma StatsCountSignup(users: seq<User>, profiles: seq<Sellers.SellerProfile>, catalog: seq<Products.Product>,
                         orders: seq<Orders.Order>, period: Option<string>, now: int, u: User)
    requires u.createdAt == now
    ensures var before := GetStats(users, profiles, catalog, orders, period, now).data;
      var after := GetStats(users + [u], profiles, catalog, orders, period, now).data;
      var roles := before.distributions.usersByRole;
      var roles2 := after.distributions.usersByRole;
      && after.overview == before.overview.(totalUsers := before.overview.totalUsers + 1,
                                            newSignups := before.overview.newSignups + 1)
      && u.role in roles2 && roles2[u.role] == (if u.role in roles then roles[u.role] else 0) + 1
      && (forall j :: j != u.role ==> (j in roles2 <==> j in roles))
      && (forall j :: j != u.role && j in roles ==> roles2[j] == roles[j])
      && after.distributions.sellersByType == before.distributions.sellersByType
      && after.distributions.ordersByStatus == before.distributions.ordersByStatus
      && after.topProducts == before.topProducts
  {
    CountAppend(users, u, JoinedSince(WindowStart(now, period)));
    DistributionAdd(users, u, RoleOf);
  }

  // ---------------------------------------------------------------------------
  // Lists

  datatype Listing<T> = Listing(items: seq<T>, pagination: Pagination)

  /** One page of the matching documents with the shared pagination block; page and limit
      default to 1 and 20. */
  function ListPage<T>(matching: seq<T>, page: Option<int>, limit: Option<int>): (r: Reply<Listing<T>>)
    ensures var p := page.GetOr(1); var l := limit.GetOr(20);
      && (r.Err? <==> Skip(p, l) < 0)
      && (r.Err? ==> r == Fail(500, InternalError))
      && (r.Ok? ==> r.data.pagination == Describe(p, l, |matching|))
      && (r.Ok? ==> r.data.items == Window(matching, p, l).value)
      && (r.Ok? && l != 0 ==> |r.data.items| <= Abs(l))
      && (r.Ok? ==> forall i :: 0 <= i < |r.data.items| ==> r.data.items[i] in matching)
  {
    var p := page.GetOr(1);
    var l := limit.GetOr(20);
    match Window(matching, p, l)
    case None => Fail(500, InternalError)
    case Some(w) => Ok(200, "", Listing(w, Describe(p, l, |matching|)))
  }

  /** The documents of a list reply, or none for an error reply. */
  function Items<T>(r: Reply<Listing<T>>): Option<seq<T>> {
    if r.Ok? then Some(r.data.items) else None
  }

  /** With the defaults, the first page holds the first twenty matches. */
  lemma DefaultFirstPage<T>(matching: seq<T>)
    ensures ListPage(matching, None, None).Ok?
    ensures ListPage(matching, None, None).data.items == matching[..Min(20, |matching|)]
  {
  }

  datatype UserQuery = UserQuery(role: Option<string>, verified: Option<string>, page: Option<int>,
                                 limit: Option<int>)

  /** `if (role) filter.role = role`; `if (verified !== undefined) filter.verified = verified === 'true'`. */
  predicate UserSelected(u: User, q: UserQuery) {
    && (Present(q.role) ==> u.role == q.role.value)
    && (q.verified.Some? ==> u.verified == (q.verified.value == "true"))
  }

  function UserFilter(q: UserQuery): User -> bool { (u: User) => UserSelected(u, q) }

  /** `GET /admin/users` (without the name/e-mail/phone search), over the users in the
      requested sort order. */
  function ListUsers(users: seq<User>, q: UserQuery): (r: Reply<Listing<User>>)
    ensures var p := q.page.GetOr(1); var l := q.limit.GetOr(20);
      && (r.Err? <==> Skip(p, l) < 0)
      && (r.Ok? ==> r.data.items == Window(Filter(users, UserFilter(q)), p, l).value)
      && (r.Ok? ==> r.data.pagination == Describe(p, l, CountWhere(users, UserFilter(q))))
    ensures r.Ok? ==> forall i :: 0 <= i < |r.data.items| ==>
      r.data.items[i] in users && UserSelected(r.data.items[i], q)
  {
    ListPage(Filter(users, UserFilter(q)), q.page, q.limit)
  }

  /** The user list as a page function of the page number, at a fixed limit. */
  function UserPages(users: seq<User>, q: UserQuery, limit: int): int -> Option<seq<User>> {
    (k: int) => Items(ListUsers(users, q.(page := Some(k), limit := Some(limit))))
  }

  /** Walking the user list from page 1 to the last page its pagination block names lists every
      selected user exactly once, in the requested order. */
  lemma UsersPagesCover(users: seq<User>, q: UserQuery, limit: int)
    requires limit > 0
    ensures var first := ListUsers(users, q.(page := Some(1), limit := Some(limit)));
      && first.Ok?
      && Walk(UserPages(users, q, limit), first.data.pagination.pages.value) == Filter(users, UserFilter(q))
  {
    var matching := Filter(users, UserFilter(q));
    forall k | 1 <= k ensures UserPages(users, q, limit)(k) == Window(matching, k, limit) {
      UsersPageIs(users, q, limit, k);
    }
    UsersPageIs(users, q, limit, 1);
    WalkCovers(matching, UserPages(users, q, limit), limit);
  }

  lemma UsersPageIs(users: seq<User>, q: UserQuery, limit: int, k: int)
    requires limit > 0 && 1 <= k
    ensures UserPages(users, q, limit)(k) == Window(Filter(users, UserFilter(q)), k, limit)
    ensures ListUsers(users, q.(page := Some(k), limit := Some(limit))).Ok?
    ensures ListUsers(users, q.(page := Some(k), limit := Some(limit))).data.pagination ==
      Describe(k, limit, |Filter(users, UserFilter(q))|)
  {
    var qk := q.(page := Some(k), limit := Some(limit));
    FilterSame(users, UserFilter(qk), UserFilter(q));
    var matching := Filter(users, UserFilter(q));
    assert Filter(users, UserFilter(qk)) == matching;
    MulMono(k - 1, 0, limit);
    assert Skip(k, limit) >= 0;
    var r := ListUsers(users, qk);
    assert r.Ok? && r.data.items == Window(matching, k, limit).value;
    assert UserPages(users, q, limit)(k) == Items(r);
  }

  /** The verified filter: absent it keeps every user; present it keeps exactly the users whose
      flag equals `value == 'true'` (so `'false'`, `''` or `'yes'` all select the unverified). */
  lemma VerifiedFilter(u: User, value: Option<string>)
    ensures UserSelected(u, UserQuery(None, value, None, None)) <==>
      value.None? || u.verified == (value.value == "true")
  {
  }

  /** Without filters and with a zero limit, every user is listed. */
  lemma UnfilteredListsAll(users: seq<User>)
    ensures ListUsers(users, UserQuery(None, None, None, Some(0))) ==
      Ok(200, "", Listing(users, Describe(1, 0, |users|)))
  {
    FilterAll(users, (u: User) => UserSelected(u, UserQuery(None, None, None, Some(0))));
  }

  datatype SellerQuery = SellerQuery(sellerType: Option<string>, kycStatus: Option<string>,
                                     page: Option<int>, limit: Option<int>)

  predicate SellerSelected(p: Sellers.SellerProfile, q: SellerQuery) {
    && (Present(q.sellerType) ==> p.sellerType == q.sellerType.value)
    && (Present(q.kycStatus) ==> p.kycStatus == q.kycStatus.value)
  }

  function SellerFilter(q: SellerQuery): Sellers.SellerProfile -> bool {
    (p: Sellers.SellerProfile) => SellerSelected(p, q)
  }

  /** `GET /admin/sellers`, over the profiles newest first. */
  function ListSellers(profiles: seq<Sellers.SellerProfile>, q: SellerQuery): (r: Reply<Listing<Sellers.SellerProfile>>)
    ensures var p := q.page.GetOr(1); var l := q.limit.GetOr(20);
      && (r.Err? <==> Skip(p, l) < 0)
      && (r.Ok? ==> r.data.items == Window(Filter(profiles, SellerFilter(q)), p, l).value)
      && (r.Ok? ==> r.data.pagination == Describe(p, l, CountWhere(profiles, SellerFilter(q))))
    ensures r.Ok? ==> forall i :: 0 <= i < |r.data.items| ==>
      r.data.items[i] in profiles && SellerSelected(r.data.items[i], q)
  {
    ListPage(Filter(profiles, SellerFilter(q)), q.page, q.limit)
  }

  function SellerPages(profiles: seq<Sellers.SellerProfile>, q: SellerQuery, limit: int)
    : int -> Option<seq<Sellers.SellerProfile>>
  {
    (k: int) => Items(ListSellers(profiles, q.(page := Some(k), limit := Some(limit))))
  }

  /** Walking the seller list page by page lists every selected profile exactly once, in order. */
  lemma SellersPagesCover(profiles: seq<Sellers.SellerProfile>, q: SellerQuery, limit: int)
    requires limit > 0
    ensures var first := ListSellers(profiles, q.(page := Some(1), limit := Some(limit)));
      && first.Ok?
      && Walk(SellerPages(profiles, q, limit), first.data.pagination.pages.value) == Filter(profiles, SellerFilter(q))
  {
    var matching := Filter(profiles, SellerFilter(q));
    forall k | 1 <= k ensures SellerPages(profiles, q, limit)(k) == Window(matching, k, limit) {
      SellersPageIs(profiles, q, limit, k);
    }
    SellersPageIs(profiles, q, limit, 1);
    WalkCovers(matching, SellerPages(profiles, q, limit), limit);
  }

  lemma SellersPageIs(profiles: seq<Sellers.SellerProfile>, q: SellerQuery, limit: int, k: int)
    requires limit > 0 && 1 <= k
    ensures SellerPages(profiles, q, limit)(k) == Window(Filter(profiles, SellerFilter(q)), k, limit)
    ensures ListSellers(profiles, q.(page := Some(k), limit := Some(limit))).Ok?
    ensures ListSellers(profiles, q.(page := Some(k), limit := Some(limit))).data.pagination ==
      Describe(k, limit, |Filter(profiles, SellerFilter(q))|)
  {
    var qk := q.(page := Some(k), limit := Some(limit));
    FilterSame(profiles, SellerFilter(qk), SellerFilter(q));
    var matching := Filter(profiles, SellerFilter(q));
    assert Filter(profiles, SellerFilter(qk)) == matching;
    MulMono(k - 1, 0, limit);
    assert Skip(k, limit) >= 0;
    var r := ListSellers(profiles, qk);
    assert r.Ok? && r.data.items == Window(matching, k, limit).value;
    assert SellerPages(profiles, q, limit)(k) == Items(r);
  }

  datatype OrderQuery = OrderQuery(status: Option<string>, paymentStatus: Option<string>,
                                   page: Option<int>, limit: Option<int>)

  predicate OrderSelected(o: Orders.Order, q: OrderQuery) {
    && (Present(q.status) ==> o.status == q.status.value)
    && (Present(q.paymentStatus) ==> o.payment.status == q.paymentStatus.value)
  }

  function OrderFilter(q: OrderQuery): Orders.Order -> bool { (o: Orders.Order) => OrderSelected(o, q) }

  /** `GET /admin/orders`, over the orders newest first. */
  function ListOrders(orders: seq<Orders.Order>, q: OrderQuery): (r: Reply<Listing<Orders.Order>>)
    ensures var p := q.page.GetOr(1); var l := q.limit.GetOr(20);
      && (r.Err? <==> Skip(p, l) < 0)
      && (r.Ok? ==> r.data.items == Window(Filter(orders, OrderFilter(q)), p, l).value)
      && (r.Ok? ==> r.data.pagination == Describe(p, l, CountWhere(orders, OrderFilter(q))))
    ensures r.Ok? ==> forall i :: 0 <= i < |r.data.items| ==>
      r.data.items[i] in orders && OrderSelected(r.data.items[i], q)
  {
    ListPage(Filter(orders, OrderFilter(q)), q.page, q.limit)
  }

  function OrderPages(orders: seq<Orders.Order>, q: OrderQuery, limit: int): int -> Option<seq<Orders.Order>> {
    (k: int) => Items(ListOrders(orders, q.(page := Some(k), limit := Some(limit))))
  }

  /** Walking the order list page by page lists every selected order exactly once, in order. */
  lemma OrdersPagesCover(orders: seq<Orders.Order>, q: OrderQuery, limit: int)
    requires limit > 0
    ensures var first := ListOrders(orders, q.(page := Some(1), limit := Some(limit)));
      && first.Ok?
      && Walk(OrderPages(orders, q, limit), first.data.pagination.pages.value) == Filter(orders, OrderFilter(q))
  {
    var matching := Filter(orders, OrderFilter(q));
    forall k | 1 <= k ensures OrderPages(orders, q, limit)(k) == Window(matching, k, limit) {
      OrdersPageIs(orders, q, limit, k);
    }
    OrdersPageIs(orders, q, limit, 1);
    WalkCovers(matching, OrderPages(orders, q, limit), limit);
  }

  lemma OrdersPageIs(orders: seq<Orders.Order>, q: OrderQuery, limit: int, k: int)
    requires limit > 0 && 1 <= k
    ensures OrderPages(orders, q, limit)(k) == Window(Filter(orders, OrderFilter(q)), k, limit)
    ensures ListOrders(orders, q.(page := Some(k), limit := Some(limit))).Ok?
    ensures ListOrders(orders, q.(page := Some(k), limit := Some(limit))).data.pagination ==
      Describe(k, limit, |Filter(orders, OrderFilter(q))|)
  {
    var qk := q.(page := Some(k), limit := Some(limit));
    FilterSame(orders, OrderFilter(qk), OrderFilter(q));
    var matching := Filter(orders, OrderFilter(q));
    assert Filter(orders, OrderFilter(qk)) == matching;
    MulMono(k - 1, 0, limit);
    assert Skip(k, limit) >= 0;
    var r := ListOrders(orders, qk);
    assert r.Ok? && r.data.items == Window(matching, k, limit).value;
    assert OrderPages(orders, q, limit)(k) == Items(r);
  }

  /** An empty filter value is no filter: `?status=` lists the same orders as no status at all. */
  lemma EmptyStatusIgnored(orders: seq<Orders.Order>, q: OrderQuery)
    requires q.status == Some("")
    ensures ListOrders(orders, q) == ListOrders(orders, q.(status := None))
  {
    FilterSame(orders, OrderFilter(q), OrderFilter(q.(status := None)));
  }

  // ---------------------------------------------------------------------------
  // KYC decision

  /** `SellerProfile.findById`. */
  function FindSeller(profiles: seq<Sellers.SellerProfile>, id: string): (r: Option<nat>)
    ensures r.None? <==> forall i :: 0 <= i < |profiles| ==> profiles[i].id != id
    ensures r.Some? ==> r.value < |profiles| && profiles[r.value].id == id
    ensures r.Some? ==> forall j :: 0 <= j < r.value ==> profiles[j].id != id
  {
    if |profiles| == 0 then None
    else if profiles[0].id == id then Some(0)
    else
      var k := FindSeller(profiles[1..], id);
      if k.None? then None else Some(k.value + 1)
  }

  function Decide(p: Sellers.SellerProfile, action: string, notes: Option<string>, now: int): Sellers.SellerProfile {
    if action == "approve" then p.(kycStatus := "approved", verifiedAt := Some(now), isActive := true)
    else p.(kycStatus := "rejected", suspensionReason := Some(OrElse(notes, "KYC rejected")), isActive := false)
  }

  /** The reply message as the route builds it, by appending "d" to the action. */
  function DecisionMessageAsWritten(action: string): string {
    "Seller " + action + "d successfully"
  }

  /** The spelling "rejectd" is what the reject reply carries. */
  lemma RejectMessageMisspelt()
    ensures DecisionMessageAsWritten("reject") == "Seller rejectd successfully"
    ensures DecisionMessageAsWritten("reject") != "Seller rejected successfully"
    ensures DecisionMessageAsWritten("approve") == "Seller approved successfully"
  {
    assert DecisionMessageAsWritten("reject")[13] == 'd';
    assert "Seller rejected successfully"[13] == 'e';
  }

  /** The past tense of the action, as evidently intended. */
  function DecisionMessage(action: string): (r: string)
    requires action == "approve" || action == "reject"
    ensures action == "approve" ==> r == "Seller approved successfully"
    ensures action == "reject" ==> r == "Seller rejected successfully"
    ensures action == "approve" ==> r == DecisionMessageAsWritten(action)
  {
    "Seller " + (if action == "approve" then "approved" else "rejected") + " successfully"
  }

  /** `POST /admin/verify-seller`, with the reply message spelled as intended. */
  function VerifySeller(sellerId: Option<string>, action: Option<string>, notes: Option<string>,
                        profiles: seq<Sellers.SellerProfile>, now: int)
    : (r: (Reply<Sellers.SellerProfile>, seq<Sellers.SellerProfile>))
    ensures !(Present(sellerId) && Present(action)) ==>
      r == (Fail(400, "Seller ID and action are required"), profiles)
    ensures Present(sellerId) && Present(action) && action.value != "approve" && action.value != "reject" ==>
      r == (Fail(400, "Action must be approve or reject"), profiles)
    ensures r.0.Ok? <==>
      && Present(sellerId) && (action == Some("approve") || action == Some("reject"))
      && exists i :: 0 <= i < |profiles| && profiles[i].id == sellerId.value
    ensures r.0.Err? ==> r.1 == profiles && r.0.status in {400, 404}
    ensures r.0.Ok? ==> exists i :: (0 <= i < |profiles| && profiles[i].id == sellerId.value
      && r.1 == profiles[i := r.0.data]
      && r.0.data.id == profiles[i].id && r.0.data.userId == profiles[i].userId
      && r.0.data.sellerType == profiles[i].sellerType)
    ensures r.0.Ok? && action == Some("approve") ==>
      && r.0.message == "Seller approved successfully"
      && r.0.data.kycStatus == "approved" && r.0.data.isActive && r.0.data.verifiedAt == Some(now)
    ensures r.0.Ok? && action == Some("reject") ==>
      && r.0.message == "Seller rejected successfully"
      && r.0.data.kycStatus == "rejected" && !r.0.data.isActive
      && r.0.data.suspensionReason == Some(if Present(notes) then notes.value else "KYC rejected")
  {
    if !(Present(sellerId) && Present(action)) then
      (Fail(400, "Seller ID and action are required"), profiles)
    else if action.value != "approve" && action.value != "reject" then
      (Fail(400, "Action must be approve or reject"), profiles)
    else
      match FindSeller(profiles, sellerId.value)
      case None => (Fail(404, "Seller not found"), profiles)
      case Some(i) =>
        var p := Decide(profiles[i], action.value, notes, now);
        (Ok(200, DecisionMessage(action.value), p), profiles[i := p])
  }

  /** A decision leaves the profile reviewed: its KYC status is a schema value other than
      pending, and the profile is active iff it was approved. */
  lemma DecisionReviewed(sellerId: Option<string>, action: Option<string>, notes: Option<string>,
                         profiles: seq<Sellers.SellerProfile>, now: int)
    requires VerifySeller(sellerId, action, notes, profiles, now).0.Ok?
    ensures var p := VerifySeller(sellerId, action, notes, profiles, now).0.data;
      && p.kycStatus in Sellers.KycStatuses && p.kycStatus != "pending"
      && (p.isActive <==> p.kycStatus == "approved")
  {
  }

  /** Repeating a decision at the same instant changes nothing more. */
  lemma DecisionIdempotent(sellerId: Option<string>, action: Option<string>, notes: Option<string>,
                           profiles: seq<Sellers.SellerProfile>, now: int)
    requires VerifySeller(sellerId, action, notes, profiles, now).0.Ok?
    ensures var once := VerifySeller(sellerId, action, notes, profiles, now).1;
      VerifySeller(sellerId, action, notes, once, now).1 == once
  {
    var i := FindSeller(profiles, sellerId.value).value;
    var once := VerifySeller(sellerId, action, notes, profiles, now).1;
    assert once == profiles[i := Decide(profiles[i], action.value, notes, now)];
    assert once[i].id == sellerId.value;
    var j := FindSeller(once, sellerId.value).value;
    assert forall k :: 0 <= k < |profiles| && k != i ==> once[k] == profiles[k];
    assert j == i;
  }
}

=== FILE: authform.dfy ===
/** The customer and mitra sign-up / login page (`frontend/src/pages/Auth.jsx`): a card choice,
    one form shared by signup and login, an OTP step and a success screen. The calls to the API
    are parameters that say how each request ended. */
module AuthPage {
  import opened Wrappers
  import opened Text
  import opened Patterns
  import AuthRoutes

  datatype Step = Choice | SignupStep | LoginStep | OtpStep | SuccessStep

  /** The keys of `formData`, and `general`, the extra key of the `errors` object. */
  datatype Field = Email | FullName | Password | ConfirmPassword | Otp | General

  /** `formData`: every field is a string and starts empty. */
  datatype Form = Form(email: string, fullName: string, password: string, confirmPassword: string,
                       otp: string)

  type Errors = map<Field, string>

  /** `userType` is `''` until a card is clicked. */
  datatype Page = Page(step: Step, userType: string, isLogin: bool, form: Form, errors: Errors)

  const InitialPage: Page := Page(Choice, "", false, Form("", "", "", "", ""), map[])

  function Get(form: Form, f: Field): string {
    match f
    case Email => form.email
    case FullName => form.fullName
    case Password => form.password
    case ConfirmPassword => form.confirmPassword
    case Otp => form.otp
    case General => ""
  }

  /** `handleInputChange(field, value)`: the field takes the value, and its error is blanked if
      one is showing. */
  function HandleInputChange(p: Page, field: Field, value: string): (r: Page)
    requires field != General
    ensures Get(r.form, field) == value
    ensures forall f :: f != field ==> Get(r.form, f) == Get(p.form, f)
    ensures forall f :: f != field ==> (f in r.errors <==> f in p.errors) && (f in p.errors ==> r.errors[f] == p.errors[f])
    ensures field in r.errors <==> field in p.errors
    ensures field in p.errors ==> r.errors[field] == (if p.errors[field] != "" then "" else p.errors[field])
    ensures r.step == p.step && r.userType == p.userType && r.isLogin == p.isLogin
  {
    var form := match field
      case Email => p.form.(email := value)
      case FullName => p.form.(fullName := value)
      case Password => p.form.(password := value)
      case ConfirmPassword => p.form.(confirmPassword := value)
      case Otp => p.form.(otp := value);
    var errors := if field in p.errors && p.errors[field] != "" then p.errors[field := ""] else p.errors;
    p.(form := form, errors := errors)
  }

  // ---------------------------------------------------------------------------
  // Validation

  /** The message `validateForm` sets for field `f`, if any. Full name and confirmation are
      only checked when signing up. */
  function Problem(form: Form, isLogin: bool, f: Field): (r: Option<string>)
    ensures f == Email ==> (r.Some? <==> !ContactLike(form.email))
    ensures f == Email && r.Some? ==>
      r.value == (if form.email == "" then "Email/Phone is required" else "Enter a valid email or 10-digit phone number")
    ensures f == Password ==> (r.Some? <==> JsLength(form.password) < 6)
    ensures f == FullName ==> (r.Some? <==> !isLogin && form.fullName == "")
    ensures f == ConfirmPassword ==>
      (r.Some? <==> !isLogin && (form.confirmPassword == "" || form.password != form.confirmPassword))
    ensures f == Otp || f == General ==> r.None?
  {
    match f
    case Email =>
      if form.email == "" then Some("Email/Phone is required")
      else if !EmailLike(form.email) && !TenDigits(form.email) then Some("Enter a valid email or 10-digit phone number")
      else None
    case FullName =>
      if !isLogin && form.fullName == "" then Some("Full name is required") else None
    case Password =>
      if form.password == "" then Some("Password is required")
      else if JsLength(form.password) < 6 then Some("Password must be at least 6 characters")
      else None
    case ConfirmPassword =>
      if !isLogin && form.confirmPassword == "" then Some("Please confirm your password")
      else if !isLogin && form.password != form.confirmPassword then Some("Passwords do not match")
      else None
    case _ => None
  }

  /** `validateForm`: one error per failing field, and nothing else. */
  function ValidateForm(form: Form, isLogin: bool): (errs: Errors)
    ensures forall f :: f in errs <==> Problem(form, isLogin, f).Some?
    ensures forall f :: f in errs ==> errs[f] == Problem(form, isLogin, f).value
  {
    map f | f in {Email, FullName, Password, ConfirmPassword} && Problem(form, isLogin, f).Some?
      :: Problem(form, isLogin, f).value
  }

  /** What the form demands: a contact and a password of six or more characters in both modes,
      and for signup also a name and a matching confirmation. */
  predicate FormValid(form: Form, isLogin: bool) {
    && ContactLike(form.email) && JsLength(form.password) >= 6
    && (!isLogin ==> form.fullName != "" && form.confirmPassword == form.password)
  }

  lemma FormErrors(form: Form, isLogin: bool)
    ensures ValidateForm(form, isLogin) == map[] <==> FormValid(form, isLogin)
  {
    var errs := ValidateForm(form, isLogin);
    if errs == map[] {
      assert Email !in errs && Password !in errs && FullName !in errs && ConfirmPassword !in errs;
    } else {
      var f :| f in errs;
      assert f == Email || f == FullName || f == Password || f == ConfirmPassword;
    }
  }

  /** In login mode the name and confirmation fields are ignored whatever they hold. */
  lemma LoginIgnoresSignupFields(form: Form, name: string, confirm: string)
    ensures ValidateForm(form.(fullName := name, confirmPassword := confirm), true) == ValidateForm(form, true)
  {
    var form' := form.(fullName := name, confirmPassword := confirm);
    assert forall f :: Problem(form', true, f) == Problem(form, true, f);
  }

  /** The contact and password rules are the same in both modes. */
  lemma ModesShareRules(form: Form, f: Field)
    requires f == Email || f == Password
    ensures Problem(form, true, f) == Problem(form, false, f)
  {
  }

  // ---------------------------------------------------------------------------
  // Navigation

  /** The customer and mitra cards pick the user type and open the signup form. */
  function ChooseCard(p: Page, mitra: bool): (r: Page)
    requires p.step == Choice
    ensures r.step == SignupStep && r.userType in AuthRoutes.SignupRoles
    ensures r.isLogin == p.isLogin && r.form == p.form && r.errors == p.errors
  {
    p.(userType := if mitra then "mitra" else "customer", step := SignupStep)
  }

  /** The login link switches to login mode and opens the same form. */
  function ChooseLogin(p: Page): (r: Page)
    requires p.step == Choice
    ensures r.step == LoginStep && r.isLogin
    ensures r.userType == p.userType && r.form == p.form && r.errors == p.errors
  {
    p.(isLogin := true, step := LoginStep)
  }

  /** The arrow on the form returns to the card choice and keeps everything else. */
  function Back(p: Page): (r: Page)
    requires p.step == SignupStep || p.step == LoginStep
    ensures r.step == Choice && r == p.(step := Choice)
  {
    p.(step := Choice)
  }

  /** The link under the form flips the mode and clears the errors; the step is unchanged. */
  function ToggleMode(p: Page): (r: Page)
    requires p.step == SignupStep || p.step == LoginStep
    ensures r.isLogin != p.isLogin && r.errors == map[]
    ensures r.step == p.step && r.userType == p.userType && r.form == p.form
  {
    p.(isLogin := !p.isLogin, errors := map[])
  }

  lemma ToggleTwice(p: Page)
    requires p.step == SignupStep || p.step == LoginStep
    ensures ToggleMode(ToggleMode(p)) == p.(errors := map[])
  {
  }

  /** Reaching signup mode from the login link never sets a user type, so the signup request
      then carries an empty role. */
  lemma LoginThenSignupHasNoRole()
    ensures var p := ToggleMode(ChooseLogin(InitialPage));
      !p.isLogin && p.step == LoginStep && SignupBody(p).role == Some("")
  {
  }

  /** The mode flag survives a trip back to the cards: a card chosen after the login link opens
      the form in login mode. */
  lemma ModeSurvivesBack(mitra: bool)
    ensures ChooseCard(Back(ChooseLogin(InitialPage)), mitra).isLogin
  {
  }

  // ---------------------------------------------------------------------------
  // Submission

  /** How a request ended: an answer whose body has the `success` / `ok` flags, or a thrown
      error whose response may carry a message. */
  datatype Response = Answered(success: bool, ok: bool) | Threw(message: Option<string>)

  /** The signup request body: the role is whatever `userType` holds. */
  function SignupBody(p: Page): (r: AuthRoutes.SignupRequest)
    ensures r.name == Some(p.form.fullName) && r.emailOrPhone == Some(p.form.email)
    ensures r.password == Some(p.form.password) && r.role == Some(p.userType)
  {
    AuthRoutes.SignupRequest(Some(p.form.fullName), Some(p.form.email), Some(p.form.password),
                             Some(p.userType), None, None, None)
  }

  /** What submitting the form does. */
  datatype Submitted = Submitted(page: Page, sent: bool, toDashboard: bool)

  /** `handleSubmit`: an invalid form shows its errors and sends nothing. Otherwise the errors
      are cleared and one request goes out: a successful login leads to the dashboard, a signup
      answered with `success` or `ok` moves to the OTP step, and a thrown error shows its
      message (or "Something went wrong") under `general`. */
  function HandleSubmit(p: Page, response: Response): (r: Submitted)
    requires p.step == SignupStep || p.step == LoginStep
    ensures !FormValid(p.form, p.isLogin) ==>
      r == Submitted(p.(errors := ValidateForm(p.form, p.isLogin)), false, false)
    ensures FormValid(p.form, p.isLogin) ==> r.sent
    ensures r.page.step == OtpStep <==>
      FormValid(p.form, p.isLogin) && !p.isLogin && response.Answered? && (response.success || response.ok)
    ensures r.page.step != OtpStep ==> r.page.step == p.step
    ensures r.toDashboard <==>
      FormValid(p.form, p.isLogin) && p.isLogin && response.Answered? && response.success
    ensures r.sent && response.Threw? ==>
      r.page.errors == map[General := OrElse(response.message, "Something went wrong")]
    ensures r.sent && response.Answered? ==> r.page.errors == map[]
    ensures r.page.form == p.form && r.page.isLogin == p.isLogin && r.page.userType == p.userType
  {
    FormErrors(p.form, p.isLogin);
    var errs := ValidateForm(p.form, p.isLogin);
    if errs != map[] then Submitted(p.(errors := errs), false, false)
    else
      var cleared := p.(errors := map[]);
      match response
      case Threw(message) =>
        Submitted(cleared.(errors := map[General := OrElse(message, "Something went wrong")]), true, false)
      case Answered(success, ok) =>
        if p.isLogin then Submitted(cleared, true, success)
        else if success || ok then Submitted(cleared.(step := OtpStep), true, false)
        else Submitted(cleared, true, false)
  }

  /** `handleOTPSubmit`: a code that is not exactly six characters is refused before sending;
      a verified code shows the success screen, a thrown error shows its message (or
      "Invalid OTP") under `otp`, and any other answer changes nothing. */
  function HandleOtpSubmit(p: Page, response: Response): (r: Page)
    requires p.step == OtpStep
    ensures JsLength(p.form.otp) != 6 ==> r == p.(errors := map[Otp := "Please enter a valid 6-digit OTP"])
    ensures r.step == SuccessStep <==> JsLength(p.form.otp) == 6 && response.Answered? && response.success
    ensures r.step != SuccessStep ==> r.step == OtpStep
    ensures JsLength(p.form.otp) == 6 && response.Threw? ==>
      r.errors == map[Otp := OrElse(response.message, "Invalid OTP")]
    ensures r.form == p.form
  {
    if p.form.otp == "" || JsLength(p.form.otp) != 6 then p.(errors := map[Otp := "Please enter a valid 6-digit OTP"])
    else
      match response
      case Threw(message) => p.(errors := map[Otp := OrElse(message, "Invalid OTP")])
      case Answered(success, _) => if success then p.(step := SuccessStep) else p
  }

  /** A code typed into the OTP field that reaches the success screen is six digits. */
  lemma VerifiedOtpIsDigits(p: Page, raw: string, response: Response)
    requires p.step == OtpStep
    ensures var typed := HandleInputChange(p, Otp, OtpInput(raw));
      HandleOtpSubmit(typed, response).step == SuccessStep ==>
        JsLength(typed.form.otp) == 6 && AllDigits(typed.form.otp)
  {
  }

  /** A valid signup form whose request is answered reaches the success screen when the code is
      verified; the request it sends carries a role the backend admits when a card was chosen. */
  lemma SignupPath(mitra: bool, form: Form, code: string)
    requires FormValid(form, false) && JsLength(code) == 6
    ensures var p := ChooseCard(InitialPage.(form := form), mitra);
      var s := HandleSubmit(p, Answered(true, false));
      && s.sent && s.page.step == OtpStep
      && SignupBody(p).role.value in AuthRoutes.SignupRoles
      && HandleOtpSubmit(HandleInputChange(s.page, Otp, code), Answered(true, false)).step == SuccessStep
  {
  }
}

=== FILE: authmw.dfy ===
/** The authentication middleware: bearer-token extraction, access-token checking, role gating,
    optional authentication, token issue and the refresh endpoint. JWT signing and verification
    are parameters: a verifier maps a token string to its decoded user id or to the error
    `jwt.verify` would throw. */
module AuthMiddleware {

  import opened Wrappers
  import opened Text
  import opened Http
  import opened Records
  import opened RefreshTokens

  /** What `jwt.verify` does with a token: decodes it, or throws `TokenExpiredError`, or throws
      any other error (bad signature, malformed token). */
  datatype JwtVerdict = Decoded(userId: string) | Expired | Malformed

  /** The claims `generateAccessToken` signs. */
  datatype AccessClaims = AccessClaims(userId: string, role: string, email: string)

  function AccessToken(u: User): (c: AccessClaims)
    ensures c.userId == u.id && c.role == u.role && c.email == u.email
  {
    AccessClaims(u.id, u.role, u.email)
  }

  /** `authHeader && authHeader.split(' ')[1]`, kept only when truthy. */
  function BearerToken(header: Option<string>): (r: Option<string>)
    ensures r.Some? ==> r.value != "" && Present(header) && ' ' !in r.value
    ensures r.Some? ==> HasPrefix(header.value, BeforeFirst(header.value, ' ') + " " + r.value)
    ensures Present(header) && ' ' !in header.value ==> r.None?
  {
    if !Present(header) then None
    else
      var f := SecondField(header.value, ' ');
      if f.None? || f.value == "" then None
      else
        var h := header.value;
        var k := FirstIndex(h, ' ').value;
        assert BeforeFirst(h, ' ') == h[..k] by { BeforeFirstIsPrefix(h, k); }
        assert h[..k] + " " + f.value == h[..k + 1 + |f.value|];
        f
  }

  lemma {:induction false} BeforeFirstIsPrefix(h: string, k: nat)
    requires k < |h| && h[k] == ' ' && ' ' !in h[..k]
    ensures BeforeFirst(h, ' ') == h[..k]
  {
    if k > 0 {
      assert h[1..][..k - 1] == h[1..k];
      BeforeFirstIsPrefix(h[1..], k - 1);
    }
  }

  /** The header `"Bearer " + t` yields `t` for every non-empty token without spaces. */
  lemma BearerRoundTrip(t: string)
    requires t != "" && ' ' !in t
    ensures BearerToken(Some("Bearer " + t)) == Some(t)
  {
    var h := "Bearer " + t;
    assert h[6] == ' ' && ' ' !in h[..6];
    assert FirstIndex(h, ' ') == Some(6);
    assert h[7..] == t;
    BeforeFirstAll(t);
  }

  lemma {:induction false} BeforeFirstAll(s: string)
    requires ' ' !in s
    ensures BeforeFirst(s, ' ') == s
  {
    if |s| > 0 {
      assert ' ' !in s[1..];
      BeforeFirstAll(s[1..]);
    }
  }

  datatype Gate = Admit(user: User) | Deny(status: int, message: string, code: string)

  /** `authenticateToken`. */
  function Authenticate(header: Option<string>, verify: string -> JwtVerdict, users: seq<User>): (r: Gate)
    ensures r.Admit? <==>
      exists t, k :: BearerToken(header) == Some(t) && verify(t) == Decoded(k) && FindById(users, k).Some?
    ensures r.Admit? ==>
      && verify(BearerToken(header).value).Decoded?
      && r.user == users[FindById(users, verify(BearerToken(header).value).userId).value]
    ensures BearerToken(header).None? ==> r == Deny(401, "Access token required", "")
    ensures r.Deny? && BearerToken(header).Some? && verify(BearerToken(header).value).Expired? ==>
      r == Deny(401, "Access token expired", "TOKEN_EXPIRED")
    ensures r.Deny? && BearerToken(header).Some? && verify(BearerToken(header).value).Malformed? ==>
      r == Deny(403, "Invalid token", "")
    ensures BearerToken(header).Some? && verify(BearerToken(header).value).Decoded? &&
            FindById(users, verify(BearerToken(header).value).userId).None? ==>
      r == Deny(401, "Invalid token - user not found", "")
  {
    var t := BearerToken(header);
    if t.None? then Deny(401, "Access token required", "")
    else
      match verify(t.value)
      case Expired => Deny(401, "Access token expired", "TOKEN_EXPIRED")
      case Malformed => Deny(403, "Invalid token", "")
      case Decoded(k) =>
        var i := FindById(users, k);
        if i.None? then Deny(401, "Invalid token - user not found", "")
        else Admit(users[i.value])
  }

  /** `authorize(roles)`: `None` lets the request through. */
  function Authorize(roles: seq<string>, user: Option<User>): (r: Option<(int, string)>)
    ensures r.None? <==> user.Some? && (|roles| == 0 || user.value.role in roles)
    ensures user.None? ==> r == Some((401, "Authentication required"))
    ensures user.Some? && r.Some? ==> r == Some((403, "Insufficient permissions"))
  {
    if user.None? then Some((401, "Authentication required"))
    else if |roles| > 0 && user.value.role !in roles then Some((403, "Insufficient permissions"))
    else None
  }

  /** `authenticateToken` followed by `authorize(roles)`, as every protected route mounts them. */
  function Guard(roles: seq<string>, header: Option<string>, verify: string -> JwtVerdict,
                 users: seq<User>): (r: Gate)
    ensures r.Admit? ==>
      r == Authenticate(header, verify, users) && (|roles| == 0 || r.user.role in roles)
    ensures Authenticate(header, verify, users).Deny? ==> r == Authenticate(header, verify, users)
    ensures Authenticate(header, verify, users).Admit? ==>
      (|roles| > 0 && Authenticate(header, verify, users).user.role !in roles ==>
         r == Deny(403, "Insufficient permissions", ""))
  {
    var a := Authenticate(header, verify, users);
    if a.Deny? then a
    else
      match Authorize(roles, Some(a.user))
      case None => a
      case Some((s, m)) => Deny(s, m, "")
  }

  /** `optionalAuth`: never rejects; the user is attached only when a token decodes to a user
      that exists. */
  function OptionalAuth(header: Option<string>, verify: string -> JwtVerdict, users: seq<User>)
    : (r: Option<User>)
    ensures r.Some? <==> Authenticate(header, verify, users).Admit?
    ensures r.Some? ==> r.value == Authenticate(header, verify, users).user
  {
    var t := BearerToken(header);
    if t.None? then None
    else
      match verify(t.value)
      case Decoded(k) =>
        var i := FindById(users, k);
        if i.None? then None else Some(users[i.value])
      case _ => None
  }

  /** What the platform supplies when a refresh token is issued: its document id, the signed
      token string and the clock. */
  datatype IssueEnv = IssueEnv(recordId: string, token: string, now: int)

  /** `generateRefreshToken(user)`: `None` when storing the token fails (the handler then
      answers 500). */
  function GenerateRefreshToken(store: seq<TokenRecord>, u: User, env: IssueEnv)
    : (r: Option<seq<TokenRecord>>)
    ensures r.Some? ==> FindActive(r.value, env.token).Some?
    ensures r.Some? ==> |r.value| == |store| + 1 && r.value[..|store|] == store
    ensures r.Some? ==> var t := r.value[|store|];
      t.userId == u.id && !t.revoked && t.expiresAt == env.now + LifetimeMs
    ensures r.None? <==> exists i :: 0 <= i < |store| && store[i].token == env.token
  {
    var r := Issue(store, env.recordId, u.id, env.token, env.now);
    if r.Some? then
      var s := r.value;
      assert s[|store|].token == env.token && !s[|store|].revoked;
      r
    else r
  }

  datatype RefreshReply = RefreshReply(accessToken: AccessClaims, id: string, name: string,
                                       email: string, role: string)

  /** `POST /auth/refresh` (`refreshAccessToken`). */
  function RefreshAccess(body: Option<string>, store: seq<TokenRecord>, users: seq<User>,
                         verify: string -> JwtVerdict, now: int)
    : (r: (Reply<RefreshReply>, seq<TokenRecord>))
    ensures !Present(body) ==> r.0 == Fail(401, "Refresh token required") && r.1 == store
    ensures Present(body) && FindActive(store, body.value).None? ==>
      r.0 == Fail(403, "Invalid refresh token")
    ensures r.0.Ok? <==>
      && Present(body) && FindActive(store, body.value).Some?
      && verify(body.value).Decoded? && FindById(users, verify(body.value).userId).Some?
    ensures r.0.Ok? ==>
      var u := users[FindById(users, verify(body.value).userId).value];
      var i := FindActive(store, body.value).value;
      && r.0.status == 200
      && r.0.data == RefreshReply(AccessToken(u), u.id, u.name, u.email, u.role)
      && r.1 == store[i := store[i].(lastUsed := now)]
    ensures r.0.Err? ==> r.1 == store
    ensures r.0.Err? && Present(body) && FindActive(store, body.value).Some? ==>
      r.0 == match verify(body.value)
             case Expired => Fail(403, "Refresh token expired")
             case Malformed => Fail(500, InternalError)
             case Decoded(_) => Fail(403, "Invalid refresh token - user not found")
  {
    if !Present(body) then (Fail(401, "Refresh token required"), store)
    else
      var t := body.value;
      var i := FindActive(store, t);
      if i.None? then (Fail(403, "Invalid refresh token"), store)
      else
        match verify(t)
        case Expired => (Fail(403, "Refresh token expired"), store)
        case Malformed => (Fail(500, InternalError), store)
        case Decoded(k) =>
          var j := FindById(users, k);
          if j.None? then (Fail(403, "Invalid refresh token - user not found"), store)
          else
            var u := users[j.value];
            (Ok(200, "", RefreshReply(AccessToken(u), u.id, u.name, u.email, u.role)),
             store[i.value := store[i.value].(lastUsed := now)])
  }
}

=== FILE: authroutes.dfy ===
/** The `/auth` routes: signup (customer or mitra) with OTP delivery, OTP confirmation that
    issues the first session, password login, logout and OTP resend. Each handler maps a request
    and the three collections it touches to a reply and the collections afterwards. */
module AuthRoutes {

  import opened Wrappers
  import opened Text
  import opened Http
  import opened Records
  import opened Otp
  import opened RefreshTokens
  import opened AuthMiddleware

  datatype AuthState = AuthState(users: seq<User>, otps: seq<OtpRecord>, tokens: seq<TokenRecord>)

  /** What the platform supplies to one request: the clock, the new user's id, the OTP service's
      inputs and the refresh token that would be signed. */
  datatype Env = Env(now: int, newUserId: string, otp: SendEnv, refresh: IssueEnv)

  predicate EnvOk(env: Env) { 0.0 <= env.otp.random < 1.0 }

  datatype SignupRequest = SignupRequest(
    name: Option<string>,
    emailOrPhone: Option<string>,
    password: Option<string>,
    role: Option<string>,
    subscriptionType: Option<string>,
    paymentAmount: Option<int>,
    creditsEarned: Option<int>)

  /** The mitra fields echoed back in the signup reply, exactly as the request carried them. */
  datatype MitraEcho = MitraEcho(subscriptionType: Option<string>, paymentAmount: Option<int>,
                                 creditsEarned: Option<int>)

  datatype SignupData = SignupData(userId: string, otpSent: bool, target: string, role: string,
                                   mitra: Option<MitraEcho>)

  /** The role signup uses: the body's, or 'customer' when the body has none. */
  function SignupRole(req: SignupRequest): string {
    req.role.GetOr("customer")
  }

  /** The document signup builds (before the schema setters run). */
  function SignupUser(req: SignupRequest, e: string, env: Env): (u: User)
    requires Present(req.name) && Present(req.password)
    ensures !u.verified && u.role == SignupRole(req) && u.password == Digest(req.password.value)
    ensures u.id == env.newUserId && u.name == Trim(req.name.value)
    ensures u.email == ContactEmail(e) && u.phone == ContactPhone(e)
    ensures u.role == "mitra" ==>
      && u.creditsEarned == (if req.creditsEarned.Some? then req.creditsEarned.value else 0)
      && u.subscriptionStatus == Some("active") && u.subscriptionDate == Some(env.now)
    ensures u.role != "mitra" ==> u.subscriptionType.None? && u.subscriptionStatus.None? && u.creditsEarned == 0
  {
    var role := SignupRole(req);
    var base := NewUser(env.newUserId, Trim(req.name.value),
                        ContactEmail(e), ContactPhone(e),
                        req.password.value, role, env.now);
    if role == "mitra" then
      base.(subscriptionType := req.subscriptionType,
            paymentAmount := req.paymentAmount.GetOr(0),
            creditsEarned := req.creditsEarned.GetOr(0),
            subscriptionStatus := Some("active"),
            subscriptionDate := Some(env.now))
    else base
  }

  /** The message of a successful signup. */
  function SignupMessage(role: string): string {
    if role == "mitra" then "Payment processed successfully! OTP sent for verification." else "OTP sent"
  }

  /** Signup past its guards: saves the new user, then sends the signup OTP. A rejected save
      answers 500 with nothing written; a failed delivery answers 500 after both writes. */
  function CreateAccount(req: SignupRequest, st: AuthState, env: Env): (r: (Reply<SignupData>, AuthState))
    requires EnvOk(env)
    requires Present(req.name) && Present(req.emailOrPhone) && Present(req.password)
    ensures var e := req.emailOrPhone.value;
      r.0.Ok? <==> InsertUser(st.users, SignupUser(req, e, env)).Some?
                   && SendOtp(st.otps, e, "signup", env.otp).0.Sent?
    ensures r.0.Err? ==> r.0 == Fail(500, InternalError)
    ensures InsertUser(st.users, SignupUser(req, req.emailOrPhone.value, env)).None? ==> r.1 == st
    ensures r.1.tokens == st.tokens
    ensures r.0.Ok? ==>
      var e := req.emailOrPhone.value;
      && r.0.status == 200
      && r.0.message == SignupMessage(SignupRole(req))
      && r.0.data.target == (if IsEmailTarget(e) then "email" else "phone")
      && r.0.data.role == SignupRole(req)
      && (r.0.data.mitra.Some? <==> SignupRole(req) == "mitra")
      && r.1.users == st.users + [Normalised(SignupUser(req, e, env))]
  {
    var e := req.emailOrPhone.value;
    var u := SignupUser(req, e, env);
    match InsertUser(st.users, u)
    case None => (Fail(500, InternalError), st)
    case Some(users') =>
      var (sent, otps') := SendOtp(st.otps, e, "signup", env.otp);
      if sent.SendFailed? then (Fail(500, InternalError), st.(users := users', otps := otps'))
      else
        var role := SignupRole(req);
        var echo := if role == "mitra"
                    then Some(MitraEcho(req.subscriptionType, req.paymentAmount, req.creditsEarned))
                    else None;
        (Ok(200, SignupMessage(role),
            SignupData(env.newUserId, true, if IsEmailTarget(e) then "email" else "phone", role, echo)),
         st.(users := users', otps := otps'))
  }

  /** `POST /auth/signup` as written: the body's role goes to the schema unchecked. */
  function Signup(req: SignupRequest, st: AuthState, env: Env): (r: (Reply<SignupData>, AuthState))
    requires EnvOk(env)
    ensures !(Present(req.name) && Present(req.emailOrPhone) && Present(req.password)) ==>
      r == (Fail(400, "Name, email/phone, and password are required"), st)
    ensures Present(req.name) && Present(req.emailOrPhone) && Present(req.password) ==>
      if FindByLogin(st.users, req.emailOrPhone.value).Some?
      then r == (Fail(400, "User already exists with this email/phone"), st)
      else r == CreateAccount(req, st, env)
  {
    if !(Present(req.name) && Present(req.emailOrPhone) && Present(req.password)) then
      (Fail(400, "Name, email/phone, and password are required"), st)
    else if FindByLogin(st.users, req.emailOrPhone.value).Some? then
      (Fail(400, "User already exists with this email/phone"), st)
    else CreateAccount(req, st, env)
  }

  /** The roles the `register` validation chain admits for self-service signup. */
  const SignupRoles: set<string> := {"customer", "mitra"}

  /** `POST /auth/signup` with the role rule of the imported validation chain applied first:
      a role outside customer/mitra is rejected with 400 "Validation failed". */
  function SignupChecked(req: SignupRequest, st: AuthState, env: Env): (r: (Reply<SignupData>, AuthState))
    requires EnvOk(env)
    ensures req.role.Some? && req.role.value !in SignupRoles ==> r == (Fail(400, "Validation failed"), st)
    ensures req.role.None? || req.role.value in SignupRoles ==> r == Signup(req, st, env)
    ensures r.0.Ok? ==> r.0.data.role in SignupRoles
    ensures r.0.Ok? ==> exists u :: r.1.users == st.users + [u] && u.role in SignupRoles
  {
    if req.role.Some? && req.role.value !in SignupRoles then (Fail(400, "Validation failed"), st)
    else Signup(req, st, env)
  }

  /** The unchecked route stores whatever schema role the body names, `admin` included, where
      the checked route refuses it. */
  lemma SignupAcceptsAdmin(req: SignupRequest, st: AuthState, env: Env)
    requires EnvOk(env) && env.otp.deliveryOk
    requires req.role == Some("admin")
    requires Present(req.name) && Present(req.emailOrPhone) && Present(req.password)
    requires FindByLogin(st.users, req.emailOrPhone.value).None?
    requires InsertUser(st.users, SignupUser(req, req.emailOrPhone.value, env)).Some?
    ensures Signup(req, st, env).0.Ok?
    ensures Signup(req, st, env).1.users[|st.users|].role == "admin"
  {
    var e := req.emailOrPhone.value;
    var r := CreateAccount(req, st, env);
    assert SendOtp(st.otps, e, "signup", env.otp).0.Sent? by {
      assert "signup" in Purposes;
    }
    assert r.0.Ok?;
    assert Signup(req, st, env) == r;
    assert r.1.users[|st.users|] == Normalised(SignupUser(req, e, env));
  }

  /** The checked route refuses the same request before touching the database. */
  lemma SignupCheckedRefusesAdmin(req: SignupRequest, st: AuthState, env: Env)
    requires EnvOk(env)
    requires req.role == Some("admin")
    ensures SignupChecked(req, st, env) == (Fail(400, "Validation failed"), st)
  {
    assert "admin" !in SignupRoles by {
      assert "admin"[0] != "customer"[0] && "admin"[0] != "mitra"[0];
    }
  }

  /** The witness's identifier is an e-mail address stored as typed. */
  lemma WitnessEmail()
    ensures IsEmailTarget("a@b") && NormEmail(ContactEmail("a@b")) == "a@b"
  {
    assert "a@b"[1] == '@';
    assert Lower("a@b") == "a@b";
    TrimNoSpace("a@b");
  }

  /** The witness's user, after the schema's setters. */
  lemma WitnessUserFields(req: SignupRequest, env: Env)
    requires req == SignupRequest(Some("M"), Some("a@b"), Some("secret"), Some("admin"), None, None, None)
    ensures var u := SignupUser(req, "a@b", env);
      && Trim(u.name) == "M" && NormEmail(u.email) == "a@b" && u.password.secret == "secret"
      && u.role == "admin" && u.subscriptionType.None?
  {
    TrimNoSpace("M");
    WitnessEmail();
  }

  /** The witness's user passes the schema and saves into an empty collection. */
  lemma WitnessUserSaves(req: SignupRequest, env: Env)
    requires req == SignupRequest(Some("M"), Some("a@b"), Some("secret"), Some("admin"), None, None, None)
    ensures InsertUser([], SignupUser(req, "a@b", env)).Some?
  {
    WitnessUserFields(req, env);
    WitnessFieldsSave(SignupUser(req, "a@b", env));
  }

  /** A user with the witness's fields passes the schema and saves into an empty collection. */
  lemma WitnessFieldsSave(u: User)
    requires Trim(u.name) == "M" && NormEmail(u.email) == "a@b" && u.password.secret == "secret"
    requires u.role == "admin" && u.subscriptionType.None?
    ensures InsertUser([], u).Some?
  {
    assert JsLength(Trim(u.name)) == 1 by { NarrowLengths("M"); }
    assert JsLength(u.password.secret) == 6 by { NarrowLengths("secret"); }
    assert u.role in Roles;
    assert SchemaValid(u);
  }

  /** A concrete administrator signup on an empty database. */
  lemma AdminSignupWitness()
    ensures var req := SignupRequest(Some("M"), Some("a@b"), Some("secret"), Some("admin"), None, None, None);
      var env := Env(0, "u1", SendEnv(0, true, 0.0, "o1", true), IssueEnv("t1", "jwt", 0));
      && Signup(req, AuthState([], [], []), env).0.Ok?
      && Signup(req, AuthState([], [], []), env).1.users[0].role == "admin"
      && SignupChecked(req, AuthState([], [], []), env).0 == Fail(400, "Validation failed")
  {
    var req := SignupRequest(Some("M"), Some("a@b"), Some("secret"), Some("admin"), None, None, None);
    var env := Env(0, "u1", SendEnv(0, true, 0.0, "o1", true), IssueEnv("t1", "jwt", 0));
    WitnessUserSaves(req, env);
    SignupAcceptsAdmin(req, AuthState([], [], []), env);
    SignupCheckedRefusesAdmin(req, AuthState([], [], []), env);
  }

  /** A second identical signup is rejected: the first one's user is found by the lookup. */
  lemma RepeatedSignupRejected(req: SignupRequest, st: AuthState, env: Env, env2: Env)
    requires EnvOk(env) && EnvOk(env2)
    requires Signup(req, st, env).0.Ok?
    ensures Signup(req, Signup(req, st, env).1, env2).0 == Fail(400, "User already exists with this email/phone")
  {
    var st' := Signup(req, st, env).1;
    var e := req.emailOrPhone.value;
    var u := SignupUser(req, e, env);
    ContactFoundAgain(u, e);
    assert st'.users == st.users + [Normalised(u)];
    FoundAtEnd(st.users, Normalised(u), e);
  }

  /** Signup never stores two users with one e-mail. */
  lemma SignupKeepsEmailsUnique(req: SignupRequest, st: AuthState, env: Env)
    requires EnvOk(env)
    requires EmailsUnique(st.users)
    ensures EmailsUnique(Signup(req, st, env).1.users)
  {
    var r := Signup(req, st, env);
    if Present(req.name) && Present(req.emailOrPhone) && Present(req.password)
       && FindByLogin(st.users, req.emailOrPhone.value).None? {
      InsertKeepsEmailsUnique(st.users, SignupUser(req, req.emailOrPhone.value, env));
    }
  }

  datatype SessionUser = SessionUser(id: string, name: string, email: string, phone: Option<string>,
                                     role: string, verified: bool)

  datatype Session = Session(accessToken: AccessClaims, refreshToken: string, user: SessionUser)

  function SessionFor(u: User, refresh: string): Session {
    Session(AccessToken(u), refresh, SessionUser(u.id, u.name, u.email, u.phone, u.role, u.verified))
  }

  /** Issues the refresh token and records the login, as both verify-otp and login end. */
  function OpenSession(st: AuthState, i: nat, env: Env): (r: (Reply<Session>, AuthState))
    requires i < |st.users|
    ensures r.0.Ok? <==> GenerateRefreshToken(st.tokens, st.users[i], env.refresh).Some?
    ensures r.0.Ok? ==>
      && r.0 == Ok(200, "", SessionFor(st.users[i], env.refresh.token))
      && r.1.users == st.users[i := RecordLogin(st.users[i], env.now)]
      && r.1.tokens == GenerateRefreshToken(st.tokens, st.users[i], env.refresh).value
    ensures r.0.Err? ==> r == (Fail(500, InternalError), st)
    ensures r.1.otps == st.otps
  {
    match GenerateRefreshToken(st.tokens, st.users[i], env.refresh)
    case None => (Fail(500, InternalError), st)
    case Some(tokens') =>
      var u := st.users[i];
      (Ok(200, "", SessionFor(u, env.refresh.token)),
       st.(users := st.users[i := RecordLogin(u, env.now)], tokens := tokens'))
  }

  /** Marks the user verified and opens the session; a failure to store the refresh token
      answers 500 after the verified flag was saved. */
  function ConfirmUser(st: AuthState, i: nat, env: Env): (r: (Reply<Session>, AuthState))
    requires i < |st.users|
    ensures |r.1.users| == |st.users| && r.1.users[i].verified
    ensures forall j :: 0 <= j < |st.users| && j != i ==> r.1.users[j] == st.users[j]
    ensures r.0.Ok? ==> r.0.data.user.verified && r.0.data.user.id == st.users[i].id
    ensures r.0.Err? ==> r.0 == Fail(500, InternalError)
    ensures r.1.otps == st.otps
  {
    var st2 := st.(users := st.users[i := st.users[i].(verified := true)]);
    var (reply, st3) := OpenSession(st2, i, env);
    if reply.Err? then (reply, st2) else (reply, st3)
  }

  /** `POST /auth/verify-otp`. */
  function VerifySignup(emailOrPhone: Option<string>, otp: Option<string>, st: AuthState, env: Env)
    : (r: (Reply<Session>, AuthState))
    ensures !(Present(emailOrPhone) && Present(otp)) ==>
      r == (Fail(400, "Email/phone and OTP are required"), st)
    ensures Present(emailOrPhone) && Present(otp) ==>
      var (check, otps') := VerifyOtp(st.otps, emailOrPhone.value, otp.value, "signup", env.now);
      var i := FindByLogin(st.users, emailOrPhone.value);
      && r.1.otps == otps'
      && (!check.success ==> r == (Fail(400, check.message), st.(otps := otps')))
      && (check.success && i.None? ==> r == (Fail(404, "User not found"), st.(otps := otps')))
      && (check.success && i.Some? ==> r == ConfirmUser(st.(otps := otps'), i.value, env))
  {
    if !(Present(emailOrPhone) && Present(otp)) then
      (Fail(400, "Email/phone and OTP are required"), st)
    else
      var e := emailOrPhone.value;
      var (check, otps') := VerifyOtp(st.otps, e, otp.value, "signup", env.now);
      var st1 := st.(otps := otps');
      if !check.success then (Fail(400, check.message), st1)
      else
        var i := FindByLogin(st.users, e);
        if i.None? then (Fail(404, "User not found"), st1)
        else ConfirmUser(st1, i.value, env)
  }

  /** `POST /auth/login`. */
  function Login(emailOrPhone: Option<string>, password: Option<string>, st: AuthState, env: Env)
    : (r: (Reply<Session>, AuthState))
    ensures !(Present(emailOrPhone) && Present(password)) ==>
      r == (Fail(400, "Email/phone and password are required"), st)
    ensures Present(emailOrPhone) && Present(password) ==>
      var i := FindByLogin(st.users, emailOrPhone.value);
      && (i.None? ==> r == (Fail(401, "Invalid credentials"), st))
      && (i.Some? && !PasswordMatches(st.users[i.value].password, password.value) ==>
            r == (Fail(401, "Invalid credentials"), st))
      && (i.Some? && PasswordMatches(st.users[i.value].password, password.value) && !st.users[i.value].verified ==>
            r == (Err(401, "Please verify your account first", "ACCOUNT_NOT_VERIFIED"), st))
    ensures r.0.Ok? <==>
      && Present(emailOrPhone) && Present(password)
      && FindByLogin(st.users, emailOrPhone.value).Some?
      && var u := st.users[FindByLogin(st.users, emailOrPhone.value).value];
      && PasswordMatches(u.password, password.value) && u.verified
      && GenerateRefreshToken(st.tokens, u, env.refresh).Some?
    ensures r.0.Err? ==> r.1 == st
  {
    if !(Present(emailOrPhone) && Present(password)) then
      (Fail(400, "Email/phone and password are required"), st)
    else
      var i := FindByLogin(st.users, emailOrPhone.value);
      if i.None? then (Fail(401, "Invalid credentials"), st)
      else
        var u := st.users[i.value];
        if !PasswordMatches(u.password, password.value) then (Fail(401, "Invalid credentials"), st)
        else if !u.verified then (Err(401, "Please verify your account first", "ACCOUNT_NOT_VERIFIED"), st)
        else OpenSession(st, i.value, env)
  }

  /** Right after signing up, the same credentials are refused until the OTP is confirmed. */
  lemma SignupThenLoginUnverified(req: SignupRequest, st: AuthState, env: Env, env2: Env)
    requires EnvOk(env)
    requires Signup(req, st, env).0.Ok?
    ensures Login(req.emailOrPhone, req.password, Signup(req, st, env).1, env2).0
         == Err(401, "Please verify your account first", "ACCOUNT_NOT_VERIFIED")
  {
    var e := req.emailOrPhone.value;
    var u := Normalised(SignupUser(req, e, env));
    SignupAppends(req, st, env);
    ContactFoundAgain(SignupUser(req, e, env), e);
    FoundAtEnd(st.users, u, e);
    UnverifiedRefused(req.emailOrPhone, req.password, Signup(req, st, env).1, env2, |st.users|);
  }

  /** A successful signup appends the new, unverified user behind the others, after a lookup that
      found no one. */
  lemma SignupAppends(req: SignupRequest, st: AuthState, env: Env)
    requires EnvOk(env)
    requires Signup(req, st, env).0.Ok?
    ensures Present(req.emailOrPhone) && Present(req.password) && Present(req.name)
    ensures FindByLogin(st.users, req.emailOrPhone.value).None?
    ensures Signup(req, st, env).1.users == st.users + [Normalised(SignupUser(req, req.emailOrPhone.value, env))]
  {
  }

  /** Login refuses an unverified account whose password matches. */
  lemma UnverifiedRefused(emailOrPhone: Option<string>, password: Option<string>, st: AuthState, env: Env, i: nat)
    requires Present(emailOrPhone) && Present(password)
    requires FindByLogin(st.users, emailOrPhone.value) == Some(i) && i < |st.users|
    requires st.users[i].password == Digest(password.value) && !st.users[i].verified
    ensures Login(emailOrPhone, password, st, env).0 == Err(401, "Please verify your account first", "ACCOUNT_NOT_VERIFIED")
  {
  }

  /** `POST /auth/logout`: revokes the first stored token equal to the body's, if any. */
  function Logout(refreshToken: Option<string>, tokens: seq<TokenRecord>, now: int)
    : (r: (Reply<()>, seq<TokenRecord>))
    ensures r.0 == Ok(200, "Logged out successfully", ())
    ensures |r.1| == |tokens|
    ensures !Present(refreshToken) || FindToken(tokens, refreshToken.value).None? ==> r.1 == tokens
    ensures Present(refreshToken) && FindToken(tokens, refreshToken.value).Some? ==>
      var i := FindToken(tokens, refreshToken.value).value;
      r.1 == tokens[i := tokens[i].(revoked := true, revokedAt := Some(now))]
  {
    var out := if Present(refreshToken) then
      match FindToken(tokens, refreshToken.value)
      case None => tokens
      case Some(i) => tokens[i := tokens[i].(revoked := true, revokedAt := Some(now))]
    else tokens;
    (Ok(200, "Logged out successfully", ()), out)
  }

  /** Once logged out, the refresh token no longer yields access tokens. */
  lemma LogoutThenRefreshRefused(t: string, tokens: seq<TokenRecord>, users: seq<User>,
                                 verify: string -> JwtVerdict, now: int, later: int)
    requires t != "" && TokensUnique(tokens)
    ensures RefreshAccess(Some(t), Logout(Some(t), tokens, now).1, users, verify, later).0
         == Fail(403, "Invalid refresh token")
  {
    var after := Logout(Some(t), tokens, now).1;
    forall i | 0 <= i < |after|
      ensures !(after[i].token == t && !after[i].revoked)
    {
      if FindToken(tokens, t).Some? {
        var k := FindToken(tokens, t).value;
        if i != k {
          assert after[i] == tokens[i];
        }
      }
    }
  }

  /** `POST /auth/resend-otp`. */
  function ResendOtp(emailOrPhone: Option<string>, purpose: Option<string>, otps: seq<OtpRecord>,
                     env: SendEnv): (r: (Reply<()>, seq<OtpRecord>))
    requires 0.0 <= env.random < 1.0
    ensures !Present(emailOrPhone) ==> r == (Fail(400, "Email or phone is required"), otps)
    ensures r.0.Ok? <==> Present(emailOrPhone) && purpose.GetOr("signup") in Purposes && env.deliveryOk
    ensures r.0.Ok? ==> r.0 == Ok(200, "OTP sent successfully", ())
    ensures Present(emailOrPhone) && r.0.Err? ==> r.0 == Fail(500, "Failed to send OTP")
  {
    if !Present(emailOrPhone) then (Fail(400, "Email or phone is required"), otps)
    else
      var (sent, otps') := SendOtp(otps, emailOrPhone.value, purpose.GetOr("signup"), env);
      if sent.Sent? then (Ok(200, "OTP sent successfully", ()), otps')
      else (Fail(500, "Failed to send OTP"), otps')
  }
}

=== FILE: collections.dfy ===
/** `Array.prototype.filter` and the database's `find(filter)` over a collection taken in its
    listing order, and the per-key tallies of a `$group` stage. */
module Collections {

  /** The elements that satisfy `keep`, in their original order. */
  function Filter<T>(xs: seq<T>, keep: T -> bool): (r: seq<T>)
    ensures |r| <= |xs|
    ensures forall i :: 0 <= i < |r| ==> r[i] in xs && keep(r[i])
    ensures forall i :: 0 <= i < |xs| && keep(xs[i]) ==> xs[i] in r
  {
    if |xs| == 0 then []
    else
      var rest := Filter(xs[1..], keep);
      assert forall i :: 1 <= i < |xs| ==> xs[i] == xs[1..][i - 1];
      if keep(xs[0]) then [xs[0]] + rest else rest
  }

  /** Filtering distributes over concatenation: whatever is kept keeps its relative order. */
  lemma {:induction false} FilterAppend<T>(xs: seq<T>, ys: seq<T>, keep: T -> bool)
    ensures Filter(xs + ys, keep) == Filter(xs, keep) + Filter(ys, keep)
  {
    if |xs| == 0 {
      assert xs + ys == ys;
    } else {
      assert (xs + ys)[0] == xs[0];
      assert (xs + ys)[1..] == xs[1..] + ys;
      FilterAppend(xs[1..], ys, keep);
    }
  }

  /** `xs` is `ys` with some elements left out, the rest in their order. */
  predicate Subsequence<T(==)>(xs: seq<T>, ys: seq<T>) {
    if |xs| == 0 then true
    else if |ys| == 0 then false
    else (xs[0] == ys[0] && Subsequence(xs[1..], ys[1..])) || Subsequence(xs, ys[1..])
  }

  /** Filtering only leaves elements out: it never reorders or repeats them. */
  lemma {:induction false} FilterSubsequence<T>(xs: seq<T>, keep: T -> bool)
    ensures Subsequence(Filter(xs, keep), xs)
  {
    if |xs| > 0 {
      FilterSubsequence(xs[1..], keep);
    }
  }

  /** A filter every element passes keeps the whole collection. */
  lemma {:induction false} FilterAll<T>(xs: seq<T>, keep: T -> bool)
    requires forall i :: 0 <= i < |xs| ==> keep(xs[i])
    ensures Filter(xs, keep) == xs
  {
    if |xs| > 0 {
      FilterAll(xs[1..], keep);
    }
  }

  /** A filter no element passes keeps nothing. */
  lemma {:induction false} FilterNone<T>(xs: seq<T>, keep: T -> bool)
    requires forall i :: 0 <= i < |xs| ==> !keep(xs[i])
    ensures Filter(xs, keep) == []
  {
    if |xs| > 0 {
      FilterNone(xs[1..], keep);
    }
  }

  /** Filters that agree on every element select the same elements. */
  lemma {:induction false} FilterSame<T>(xs: seq<T>, f: T -> bool, g: T -> bool)
    requires forall i :: 0 <= i < |xs| ==> f(xs[i]) == g(xs[i])
    ensures Filter(xs, f) == Filter(xs, g)
  {
    if |xs| > 0 {
      FilterSame(xs[1..], f, g);
    }
  }

  /** `countDocuments(filter)`. */
  function CountWhere<T>(xs: seq<T>, keep: T -> bool): (r: nat)
    ensures r <= |xs|
    ensures r == 0 <==> forall i :: 0 <= i < |xs| ==> !keep(xs[i])
  {
    var kept := Filter(xs, keep);
    assert kept == [] <==> forall i :: 0 <= i < |xs| ==> !keep(xs[i]) by {
      if kept != [] {
        assert kept[0] in xs;
      }
    }
    |kept|
  }

  /** `[{_id: k, count}]` of `$group: {_id: key, count: {$sum: 1}}`, folded into an object by
      `acc[item._id] = item.count`: each key that occurs maps to its number of occurrences. */
  function Tally(keys: seq<string>): (r: map<string, nat>)
    ensures forall k :: k in r <==> k in keys
    ensures forall k :: k in r ==> r[k] == multiset(keys)[k] && r[k] >= 1
  {
    if |keys| == 0 then map[]
    else
      var init := keys[..|keys| - 1];
      var k := keys[|keys| - 1];
      var t := Tally(init);
      assert keys == init + [k];
      assert forall j :: j in keys <==> j in init || j == k;
      t[k := (if k in t then t[k] else 0) + 1]
  }

  /** The tallies depend only on how often each key occurs, not on the order of the records. */
  lemma TallyReorder(a: seq<string>, b: seq<string>)
    requires multiset(a) == multiset(b)
    ensures Tally(a) == Tally(b)
  {
    forall k ensures k in a <==> k in b {
      assert k in a <==> k in multiset(a);
      assert k in b <==> k in multiset(b);
    }
  }

  /** One more record adds one to its own key's tally and leaves every other tally as it was. */
  lemma TallyAdd(keys: seq<string>, k: string)
    ensures Tally(keys + [k])[k] == (if k in keys then Tally(keys)[k] else 0) + 1
    ensures forall j :: j != k ==> (j in Tally(keys + [k]) <==> j in Tally(keys))
    ensures forall j :: j != k && j in Tally(keys) ==> Tally(keys + [k])[j] == Tally(keys)[j]
  {
    assert multiset(keys + [k]) == multiset(keys) + multiset{k};
    assert k in keys + [k];
    assert forall j :: j in keys + [k] <==> j in keys || j == k;
  }

  /** One more document raises the count by one exactly when it passes the filter. */
  lemma CountAppend<T>(xs: seq<T>, x: T, keep: T -> bool)
    ensures CountWhere(xs + [x], keep) == CountWhere(xs, keep) + (if keep(x) then 1 else 0)
  {
    FilterAppend(xs, [x], keep);
  }
}

=== FILE: harness.dfy ===
/** The bookkeeping of the authentication test script (`auth_test.py`): the pass/fail counters,
    how one request is judged, the summary's exit code and success rate, and the early stop when
    the backend is unreachable. The HTTP exchanges are parameters that say how each ended. */
module TestHarness {
  import opened Wrappers
  import opened Text

  /** `tests_run`, `tests_passed` and `failed_tests`. */
  datatype Tester = Tester(testsRun: nat, testsPassed: nat, failedTests: seq<string>)

  const FreshTester := Tester(0, 0, [])

  /** Every test counted has passed or failed, never both. */
  predicate Consistent(t: Tester) {
    t.testsRun == t.testsPassed + |t.failedTests|
  }

  /** One `log_test(name, success, details)` call. */
  datatype Log = Log(name: string, success: bool, details: string)

  /** `log_test`: one more test run, and either one more pass or one more failure entry. */
  function LogTest(t: Tester, entry: Log): (r: Tester)
    ensures r.testsRun == t.testsRun + 1
    ensures entry.success ==> r.testsPassed == t.testsPassed + 1 && r.failedTests == t.failedTests
    ensures !entry.success ==>
      r.testsPassed == t.testsPassed && r.failedTests == t.failedTests + [entry.name + ": " + entry.details]
    ensures Consistent(t) ==> Consistent(r)
  {
    if entry.success then t.(testsRun := t.testsRun + 1, testsPassed := t.testsPassed + 1)
    else t.(testsRun := t.testsRun + 1, failedTests := t.failedTests + [entry.name + ": " + entry.details])
  }

  /** The failure entries of a run of logs, in order. */
  function Failures(logs: seq<Log>): seq<string> {
    if |logs| == 0 then []
    else
      var last := logs[|logs| - 1];
      Failures(logs[..|logs| - 1]) + (if last.success then [] else [last.name + ": " + last.details])
  }

  function Passes(logs: seq<Log>): nat {
    if |logs| == 0 then 0
    else Passes(logs[..|logs| - 1]) + (if logs[|logs| - 1].success then 1 else 0)
  }

  /** A sequence of `log_test` calls in order. */
  function LogAll(t: Tester, logs: seq<Log>): (r: Tester)
    ensures r.testsRun == t.testsRun + |logs|
    ensures r.testsPassed == t.testsPassed + Passes(logs)
    ensures r.failedTests == t.failedTests + Failures(logs)
    ensures Consistent(t) ==> Consistent(r)
  {
    if |logs| == 0 then t
    else LogTest(LogAll(t, logs[..|logs| - 1]), logs[|logs| - 1])
  }

  /** No failure entry exactly when every logged test passed. */
  lemma {:induction false} NoFailuresAllPass(logs: seq<Log>)
    ensures Failures(logs) == [] <==> forall i :: 0 <= i < |logs| ==> logs[i].success
    ensures Passes(logs) <= |logs|
  {
    if |logs| > 0 {
      var init := logs[..|logs| - 1];
      NoFailuresAllPass(init);
      assert forall i :: 0 <= i < |init| ==> init[i] == logs[i];
    }
  }

  // ---------------------------------------------------------------------------
  // Requests

  /** How a request ended: the transport raised, or a response came back whose body is JSON
      or not. */
  datatype Outcome = Raised(error: string) | Responded(status: int, json: Option<string>, text: string)

  /** What `make_request` hands back as the response data. */
  datatype Body = JsonBody(json: string) | TextBody(text: string, statusCode: int) | ErrorBody(error: string)

  /** The headers sent: a bearer token when one is given. */
  function Headers(token: Option<string>): (r: map<string, string>)
    ensures Present(token) ==> r == map["Authorization" := "Bearer " + token.value]
    ensures !Present(token) ==> r == map[]
  {
    if Present(token) then map["Authorization" := "Bearer " + token.value] else map[]
  }

  /** Only GET and POST are sent. */
  predicate Sends(verb: string) { verb == "GET" || verb == "POST" }

  /** `make_request`: an unsupported method fails without sending; a raised transport error
      fails with its message; otherwise the verdict is whether the status is the expected one,
      with the JSON body or, failing that, the text and the status. */
  function MakeRequest(verb: string, expectedStatus: int, outcome: Outcome): (r: (bool, Body))
    ensures !Sends(verb) ==> r == (false, ErrorBody("Unsupported method: " + verb))
    ensures Sends(verb) && outcome.Raised? ==> r == (false, ErrorBody(outcome.error))
    ensures Sends(verb) && outcome.Responded? ==>
      && (r.0 <==> outcome.status == expectedStatus)
      && (outcome.json.Some? ==> r.1 == JsonBody(outcome.json.value))
      && (outcome.json.None? ==> r.1 == TextBody(outcome.text, outcome.status))
  {
    if !Sends(verb) then (false, ErrorBody("Unsupported method: " + verb))
    else
      match outcome
      case Raised(error) => (false, ErrorBody(error))
      case Responded(status, json, text) =>
        (status == expectedStatus, if json.Some? then JsonBody(json.value) else TextBody(text, status))
  }

  /** The verdict ignores the body: two responses with the same status are judged alike. */
  lemma VerdictByStatusOnly(verb: string, expected: int, a: Outcome, b: Outcome)
    requires a.Responded? && b.Responded? && a.status == b.status
    ensures MakeRequest(verb, expected, a).0 == MakeRequest(verb, expected, b).0
  {
  }

  /** A request with an unsupported method does not depend on what the network would do. */
  lemma UnsupportedNeverSent(verb: string, expected: int, a: Outcome, b: Outcome)
    requires !Sends(verb)
    ensures MakeRequest(verb, expected, a) == MakeRequest(verb, expected, b)
    ensures !MakeRequest(verb, expected, a).0
  {
  }

  // ---------------------------------------------------------------------------
  // Summary

  /** What `print_summary` reports: the exit code and the success rate as a percentage,
      which is only computed once a test has run. */
  datatype Summary = Summary(exitCode: int, successRate: Option<real>)

  function PrintSummary(t: Tester): (r: Summary)
    ensures r.exitCode == 0 <==> |t.failedTests| == 0
    ensures r.exitCode == 0 || r.exitCode == 1
    ensures r.successRate.Some? <==> t.testsRun > 0
    ensures Consistent(t) && r.successRate.Some? ==>
      0.0 <= r.successRate.value <= 100.0 && (r.successRate.value == 100.0 <==> r.exitCode == 0)
  {
    var rate := if t.testsRun > 0 then Some(t.testsPassed as real / t.testsRun as real * 100.0) else None;
    assert Consistent(t) && t.testsRun > 0 ==> t.testsPassed as real <= t.testsRun as real;
    Summary(if |t.failedTests| == 0 then 0 else 1, rate)
  }

  /** The connectivity check: `GET /health` answered 200 with a JSON body; a body that does not
      decode raises inside the check, which then fails. */
  function Connected(health: Outcome): (r: bool)
    ensures r <==> health.Responded? && health.status == 200 && health.json.Some?
  {
    health.Responded? && health.status == 200 && health.json.Some?
  }

  /** What the check's log line draws from the health body: Python's text for its `uptime`
      field (`None` when the field is absent), and the decoder's message for a body that is not
      JSON. */
  datatype HealthText = HealthText(uptime: Option<string>, decodeError: string)

  /** The check's log entry: the uptime on success, the status on another status, and the error
      for a transport failure or an undecodable body. */
  function ConnectivityLog(health: Outcome, h: HealthText): (r: Log)
    ensures r.name == "Backend Connectivity" && r.success == Connected(health)
    ensures Connected(health) ==> r.details == "Backend healthy - Uptime: " + h.uptime.GetOr("N/A") + "s"
    ensures health.Raised? ==> r.details == "Error: " + health.error
    ensures health.Responded? && health.status != 200 ==>
      r.details == "Health check failed - Status: " + IntString(health.status)
    ensures health.Responded? && health.status == 200 && health.json.None? ==>
      r.details == "Error: " + h.decodeError
  {
    Log("Backend Connectivity", Connected(health),
        match health
        case Raised(error) => "Error: " + error
        case Responded(status, json, _) =>
          if status != 200 then "Health check failed - Status: " + IntString(status)
          else if json.None? then "Error: " + h.decodeError
          else "Backend healthy - Uptime: " + h.uptime.GetOr("N/A") + "s")
  }

  /** Python's `str` of an integer. */
  function IntString(n: int): string {
    if n >= 0 then DecimalString(n) else "-" + DecimalString(-n)
  }

  /** `run_all_tests`: the connectivity check is logged first; when it fails the summary comes
      at once, otherwise every later test logs and then the summary comes. */
  function RunAll(t: Tester, health: Outcome, h: HealthText, logs: seq<Log>): (r: (Tester, Summary))
    ensures !Connected(health) ==> r.0 == LogTest(t, ConnectivityLog(health, h))
    ensures Connected(health) ==> r.0 == LogAll(LogTest(t, ConnectivityLog(health, h)), logs)
    ensures r.1 == PrintSummary(r.0)
  {
    var checked := LogTest(t, ConnectivityLog(health, h));
    if !Connected(health) then (checked, PrintSummary(checked))
    else
      var done := LogAll(checked, logs);
      (done, PrintSummary(done))
  }

  /** An unreachable backend ends the run with exactly one failed test and exit code 1, whatever
      the later tests would have done. */
  lemma UnreachableStops(health: Outcome, h: HealthText, logs: seq<Log>, others: seq<Log>)
    requires !Connected(health)
    ensures RunAll(FreshTester, health, h, logs) == RunAll(FreshTester, health, h, others)
    ensures var r := RunAll(FreshTester, health, h, logs);
      r.0.testsRun == 1 && r.1.exitCode == 1 && r.1.successRate == Some(0.0)
  {
  }

  /** A fresh run exits with 0 exactly when the backend is reachable and every test passes, and
      then reports a 100% success rate. */
  lemma ExitZeroIffAllPass(health: Outcome, h: HealthText, logs: seq<Log>)
    ensures var r := RunAll(FreshTester, health, h, logs);
      && (r.1.exitCode == 0 <==> Connected(health) && forall i :: 0 <= i < |logs| ==> logs[i].success)
      && (r.1.exitCode == 0 ==> r.1.successRate == Some(100.0))
      && r.0.testsRun == (if Connected(health) then 1 + |logs| else 1)
  {
    NoFailuresAllPass(logs);
  }
}

=== FILE: http.dfy ===
/** The shape of every JSON reply the route handlers send: a status code and either a
    `{success: true, message, data}` envelope or a `{success: false, message, code?}` one. */
module Http {

  datatype Reply<D> =
    | Ok(status: int, message: string, data: D)
    | Err(status: int, message: string, code: string)

  /** An error reply without a machine-readable `code` field. */
  function Fail<D>(status: int, message: string): Reply<D> {
    Err(status, message, "")
  }

  const InternalError := "Internal server error"
}

=== FILE: lifecycle.dfy ===
/** Laws that span several order routes: a placed order can be cancelled by its buyer, and the
    round trip gives the stock back. */
module OrderLifecycle {

  import opened Wrappers
  import opened Records
  import opened Validation
  import opened Products
  import opened Orders

  /** An order the buyer has just appended, still pending, can be cancelled by that buyer, and
      the cancel restocks exactly the order's lines. */
  lemma CancelJustPlaced(caller: User, orders: seq<Order>, o: Order, products: map<string, Product>,
                         reason: Option<string>, later: int)
    requires FindOrder(orders, o.id).None?
    requires o.buyerId == caller.id && o.status == "pending"
    ensures var c := CancelOrder(caller, o.id, reason, Ledger(orders + [o], products), later);
      && c.0.Ok?
      && c.1.products == Restock(products, ItemLines(o.items))
      && c.1.orders == orders + [c.0.data]
  {
    OrderAtEnd(orders, o);
    var all := orders + [o];
    assert all[|orders|] == o;
    var c := CancelOrder(caller, o.id, reason, Ledger(all, products), later);
    assert c.1.orders == all[|orders| := c.0.data];
    assert all[|orders| := c.0.data] == orders + [c.0.data];
  }

  /** Creating an order and then cancelling it as its buyer gives every product its stock back;
      only the order counts keep the increments. */
  lemma CreateThenCancel(caller: User, lines: seq<Line>, delivery: DeliveryInput, payMethod: string,
                         st: Ledger, env: PlaceEnv, reason: Option<string>, later: int)
    requires |lines| >= 1 && 0.0 <= env.random < 1.0
    requires PlaceOrder(caller, lines, delivery, payMethod, st, env).0.Ok?
    ensures var placed := PlaceOrder(caller, lines, delivery, payMethod, st, env);
      var cancelled := CancelOrder(caller, env.orderId, reason, placed.1, later);
      && cancelled.0.Ok?
      && cancelled.1.products == Restock(placed.1.products, lines)
  {
    var placed := PlaceOrder(caller, lines, delivery, payMethod, st, env);
    PlacedOrderShape(caller, lines, delivery, payMethod, st, env);
    CancelJustPlaced(caller, st.orders, placed.0.data, placed.1.products, reason, later);
  }
}

=== FILE: markets.dfy ===
/** The market directory page (`src/pages/Markets.jsx`): the state and district pickers built from
    the market table, and the list shown under the current search term and location filters.
    The table itself is constant page data and is a parameter here. */
module Markets {
  import opened Text
  import opened Collections

  datatype Market = Market(name: string, location: string, state: string, district: string,
                           products: seq<string>)

  // ---------------------------------------------------------------------------
  // `Array.prototype.sort()` on strings: code-unit order

  /** `a` sorts before `b`: a proper prefix, or smaller at the first difference. */
  predicate Before(a: string, b: string) {
    if |a| == 0 then |b| > 0
    else if |b| == 0 then false
    else if a[0] != b[0] then a[0] < b[0]
    else Before(a[1..], b[1..])
  }

  lemma {:induction false} BeforeIrreflexive(a: string)
    ensures !Before(a, a)
  {
    if |a| > 0 {
      BeforeIrreflexive(a[1..]);
    }
  }

  lemma {:induction false} BeforeTransitive(a: string, b: string, c: string)
    requires Before(a, b) && Before(b, c)
    ensures Before(a, c)
  {
    if |a| > 0 && |b| > 0 && |c| > 0 && a[0] == b[0] && b[0] == c[0] {
      BeforeTransitive(a[1..], b[1..], c[1..]);
    }
  }

  lemma {:induction false} BeforeTotal(a: string, b: string)
    requires a != b
    ensures Before(a, b) || Before(b, a)
  {
    if |a| > 0 && |b| > 0 && a[0] == b[0] {
      assert a == [a[0]] + a[1..] && b == [b[0]] + b[1..];
      BeforeTotal(a[1..], b[1..]);
    }
  }

  lemma BeforeAsymmetric(a: string, b: string)
    requires Before(a, b)
    ensures !Before(b, a)
  {
    if Before(b, a) {
      BeforeTransitive(a, b, a);
      BeforeIrreflexive(a);
    }
  }

  /** Strictly increasing, hence without repeats. */
  predicate Increasing(xs: seq<string>) {
    forall i, j :: 0 <= i < j < |xs| ==> Before(xs[i], xs[j])
  }

  /** Adds `x` to an increasing list unless it is already there. */
  function InsertUnique(x: string, ys: seq<string>): (r: seq<string>)
    requires Increasing(ys)
    ensures Increasing(r)
    ensures forall s :: s in r <==> s == x || s in ys
  {
    if |ys| == 0 then [x]
    else if x == ys[0] then ys
    else if Before(x, ys[0]) then
      forall j | 0 < j < |ys| ensures Before(x, ys[j]) {
        BeforeTransitive(x, ys[0], ys[j]);
      }
      [x] + ys
    else
      BeforeTotal(x, ys[0]);
      var rest := InsertUnique(x, ys[1..]);
      assert forall s :: s in ys[1..] ==> Before(ys[0], s) by {
        forall s | s in ys[1..] ensures Before(ys[0], s) {
          var k :| 0 <= k < |ys[1..]| && ys[1..][k] == s;
          assert s == ys[k + 1];
        }
      }
      assert forall s :: s in ys <==> s == ys[0] || s in ys[1..] by {
        assert ys == [ys[0]] + ys[1..];
      }
      assert forall k :: 0 <= k < |rest| ==> Before(ys[0], rest[k]) by {
        forall k | 0 <= k < |rest| ensures Before(ys[0], rest[k]) {
          assert rest[k] in rest;
        }
      }
      [ys[0]] + rest
  }

  /** `[...new Set(xs)].sort()`: each value once, in code-unit order. */
  function SortedUnique(xs: seq<string>): (r: seq<string>)
    ensures Increasing(r)
    ensures forall s :: s in r <==> s in xs
  {
    if |xs| == 0 then []
    else
      var r := InsertUnique(xs[|xs| - 1], SortedUnique(xs[..|xs| - 1]));
      assert xs == xs[..|xs| - 1] + [xs[|xs| - 1]];
      r
  }

  /** An increasing list is determined by its values: `SortedUnique` is the one arrangement
      `sort()` can produce from the set. */
  lemma {:induction false} IncreasingUnique(xs: seq<string>, ys: seq<string>)
    requires Increasing(xs) && Increasing(ys)
    requires forall s :: s in xs <==> s in ys
    ensures xs == ys
  {
    SameEmptiness(xs, ys);
    if |xs| > 0 {
      if xs[0] != ys[0] {
        HeadIsLeast(xs, ys[0]);
        HeadIsLeast(ys, xs[0]);
        BeforeAsymmetric(xs[0], ys[0]);
      } else {
        forall s ensures s in xs[1..] <==> s in ys[1..] {
          TailMembers(xs, s);
          TailMembers(ys, s);
        }
        IncreasingUnique(xs[1..], ys[1..]);
        assert xs == [xs[0]] + xs[1..] && ys == [ys[0]] + ys[1..];
      }
    }
  }

  lemma SameEmptiness(xs: seq<string>, ys: seq<string>)
    requires forall s :: s in xs <==> s in ys
    ensures |xs| == 0 <==> |ys| == 0
  {
    if |xs| > 0 {
      assert xs[0] in ys;
    }
    if |ys| > 0 {
      assert ys[0] in xs;
    }
  }

  /** The head of an increasing list comes before every other value in it. */
  lemma HeadIsLeast(xs: seq<string>, s: string)
    requires Increasing(xs) && |xs| > 0 && s in xs && s != xs[0]
    ensures Before(xs[0], s)
  {
    var k :| 0 <= k < |xs| && xs[k] == s;
  }

  /** In an increasing list, the tail holds every value but the head. */
  lemma TailMembers(xs: seq<string>, s: string)
    requires Increasing(xs) && |xs| > 0
    ensures s in xs[1..] <==> s in xs && s != xs[0]
  {
    if s in xs[1..] {
      var k :| 0 <= k < |xs| - 1 && xs[1..][k] == s;
      assert xs[k + 1] == s;
      BeforeIrreflexive(xs[0]);
    }
    if s in xs && s != xs[0] {
      var k :| 0 <= k < |xs| && xs[k] == s;
      assert xs[1..][k - 1] == s;
    }
  }

  // ---------------------------------------------------------------------------
  // The pickers

  function StateOf(m: Market): string { m.state }

  function Values(markets: seq<Market>, f: Market -> string): (r: seq<string>)
    ensures |r| == |markets|
    ensures forall i :: 0 <= i < |markets| ==> r[i] == f(markets[i])
  {
    seq(|markets|, i requires 0 <= i < |markets| => f(markets[i]))
  }

  /** `states`: every state some market is in, once each, sorted. */
  function States(markets: seq<Market>): (r: seq<string>)
    ensures Increasing(r)
    ensures forall s :: s in r <==> exists m :: m in markets && m.state == s
  {
    var vs := Values(markets, StateOf);
    forall s ensures s in vs <==> exists m :: m in markets && m.state == s {
      if exists m :: m in markets && m.state == s {
        var m :| m in markets && m.state == s;
        var i :| 0 <= i < |markets| && markets[i] == m;
        assert vs[i] == s;
      }
    }
    SortedUnique(vs)
  }

  function InState(state: string): Market -> bool {
    (m: Market) => m.state == state
  }

  function DistrictOf(m: Market): string { m.district }

  /** `getDistrictsByState(state)`: nothing until a state is chosen, then every district some
      market of that state is in, once each, sorted. */
  function DistrictsByState(markets: seq<Market>, state: string): (r: seq<string>)
    ensures state == "" ==> r == []
    ensures Increasing(r)
    ensures state != "" ==> forall d :: d in r <==> exists m :: m in markets && m.state == state && m.district == d
  {
    if state == "" then []
    else
      var ofState := Filter(markets, InState(state));
      var vs := Values(ofState, DistrictOf);
      forall d ensures d in vs <==> exists m :: m in markets && m.state == state && m.district == d {
        if exists m :: m in markets && m.state == state && m.district == d {
          var m :| m in markets && m.state == state && m.district == d;
          var i :| 0 <= i < |markets| && markets[i] == m;
          assert m in ofState;
          var k :| 0 <= k < |ofState| && ofState[k] == m;
          assert vs[k] == d;
        }
        if d in vs {
          var k :| 0 <= k < |vs| && vs[k] == d;
          assert ofState[k] in ofState;
        }
      }
      SortedUnique(vs)
  }

  // ---------------------------------------------------------------------------
  // The filtered list

  /** The search box: the term, ignoring case, occurs in the name, the location, a product,
      the state or the district. */
  predicate MatchesTerm(m: Market, term: string) {
    var t := Lower(term);
    || Contains(Lower(m.name), t)
    || Contains(Lower(m.location), t)
    || (exists i :: 0 <= i < |m.products| && Contains(Lower(m.products[i]), t))
    || Contains(Lower(m.state), t)
    || Contains(Lower(m.district), t)
  }

  function ByTerm(term: string): Market -> bool {
    (m: Market) => MatchesTerm(m, term)
  }

  function InDistrict(district: string): Market -> bool {
    (m: Market) => m.district == district
  }

  /** The filter effect: the search term, then the state, then the district, each applied only
      when set. */
  function Filtered(markets: seq<Market>, term: string, state: string, district: string): seq<Market> {
    var bySearch := if term != "" then Filter(markets, ByTerm(term)) else markets;
    var byState := if state != "" then Filter(bySearch, InState(state)) else bySearch;
    if district != "" then Filter(byState, InDistrict(district)) else byState
  }

  /** Whether one market is shown under the filters. */
  predicate Shown(m: Market, term: string, state: string, district: string) {
    && (term != "" ==> MatchesTerm(m, term))
    && (state != "" ==> m.state == state)
    && (district != "" ==> m.district == district)
  }

  function ShownBy(term: string, state: string, district: string): Market -> bool {
    (m: Market) => Shown(m, term, state, district)
  }

  /** The three filters in a row select, in table order, exactly the markets every set filter
      admits. */
  lemma FilteredIsOneFilter(markets: seq<Market>, term: string, state: string, district: string)
    ensures Filtered(markets, term, state, district) == Filter(markets, ShownBy(term, state, district))
  {
    var bySearch := if term != "" then Filter(markets, ByTerm(term)) else markets;
    var byState := if state != "" then Filter(bySearch, InState(state)) else bySearch;
    var keepSearch := ShownBy(term, "", "");
    var keepBoth := ShownBy(term, state, "");
    Stage(markets, term != "", ByTerm(term), keepSearch);
    Stage(bySearch, state != "", InState(state), ShownBy("", state, ""));
    FilterThen(markets, keepSearch, ShownBy("", state, ""), keepBoth);
    Stage(byState, district != "", InDistrict(district), ShownBy("", "", district));
    FilterThen(markets, keepBoth, ShownBy("", "", district), ShownBy(term, state, district));
  }

  /** A filter applied only when its switch is on is one filter that admits everything when
      the switch is off. */
  lemma Stage<T>(xs: seq<T>, on: bool, p: T -> bool, keep: T -> bool)
    requires forall x :: keep(x) == (on ==> p(x))
    ensures (if on then Filter(xs, p) else xs) == Filter(xs, keep)
  {
    if on {
      FilterSame(xs, p, keep);
    } else {
      FilterAll(xs, keep);
    }
  }

  /** Two filters in a row are one filter by both conditions. */
  lemma {:induction false} FilterThen<T>(xs: seq<T>, f: T -> bool, g: T -> bool, both: T -> bool)
    requires forall x :: both(x) == (f(x) && g(x))
    ensures Filter(Filter(xs, f), g) == Filter(xs, both)
  {
    if |xs| > 0 {
      FilterThen(xs[1..], f, g, both);
      var rest := Filter(xs[1..], f);
      if f(xs[0]) {
        assert Filter(xs, f) == [xs[0]] + rest;
        assert ([xs[0]] + rest)[1..] == rest;
      }
    }
  }

  /** Every market shown is a market of the table that the set filters admit, every such market
      is shown, and the order of the table is kept. */
  lemma FilteredSound(markets: seq<Market>, term: string, state: string, district: string)
    ensures var r := Filtered(markets, term, state, district);
      && Subsequence(r, markets)
      && (forall m :: m in r <==> m in markets && Shown(m, term, state, district))
      && (state != "" ==> forall i :: 0 <= i < |r| ==> r[i].state == state)
      && (district != "" ==> forall i :: 0 <= i < |r| ==> r[i].district == district)
  {
    FilteredIsOneFilter(markets, term, state, district);
    FilterSubsequence(markets, ShownBy(term, state, district));
  }

  /** With no filter set the whole table is shown. */
  lemma NoFilterShowsAll(markets: seq<Market>)
    ensures Filtered(markets, "", "", "") == markets
  {
  }

  /** The search ignores the case of the term. */
  lemma SearchIgnoresCase(markets: seq<Market>, term: string, state: string, district: string)
    ensures Filtered(markets, Lower(term), state, district) == Filtered(markets, term, state, district)
  {
    LowerIdempotent(term);
    assert Lower(term) != "" <==> term != "";
    if term != "" {
      FilterSame(markets, ByTerm(Lower(term)), ByTerm(term));
    }
  }

  /** A district picked from the list offered for a state, with no search term, shows at least
      one market, and only markets of that state and (unless it is the empty name, which
      switches the district filter off) of that district. */
  lemma OfferedDistrictNonEmpty(markets: seq<Market>, state: string, district: string)
    requires state != "" && district in DistrictsByState(markets, state)
    ensures var r := Filtered(markets, "", state, district);
      && |r| > 0
      && (forall i :: 0 <= i < |r| ==> r[i].state == state)
      && (district != "" ==> forall i :: 0 <= i < |r| ==> r[i].district == district)
  {
    var m :| m in markets && m.state == state && m.district == district;
    assert Shown(m, "", state, district);
    FilteredSound(markets, "", state, district);
    var r := Filtered(markets, "", state, district);
    assert m in r;

  }

  // ---------------------------------------------------------------------------
  // Filter state

  datatype Filters = Filters(searchTerm: string, selectedState: string, selectedDistrict: string)

  const NoFilters := Filters("", "", "")

  /** Picking a state: the district-reset effect runs only when the state actually changes. */
  function SelectState(f: Filters, state: string): (r: Filters)
    ensures r.selectedState == state && r.searchTerm == f.searchTerm
    ensures state != f.selectedState ==> r.selectedDistrict == ""
    ensures state == f.selectedState ==> r == f
  {
    if state != f.selectedState then f.(selectedState := state, selectedDistrict := "") else f
  }

  function SelectDistrict(f: Filters, district: string): (r: Filters)
    ensures r == f.(selectedDistrict := district)
  {
    f.(selectedDistrict := district)
  }

  /** `clearFilters`. */
  function ClearFilters(f: Filters): (r: Filters)
    ensures r == NoFilters
  {
    NoFilters
  }

  function Shows(markets: seq<Market>, f: Filters): seq<Market> {
    Filtered(markets, f.searchTerm, f.selectedState, f.selectedDistrict)
  }

  /** After changing the state, the list is that state's markets matching the search, whatever
      district was picked before. */
  lemma NewStateDropsDistrict(markets: seq<Market>, f: Filters, state: string)
    requires state != f.selectedState
    ensures Shows(markets, SelectState(f, state)) == Filtered(markets, f.searchTerm, state, "")
  {
  }

  /** Clearing the filters shows the whole table again. */
  lemma ClearShowsAll(markets: seq<Market>, f: Filters)
    ensures Shows(markets, ClearFilters(f)) == markets
  {
  }
}

=== FILE: migrate.dfy ===
/** The migration runner (`backend/scripts/migrate.js`). The `migrations` collection is a list of
    records in the order they were applied; what a migration's `up()` or `down()` does to the
    database is left abstract, and whether it succeeds is a parameter. */
module Migrate {
  import opened Wrappers
  import opened Collections

  datatype Migration = Migration(version: string, description: string)

  /** The repository's one migration, which creates the collections' indexes. */
  const Migrations: seq<Migration> := [Migration("1.0.0", "Initial migration - create indexes")]

  datatype Record = Record(version: string, description: string, appliedAt: int)

  function Versions(records: seq<Record>): (r: seq<string>)
    ensures |r| == |records| && forall i :: 0 <= i < |records| ==> r[i] == records[i].version
  {
    if |records| == 0 then [] else [records[0].version] + Versions(records[1..])
  }

  lemma {:induction false} VersionsAppend(records: seq<Record>, rec: Record)
    ensures Versions(records + [rec]) == Versions(records) + [rec.version]
  {
    if |records| > 0 {
      assert (records + [rec])[1..] == records[1..] + [rec];
      VersionsAppend(records[1..], rec);
    }
  }

  /** Where a run ends: the records left behind, the versions whose `up()` was invoked in order,
      and the process exit code (`process.exit(1)` on any error, 0 otherwise). */
  datatype Run = Run(records: seq<Record>, ran: seq<string>, exitCode: int)

  /** The loop of `runMigrations` from migration `i` on. `applied` is the list of versions read
      once before the loop; `Migration.create` refuses a version that is already recorded, since
      the schema declares it unique. */
  function RunFrom(ms: seq<Migration>, i: nat, applied: seq<string>, records: seq<Record>,
                   upOk: string -> bool, now: int): (r: Run)
    requires i <= |ms|
    ensures r.exitCode == 0 || r.exitCode == 1
    ensures forall k :: 0 <= k < |r.ran| ==> r.ran[k] !in applied
    decreases |ms| - i
  {
    if i == |ms| then Run(records, [], 0)
    else
      var m := ms[i];
      if m.version in applied then RunFrom(ms, i + 1, applied, records, upOk, now)
      else if !upOk(m.version) || m.version in Versions(records) then Run(records, [m.version], 1)
      else
        var rest := RunFrom(ms, i + 1, applied, records + [Record(m.version, m.description, now)], upOk, now);
        Run(rest.records, [m.version] + rest.ran, rest.exitCode)
  }

  /** `runMigrations`: every migration whose version is not yet recorded is run, in list order. */
  function RunMigrations(ms: seq<Migration>, records: seq<Record>, upOk: string -> bool, now: int): (r: Run)
    ensures |records| <= |r.records| && r.records[..|records|] == records
    ensures forall k :: 0 <= k < |r.ran| ==> r.ran[k] !in Versions(records)
  {
    RunKeepsRecords(ms, 0, Versions(records), records, upOk, now);
    RunFrom(ms, 0, Versions(records), records, upOk, now)
  }

  /** A run only ever appends to the records it found. */
  lemma {:induction false} RunKeepsRecords(ms: seq<Migration>, i: nat, applied: seq<string>,
                                           records: seq<Record>, upOk: string -> bool, now: int)
    requires i <= |ms|
    ensures var r := RunFrom(ms, i, applied, records, upOk, now);
      |records| <= |r.records| && r.records[..|records|] == records
    decreases |ms| - i
  {
    if i < |ms| {
      var m := ms[i];
      if m.version in applied {
        RunKeepsRecords(ms, i + 1, applied, records, upOk, now);
      } else if upOk(m.version) && m.version !in Versions(records) {
        var recs := records + [Record(m.version, m.description, now)];
        RunKeepsRecords(ms, i + 1, applied, recs, upOk, now);
        var r := RunFrom(ms, i + 1, applied, recs, upOk, now);
        assert r.records[..|records|] == r.records[..|recs|][..|records|];
      }
    }
  }

  /** The migrations a run has to apply: those whose version is not recorded, in list order. */
  function Pending(ms: seq<Migration>, applied: seq<string>): seq<Migration> {
    Filter(ms, Unrecorded(applied))
  }

  function Unrecorded(applied: seq<string>): Migration -> bool {
    (m: Migration) => m.version !in applied
  }

  function MigrationVersions(ms: seq<Migration>): (r: seq<string>)
    ensures |r| == |ms| && forall i :: 0 <= i < |ms| ==> r[i] == ms[i].version
  {
    seq(|ms|, i requires 0 <= i < |ms| => ms[i].version)
  }

  function RecordsOf(ms: seq<Migration>, now: int): (r: seq<Record>)
    ensures |r| == |ms| && forall i :: 0 <= i < |ms| ==> r[i] == Record(ms[i].version, ms[i].description, now)
  {
    seq(|ms|, i requires 0 <= i < |ms| => Record(ms[i].version, ms[i].description, now))
  }

  predicate DistinctVersions(ms: seq<Migration>) {
    forall i, j :: 0 <= i < j < |ms| ==> ms[i].version != ms[j].version
  }

  /** The preconditions of a clean run from migration `i` on: every `up()` succeeds, and no
      pending version is recorded yet. */
  predicate CleanFrom(ms: seq<Migration>, i: nat, applied: seq<string>, records: seq<Record>, upOk: string -> bool)
    requires i <= |ms|
  {
    && (forall k :: i <= k < |ms| ==> upOk(ms[k].version))
    && (forall k :: i <= k < |ms| && ms[k].version !in applied ==> ms[k].version !in Versions(records))
  }

  /** A pending migration that runs cleanly keeps the rest of a run of distinct versions clean. */
  lemma CleanStep(ms: seq<Migration>, i: nat, applied: seq<string>, records: seq<Record>, upOk: string -> bool, now: int)
    requires i < |ms| && DistinctVersions(ms) && CleanFrom(ms, i, applied, records, upOk)
    ensures CleanFrom(ms, i + 1, applied, records, upOk)
    ensures CleanFrom(ms, i + 1, applied, records + [Record(ms[i].version, ms[i].description, now)], upOk)
  {
    VersionsAppend(records, Record(ms[i].version, ms[i].description, now));
  }

  /** One clean step of the loop: a recorded migration is skipped, a pending one is run and
      recorded before the rest of the list. */
  lemma RunStep(ms: seq<Migration>, i: nat, applied: seq<string>, records: seq<Record>, upOk: string -> bool, now: int)
    requires i < |ms| && CleanFrom(ms, i, applied, records, upOk)
    ensures ms[i].version in applied ==>
      RunFrom(ms, i, applied, records, upOk, now) == RunFrom(ms, i + 1, applied, records, upOk, now)
    ensures ms[i].version !in applied ==>
      var rest := RunFrom(ms, i + 1, applied, records + [Record(ms[i].version, ms[i].description, now)], upOk, now);
      RunFrom(ms, i, applied, records, upOk, now) == Run(rest.records, [ms[i].version] + rest.ran, rest.exitCode)
  {
  }

  /** When every `up()` succeeds and the listed versions are distinct, a run exits 0. */
  lemma {:induction false} CleanRunSucceeds(ms: seq<Migration>, i: nat, applied: seq<string>,
                                            records: seq<Record>, upOk: string -> bool, now: int)
    requires i <= |ms| && DistinctVersions(ms) && CleanFrom(ms, i, applied, records, upOk)
    ensures RunFrom(ms, i, applied, records, upOk, now).exitCode == 0
    decreases |ms| - i
  {
    if i < |ms| {
      RunStep(ms, i, applied, records, upOk, now);
      CleanStep(ms, i, applied, records, upOk, now);
      if ms[i].version in applied {
        CleanRunSucceeds(ms, i + 1, applied, records, upOk, now);
      } else {
        CleanRunSucceeds(ms, i + 1, applied, records + [Record(ms[i].version, ms[i].description, now)], upOk, now);
      }
    }
  }

  /** ... and invokes exactly the pending migrations' `up()`, in list order ... */
  lemma {:induction false} CleanRunRunsPending(ms: seq<Migration>, i: nat, applied: seq<string>,
                                               records: seq<Record>, upOk: string -> bool, now: int)
    requires i <= |ms| && DistinctVersions(ms) && CleanFrom(ms, i, applied, records, upOk)
    ensures RunFrom(ms, i, applied, records, upOk, now).ran == MigrationVersions(Pending(ms[i..], applied))
    decreases |ms| - i
  {
    if i < |ms| {
      var m := ms[i];
      PendingCons(ms, i, applied);
      RunStep(ms, i, applied, records, upOk, now);
      CleanStep(ms, i, applied, records, upOk, now);
      if m.version in applied {
        CleanRunRunsPending(ms, i + 1, applied, records, upOk, now);
      } else {
        CleanRunRunsPending(ms, i + 1, applied, records + [Record(m.version, m.description, now)], upOk, now);
        ConsOf(m, Pending(ms[i + 1..], applied), now);
      }
    } else {
      assert ms[i..] == [];
    }
  }

  /** ... and records each of them, in that order, after the records already there. */
  lemma {:induction false} CleanRunRecordsPending(ms: seq<Migration>, i: nat, applied: seq<string>,
                                                  records: seq<Record>, upOk: string -> bool, now: int)
    requires i <= |ms| && DistinctVersions(ms) && CleanFrom(ms, i, applied, records, upOk)
    ensures RunFrom(ms, i, applied, records, upOk, now).records == records + RecordsOf(Pending(ms[i..], applied), now)
    decreases |ms| - i
  {
    if i < |ms| {
      CleanStep(ms, i, applied, records, upOk, now);
      if ms[i].version in applied {
        CleanRunRecordsPending(ms, i + 1, applied, records, upOk, now);
        RecordsSkip(ms, i, applied, records, upOk, now);
      } else {
        var rec := Record(ms[i].version, ms[i].description, now);
        CleanRunRecordsPending(ms, i + 1, applied, records + [rec], upOk, now);
        RecordsRun(ms, i, applied, records, upOk, now);
      }
    } else {
      assert ms[i..] == [];
    }
  }

  /** The records step for a migration that is already recorded. */
  lemma RecordsSkip(ms: seq<Migration>, i: nat, applied: seq<string>, records: seq<Record>,
                    upOk: string -> bool, now: int)
    requires i < |ms| && CleanFrom(ms, i, applied, records, upOk) && ms[i].version in applied
    requires RunFrom(ms, i + 1, applied, records, upOk, now).records
          == records + RecordsOf(Pending(ms[i + 1..], applied), now)
    ensures RunFrom(ms, i, applied, records, upOk, now).records == records + RecordsOf(Pending(ms[i..], applied), now)
  {
    PendingCons(ms, i, applied);
    RunStep(ms, i, applied, records, upOk, now);
  }

  /** The records step for a pending migration: its record comes first, then the rest's. */
  lemma RecordsRun(ms: seq<Migration>, i: nat, applied: seq<string>, records: seq<Record>,
                   upOk: string -> bool, now: int)
    requires i < |ms| && CleanFrom(ms, i, applied, records, upOk) && ms[i].version !in applied
    requires var rec := Record(ms[i].version, ms[i].description, now);
      RunFrom(ms, i + 1, applied, records + [rec], upOk, now).records
        == records + [rec] + RecordsOf(Pending(ms[i + 1..], applied), now)
    ensures RunFrom(ms, i, applied, records, upOk, now).records == records + RecordsOf(Pending(ms[i..], applied), now)
  {
    var m := ms[i];
    var rec := Record(m.version, m.description, now);
    var tail := RecordsOf(Pending(ms[i + 1..], applied), now);
    calc {
      RunFrom(ms, i, applied, records, upOk, now).records;
      { RunStep(ms, i, applied, records, upOk, now); }
      RunFrom(ms, i + 1, applied, records + [rec], upOk, now).records;
      records + [rec] + tail;
      { assert records + [rec] + tail == records + ([rec] + tail); }
      records + ([rec] + tail);
      { ConsOf(m, Pending(ms[i + 1..], applied), now); }
      records + RecordsOf([m] + Pending(ms[i + 1..], applied), now);
      { PendingCons(ms, i, applied); }
      records + RecordsOf(Pending(ms[i..], applied), now);
    }
  }

  /** The pending list from `i` on starts with migration `i` exactly when it is pending. */
  lemma PendingCons(ms: seq<Migration>, i: nat, applied: seq<string>)
    requires i < |ms|
    ensures ms[i].version in applied ==> Pending(ms[i..], applied) == Pending(ms[i + 1..], applied)
    ensures ms[i].version !in applied ==> Pending(ms[i..], applied) == [ms[i]] + Pending(ms[i + 1..], applied)
  {
    assert ms[i..] == [ms[i]] + ms[i + 1..];
    FilterAppend([ms[i]], ms[i + 1..], Unrecorded(applied));
  }

  lemma ConsOf(m: Migration, tail: seq<Migration>, now: int)
    ensures MigrationVersions([m] + tail) == [m.version] + MigrationVersions(tail)
    ensures RecordsOf([m] + tail, now) == [Record(m.version, m.description, now)] + RecordsOf(tail, now)
  {
    assert forall k :: 1 <= k < |tail| + 1 ==> ([m] + tail)[k] == tail[k - 1];
  }

  /** A second run after a successful one invokes no `up()` and records nothing. */
  lemma SecondRunIdle(ms: seq<Migration>, records: seq<Record>, upOk: string -> bool, now: int, later: int)
    requires DistinctVersions(ms)
    requires forall k :: 0 <= k < |ms| ==> upOk(ms[k].version)
    ensures var first := RunMigrations(ms, records, upOk, now);
      var second := RunMigrations(ms, first.records, upOk, later);
      second.ran == [] && second.records == first.records && second.exitCode == 0
  {
    var first := RunMigrations(ms, records, upOk, now);
    var v := Versions(first.records);
    FirstRunRecordsAll(ms, records, upOk, now);
    NothingPending(ms, 0, v, first.records, upOk, later);
  }

  /** After a clean first run every listed version is recorded. */
  lemma FirstRunRecordsAll(ms: seq<Migration>, records: seq<Record>, upOk: string -> bool, now: int)
    requires DistinctVersions(ms)
    requires forall k :: 0 <= k < |ms| ==> upOk(ms[k].version)
    ensures var v := Versions(RunMigrations(ms, records, upOk, now).records);
      forall k :: 0 <= k < |ms| ==> ms[k].version in v
  {
    var first := RunMigrations(ms, records, upOk, now);
    CleanRunRecordsPending(ms, 0, Versions(records), records, upOk, now);
    assert ms[0..] == ms;
    forall k | 0 <= k < |ms| ensures ms[k].version in Versions(first.records) {
      RecordedAfterRun(ms, records, first.records, now, k);
    }
  }

  /** A listed version is among the records once the pending ones are appended. */
  lemma RecordedAfterRun(ms: seq<Migration>, records: seq<Record>, after: seq<Record>, now: int, k: int)
    requires 0 <= k < |ms|
    requires after == records + RecordsOf(Pending(ms, Versions(records)), now)
    ensures ms[k].version in Versions(after)
  {
    var v := Versions(after);
    var m := ms[k];
    if m.version in Versions(records) {
      var j :| 0 <= j < |records| && records[j].version == m.version;
      assert after[j] == records[j];
      assert v[j] == m.version;
    } else {
      var pend := Pending(ms, Versions(records));
      assert m in pend;
      var j :| 0 <= j < |pend| && pend[j] == m;
      assert after[|records| + j] == RecordsOf(pend, now)[j];
      assert v[|records| + j] == m.version;
    }
  }

  /** With every listed version already recorded, the loop runs nothing. */
  lemma {:induction false} NothingPending(ms: seq<Migration>, i: nat, applied: seq<string>,
                                          records: seq<Record>, upOk: string -> bool, now: int)
    requires i <= |ms|
    requires forall k :: 0 <= k < |ms| ==> ms[k].version in applied
    ensures RunFrom(ms, i, applied, records, upOk, now) == Run(records, [], 0)
    decreases |ms| - i
  {
    if i < |ms| {
      NothingPending(ms, i + 1, applied, records, upOk, now);
    }
  }

  /** The first `up()` that fails stops the run with exit code 1: every `up()` invoked before it
      succeeded and left one record, and the failing one leaves none. */
  lemma {:induction false} FailureStops(ms: seq<Migration>, i: nat, applied: seq<string>,
                                        records: seq<Record>, upOk: string -> bool, now: int)
    requires i <= |ms|
    ensures var r := RunFrom(ms, i, applied, records, upOk, now);
      && (forall k :: 0 <= k < |r.ran| - 1 ==> upOk(r.ran[k]))
      && (r.exitCode == 0 ==> (forall k :: 0 <= k < |r.ran| ==> upOk(r.ran[k])) && |r.records| == |records| + |r.ran|)
      && (r.exitCode == 1 ==> |r.ran| > 0 && |r.records| == |records| + |r.ran| - 1)
    decreases |ms| - i
  {
    if i < |ms| {
      var m := ms[i];
      if m.version in applied {
        FailureStops(ms, i + 1, applied, records, upOk, now);
      } else if upOk(m.version) && m.version !in Versions(records) {
        var recs := records + [Record(m.version, m.description, now)];
        FailureStops(ms, i + 1, applied, recs, upOk, now);
        var rest := RunFrom(ms, i + 1, applied, recs, upOk, now);
        assert forall k :: 1 <= k < |rest.ran| + 1 ==> ([m.version] + rest.ran)[k] == rest.ran[k - 1];
      }
    }
  }

  /** The repository's list against an empty collection: `1.0.0` is run and recorded. */
  lemma FirstDeploy(upOk: string -> bool, now: int)
    requires upOk("1.0.0")
    ensures RunMigrations(Migrations, [], upOk, now)
         == Run([Record("1.0.0", "Initial migration - create indexes", now)], ["1.0.0"], 0)
  {
  }

  /** `migrations.find(m => m.version === version)`. */
  function FindMigration(ms: seq<Migration>, version: string): (r: Option<Migration>)
    ensures r.None? <==> forall i :: 0 <= i < |ms| ==> ms[i].version != version
    ensures r.Some? ==> r.value in ms && r.value.version == version
  {
    if |ms| == 0 then None
    else if ms[0].version == version then Some(ms[0])
    else
      var r := FindMigration(ms[1..], version);
      assert forall i :: 1 <= i < |ms| ==> ms[i] == ms[1..][i - 1];
      r
  }

  /** The index of the first record holding a version, if any does. */
  function FirstAt(records: seq<Record>, version: string): (k: Option<nat>)
    ensures k.None? <==> version !in Versions(records)
    ensures k.Some? ==> k.value < |records| && records[k.value].version == version
    ensures k.Some? ==> forall j :: 0 <= j < k.value ==> records[j].version != version
  {
    if |records| == 0 then None
    else if records[0].version == version then Some(0)
    else
      assert Versions(records) == [records[0].version] + Versions(records[1..]);
      var k := FirstAt(records[1..], version);
      if k.None? then None else Some(k.value + 1)
  }

  /** `Migration.deleteOne({version})`: the first record with that version goes. */
  function DeleteOne(records: seq<Record>, version: string): (r: seq<Record>)
    ensures FirstAt(records, version).None? ==> r == records
    ensures FirstAt(records, version).Some? ==>
      var k := FirstAt(records, version).value; r == records[..k] + records[k + 1..]
  {
    if |records| == 0 then []
    else if records[0].version == version then records[1..]
    else
      var rest := DeleteOne(records[1..], version);
      DeleteLater(records, version, rest);
      [records[0]] + rest
  }

  /** Past a first record of another version, deleting from the rest deletes from the whole. */
  lemma DeleteLater(records: seq<Record>, version: string, rest: seq<Record>)
    requires |records| > 0 && records[0].version != version
    requires FirstAt(records[1..], version).None? ==> rest == records[1..]
    requires FirstAt(records[1..], version).Some? ==>
      var k := FirstAt(records[1..], version).value; rest == records[1..][..k] + records[1..][k + 1..]
    ensures FirstAt(records, version).None? ==> [records[0]] + rest == records
    ensures FirstAt(records, version).Some? ==>
      var k := FirstAt(records, version).value; [records[0]] + rest == records[..k] + records[k + 1..]
  {
    var k := FirstAt(records[1..], version);
    assert records == [records[0]] + records[1..];
    if k.Some? {
      ConsDrop(records[0], records[1..], k.value);
    }
  }

  /** Dropping element k of a sequence and then putting a head on it drops element k + 1 of the
      longer sequence. */
  lemma ConsDrop<T>(x: T, s: seq<T>, k: nat)
    requires k < |s|
    ensures [x] + (s[..k] + s[k + 1..]) == ([x] + s)[..k + 1] + ([x] + s)[k + 2..]
  {
    assert ([x] + s)[..k + 1] == [x] + s[..k];
    assert ([x] + s)[k + 2..] == s[k + 1..];
  }

  datatype Rollback = Rollback(records: seq<Record>, downRan: bool, error: Option<string>, exitCode: int)

  /** `rollbackMigration(version)`: an unlisted version is an error that changes nothing; a listed
      one runs `down()` and then deletes its record, unless `down()` fails. */
  function RollbackMigration(ms: seq<Migration>, records: seq<Record>, version: string, downOk: string -> bool)
    : (r: Rollback)
    ensures (forall i :: 0 <= i < |ms| ==> ms[i].version != version) ==>
      r == Rollback(records, false, Some("Migration " + version + " not found"), 1)
    ensures (exists i :: 0 <= i < |ms| && ms[i].version == version) ==> r.downRan
    ensures r.exitCode == 0 <==> (exists i :: 0 <= i < |ms| && ms[i].version == version) && downOk(version)
    ensures r.exitCode == 0 ==> r.records == DeleteOne(records, version)
    ensures r.exitCode != 0 ==> r.records == records && r.exitCode == 1
  {
    var m := FindMigration(ms, version);
    if m.None? then Rollback(records, false, Some("Migration " + version + " not found"), 1)
    else if !downOk(version) then Rollback(records, true, None, 1)
    else Rollback(DeleteOne(records, version), true, None, 0)
  }

  /** Rolling back a freshly applied migration removes its record again. */
  lemma ApplyThenRollback(upOk: string -> bool, downOk: string -> bool, now: int)
    requires upOk("1.0.0") && downOk("1.0.0")
    ensures var applied := RunMigrations(Migrations, [], upOk, now).records;
      RollbackMigration(Migrations, applied, "1.0.0", downOk).records == []
  {
    FirstDeploy(upOk, now);
    assert Versions([Record("1.0.0", "Initial migration - create indexes", now)]) == ["1.0.0"];
  }

  datatype Command = RunUp | RunDown(version: string) | Usage(exitCode: int)

  /** The CLI: `up` runs the migrations, `down` needs a (non-empty) version, and anything else
      prints the usage and exits 1. */
  function Cli(command: Option<string>, version: Option<string>): (r: Command)
    ensures r == RunUp <==> command == Some("up")
    ensures r.RunDown? <==> command == Some("down") && Present(version)
    ensures r.RunDown? ==> r.version == version.value
    ensures r.Usage? ==> r.exitCode == 1
  {
    if command == Some("up") then RunUp
    else if command == Some("down") && Present(version) then RunDown(version.value)
    else Usage(1)
  }
}

=== FILE: orders.dfy ===
/** Orders (`/orders` and the order model): pricing with a delivery threshold and a 5% tax, the
    stock debit on create and the restore on cancel, the status enum with its authorisation rule,
    the cancellable states, the order-number and timeline hooks, and the buyer's order list. */
module Orders {

  import opened Wrappers
  import opened Text
  import opened Http
  import opened Records
  import opened Validation
  import opened Paging
  import opened Sorting
  import opened Products

  const OrderStatuses: seq<string> :=
    ["pending", "confirmed", "processing", "packed", "shipped", "out_for_delivery", "delivered",
     "cancelled", "returned", "refunded"]

  const PaymentMethods: seq<string> := ["cod", "online", "wallet", "bank_transfer"]

  const PaymentStatuses: seq<string> := ["pending", "paid", "failed", "refunded"]

  const AddressTypes: seq<string> := ["home", "work", "other"]

  /** The address type an order is built with when the body gives none. */
  const DefaultAddressType := "home"

  /** The states from which `POST /orders/:id/cancel` may cancel. */
  const CancellableStatuses: seq<string> := ["pending", "confirmed", "processing"]

  /** Subtotals below this pay the delivery fee. */
  const FreeDeliveryFrom: real := 500.0

  const DeliveryFee: real := 50.0

  /** The tax rate, 5%, in exact arithmetic. */
  const TaxRate: real := 0.05

  const DefaultCancelReason := "Cancelled by customer"

  datatype OrderItem = OrderItem(
    productId: string,
    productName: string,
    quantity: int,
    unit: string,
    pricePerUnit: real,
    totalPrice: real,
    productImage: Option<string>)

  datatype Pricing = Pricing(subtotal: real, deliveryCharge: real, discount: real, tax: real, total: real)

  datatype Entry = Entry(status: string, timestamp: int, note: string, updatedBy: Option<string>)

  datatype Cancellation = Cancellation(reason: string, requestedBy: string, requestedAt: int, approvedAt: int)

  datatype Payment = Payment(kind: string, status: string)

  datatype Order = Order(
    id: string,
    orderNumber: Option<string>,
    buyerId: string,
    sellerId: string,
    items: seq<OrderItem>,
    pricing: Pricing,
    deliveryAddress: DeliveryInput,
    status: string,
    payment: Payment,
    timeline: seq<Entry>,
    cancellation: Option<Cancellation>,
    createdAt: int)

  /** The schema's own checks on a saved order. The order number is a required String path, which
      Mongoose refuses when it is missing or empty. */
  predicate OrderValid(o: Order) {
    && Present(o.orderNumber)
    && o.status in OrderStatuses
    && o.payment.kind in PaymentMethods
    && o.payment.status in PaymentStatuses
    && KnownAddressType(o.deliveryAddress.addressType)
    && forall k :: 0 <= k < |o.items| ==> o.items[k].quantity >= 1
  }

  /** The enum on the address type, which lets an absent value through. */
  predicate KnownAddressType(t: Option<string>) {
    t.None? || t.value in AddressTypes
  }

  /** `Order.findById`. */
  function FindOrder(orders: seq<Order>, id: string): (r: Option<nat>)
    ensures r.None? <==> forall i :: 0 <= i < |orders| ==> orders[i].id != id
    ensures r.Some? ==> r.value < |orders| && orders[r.value].id == id
  {
    if |orders| == 0 then None
    else if orders[0].id == id then Some(0)
    else
      var k := FindOrder(orders[1..], id);
      if k.None? then None else Some(k.value + 1)
  }

  lemma OrderAtEnd(orders: seq<Order>, o: Order)
    requires FindOrder(orders, o.id).None?
    ensures FindOrder(orders + [o], o.id) == Some(|orders|)
  {
    var all := orders + [o];
    assert all[|orders|] == o;
    assert forall j :: 0 <= j < |orders| ==> all[j] == orders[j];
    if |orders| > 0 {
      assert all[1..] == orders[1..] + [o];
      OrderAtEnd(orders[1..], o);
    }
  }

  // ---------------------------------------------------------------------------
  // Order number and timeline

  /** `Math.floor(Math.random() * 1000)`. */
  function RandomBucket(random: real): (r: nat)
    requires 0.0 <= random < 1.0
    ensures r < 1000
  {
    (random * 1000.0).Floor
  }

  /** `String.prototype.slice(-6)`: the last six characters, or all of a shorter string. */
  function LastSix(s: string): (r: string)
    ensures |r| == Min(6, |s|) && HasSuffix(s, r)
  {
    if |s| >= 6 then s[|s| - 6..] else s
  }

  /** The random bucket written with three digits, zeros in front. */
  function BucketDigits(random: real): (r: string)
    requires 0.0 <= random < 1.0
    ensures |r| == 3 && AllDigits(r)
    ensures DecimalValue(r) == RandomBucket(random)
  {
    var b := RandomBucket(random);
    var digits := DecimalString(b);
    DigitsBelow(b, 2);
    var padded := PadStart(digits, 3, '0');
    PaddedValue(digits, padded);
    DecimalRoundTrip(b);
    padded
  }

  /** Zeros padded in front of a digit string keep its value. */
  lemma PaddedValue(digits: string, padded: string)
    requires AllDigits(digits) && |digits| <= 3 && padded == PadStart(digits, 3, '0')
    ensures |padded| == 3 && AllDigits(padded) && DecimalValue(padded) == DecimalValue(digits)
  {
    assert forall i :: 0 <= i < |padded| - |digits| ==> padded[i] == '0';
    assert padded[|padded| - |digits|..] == digits;
    assert AllDigits(padded) by {
      forall i | 0 <= i < |padded| ensures IsDigit(padded[i]) {
        if i >= |padded| - |digits| {
          assert padded[i] == digits[i - (|padded| - |digits|)];
        }
      }
    }
    LeadingZeros(padded, |padded| - |digits|);
  }

  /** "ORD", the last six digits of the millisecond clock, then the random bucket padded to
      three digits. */
  function OrderNumber(now: nat, random: real): (r: string)
    requires 0.0 <= random < 1.0
    ensures HasPrefix(r, "ORD") && |r| == 3 + Min(6, |DecimalString(now)|) + 3
    ensures r[3..|r| - 3] == LastSix(DecimalString(now)) && r[|r| - 3..] == BucketDigits(random)
  {
    var r := "ORD" + LastSix(DecimalString(now)) + BucketDigits(random);
    assert r[3..|r| - 3] == LastSix(DecimalString(now));
    assert r[|r| - 3..] == BucketDigits(random);
    r
  }

  /** An order number is "ORD" and digits: the clock's last digits, then the random bucket in
      three digits; from 100000 ms on, twelve characters in all. */
  lemma OrderNumberShape(now: nat, random: real)
    requires 0.0 <= random < 1.0
    ensures var r := OrderNumber(now, random);
      && HasPrefix(r, "ORD") && AllDigits(r[3..])
      && HasSuffix(DecimalString(now), r[3..|r| - 3])
      && DecimalValue(r[|r| - 3..]) == RandomBucket(random)
      && (now >= 100000 ==> |r| == 12)
  {
    OrderNumberDigits(now, random);
    if now >= 100000 {
      OrderNumberLength(now, random);
    }
  }

  /** After "ORD" an order number is all digits. */
  lemma OrderNumberDigits(now: nat, random: real)
    requires 0.0 <= random < 1.0
    ensures var r := OrderNumber(now, random); |r| >= 3 && AllDigits(r[3..])
  {
    var r := OrderNumber(now, random);
    SuffixDigits(DecimalString(now), r[3..|r| - 3]);
    DigitsSplit(r, 3, |r| - 3);
  }

  /** Two runs of digits side by side are one run of digits. */
  lemma DigitsSplit(r: string, i: nat, j: nat)
    requires i <= j <= |r| && AllDigits(r[i..j]) && AllDigits(r[j..])
    ensures AllDigits(r[i..])
  {
    forall k | 0 <= k < |r| - i ensures IsDigit(r[i..][k]) {
      if k < j - i {
        assert r[i..][k] == r[i..j][k];
      } else {
        assert r[i..][k] == r[j..][k - (j - i)];
      }
    }
  }

  /** From 100000 ms on the clock contributes six digits. */
  lemma OrderNumberLength(now: nat, random: real)
    requires 0.0 <= random < 1.0 && now >= 100000
    ensures |OrderNumber(now, random)| == 12
  {
    assert Pow10(5) == 100000;
    DigitsAtLeast(now, 5);
  }

  /** The tail of a digit string is digits. */
  lemma SuffixDigits(ts: string, tail: string)
    requires AllDigits(ts) && HasSuffix(ts, tail)
    ensures AllDigits(tail)
  {
    forall i | 0 <= i < |tail| ensures IsDigit(tail[i]) {
      assert tail[i] == ts[|ts| - |tail| + i];
    }
  }

  /** A number below 10^(k+1) has at most k+1 digits. */
  lemma {:induction false} DigitsBelow(n: nat, k: nat)
    requires n < Pow10(k + 1)
    ensures |DecimalString(n)| <= k + 1
  {
    if n >= 10 && k > 0 {
      DigitsBelow(n / 10, k - 1);
    }
  }

  /** A number of at least 10^k has at least k+1 digits. */
  lemma {:induction false} DigitsAtLeast(n: nat, k: nat)
    requires n >= Pow10(k)
    ensures |DecimalString(n)| >= k + 1
  {
    if k > 0 {
      DigitsAtLeast(n / 10, k - 1);
    }
  }

  /** Zeros in front do not change a decimal value. */
  lemma {:induction false} LeadingZeros(s: string, z: nat)
    requires z <= |s| && AllDigits(s)
    requires forall i :: 0 <= i < z ==> s[i] == '0'
    ensures DecimalValue(s) == DecimalValue(s[z..])
  {
    if z > 0 {
      ZeroFront(s[1..]);
      assert s == ['0'] + s[1..];
      LeadingZeros(s[1..], z - 1);
      assert s[1..][z - 1..] == s[z..];
    }
  }

  lemma {:induction false} ZeroFront(t: string)
    requires AllDigits(t)
    ensures AllDigits(['0'] + t) && DecimalValue(['0'] + t) == DecimalValue(t)
  {
    var s := ['0'] + t;
    if |t| > 0 {
      assert s[..|s| - 1] == ['0'] + t[..|t| - 1];
      ZeroFront(t[..|t| - 1]);
    }
  }

  /** The save hook: a new order without a number gets one, and its timeline gets a single
      "Order created" entry with the current status. */
  function PreSave(o: Order, isNew: bool, now: nat, random: real): (r: Order)
    requires 0.0 <= random < 1.0
    ensures isNew && !Present(o.orderNumber) ==>
      && r.orderNumber == Some(OrderNumber(now, random))
      && r.timeline == o.timeline + [Entry(o.status, now, "Order created", None)]
      && r == o.(orderNumber := r.orderNumber, timeline := r.timeline)
    ensures !(isNew && !Present(o.orderNumber)) ==> r == o
  {
    if isNew && !Present(o.orderNumber) then
      o.(orderNumber := Some(OrderNumber(now, random)),
         timeline := o.timeline + [Entry(o.status, now, "Order created", None)])
    else o
  }

  /** The hook numbers an order once: saving again, even as new, changes nothing. */
  lemma PreSaveOnce(o: Order, now: nat, random: real, now2: nat, random2: real)
    requires 0.0 <= random < 1.0 && 0.0 <= random2 < 1.0
    ensures var once := PreSave(o, true, now, random);
      PreSave(once, true, now2, random2) == once
  {
  }

  /** The last timeline entry records the order's current status. */
  predicate TimelineCurrent(o: Order) {
    |o.timeline| > 0 && o.timeline[|o.timeline| - 1].status == o.status
  }

  /** `order.updateStatus(newStatus, note, updatedBy)`: the status changes and exactly one entry
      is appended, with the note or "Status updated to <status>". The save that follows is not
      of a new order, so the hook leaves it alone. */
  function UpdateStatus(o: Order, newStatus: string, note: Option<string>, updatedBy: string, now: int)
    : (r: Order)
    ensures r.status == newStatus && TimelineCurrent(r)
    ensures |r.timeline| == |o.timeline| + 1 && r.timeline[..|o.timeline|] == o.timeline
    ensures r.timeline[|o.timeline|].updatedBy == Some(updatedBy)
    ensures r.timeline[|o.timeline|].note == if Present(note) then note.value else "Status updated to " + newStatus
    ensures r == o.(status := newStatus, timeline := r.timeline)
  {
    o.(status := newStatus,
       timeline := o.timeline + [Entry(newStatus, now, OrElse(note, "Status updated to " + newStatus),
                                       Some(updatedBy))])
  }

  /** `n` successive status updates add exactly `n` timeline entries and keep the old ones. */
  function UpdateAll(o: Order, statuses: seq<string>, updatedBy: string, now: int): Order
    decreases |statuses|
  {
    if |statuses| == 0 then o
    else UpdateAll(UpdateStatus(o, statuses[0], None, updatedBy, now), statuses[1..], updatedBy, now)
  }

  lemma {:induction false} UpdatesAppend(o: Order, statuses: seq<string>, updatedBy: string, now: int)
    decreases |statuses|
    ensures var r := UpdateAll(o, statuses, updatedBy, now);
      && |r.timeline| == |o.timeline| + |statuses|
      && r.timeline[..|o.timeline|] == o.timeline
      && (|statuses| > 0 ==> r.status == statuses[|statuses| - 1] && TimelineCurrent(r))
      && (|statuses| == 0 ==> r == o)
  {
    if |statuses| > 0 {
      var o1 := UpdateStatus(o, statuses[0], None, updatedBy, now);
      UpdatesAppend(o1, statuses[1..], updatedBy, now);
      var r := UpdateAll(o1, statuses[1..], updatedBy, now);
      assert r.timeline[..|o.timeline|] == r.timeline[..|o1.timeline|][..|o.timeline|];
      if |statuses| == 1 {
        assert r == o1;
      } else {
        assert statuses[1..][|statuses[1..]| - 1] == statuses[|statuses| - 1];
      }
    }
  }

  // ---------------------------------------------------------------------------
  // Pricing

  /** One validated order line. */
  datatype Line = Line(productId: string, quantity: int)

  /** The lines of a body that passed the order chain. */
  function LinesOf(items: seq<ItemInput>): (r: seq<Line>)
    requires forall k :: 0 <= k < |items| ==> ItemOk(items[k])
    ensures |r| == |items|
    ensures forall k :: 0 <= k < |items| ==>
      && ItemOk(items[k])
      && r[k].productId == items[k].productId.value
      && r[k].quantity as real == items[k].quantity.value
      && r[k].quantity >= 1
  {
    seq(|items|, k requires 0 <= k < |items| && ItemOk(items[k]) => Line(items[k].productId.value, items[k].quantity.value.Floor))
  }

  /** The lines an order's items debit. */
  function ItemLines(items: seq<OrderItem>): (r: seq<Line>)
    ensures |r| == |items|
    ensures forall k :: 0 <= k < |items| ==> r[k] == Line(items[k].productId, items[k].quantity)
  {
    seq(|items|, k requires 0 <= k < |items| => Line(items[k].productId, items[k].quantity))
  }

  /** The image an order line shows: the primary image's URL when it is non-empty, else the
      first image's URL, if any. */
  function CoverImage(images: seq<Image>): (r: Option<string>)
    ensures r.None? <==> |images| == 0
    ensures r.Some? ==> exists i :: 0 <= i < |images| && images[i].url == r.value
    ensures FirstPrimary(images).Some? && images[FirstPrimary(images).value].url != "" ==>
      r == Some(images[FirstPrimary(images).value].url)
    ensures (FirstPrimary(images).None? || images[FirstPrimary(images).value].url == "") && |images| > 0 ==>
      r == Some(images[0].url)
  {
    match FirstPrimary(images)
    case Some(i) =>
      if images[i].url != "" then Some(images[i].url)
      else if |images| > 0 then Some(images[0].url) else None
    case None => if |images| > 0 then Some(images[0].url) else None
  }

  /** `images.find(img => img.isPrimary)`, as an index. */
  function FirstPrimary(images: seq<Image>): (r: Option<nat>)
    ensures r.None? <==> forall i :: 0 <= i < |images| ==> !images[i].isPrimary
    ensures r.Some? ==> r.value < |images| && images[r.value].isPrimary
    ensures r.Some? ==> forall j :: 0 <= j < r.value ==> !images[j].isPrimary
  {
    if |images| == 0 then None
    else if images[0].isPrimary then Some(0)
    else
      var k := FirstPrimary(images[1..]);
      if k.None? then None else Some(k.value + 1)
  }

  /** The snapshot of a product an order line keeps. */
  function ItemFor(p: Product, l: Line): (r: OrderItem)
    ensures r.productId == l.productId && r.quantity == l.quantity
    ensures r.productName == p.title && r.unit == p.unit && r.pricePerUnit == p.price
    ensures r.totalPrice == p.price * l.quantity as real
  {
    OrderItem(l.productId, p.title, l.quantity, p.unit, p.price, p.price * l.quantity as real,
              CoverImage(p.images))
  }

  /** A line whose product exists with at least the line's own quantity in stock. */
  predicate LineOk(l: Line, store: map<string, Product>) {
    l.productId in store && store[l.productId].stock >= l.quantity
  }

  function LineError(l: Line, store: map<string, Product>): string {
    if l.productId !in store then "Product not found: " + l.productId
    else "Insufficient stock for " + store[l.productId].title
  }

  datatype Priced = Priced(items: seq<OrderItem>) | Refused(message: string)

  /** The handler's loop: each line in turn is looked up and checked against the stock as it
      stands before the order; the first bad line ends it. */
  function PriceLines(lines: seq<Line>, store: map<string, Product>): (r: Priced)
    ensures r.Priced? <==> forall k :: 0 <= k < |lines| ==> LineOk(lines[k], store)
    ensures r.Priced? ==>
      && |r.items| == |lines|
      && ItemLines(r.items) == lines
      && forall k :: 0 <= k < |lines| ==> r.items[k] == ItemFor(store[lines[k].productId], lines[k])
    ensures r.Refused? ==>
      exists k ::
        && 0 <= k < |lines| && !LineOk(lines[k], store)
        && (forall j :: 0 <= j < k ==> LineOk(lines[j], store))
        && r.message == LineError(lines[k], store)
  {
    if |lines| == 0 then Priced([])
    else
      var l := lines[0];
      if !LineOk(l, store) then Refused(LineError(l, store))
      else
        match PriceLines(lines[1..], store)
        case Refused(m) =>
          assert forall k :: 1 <= k < |lines| ==> lines[k] == lines[1..][k - 1];
          Refused(m)
        case Priced(rest) =>
          var items := [ItemFor(store[l.productId], l)] + rest;
          assert forall k :: 1 <= k < |lines| ==> lines[k] == lines[1..][k - 1];
          assert ItemLines(items) == lines by {
            assert ItemLines(items) == [l] + ItemLines(rest);
            assert lines == [l] + lines[1..];
          }
          Priced(items)
  }

  /** The sum of the line totals. */
  function Subtotal(items: seq<OrderItem>): real
  {
    if |items| == 0 then 0.0 else items[0].totalPrice + Subtotal(items[1..])
  }

  lemma {:induction false} SubtotalAppend(a: seq<OrderItem>, b: seq<OrderItem>)
    ensures Subtotal(a + b) == Subtotal(a) + Subtotal(b)
  {
    if |a| == 0 {
      assert a + b == b;
    } else {
      assert (a + b)[1..] == a[1..] + b;
      SubtotalAppend(a[1..], b);
    }
  }

  /** Lines priced from products with non-negative prices have a non-negative subtotal. */
  lemma {:induction false} SubtotalNonNegative(items: seq<OrderItem>)
    requires forall k :: 0 <= k < |items| ==> items[k].totalPrice >= 0.0
    ensures Subtotal(items) >= 0.0
  {
    if |items| > 0 {
      SubtotalNonNegative(items[1..]);
    }
  }

  /** The charges on a subtotal: the delivery fee below the threshold, then 5% tax on the
      subtotal alone. */
  function PricingFor(subtotal: real): (r: Pricing)
    ensures r.subtotal == subtotal && r.discount == 0.0
    ensures r.deliveryCharge == 0.0 <==> subtotal >= FreeDeliveryFrom
    ensures r.deliveryCharge in {0.0, DeliveryFee}
    ensures r.tax * 20.0 == subtotal
    ensures r.total == subtotal + r.deliveryCharge + r.tax
  {
    var delivery := if subtotal < FreeDeliveryFrom then DeliveryFee else 0.0;
    var tax := subtotal * TaxRate;
    Pricing(subtotal, delivery, 0.0, tax, subtotal + delivery + tax)
  }

  /** Above the threshold the buyer pays exactly the subtotal plus tax; below it, 50 more. */
  lemma PricingTotal(subtotal: real)
    ensures subtotal >= FreeDeliveryFrom ==> PricingFor(subtotal).total == subtotal * 1.05
    ensures subtotal < FreeDeliveryFrom ==> PricingFor(subtotal).total == subtotal * 1.05 + 50.0
    ensures subtotal >= 0.0 ==> PricingFor(subtotal).total >= subtotal
  {
  }

  // ---------------------------------------------------------------------------
  // Stock

  /** The total quantity the lines ask of one product. */
  function Demand(lines: seq<Line>, pid: string): int
  {
    if |lines| == 0 then 0
    else (if lines[0].productId == pid then lines[0].quantity else 0) + Demand(lines[1..], pid)
  }

  /** How many lines name the product. */
  function Occurrences(lines: seq<Line>, pid: string): nat
  {
    if |lines| == 0 then 0
    else (if lines[0].productId == pid then 1 else 0) + Occurrences(lines[1..], pid)
  }

  lemma {:induction false} DemandAbsent(lines: seq<Line>, pid: string)
    requires forall k :: 0 <= k < |lines| ==> lines[k].productId != pid
    ensures Demand(lines, pid) == 0 && Occurrences(lines, pid) == 0
  {
    if |lines| > 0 {
      DemandAbsent(lines[1..], pid);
    }
  }

  /** One `$inc` on one product; an id with no document changes nothing. */
  function Bump(store: map<string, Product>, pid: string, stock: int, orders: int): (r: map<string, Product>)
    ensures r.Keys == store.Keys
  {
    if pid in store then
      store[pid := store[pid].(stock := store[pid].stock + stock, orderCount := store[pid].orderCount + orders)]
    else store
  }

  /** The create handler's stock loop: per line, stock down by the quantity and the order count
      up by one. */
  function Debit(store: map<string, Product>, lines: seq<Line>): (r: map<string, Product>)
    ensures r.Keys == store.Keys
  {
    if |lines| == 0 then store
    else Debit(Bump(store, lines[0].productId, -lines[0].quantity, 1), lines[1..])
  }

  /** Every product's stock falls by its total demand and its order count rises by the number of
      lines naming it. */
  lemma {:induction false} DebitEffect(store: map<string, Product>, lines: seq<Line>, pid: string)
    requires pid in store
    ensures Debit(store, lines)[pid] == store[pid].(stock := store[pid].stock - Demand(lines, pid),
                                                   orderCount := store[pid].orderCount + Occurrences(lines, pid))
  {
    if |lines| > 0 {
      var next := Bump(store, lines[0].productId, -lines[0].quantity, 1);
      DebitEffect(next, lines[1..], pid);
    }
  }

  /** The cancel handler's stock loop: per line, stock back up by the quantity; the order count
      is not touched. */
  function Restock(store: map<string, Product>, lines: seq<Line>): (r: map<string, Product>)
    ensures r.Keys == store.Keys
  {
    if |lines| == 0 then store
    else Restock(Bump(store, lines[0].productId, lines[0].quantity, 0), lines[1..])
  }

  /** Every product's stock rises by its total demand; nothing else changes. */
  lemma {:induction false} RestockEffect(store: map<string, Product>, lines: seq<Line>, pid: string)
    requires pid in store
    ensures Restock(store, lines)[pid] == store[pid].(stock := store[pid].stock + Demand(lines, pid))
  {
    if |lines| > 0 {
      var next := Bump(store, lines[0].productId, lines[0].quantity, 0);
      RestockEffect(next, lines[1..], pid);
    }
  }

  /** No product is asked for more than it has in stock, counting every line that names it. */
  predicate Covered(lines: seq<Line>, store: map<string, Product>) {
    forall k :: 0 <= k < |lines| ==>
      lines[k].productId in store && store[lines[k].productId].stock >= Demand(lines, lines[k].productId)
  }

  /** The first line whose product's total demand across the order exceeds its stock. */
  function FirstShort(lines: seq<Line>, all: seq<Line>, store: map<string, Product>): (r: Option<nat>)
    requires forall k :: 0 <= k < |lines| ==> lines[k].productId in store
    ensures r.None? <==> forall k :: 0 <= k < |lines| ==>
      store[lines[k].productId].stock >= Demand(all, lines[k].productId)
    ensures r.Some? ==>
      && r.value < |lines|
      && store[lines[r.value].productId].stock < Demand(all, lines[r.value].productId)
  {
    if |lines| == 0 then None
    else if store[lines[0].productId].stock < Demand(all, lines[0].productId) then Some(0)
    else
      var k := FirstShort(lines[1..], all, store);
      assert forall j :: 1 <= j < |lines| ==> lines[j] == lines[1..][j - 1];
      if k.None? then None else Some(k.value + 1)
  }

  // ---------------------------------------------------------------------------
  // Create

  /** The collections an order touches. */
  datatype Ledger = Ledger(orders: seq<Order>, products: map<string, Product>)

  /** A fresh order id, the clock (milliseconds) and `Math.random()`. */
  datatype PlaceEnv = PlaceEnv(orderId: string, now: nat, random: real)

  /** The document `new Order({...})` builds: pending, paid on the given method with payment
      pending, its address type defaulted to "home", and neither numbered nor given a timeline
      entry yet, so the schema refuses it as it stands. */
  function Draft(caller: User, sellerId: string, items: seq<OrderItem>, delivery: DeliveryInput,
                 payMethod: string, env: PlaceEnv): (o: Order)
    ensures o.id == env.orderId && o.buyerId == caller.id && o.sellerId == sellerId && o.items == items
    ensures o.status == "pending" && o.payment == Payment(payMethod, "pending") && o.cancellation.None?
    ensures o.pricing == PricingFor(Subtotal(items))
    ensures o.deliveryAddress == delivery.(addressType := Some(delivery.addressType.GetOr(DefaultAddressType)))
    ensures o.orderNumber.None? && o.timeline == []
    ensures !OrderValid(o)
  {
    var address := delivery.(addressType := Some(delivery.addressType.GetOr(DefaultAddressType)));
    Order(env.orderId, None, caller.id, sellerId, items, PricingFor(Subtotal(items)),
          address, "pending", Payment(payMethod, "pending"), [], None, env.now)
  }

  /** An address type outside the schema's enum makes every save of the order fail, whenever the
      numbering hook runs; an absent one is stored as "home". */
  lemma AddressTypeChecked(caller: User, sellerId: string, items: seq<OrderItem>, delivery: DeliveryInput,
                           payMethod: string, env: PlaceEnv, orders: seq<Order>, hook: NumberingHook)
    requires 0.0 <= env.random < 1.0
    ensures !KnownAddressType(delivery.addressType) ==>
      SaveNew(Draft(caller, sellerId, items, delivery, payMethod, env), orders, hook, env.now, env.random).None?
    ensures delivery.addressType.None? ==>
      NewOrder(caller, sellerId, items, delivery, payMethod, env).deliveryAddress.addressType == Some("home")
  {
  }

  /** The draft once the numbering hook has run on it: numbered, with one "Order created" entry. */
  function NewOrder(caller: User, sellerId: string, items: seq<OrderItem>, delivery: DeliveryInput,
                    payMethod: string, env: PlaceEnv): (o: Order)
    requires 0.0 <= env.random < 1.0
    ensures o.id == env.orderId && o.buyerId == caller.id && o.sellerId == sellerId && o.items == items
    ensures o.status == "pending" && o.payment == Payment(payMethod, "pending") && o.cancellation.None?
    ensures o.pricing == PricingFor(Subtotal(items))
    ensures o.orderNumber == Some(OrderNumber(env.now, env.random)) && Present(o.orderNumber)
    ensures o.timeline == [Entry("pending", env.now, "Order created", None)] && TimelineCurrent(o)
  {
    PreSave(Draft(caller, sellerId, items, delivery, payMethod, env), true, env.now, env.random)
  }

  /** The unique indexes on `_id` and `orderNumber` admit the order. */
  predicate Unique(o: Order, orders: seq<Order>) {
    && FindOrder(orders, o.id).None?
    && forall i :: 0 <= i < |orders| ==> orders[i].orderNumber != o.orderNumber
  }

  /** The save succeeds when the schema accepts the order and its id and number are unused. */
  predicate Saveable(o: Order, orders: seq<Order>) {
    OrderValid(o) && Unique(o, orders)
  }

  /** Where the numbering hook runs inside Mongoose's `save()`. Registered with `pre('save')`, as
      in `backend/src/models/Order.js`, it runs after the schema validation; registered with
      `pre('validate')` it would run before it. */
  datatype NumberingHook = OnSave | OnValidate

  /** `save()` of a new order: the schema validation and the numbering hook, in the order the hook's
      phase gives, then the unique indexes. With the hook on save, validation sees the draft itself. */
  function SaveNew(draft: Order, orders: seq<Order>, hook: NumberingHook, now: nat, random: real)
    : (r: Option<Order>)
    requires 0.0 <= random < 1.0
    ensures r.Some? <==>
      && (hook == OnSave ==> OrderValid(draft))
      && Saveable(PreSave(draft, true, now, random), orders)
    ensures r.Some? ==> r.value == PreSave(draft, true, now, random)
  {
    match hook
    case OnSave =>
      if !OrderValid(draft) then None
      else
        var o := PreSave(draft, true, now, random);
        if Unique(o, orders) then Some(o) else None
    case OnValidate =>
      var o := PreSave(draft, true, now, random);
      if OrderValid(o) && Unique(o, orders) then Some(o) else None
  }

  /** With the hook on save, an order that reaches `save()` without a number is refused by the
      required-path check before the hook could number it. */
  lemma UnnumberedNeverSaves(draft: Order, orders: seq<Order>, now: nat, random: real)
    requires 0.0 <= random < 1.0
    requires !Present(draft.orderNumber)
    ensures SaveNew(draft, orders, OnSave, now, random).None?
    ensures SaveNew(draft, orders, OnValidate, now, random).Some? <==>
      Saveable(PreSave(draft, true, now, random), orders)
  {
  }

  /** The part of the create handler after pricing: build, save, then debit. A refused save throws
      into the handler's catch, before any stock is touched. */
  function Commit(caller: User, lines: seq<Line>, items: seq<OrderItem>, delivery: DeliveryInput,
                  payMethod: string, st: Ledger, env: PlaceEnv, hook: NumberingHook): (r: (Reply<Order>, Ledger))
    requires |lines| >= 1 && lines[0].productId in st.products && 0.0 <= env.random < 1.0
    ensures var o := NewOrder(caller, st.products[lines[0].productId].sellerId, items, delivery, payMethod, env);
      && (r.0.Ok? <==> hook == OnValidate && Saveable(o, st.orders))
      && (r.0.Ok? ==> r == (Ok(201, "Order created successfully", o),
                            Ledger(st.orders + [o], Debit(st.products, lines))))
      && (r.0.Err? ==> r == (Fail(500, InternalError), st))
  {
    var draft := Draft(caller, st.products[lines[0].productId].sellerId, items, delivery, payMethod, env);
    match SaveNew(draft, st.orders, hook, env.now, env.random)
    case None => (Fail(500, InternalError), st)
    case Some(o) => (Ok(201, "Order created successfully", o), Ledger(st.orders + [o], Debit(st.products, lines)))
  }

  /** The order the create handler saves once every line has been priced: the seller is the
      first line's product's. */
  function PricedOrder(caller: User, lines: seq<Line>, delivery: DeliveryInput, payMethod: string,
                       st: Ledger, env: PlaceEnv): Order
    requires |lines| >= 1 && 0.0 <= env.random < 1.0 && PriceLines(lines, st.products).Priced?
  {
    assert LineOk(lines[0], st.products);
    NewOrder(caller, st.products[lines[0].productId].sellerId, PriceLines(lines, st.products).items,
             delivery, payMethod, env)
  }

  /** The create handler as written, after the order chain: every line is checked against the
      stock before the order, one line at a time, so repeated lines for one product each pass
      on their own. With the numbering hook on save, as in the repository, every priced order is
      then refused by its save with 500; with the hook on validate it is stored. */
  function PlaceOrderAsWritten(caller: User, lines: seq<Line>, delivery: DeliveryInput, payMethod: string,
                               st: Ledger, env: PlaceEnv, hook: NumberingHook): (r: (Reply<Order>, Ledger))
    requires |lines| >= 1 && 0.0 <= env.random < 1.0
    ensures PriceLines(lines, st.products).Refused? ==>
      r == (Fail(400, PriceLines(lines, st.products).message), st)
    ensures hook == OnSave && PriceLines(lines, st.products).Priced? ==> r == (Fail(500, InternalError), st)
    ensures r.0.Ok? <==>
      && hook == OnValidate
      && PriceLines(lines, st.products).Priced?
      && Saveable(PricedOrder(caller, lines, delivery, payMethod, st, env), st.orders)
    ensures r.0.Ok? ==>
      && (forall k :: 0 <= k < |lines| ==> LineOk(lines[k], st.products))
      && r.0 == Ok(201, "Order created successfully", PricedOrder(caller, lines, delivery, payMethod, st, env))
      && r.1 == Ledger(st.orders + [r.0.data], Debit(st.products, lines))
    ensures r.0.Err? ==> r.1 == st
  {
    match PriceLines(lines, st.products)
    case Refused(m) => (Fail(400, m), st)
    case Priced(items) => Commit(caller, lines, items, delivery, payMethod, st, env, hook)
  }

  /** One product with a single unit in stock, and an order of two one-unit lines for it. */
  const WitnessProduct :=
    Product("p", "s", "Tomatoes", "Fresh red tomatoes", [], 10.0, "kg", 1, "vegetables", false,
            None, None, 0, 0, 0.0, "active", None, None)

  const WitnessLines: seq<Line> := [Line("p", 1), Line("p", 1)]

  const WitnessLedger := Ledger([], map["p" := WitnessProduct])

  /** Into an empty collection, a draft with a known payment method, a known or absent address
      type and whole positive quantities is saved, numbered, when the hook runs before validation, and refused when it runs
      after it, as written. */
  lemma FirstOrderSaveable(caller: User, sellerId: string, items: seq<OrderItem>, delivery: DeliveryInput,
                           payMethod: string, env: PlaceEnv)
    requires payMethod in PaymentMethods && KnownAddressType(delivery.addressType) && 0.0 <= env.random < 1.0
    requires forall k :: 0 <= k < |items| ==> items[k].quantity >= 1
    ensures var draft := Draft(caller, sellerId, items, delivery, payMethod, env);
      && SaveNew(draft, [], OnValidate, env.now, env.random)
         == Some(NewOrder(caller, sellerId, items, delivery, payMethod, env))
      && SaveNew(draft, [], OnSave, env.now, env.random).None?
  {
    var o := NewOrder(caller, sellerId, items, delivery, payMethod, env);
    assert Saveable(o, []);
  }

  lemma WitnessLinesPass()
    ensures PriceLines(WitnessLines, WitnessLedger.products).Priced?
    ensures Demand(WitnessLines, "p") == 2
  {
    assert LineOk(WitnessLines[0], WitnessLedger.products) && LineOk(WitnessLines[1], WitnessLedger.products);
    assert WitnessLines[1..][1..] == [];
  }

  /** Both lines pass the per-line check. Once the order is numbered before validation, it is
      saved and the product's stock ends at -1; with the hook on save, as written, the save refuses
      the order first and the stock stays at 1. */
  lemma OversellWitness(caller: User, delivery: DeliveryInput)
    requires KnownAddressType(delivery.addressType)
    ensures var r := PlaceOrderAsWritten(caller, WitnessLines, delivery, "cod", WitnessLedger,
                                         PlaceEnv("o", 0, 0.0), OnValidate);
      && r.0.Ok?
      && r.1.products["p"].stock == -1
    ensures PlaceOrderAsWritten(caller, WitnessLines, delivery, "cod", WitnessLedger, PlaceEnv("o", 0, 0.0), OnSave)
      == (Fail(500, InternalError), WitnessLedger)
  {
    var env := PlaceEnv("o", 0, 0.0);
    WitnessLinesPass();
    var items := PriceLines(WitnessLines, WitnessLedger.products).items;
    assert ItemLines(items) == WitnessLines;
    assert forall k :: 0 <= k < |items| ==> items[k].quantity == WitnessLines[k].quantity;
    FirstOrderSaveable(caller, "s", items, delivery, "cod", env);
    DebitEffect(WitnessLedger.products, WitnessLines, "p");
  }

  /** The corrected create: after the per-line checks, each product's total demand across the
      order must also be in stock, and the order is numbered before the schema validates it. */
  function PlaceOrder(caller: User, lines: seq<Line>, delivery: DeliveryInput, payMethod: string,
                      st: Ledger, env: PlaceEnv): (r: (Reply<Order>, Ledger))
    requires |lines| >= 1 && 0.0 <= env.random < 1.0
    ensures PriceLines(lines, st.products).Refused? ==>
      r == (Fail(400, PriceLines(lines, st.products).message), st)
    ensures r.0.Ok? ==> Covered(lines, st.products) && r.1.products == Debit(st.products, lines)
    ensures r.0.Err? ==> r.1 == st
  {
    match PriceLines(lines, st.products)
    case Refused(m) => (Fail(400, m), st)
    case Priced(items) =>
      assert LineOk(lines[0], st.products);
      match FirstShort(lines, lines, st.products)
      case Some(k) => (Fail(400, "Insufficient stock for " + st.products[lines[k].productId].title), st)
      case None => Commit(caller, lines, items, delivery, payMethod, st, env, OnValidate)
  }

  /** The corrected create succeeds exactly when every line's product exists with the line's
      quantity in stock, every product covers its total demand, and the save goes through. */
  lemma PlaceOrderOutcome(caller: User, lines: seq<Line>, delivery: DeliveryInput, payMethod: string,
                          st: Ledger, env: PlaceEnv)
    requires |lines| >= 1 && 0.0 <= env.random < 1.0
    ensures PlaceOrder(caller, lines, delivery, payMethod, st, env).0.Ok? <==>
      && PriceLines(lines, st.products).Priced?
      && Covered(lines, st.products)
      && Saveable(NewOrder(caller, st.products[lines[0].productId].sellerId,
                           PriceLines(lines, st.products).items, delivery, payMethod, env), st.orders)
  {
  }

  /** What a successful create saves: the buyer's pending order, one item per line priced at the
      product's price, the charges on their sum, appended to the orders. */
  lemma PlacedOrderShape(caller: User, lines: seq<Line>, delivery: DeliveryInput, payMethod: string,
                         st: Ledger, env: PlaceEnv)
    requires |lines| >= 1 && 0.0 <= env.random < 1.0
    requires PlaceOrder(caller, lines, delivery, payMethod, st, env).0.Ok?
    ensures var r := PlaceOrder(caller, lines, delivery, payMethod, st, env);
      var o := r.0.data;
      && r.0.status == 201
      && o.id == env.orderId && FindOrder(st.orders, env.orderId).None?
      && o.buyerId == caller.id && o.sellerId == st.products[lines[0].productId].sellerId
      && o.status == "pending" && o.payment == Payment(payMethod, "pending") && payMethod in PaymentMethods
      && ItemLines(o.items) == lines
      && (forall k :: 0 <= k < |lines| ==>
            o.items[k].totalPrice == st.products[lines[k].productId].price * lines[k].quantity as real)
      && o.pricing == PricingFor(Subtotal(o.items))
      && r.1.orders == st.orders + [o]
  {
    var items := PriceLines(lines, st.products).items;
    assert forall k :: 0 <= k < |lines| ==> items[k] == ItemFor(st.products[lines[k].productId], lines[k]);
  }

  /** With the corrected check no product's stock goes negative. */
  lemma PlaceKeepsStock(caller: User, lines: seq<Line>, delivery: DeliveryInput, payMethod: string,
                        st: Ledger, env: PlaceEnv)
    requires |lines| >= 1 && 0.0 <= env.random < 1.0
    requires forall pid :: pid in st.products ==> st.products[pid].stock >= 0
    requires PlaceOrder(caller, lines, delivery, payMethod, st, env).0.Ok?
    ensures var after := PlaceOrder(caller, lines, delivery, payMethod, st, env).1.products;
      && after.Keys == st.products.Keys
      && forall pid :: pid in after ==> after[pid].stock >= 0
  {
    var after := PlaceOrder(caller, lines, delivery, payMethod, st, env).1.products;
    forall pid | pid in after ensures after[pid].stock >= 0 {
      DebitEffect(st.products, lines, pid);
      if exists k :: 0 <= k < |lines| && lines[k].productId == pid {
        var k :| 0 <= k < |lines| && lines[k].productId == pid;
        assert st.products[pid].stock >= Demand(lines, pid);
      } else {
        DemandAbsent(lines, pid);
      }
    }
  }

  /** With the order numbered before validation, the corrected create differs from the one as
      written only where the total demand is not covered: wherever every product covers it, the
      two give the same reply and collections. */
  lemma CoveredAgrees(caller: User, lines: seq<Line>, delivery: DeliveryInput, payMethod: string,
                      st: Ledger, env: PlaceEnv)
    requires |lines| >= 1 && 0.0 <= env.random < 1.0
    requires Covered(lines, st.products)
    ensures PlaceOrder(caller, lines, delivery, payMethod, st, env) ==
      PlaceOrderAsWritten(caller, lines, delivery, payMethod, st, env, OnValidate)
  {
    if PriceLines(lines, st.products).Priced? {
      assert FirstShort(lines, lines, st.products).None?;
    }
  }

  datatype OrderRequest = OrderRequest(
    items: Option<seq<ItemInput>>,
    deliveryAddress: DeliveryInput,
    paymentMethod: Option<string>)

  /** `POST /orders` after authentication, as written, over an order schema whose numbering hook
      runs in the given phase (`OnSave` in the repository): the order chain answers 400 first; the
      payment method defaults to cash on delivery; the lines are then checked one at a time. */
  function CreateOrder(lib: Library, caller: User, req: OrderRequest, st: Ledger, env: PlaceEnv,
                       hook: NumberingHook): (r: (Reply<Order>, Ledger))
    requires 0.0 <= env.random < 1.0
    ensures !AllPass(OrderChecks(lib, req.items, req.deliveryAddress)) ==>
      r == (Fail(400, "Validation failed"), st)
    ensures AllPass(OrderChecks(lib, req.items, req.deliveryAddress)) ==>
      r == PlaceOrderAsWritten(caller, LinesOf(req.items.value), SanitisedDelivery(req.deliveryAddress),
                               req.paymentMethod.GetOr("cod"), st, env, hook)
    ensures r.0.Err? ==> r.1 == st
  {
    if HandleValidationErrors(OrderChecks(lib, req.items, req.deliveryAddress)).Some? then
      (Fail(400, "Validation failed"), st)
    else
      PlaceOrderAsWritten(caller, LinesOf(req.items.value), SanitisedDelivery(req.deliveryAddress),
                          req.paymentMethod.GetOr("cod"), st, env, hook)
  }

  /** As written no order is ever created: a body the order chain or the pricing refuses gets 400,
      and every other one gets 500 "Internal server error" from the refused save, with no order
      stored and no stock touched. */
  lemma CreateAlwaysFails(lib: Library, caller: User, req: OrderRequest, st: Ledger, env: PlaceEnv)
    requires 0.0 <= env.random < 1.0
    ensures var r := CreateOrder(lib, caller, req, st, env, OnSave);
      && r.0.Err? && r.1 == st
      && (r.0.status == 400 <==>
            !AllPass(OrderChecks(lib, req.items, req.deliveryAddress))
            || PriceLines(LinesOf(req.items.value), st.products).Refused?)
      && (r.0.status != 400 ==> r.0 == Fail(500, InternalError))
  {
  }

  /** A created order satisfies the schema (a number, a known payment method, whole quantities of
      at least one), carries its first timeline entry, and is the last stored order; only the route
      whose order is numbered before validation creates one. */
  lemma CreatedOrderValid(lib: Library, caller: User, req: OrderRequest, st: Ledger, env: PlaceEnv,
                          hook: NumberingHook)
    requires 0.0 <= env.random < 1.0
    requires CreateOrder(lib, caller, req, st, env, hook).0.Ok?
    ensures var created := CreateOrder(lib, caller, req, st, env, hook);
      var r := created.0;
      var st1 := created.1;
      && hook == OnValidate
      && OrderValid(r.data) && r.data.payment.kind == req.paymentMethod.GetOr("cod")
      && r.data.orderNumber.Some? && TimelineCurrent(r.data)
      && st1.orders == st.orders + [r.data]
  {
  }

  /** `POST /orders` with the total-demand check added and the order numbered before validation. */
  function CreateOrderChecked(lib: Library, caller: User, req: OrderRequest, st: Ledger, env: PlaceEnv)
    : (r: (Reply<Order>, Ledger))
    requires 0.0 <= env.random < 1.0
    ensures !AllPass(OrderChecks(lib, req.items, req.deliveryAddress)) ==>
      r == (Fail(400, "Validation failed"), st)
    ensures AllPass(OrderChecks(lib, req.items, req.deliveryAddress)) ==>
      r == PlaceOrder(caller, LinesOf(req.items.value), SanitisedDelivery(req.deliveryAddress),
                      req.paymentMethod.GetOr("cod"), st, env)
    ensures r.0.Err? ==> r.1 == st
  {
    if HandleValidationErrors(OrderChecks(lib, req.items, req.deliveryAddress)).Some? then
      (Fail(400, "Validation failed"), st)
    else
      PlaceOrder(caller, LinesOf(req.items.value), SanitisedDelivery(req.deliveryAddress),
                 req.paymentMethod.GetOr("cod"), st, env)
  }

  /** The checked route accepts only what the route as written accepts once its order is numbered
      before validation, with the same result, and never leaves a stock negative. */
  lemma CheckedCreateAgrees(lib: Library, caller: User, req: OrderRequest, st: Ledger, env: PlaceEnv)
    requires 0.0 <= env.random < 1.0
    requires forall pid :: pid in st.products ==> st.products[pid].stock >= 0
    requires CreateOrderChecked(lib, caller, req, st, env).0.Ok?
    ensures CreateOrderChecked(lib, caller, req, st, env) == CreateOrder(lib, caller, req, st, env, OnValidate)
    ensures var after := CreateOrderChecked(lib, caller, req, st, env).1.products;
      forall pid :: pid in after ==> after[pid].stock >= 0
  {
    var lines := LinesOf(req.items.value);
    var d := SanitisedDelivery(req.deliveryAddress);
    var m := req.paymentMethod.GetOr("cod");
    CoveredAgrees(caller, lines, d, m, st, env);
    PlaceKeepsStock(caller, lines, d, m, st, env);
  }

  // ---------------------------------------------------------------------------
  // Cancel

  /** `POST /orders/:id/cancel`: the buyer or an admin cancels an order that has not yet been
      packed; stock comes back. The status is set directly, so no timeline entry is added. */
  function CancelOrder(caller: User, id: string, reason: Option<string>, st: Ledger, now: int)
    : (r: (Reply<Order>, Ledger))
    ensures FindOrder(st.orders, id).None? ==> r == (Fail(404, "Order not found"), st)
    ensures r.0.Ok? <==>
      && FindOrder(st.orders, id).Some?
      && var o := st.orders[FindOrder(st.orders, id).value];
      && (o.buyerId == caller.id || caller.role == "admin")
      && o.status in CancellableStatuses
    ensures FindOrder(st.orders, id).Some? ==>
      var o := st.orders[FindOrder(st.orders, id).value];
      && (o.buyerId != caller.id && caller.role != "admin" ==>
            r == (Fail(403, "Not authorized to cancel this order"), st))
      && ((o.buyerId == caller.id || caller.role == "admin") && o.status !in CancellableStatuses ==>
            r == (Fail(400, "Order cannot be cancelled at this stage"), st))
    ensures r.0.Ok? ==>
      var i := FindOrder(st.orders, id).value;
      var o := st.orders[i];
      && r.0.data == o.(status := "cancelled",
                        cancellation := Some(Cancellation(OrElse(reason, DefaultCancelReason), "buyer", now, now)))
      && r.0.data.timeline == o.timeline
      && r.1 == Ledger(st.orders[i := r.0.data], Restock(st.products, ItemLines(o.items)))
    ensures r.0.Err? ==> r.1 == st
  {
    match FindOrder(st.orders, id)
    case None => (Fail(404, "Order not found"), st)
    case Some(i) =>
      var o := st.orders[i];
      if o.buyerId != caller.id && caller.role != "admin" then
        (Fail(403, "Not authorized to cancel this order"), st)
      else if o.status !in CancellableStatuses then
        (Fail(400, "Order cannot be cancelled at this stage"), st)
      else
        var c := o.(status := "cancelled",
                    cancellation := Some(Cancellation(OrElse(reason, DefaultCancelReason), "buyer", now, now)));
        (Ok(200, "Order cancelled successfully", c),
         Ledger(st.orders[i := c], Restock(st.products, ItemLines(o.items))))
  }

  /** Restocking the lines a debit took gives every product its stock back; the order counts
      keep the debit's increments. */
  lemma RestockUndoesDebit(store: map<string, Product>, lines: seq<Line>)
    ensures var after := Restock(Debit(store, lines), lines);
      && after.Keys == store.Keys
      && forall pid :: pid in store ==>
           after[pid] == store[pid].(orderCount := store[pid].orderCount + Occurrences(lines, pid))
  {
    forall pid | pid in store
      ensures Restock(Debit(store, lines), lines)[pid]
        == store[pid].(orderCount := store[pid].orderCount + Occurrences(lines, pid))
    {
      DebitEffect(store, lines, pid);
      RestockEffect(Debit(store, lines), lines, pid);
    }
  }

  // ---------------------------------------------------------------------------
  // Status update

  /** Who may set a status: the seller, an admin, or the buyer cancelling. */
  predicate CanUpdate(o: Order, caller: User, status: string) {
    o.sellerId == caller.id || caller.role == "admin" || (o.buyerId == caller.id && status == "cancelled")
  }

  /** `PATCH /orders/:id/status`. */
  function UpdateOrderStatus(caller: User, id: string, status: Option<string>, note: Option<string>,
                             st: Ledger, now: int): (r: (Reply<Order>, Ledger))
    ensures status.None? || status.value !in OrderStatuses ==> r == (Fail(400, "Invalid status"), st)
    ensures status.Some? && status.value in OrderStatuses && FindOrder(st.orders, id).None? ==>
      r == (Fail(404, "Order not found"), st)
    ensures r.0.Ok? <==>
      && status.Some? && status.value in OrderStatuses
      && FindOrder(st.orders, id).Some?
      && CanUpdate(st.orders[FindOrder(st.orders, id).value], caller, status.value)
    ensures r.0.Ok? ==>
      var i := FindOrder(st.orders, id).value;
      && r.0.data == UpdateStatus(st.orders[i], status.value, note, caller.id, now)
      && r.1 == Ledger(st.orders[i := r.0.data], st.products)
    ensures r.0.Err? && status.Some? && status.value in OrderStatuses && FindOrder(st.orders, id).Some? ==>
      r == (Fail(403, "Not authorized to update this order"), st)
    ensures r.0.Err? ==> r.1 == st
  {
    if status.None? || status.value !in OrderStatuses then (Fail(400, "Invalid status"), st)
    else
      match FindOrder(st.orders, id)
      case None => (Fail(404, "Order not found"), st)
      case Some(i) =>
        if !CanUpdate(st.orders[i], caller, status.value) then
          (Fail(403, "Not authorized to update this order"), st)
        else
          var o := UpdateStatus(st.orders[i], status.value, note, caller.id, now);
          (Ok(200, "Order status updated successfully", o), Ledger(st.orders[i := o], st.products))
  }

  /** A status update keeps a schema-valid order valid and records itself in the timeline; a
      buyer may cancel this way from any state, and then no stock is restored. */
  lemma UpdateKeepsOrderValid(caller: User, id: string, status: Option<string>, note: Option<string>,
                              st: Ledger, now: int)
    requires FindOrder(st.orders, id).Some? && OrderValid(st.orders[FindOrder(st.orders, id).value])
    requires UpdateOrderStatus(caller, id, status, note, st, now).0.Ok?
    ensures var o := UpdateOrderStatus(caller, id, status, note, st, now).0.data;
      OrderValid(o) && TimelineCurrent(o) && o.status == status.value
    ensures UpdateOrderStatus(caller, id, status, note, st, now).1.products == st.products
  {
  }

  /** Cancelling leaves the timeline as it was, so its last entry no longer names the status. */
  lemma CancelSkipsTimeline(caller: User, id: string, reason: Option<string>, st: Ledger, now: int)
    requires FindOrder(st.orders, id).Some? && TimelineCurrent(st.orders[FindOrder(st.orders, id).value])
    requires CancelOrder(caller, id, reason, st, now).0.Ok?
    ensures var o := st.orders[FindOrder(st.orders, id).value];
      o.status != "cancelled" && !TimelineCurrent(CancelOrder(caller, id, reason, st, now).0.data)
  {
  }

  // ---------------------------------------------------------------------------
  // Read

  /** Who may view an order: its buyer, its seller or an admin. */
  predicate CanView(o: Order, caller: User) {
    o.buyerId == caller.id || o.sellerId == caller.id || caller.role == "admin"
  }

  /** `GET /orders/:id` as written: after populating buyer and seller it calls `.equals` on their
      ids, which are plain strings in this schema, so every found order ends in the error
      handler. */
  function GetOrderAsWritten(caller: User, id: string, orders: seq<Order>): (r: Reply<Order>)
    ensures FindOrder(orders, id).None? ==> r == Fail(404, "Order not found")
    ensures FindOrder(orders, id).Some? ==> r == Fail(500, InternalError)
  {
    match FindOrder(orders, id)
    case None => Fail(404, "Order not found")
    case Some(_) => Fail(500, InternalError)
  }

  /** Even the buyer cannot read their own order. */
  lemma GetOrderUnreadable(caller: User, o: Order)
    requires o.buyerId == caller.id
    ensures GetOrderAsWritten(caller, o.id, [o]).Err?
    ensures GetOrder(caller, o.id, [o]).Ok?
  {
  }

  /** `GET /orders/:id` with the ids compared as strings, as the other order routes do. */
  function GetOrder(caller: User, id: string, orders: seq<Order>): (r: Reply<Order>)
    ensures FindOrder(orders, id).None? ==> r == Fail(404, "Order not found")
    ensures r.Ok? <==> FindOrder(orders, id).Some? && CanView(orders[FindOrder(orders, id).value], caller)
    ensures r.Ok? ==> r.data.id == id && r.data in orders
    ensures FindOrder(orders, id).Some? && r.Err? ==> r == Fail(403, "Not authorized to view this order")
  {
    match FindOrder(orders, id)
    case None => Fail(404, "Order not found")
    case Some(i) =>
      if !CanView(orders[i], caller) then Fail(403, "Not authorized to view this order")
      else Ok(200, "", orders[i])
  }

  // ---------------------------------------------------------------------------
  // The buyer's list

  /** The list filter: the caller's orders, and only the given status when one is set. */
  predicate Mine(o: Order, caller: User, status: Option<string>) {
    o.buyerId == caller.id && (Present(status) ==> o.status == status.value)
  }

  function MyOrders(orders: seq<Order>, caller: User, status: Option<string>): (r: seq<Order>)
    ensures |r| <= |orders|
    ensures forall o :: o in r <==> o in orders && Mine(o, caller, status)
  {
    if |orders| == 0 then []
    else
      var rest := MyOrders(orders[1..], caller, status);
      assert forall o :: o in orders <==> o == orders[0] || o in orders[1..];
      if Mine(orders[0], caller, status) then [orders[0]] + rest else rest
  }

  function Newest(o: Order): Key { Key(o.createdAt as real, 0.0) }

  datatype OrderPage = OrderPage(orders: seq<Order>, pagination: Pagination)

  /** `GET /orders/user`: newest first, page 1 and ten per page unless given. */
  function ListUserOrders(caller: User, status: Option<string>, page: Option<int>, limit: Option<int>,
                          orders: seq<Order>): (r: Reply<OrderPage>)
    ensures var p := page.GetOr(1); var l := limit.GetOr(10);
      && (r.Err? <==> Skip(p, l) < 0)
      && (r.Ok? ==> r.data.pagination == Describe(p, l, |MyOrders(orders, caller, status)|))
      && (r.Ok? ==> r.data.orders == Window(SortDesc(MyOrders(orders, caller, status), Newest), p, l).value)
      && (r.Ok? && l != 0 ==> |r.data.orders| <= Abs(l))
  {
    var p := page.GetOr(1);
    var l := limit.GetOr(10);
    var mine := MyOrders(orders, caller, status);
    match Window(SortDesc(mine, Newest), p, l)
    case None => Fail(500, InternalError)
    case Some(w) => Ok(200, "", OrderPage(w, Describe(p, l, |mine|)))
  }

  /** A page of a sorted sequence is sorted and holds only elements of the sequence. */
  lemma PageSorted<T>(xs: seq<T>, key: T -> Key, page: int, limit: int)
    requires SortedDesc(xs, key) && Window(xs, page, limit).Some?
    ensures SortedDesc(Window(xs, page, limit).value, key)
    ensures forall x :: x in Window(xs, page, limit).value ==> x in xs
  {
    var a := Min(Skip(page, limit), |xs|);
    var b := if limit == 0 then |xs| else Min(a + Abs(limit), |xs|);
    assert Window(xs, page, limit).value == xs[a..b];
    SliceSorted(xs, key, a, b);
  }

  /** A page of the list is newest first and holds only the caller's orders, with the status
      asked for. */
  lemma ListedOrdersMine(caller: User, status: Option<string>, page: Option<int>, limit: Option<int>,
                         orders: seq<Order>)
    requires ListUserOrders(caller, status, page, limit, orders).Ok?
    ensures var listed := ListUserOrders(caller, status, page, limit, orders).data.orders;
      && SortedDesc(listed, Newest)
      && forall o :: o in listed ==> o in orders && Mine(o, caller, status)
  {
    var mine := MyOrders(orders, caller, status);
    var sorted := SortDesc(mine, Newest);
    PageSorted(sorted, Newest, page.GetOr(1), limit.GetOr(10));
    assert forall o :: o in sorted ==> o in multiset(mine);
  }

  /** The caller's order list as a page function of the page number, at a fixed limit. */
  function UserOrderPages(caller: User, status: Option<string>, limit: int, orders: seq<Order>)
    : int -> Option<seq<Order>>
  {
    (k: int) => var r := ListUserOrders(caller, status, Some(k), Some(limit), orders);
      if r.Ok? then Some(r.data.orders) else None
  }

  /** Walking the caller's order list from page 1 to the last page its pagination block names
      lists each of the caller's orders with that status exactly once, newest first. */
  lemma UserOrdersPagesCover(caller: User, status: Option<string>, limit: int, orders: seq<Order>)
    requires limit > 0
    ensures var first := ListUserOrders(caller, status, Some(1), Some(limit), orders);
      && first.Ok?
      && Walk(UserOrderPages(caller, status, limit, orders), first.data.pagination.pages.value)
         == SortDesc(MyOrders(orders, caller, status), Newest)
  {
    var sorted := SortDesc(MyOrders(orders, caller, status), Newest);
    forall k | 1 <= k ensures UserOrderPages(caller, status, limit, orders)(k) == Window(sorted, k, limit) {
      UserOrderPageIs(caller, status, limit, orders, k);
    }
    UserOrderPageIs(caller, status, limit, orders, 1);
    WalkCovers(sorted, UserOrderPages(caller, status, limit, orders), limit);
  }

  lemma UserOrderPageIs(caller: User, status: Option<string>, limit: int, orders: seq<Order>, k: int)
    requires limit > 0 && 1 <= k
    ensures var sorted := SortDesc(MyOrders(orders, caller, status), Newest);
      && UserOrderPages(caller, status, limit, orders)(k) == Window(sorted, k, limit)
      && ListUserOrders(caller, status, Some(k), Some(limit), orders).Ok?
      && ListUserOrders(caller, status, Some(k), Some(limit), orders).data.pagination ==
         Describe(k, limit, |sorted|)
  {
    MulMono(k - 1, 0, limit);
    assert Skip(k, limit) >= 0;
  }
}

=== FILE: otp.dfy ===
/** One-time passwords: the OTP document with its `verify` state machine, and the OTP service
    that issues codes (deleting stale ones first) and checks them without ever throwing. */
module Otp {

  import opened Wrappers
  import opened Text

  const Purposes: set<string> :=
    {"signup", "login", "password_reset", "phone_verification", "email_verification", "transaction"}

  /** Guesses allowed per code (the schema's `max` on `attempts`). */
  const MaxAttempts: nat := 3

  /** A code stays valid for five minutes after issue. */
  const ValidityMs: int := 5 * 60 * 1000

  /** The fixed code issued when the server runs in development mode. */
  const DevelopmentCode := "123456"

  datatype OtpRecord = OtpRecord(
    id: string,
    target: string,
    code: string,
    purpose: string,
    attempts: nat,
    isUsed: bool,
    expiresAt: int,
    createdAt: int)

  // ---------------------------------------------------------------------------
  // The OTP document

  /** `generateOTP`: `Math.floor(100000 + r * 900000).toString()` for `r = Math.random()`. */
  function GenerateCode(r: real): (code: string)
    requires 0.0 <= r < 1.0
    ensures |code| == 6 && AllDigits(code)
    ensures 100000 <= DecimalValue(code) <= 999999
  {
    var n := (100000.0 + r * 900000.0).Floor;
    assert 100000 <= n <= 999999;
    assert Pow10(5) == 100000 && Pow10(6) == 1000000 by {
      assert Pow10(1) == 10;
      assert Pow10(2) == 100;
      assert Pow10(3) == 1000;
      assert Pow10(4) == 10000;
    }
    DecimalLength(n, 5);
    DecimalRoundTrip(n);
    DecimalString(n)
  }

  datatype Check = Accepted | Rejected(reason: string)

  /** The guards of `verify` all pass: unused, unexpired, and attempts left. */
  predicate Open(o: OtpRecord, now: int) {
    !o.isUsed && !(o.expiresAt < now) && o.attempts < MaxAttempts
  }

  /** `verify(inputCode)` at time `now`: the verdict and the document as it is saved afterwards. */
  function Verify(o: OtpRecord, input: string, now: int): (r: (Check, OtpRecord))
    ensures o.isUsed ==> r == (Rejected("OTP already used"), o)
    ensures !o.isUsed && o.expiresAt < now ==> r == (Rejected("OTP expired"), o)
    ensures !o.isUsed && !(o.expiresAt < now) && o.attempts >= MaxAttempts ==>
      r == (Rejected("Maximum attempts exceeded"), o)
    ensures Open(o, now) ==> r.1 == o.(attempts := o.attempts + 1, isUsed := input == o.code)
    ensures r.0.Accepted? <==> Open(o, now) && input == o.code
    ensures Open(o, now) && input != o.code ==> r.0 == Rejected("Invalid OTP")
  {
    if o.isUsed then (Rejected("OTP already used"), o)
    else if o.expiresAt < now then (Rejected("OTP expired"), o)
    else if o.attempts >= MaxAttempts then (Rejected("Maximum attempts exceeded"), o)
    else
      var o' := o.(attempts := o.attempts + 1);
      if o'.code != input then (Rejected("Invalid OTP"), o')
      else (Accepted, o'.(isUsed := true))
  }

  /** A verdict that reached the code comparison, i.e. consumed one of the allowed guesses. */
  predicate Guessed(c: Check) {
    c.Accepted? || c == Rejected("Invalid OTP")
  }

  /** Successive `verify` calls on one document. */
  function VerifyRun(o: OtpRecord, inputs: seq<string>, now: int): (r: (seq<Check>, OtpRecord))
    ensures |r.0| == |inputs|
    decreases |inputs|
  {
    if |inputs| == 0 then ([], o)
    else
      var (c, o1) := Verify(o, inputs[0], now);
      var (cs, o2) := VerifyRun(o1, inputs[1..], now);
      ([c] + cs, o2)
  }

  function CountGuesses(cs: seq<Check>): nat {
    if |cs| == 0 then 0 else (if Guessed(cs[0]) then 1 else 0) + CountGuesses(cs[1..])
  }

  function CountAccepted(cs: seq<Check>): nat {
    if |cs| == 0 then 0 else (if cs[0].Accepted? then 1 else 0) + CountAccepted(cs[1..])
  }

  /** However many codes are tried, one document admits at most `MaxAttempts` guesses in all,
      accepts at most once (never if already used), and its counter never passes the limit. */
  lemma {:induction false} VerifyRunBounds(o: OtpRecord, inputs: seq<string>, now: int)
    requires o.attempts <= MaxAttempts
    ensures VerifyRun(o, inputs, now).1.attempts <= MaxAttempts
    ensures CountGuesses(VerifyRun(o, inputs, now).0) + o.attempts
         == VerifyRun(o, inputs, now).1.attempts
    ensures CountAccepted(VerifyRun(o, inputs, now).0) <= (if o.isUsed then 0 else 1)
    ensures VerifyRun(o, inputs, now).1.isUsed <==>
      o.isUsed || CountAccepted(VerifyRun(o, inputs, now).0) == 1
    decreases |inputs|
  {
    if |inputs| > 0 {
      var (c, o1) := Verify(o, inputs[0], now);
      VerifyRunBounds(o1, inputs[1..], now);
      if o1.isUsed {
        UsedIsFinal(o1, inputs[1..], now);
      }
    }
  }

  /** Once a document is used, every later `verify` fails with "OTP already used" and
      changes nothing. */
  lemma {:induction false} UsedIsFinal(o: OtpRecord, inputs: seq<string>, now: int)
    requires o.isUsed
    ensures VerifyRun(o, inputs, now).1 == o
    ensures forall i :: 0 <= i < |inputs| ==>
      VerifyRun(o, inputs, now).0[i] == Rejected("OTP already used")
    ensures CountAccepted(VerifyRun(o, inputs, now).0) == 0
    ensures CountGuesses(VerifyRun(o, inputs, now).0) == 0
  {
    if |inputs| > 0 {
      UsedIsFinal(o, inputs[1..], now);
    }
  }

  /** A correct code is accepted exactly once: the next `verify` with any code fails. */
  lemma AcceptThenRejected(o: OtpRecord, now: int, later: string, later_now: int)
    requires Open(o, now)
    ensures Verify(o, o.code, now).0 == Accepted
    ensures Verify(Verify(o, o.code, now).1, later, later_now).0 == Rejected("OTP already used")
  {
  }

  /** `cleanupExpired`: deletes the documents whose expiry is before `now`. */
  function CleanupExpired(store: seq<OtpRecord>, now: int): (r: (seq<OtpRecord>, nat))
    ensures forall x :: x in r.0 <==> x in store && !(x.expiresAt < now)
    ensures r.1 == |store| - |r.0|
  {
    if |store| == 0 then ([], 0)
    else
      var (rest, n) := CleanupExpired(store[1..], now);
      if store[0].expiresAt < now then (rest, n + 1) else ([store[0]] + rest, n)
  }

  // ---------------------------------------------------------------------------
  // The OTP service

  /** An unused document for this target and purpose. */
  predicate Pending(x: OtpRecord, target: string, purpose: string) {
    x.target == target && x.purpose == purpose && !x.isUsed
  }

  function PendingCount(store: seq<OtpRecord>, target: string, purpose: string): nat {
    if |store| == 0 then 0
    else (if Pending(store[0], target, purpose) then 1 else 0) + PendingCount(store[1..], target, purpose)
  }

  /** The service's invariant: at most one unused code per (target, purpose). */
  ghost predicate AtMostOnePending(store: seq<OtpRecord>) {
    forall t, p :: PendingCount(store, t, p) <= 1
  }

  /** `OTP.deleteMany({target, purpose, isUsed: false})`. */
  function DropPending(store: seq<OtpRecord>, target: string, purpose: string): (r: seq<OtpRecord>)
    ensures forall x :: x in r <==> x in store && !Pending(x, target, purpose)
    ensures PendingCount(r, target, purpose) == 0
    ensures forall t, p :: PendingCount(r, t, p) <= PendingCount(store, t, p)
  {
    if |store| == 0 then []
    else
      var rest := DropPending(store[1..], target, purpose);
      if Pending(store[0], target, purpose) then rest else [store[0]] + rest
  }

  lemma {:induction false} PendingCountAppend(store: seq<OtpRecord>, x: OtpRecord, t: string, p: string)
    ensures PendingCount(store + [x], t, p)
         == PendingCount(store, t, p) + (if Pending(x, t, p) then 1 else 0)
  {
    if |store| > 0 {
      assert (store + [x])[1..] == store[1..] + [x];
      PendingCountAppend(store[1..], x, t, p);
    }
  }

  /** What the platform supplies to one `sendOTP` call. */
  datatype SendEnv = SendEnv(
    now: int,
    development: bool,
    random: real,
    newId: string,
    deliveryOk: bool)

  /** The document `sendOTP` creates for the pair: fresh, unused, six digits (the fixed
      development code in development), expiring five minutes after issue. */
  predicate IssuedBy(x: OtpRecord, target: string, purpose: string, env: SendEnv) {
    && Pending(x, target, purpose)
    && x.id == env.newId && x.attempts == 0 && x.expiresAt == env.now + ValidityMs
    && (env.development ==> x.code == DevelopmentCode)
    && |x.code| == 6 && AllDigits(x.code)
  }

  datatype SendResult =
    | Sent(message: string, otpId: string, expiresAt: int)
    | SendFailed(message: string)

  /** `sendOTP(target, purpose)`: deletes the unused codes for the pair, stores a fresh one
      (the development code, or a generated one), and delivers it by e-mail or SMS. Any
      failure becomes "Failed to send OTP"; what was already written stays written. */
  function SendOtp(store: seq<OtpRecord>, target: string, purpose: string, env: SendEnv)
    : (r: (SendResult, seq<OtpRecord>))
    requires 0.0 <= env.random < 1.0
    ensures r.0.Sent? <==> target != "" && purpose in Purposes && env.deliveryOk
    ensures r.0.SendFailed? ==> r.0.message == "Failed to send OTP"
    ensures r.0.Sent? ==> r.0.otpId == env.newId && r.0.expiresAt == env.now + ValidityMs
    ensures r.0.Sent? ==>
      r.0.message == (if IsEmailTarget(target) then "OTP sent to email" else "OTP sent to phone")
    ensures PendingCount(r.1, target, purpose) <= 1
    ensures forall x :: x in r.1 && !Pending(x, target, purpose) ==> x in store
    ensures r.0.Sent? ==>
      exists x :: x in r.1 && IssuedBy(x, target, purpose, env)
  {
    var cleaned := DropPending(store, target, purpose);
    var code := if env.development then DevelopmentCode else GenerateCode(env.random);
    var doc := OtpRecord(env.newId, target, code, purpose, 0, false, env.now + ValidityMs, env.now);
    if target == "" || purpose !in Purposes then
      (SendFailed("Failed to send OTP"), cleaned)
    else
      var stored := cleaned + [doc];
      PendingCountAppend(cleaned, doc, target, purpose);
      assert doc in stored && IssuedBy(doc, target, purpose, env);
      if !env.deliveryOk then (SendFailed("Failed to send OTP"), stored)
      else
        (Sent(if IsEmailTarget(target) then "OTP sent to email" else "OTP sent to phone",
              env.newId, env.now + ValidityMs),
         stored)
  }

  /** Issuing a code keeps the service invariant, whatever the outcome. */
  lemma SendKeepsAtMostOnePending(store: seq<OtpRecord>, target: string, purpose: string, env: SendEnv)
    requires 0.0 <= env.random < 1.0
    requires AtMostOnePending(store)
    ensures AtMostOnePending(SendOtp(store, target, purpose, env).1)
  {
    var cleaned := DropPending(store, target, purpose);
    var after := SendOtp(store, target, purpose, env).1;
    forall t, p
      ensures PendingCount(after, t, p) <= 1
    {
      assert PendingCount(cleaned, t, p) <= PendingCount(store, t, p);
      if after != cleaned {
        var code := if env.development then DevelopmentCode else GenerateCode(env.random);
        var doc := OtpRecord(env.newId, target, code, purpose, 0, false, env.now + ValidityMs, env.now);
        assert after == cleaned + [doc];
        PendingCountAppend(cleaned, doc, t, p);
        if Pending(doc, t, p) {
          assert t == target && p == purpose;
        }
      }
    }
  }

  /** Index of the most recent unused document for the pair (the query sorts by creation time,
      newest first; the store keeps documents in creation order). */
  function LatestPending(store: seq<OtpRecord>, target: string, purpose: string): (r: Option<nat>)
    ensures r.None? <==> forall i :: 0 <= i < |store| ==> !Pending(store[i], target, purpose)
    ensures r.Some? ==> (r.value < |store| && Pending(store[r.value], target, purpose)
      && forall j :: r.value < j < |store| ==> !Pending(store[j], target, purpose))
  {
    if |store| == 0 then None
    else if Pending(store[|store| - 1], target, purpose) then Some(|store| - 1)
    else LatestPending(store[..|store| - 1], target, purpose)
  }

  /** The document would accept `input` at `now`. */
  predicate Matches(x: OtpRecord, input: string, now: int) {
    x.code == input && !(x.expiresAt < now) && x.attempts < MaxAttempts
  }

  datatype VerifyReply = VerifyReply(success: bool, message: string)

  /** `verifyOTP(target, inputCode, purpose)`: finds the newest unused code for the pair and runs
      `verify` on it. It never throws: every rejection comes back as `success: false`. */
  function VerifyOtp(store: seq<OtpRecord>, target: string, input: string, purpose: string, now: int)
    : (r: (VerifyReply, seq<OtpRecord>))
    ensures |r.1| == |store|
    ensures LatestPending(store, target, purpose).None? ==>
      r == (VerifyReply(false, "OTP not found or expired"), store)
    ensures LatestPending(store, target, purpose).Some? ==>
      var i := LatestPending(store, target, purpose).value;
      var (c, o') := Verify(store[i], input, now);
      && r.1 == store[i := o']
      && r.0.success == c.Accepted?
      && r.0.message == (if c.Accepted? then "OTP verified successfully" else c.reason)
    ensures r.0.success ==>
      exists i :: 0 <= i < |store| && Pending(store[i], target, purpose) && Matches(store[i], input, now)
  {
    var k := LatestPending(store, target, purpose);
    if k.None? then (VerifyReply(false, "OTP not found or expired"), store)
    else
      var (c, o') := Verify(store[k.value], input, now);
      var store' := store[k.value := o'];
      match c
      case Accepted => (VerifyReply(true, "OTP verified successfully"), store')
      case Rejected(reason) => (VerifyReply(false, reason), store')
  }

  /** The SMS destination: "+91" is prefixed unless the number already starts with it. */
  function SmsDestination(phone: string): (r: string)
    ensures HasPrefix(r, "+91")
    ensures HasPrefix(phone, "+91") ==> r == phone
    ensures !HasPrefix(phone, "+91") ==> r == "+91" + phone
  {
    if HasPrefix(phone, "+91") then phone else "+91" + phone
  }

  lemma SmsDestinationIdempotent(phone: string)
    ensures SmsDestination(SmsDestination(phone)) == SmsDestination(phone)
  {
  }

  const DefaultSubject := "AgriValah Verification"

  /** `getEmailSubject(purpose)`. */
  function EmailSubject(purpose: string): (r: string)
    ensures purpose !in Purposes ==> r == DefaultSubject
    ensures purpose in Purposes ==> r != DefaultSubject
    ensures purpose == "signup" ==> r == "Welcome to AgriValah - Verify Your Account"
  {
    match purpose
    case "signup" => "Welcome to AgriValah - Verify Your Account"
    case "login" => "AgriValah Login Verification"
    case "password_reset" => "Reset Your AgriValah Password"
    case "phone_verification" => "Verify Your Phone Number"
    case "email_verification" => "Verify Your Email Address"
    case "transaction" => "Transaction Verification"
    case _ => DefaultSubject
  }
}

=== FILE: pages.dfy ===
/** How the front end names the page it is showing (`_getCurrentPage` in
    `frontend/src/pages/index.jsx`): the last segment of the location's path, without a trailing
    slash or a query, matched case-insensitively against the page table, with the first page as
    the fallback. */
module Pages {
  import opened Wrappers
  import opened Text

  /** The keys of `PAGES`, in declaration order. */
  const PageNames: seq<string> := [
    "Startups", "Schools", "Markets", "Home", "About", "Farmers", "Mitras", "SHGs", "Contact",
    "BusinessModel", "NatureFarming", "FarmMachineryBuy", "FarmMachineryRent", "OfflineStores",
    "OnlineStore", "Services", "ProductDetail", "Sellers", "Dashboard", "Auth", "SellerDashboard",
    "SellerSignup"
  ]

  /** One trailing `/` is dropped. */
  function DropTrailingSlash(url: string): (r: string)
    ensures r == url || (|url| > 0 && url[|url| - 1] == '/' && r == url[..|url| - 1])
  {
    if |url| > 0 && url[|url| - 1] == '/' then url[..|url| - 1] else url
  }

  /** `s[r]` is the last `/` of `s`, or `r` is -1 and there is none. */
  predicate IsLastSlash(s: string, r: int) {
    && -1 <= r < |s| && (r >= 0 ==> s[r] == '/')
    && forall k :: r < k < |s| ==> s[k] != '/'
  }

  /** `s[r]` is the first `?` of `s`, or `r` is `|s|` and there is none. */
  predicate IsFirstQuery(s: string, r: int) {
    && 0 <= r <= |s| && (r < |s| ==> s[r] == '?')
    && forall k :: 0 <= k < r ==> s[k] != '?'
  }

  function LastSlash(s: string): (r: int)
    ensures IsLastSlash(s, r)
  {
    if |s| == 0 then -1
    else if s[|s| - 1] == '/' then |s| - 1
    else LastSlash(s[..|s| - 1])
  }

  function FirstQuery(s: string): (r: int)
    ensures IsFirstQuery(s, r)
  {
    if |s| == 0 || s[0] == '?' then 0 else 1 + FirstQuery(s[1..])
  }

  /** `split('/').pop()`: what follows the last `/`, or the whole string when there is none. */
  function LastSegment(s: string): (r: string)
    ensures '/' !in r && |r| <= |s| && r == s[|s| - |r|..]
    ensures |r| < |s| ==> s[|s| - |r| - 1] == '/'
  {
    s[LastSlash(s) + 1..]
  }

  /** `split('?')[0]`: what precedes the first `?`. */
  function BeforeQuery(s: string): (r: string)
    ensures '?' !in r && |r| <= |s| && r == s[..|r|]
    ensures |r| < |s| ==> s[|r|] == '?'
  {
    s[..FirstQuery(s)]
  }

  /** The last `/` and the first `?` are each at one place only. */
  lemma SlashUnique(s: string, r: int)
    requires IsLastSlash(s, r)
    ensures r == LastSlash(s)
  {
  }

  lemma QueryUnique(s: string, r: int)
    requires IsFirstQuery(s, r)
    ensures r == FirstQuery(s)
  {
  }

  /** The segment of the URL that names the page. */
  function PageSegment(url: string): string {
    BeforeQuery(LastSegment(DropTrailingSlash(url)))
  }

  /** `Object.keys(PAGES).find(page => page.toLowerCase() === segment.toLowerCase())`. */
  function FindPage(names: seq<string>, segment: string): (r: Option<nat>)
    ensures r.Some? ==> r.value < |names| && Lower(names[r.value]) == Lower(segment)
    ensures r.Some? ==> forall j :: 0 <= j < r.value ==> Lower(names[j]) != Lower(segment)
    ensures r.None? <==> forall j :: 0 <= j < |names| ==> Lower(names[j]) != Lower(segment)
  {
    if |names| == 0 then None
    else if Lower(names[0]) == Lower(segment) then Some(0)
    else
      var r := FindPage(names[1..], segment);
      assert forall j :: 1 <= j < |names| ==> names[j] == names[1..][j - 1];
      if r.Some? then Some(r.value + 1) else None
  }

  /** `pageName || Object.keys(PAGES)[0]`: the page whose name matches the segment regardless
      of case, and the first page when none does. */
  function Resolve(names: seq<string>, segment: string): (r: string)
    requires |names| > 0
    ensures r in names
    ensures (exists i :: 0 <= i < |names| && Lower(names[i]) == Lower(segment)) ==> Lower(r) == Lower(segment)
    ensures (forall i :: 0 <= i < |names| ==> Lower(names[i]) != Lower(segment)) ==> r == names[0]
  {
    var found := FindPage(names, segment);
    if found.Some? then names[found.value] else names[0]
  }

  /** `_getCurrentPage(url)`. */
  function CurrentPage(url: string): (r: string)
    ensures r in PageNames
  {
    Resolve(PageNames, PageSegment(url))
  }

  // ---------------------------------------------------------------------------
  // What the resolver ignores

  /** A trailing slash does not change the page. */
  lemma TrailingSlashIgnored(url: string)
    requires |url| == 0 || url[|url| - 1] != '/'
    ensures PageSegment(url + "/") == PageSegment(url)
    ensures CurrentPage(url + "/") == CurrentPage(url)
  {
    assert (url + "/")[..|url|] == url;
  }

  /** A query string (without a `/`) does not change the page. */
  lemma QueryIgnored(url: string, query: string)
    requires '?' !in url && '/' !in query
    requires |url| == 0 || url[|url| - 1] != '/'
    ensures PageSegment(url + "?" + query) == PageSegment(url)
    ensures CurrentPage(url + "?" + query) == CurrentPage(url)
  {
    var tail := "?" + query;
    assert url + "?" + query == url + tail by {
      AppendAssoc(url, "?", query);
    }
    QuerySegment(url, tail);
  }

  lemma AppendAssoc(a: string, b: string, c: string)
    ensures a + b + c == a + (b + c)
  {
  }

  /** The segment of a URL followed by a query part is the URL's segment. */
  lemma QuerySegment(url: string, tail: string)
    requires '?' !in url && '/' !in tail && |tail| > 0 && tail[0] == '?'
    requires |url| == 0 || url[|url| - 1] != '/'
    ensures PageSegment(url + tail) == PageSegment(url)
  {
    KeptEnd(url, tail);
    SegmentAppend(url, tail);
    QueryAfterSegment(url, tail);
  }

  /** Text that does not end in `/` keeps its end. */
  lemma KeptEnd(url: string, tail: string)
    requires '/' !in tail && |tail| > 0
    requires |url| == 0 || url[|url| - 1] != '/'
    ensures DropTrailingSlash(url + tail) == url + tail
    ensures DropTrailingSlash(url) == url
  {
    assert (url + tail)[|url + tail| - 1] == tail[|tail| - 1];
  }

  /** The query part after a segment without `?` is cut off again. */
  lemma QueryAfterSegment(url: string, tail: string)
    requires '?' !in url && |tail| > 0 && tail[0] == '?'
    ensures BeforeQuery(LastSegment(url) + tail) == BeforeQuery(LastSegment(url))
  {
    var seg := LastSegment(url);
    NotInSuffix(url, '?', |url| - |seg|);
    QueryAppend(seg, tail);
  }

  /** Text without `/` added at the end lengthens the last segment by that text. */
  lemma SegmentAppend(s: string, t: string)
    requires '/' !in t
    ensures LastSegment(s + t) == LastSegment(s) + t
  {
    SlashAppend(s, t);
    var r := LastSlash(s);
    assert (s + t)[r + 1..] == s[r + 1..] + t;
  }

  /** Text without `/` added at the end leaves the last `/` where it was. */
  lemma SlashAppend(s: string, t: string)
    requires '/' !in t
    ensures LastSlash(s + t) == LastSlash(s)
  {
    var u := s + t;
    var r := LastSlash(s);
    forall k | r < k < |u| ensures u[k] != '/' {
      if k >= |s| {
        assert u[k] == t[k - |s|];
      }
    }
    SlashUnique(u, r);
  }

  /** A `?` right after text without one is the first `?`. */
  lemma QueryAppend(s: string, t: string)
    requires '?' !in s && |t| > 0 && t[0] == '?'
    ensures BeforeQuery(s + t) == s
    ensures BeforeQuery(s) == s
  {
    var u := s + t;
    assert u[|s|] == '?';
    QueryUnique(u, |s|);
    QueryUnique(s, |s|);
    assert u[..|s|] == s;
  }

  lemma NotInSuffix(s: string, c: char, i: nat)
    requires c !in s && i <= |s|
    ensures c !in s[i..]
  {
  }

  /** Lower-casing keeps every `/` and `?` where it was. */
  lemma MarkersKept(s: string)
    ensures LastSlash(Lower(s)) == LastSlash(s)
    ensures FirstQuery(Lower(s)) == FirstQuery(s)
  {
    SlashUnique(Lower(s), LastSlash(s));
    QueryUnique(Lower(s), FirstQuery(s));
  }

  /** The segment of a lower-cased URL is the lower-cased segment. */
  lemma SegmentLower(url: string)
    ensures PageSegment(Lower(url)) == Lower(PageSegment(url))
  {
    var d := DropTrailingSlash(url);
    DropLower(url);
    var seg := LastSegment(d);
    LastSegmentLower(d);
    BeforeQueryLower(seg);
  }

  lemma DropLower(url: string)
    ensures DropTrailingSlash(Lower(url)) == Lower(DropTrailingSlash(url))
  {
    if |url| > 0 && url[|url| - 1] == '/' {
      assert Lower(url)[..|url| - 1] == Lower(url[..|url| - 1]);
    }
  }

  lemma LastSegmentLower(d: string)
    ensures LastSegment(Lower(d)) == Lower(LastSegment(d))
  {
    MarkersKept(d);
    var r := LastSlash(d);
    assert Lower(d)[r + 1..] == Lower(d[r + 1..]);
  }

  lemma BeforeQueryLower(seg: string)
    ensures BeforeQuery(Lower(seg)) == Lower(BeforeQuery(seg))
  {
    MarkersKept(seg);
    var q := FirstQuery(seg);
    assert Lower(seg)[..q] == Lower(seg[..q]);
  }

  /** The page does not depend on the case of the URL. */
  lemma CaseIgnored(url: string)
    ensures CurrentPage(Lower(url)) == CurrentPage(url)
  {
    SegmentLower(url);
    LowerIdempotent(PageSegment(url));
    FindPageLower(PageNames, PageSegment(Lower(url)), PageSegment(url));
  }

  /** The search only sees the segment lower-cased. */
  lemma {:induction false} FindPageLower(names: seq<string>, s: string, t: string)
    requires Lower(s) == Lower(t)
    ensures FindPage(names, s) == FindPage(names, t)
  {
    if |names| > 0 && Lower(names[0]) != Lower(s) {
      FindPageLower(names[1..], s, t);
    }
  }

  // ---------------------------------------------------------------------------
  // Every page can be reached

  /** Length and the first two letters, case ignored: enough to tell the page names apart. */
  function Tag(s: string): (int, char, char)
    requires |s| >= 2
  {
    (|s|, LowerChar(s[0]), LowerChar(s[1]))
  }

  const PageTags: seq<(int, char, char)> := [
    (8, 's', 't'), (7, 's', 'c'), (7, 'm', 'a'), (4, 'h', 'o'), (5, 'a', 'b'), (7, 'f', 'a'),
    (6, 'm', 'i'), (4, 's', 'h'), (7, 'c', 'o'), (13, 'b', 'u'), (13, 'n', 'a'), (16, 'f', 'a'),
    (17, 'f', 'a'), (13, 'o', 'f'), (11, 'o', 'n'), (8, 's', 'e'), (13, 'p', 'r'), (7, 's', 'e'),
    (9, 'd', 'a'), (4, 'a', 'u'), (15, 's', 'e'), (12, 's', 'e')
  ]

  lemma TagsOfNames()
    ensures |PageTags| == |PageNames|
    ensures forall i :: 0 <= i < |PageNames| ==> |PageNames[i]| >= 2 && Tag(PageNames[i]) == PageTags[i]
  {
  }

  lemma TagsDistinct()
    ensures forall i, j :: 0 <= i < j < |PageTags| ==> PageTags[i] != PageTags[j]
  {
  }

  /** No two page names differ only in case. */
  lemma NamesDistinct()
    ensures forall i, j :: 0 <= i < j < |PageNames| ==> Lower(PageNames[i]) != Lower(PageNames[j])
  {
    TagsOfNames();
    TagsDistinct();
  }

  /** With names distinct up to case, each name finds itself. */
  lemma FindsItself(names: seq<string>, i: nat)
    requires i < |names|
    requires forall a, b :: 0 <= a < b < |names| ==> Lower(names[a]) != Lower(names[b])
    ensures Resolve(names, names[i]) == names[i]
  {
    var found := FindPage(names, names[i]);
    assert found.Some?;
    assert found.value == i;
  }

  /** Page names carry neither `/` nor `?`. */
  lemma NamesPlain()
    ensures forall i :: 0 <= i < |PageNames| ==> '/' !in PageNames[i] && '?' !in PageNames[i]
  {
    HeadPlain();
    TailPlain();
  }

  lemma HeadPlain()
    ensures forall i :: 0 <= i < 11 ==> '/' !in PageNames[i] && '?' !in PageNames[i]
  {
  }

  lemma TailPlain()
    ensures forall i :: 11 <= i < |PageNames| ==> '/' !in PageNames[i] && '?' !in PageNames[i]
  {
  }

  /** The path `/Name`, in any case, shows page `Name`. */
  lemma EveryPageReachable(i: nat)
    requires i < |PageNames|
    ensures CurrentPage("/" + PageNames[i]) == PageNames[i]
    ensures CurrentPage(Lower("/" + PageNames[i])) == PageNames[i]
  {
    var name := PageNames[i];
    NamesPlain();
    var url := "/" + name;
    assert url[|url| - 1] == name[|name| - 1];
    SlashUnique(url, 0);
    assert LastSegment(url) == name;
    QueryUnique(name, |name|);
    assert PageSegment(url) == name;
    NamesDistinct();
    FindsItself(PageNames, i);
    CaseIgnored(url);
  }
}

=== FILE: paging.dfy ===
/** The offset pagination the list endpoints share: `skip = (page - 1) * limit`, at most `limit`
    documents from there, and `pages = Math.ceil(total / limit)`. Page and limit arrive already
    parsed as integers. The database refuses a negative skip, reads a limit of 0 as "no limit" and
    a negative limit as its absolute value; `Math.ceil` of a division by 0 is `Infinity`, which the
    JSON reply carries as `null`. */
module Paging {

  import opened Wrappers

  function Min(a: int, b: int): int { if a <= b then a else b }

  function Abs(x: int): nat { if x < 0 then -x else x }

  /** `Math.ceil(total / limit)` for a non-zero limit. */
  function CeilDiv(total: nat, limit: int): (r: int)
    requires limit != 0
    ensures limit > 0 && total == 0 ==> r == 0
    ensures limit > 0 && total > 0 ==> (r - 1) * limit < total <= r * limit
    ensures limit < 0 ==> r <= 0 && r * limit <= total < (r - 1) * limit
  {
    if limit > 0 then (total + limit - 1) / limit else -(total / -limit)
  }

  function Skip(page: int, limit: int): int { (page - 1) * limit }

  /** The documents of one page: `None` when the skip is negative. */
  function Window<T>(xs: seq<T>, page: int, limit: int): (r: Option<seq<T>>)
    ensures r.None? <==> Skip(page, limit) < 0
    ensures r.Some? ==> var s := Min(Skip(page, limit), |xs|);
      r.value == if limit == 0 then xs[s..] else xs[s..Min(s + Abs(limit), |xs|)]
    ensures r.Some? && limit != 0 ==> |r.value| <= Abs(limit)
  {
    var skip := Skip(page, limit);
    if skip < 0 then None
    else
      var s := Min(skip, |xs|);
      if limit == 0 then Some(xs[s..]) else Some(xs[s..Min(s + Abs(limit), |xs|)])
  }

  datatype Pagination = Pagination(page: int, limit: int, total: nat, pages: Option<int>)

  /** The pagination block of a list reply; `pages` is `None` (`null`) for a zero limit. */
  function Describe(page: int, limit: int, total: nat): (r: Pagination)
    ensures r.page == page && r.limit == limit && r.total == total
    ensures r.pages.None? <==> limit == 0
    ensures limit > 0 ==> r.pages.value * limit >= total && r.pages.value >= 0
  {
    Pagination(page, limit, total, if limit == 0 then None else Some(CeilDiv(total, limit)))
  }

  /** The first `n` pages, concatenated. */
  function FirstPages<T>(xs: seq<T>, limit: int, n: nat): seq<T>
    requires limit > 0
  {
    if n == 0 then [] else FirstPages(xs, limit, n - 1) + Window(xs, n, limit).value
  }

  /** The first `n` pages are exactly the first `n * limit` documents: no document is skipped
      or repeated between consecutive pages. */
  lemma {:induction false} FirstPagesPrefix<T>(xs: seq<T>, limit: int, n: nat)
    requires limit > 0
    ensures FirstPages(xs, limit, n) == xs[..Min(n * limit, |xs|)]
  {
    if n > 0 {
      FirstPagesPrefix(xs, limit, n - 1);
      var a := Min((n - 1) * limit, |xs|);
      var b := Min(n * limit, |xs|);
      assert Skip(n, limit) == (n - 1) * limit;
      assert Window(xs, n, limit).value == xs[a..b];
      assert xs[..a] + xs[a..b] == xs[..b];
    }
  }

  /** Walking pages 1 through `pages` lists every document once, in order. */
  lemma AllPagesCover<T>(xs: seq<T>, limit: int)
    requires limit > 0
    ensures FirstPages(xs, limit, Describe(1, limit, |xs|).pages.value) == xs
  {
    var n := CeilDiv(|xs|, limit);
    FirstPagesPrefix(xs, limit, n);
    assert Min(n * limit, |xs|) == |xs|;
  }

  /** A page past the last one is empty. */
  lemma PastLastPageEmpty<T>(xs: seq<T>, page: int, limit: int)
    requires limit > 0 && page > Describe(page, limit, |xs|).pages.value
    ensures Window(xs, page, limit) == Some([])
  {
    var n := CeilDiv(|xs|, limit);
    assert (page - 1) * limit >= n * limit by {
      assert page - 1 >= n;
      MulMono(page - 1, n, limit);
    }
  }

  lemma MulMono(a: int, b: int, k: int)
    requires a >= b && k >= 0
    ensures a * k >= b * k
  {
  }

  /** The pages a page function serves for pages 1 through `n`, concatenated; a page it refuses
      adds nothing. */
  function Walk<T>(page: int -> Option<seq<T>>, n: nat): seq<T> {
    if n == 0 then [] else Walk(page, n - 1) + (if page(n).Some? then page(n).value else [])
  }

  lemma {:induction false} WalkWindows<T>(xs: seq<T>, page: int -> Option<seq<T>>, limit: int, n: nat)
    requires limit > 0
    requires forall k :: 1 <= k <= n ==> page(k) == Window(xs, k, limit)
    ensures Walk(page, n) == FirstPages(xs, limit, n)
  {
    if n > 0 {
      WalkWindows(xs, page, limit, n - 1);
      MulMono(n - 1, 0, limit);
      assert page(n) == Window(xs, n, limit);
    }
  }

  /** A page function that serves the windows of `xs` lists every document once, in order, when
      walked from page 1 to the last page the pagination block names. */
  lemma WalkCovers<T>(xs: seq<T>, page: int -> Option<seq<T>>, limit: int)
    requires limit > 0
    requires forall k :: 1 <= k ==> page(k) == Window(xs, k, limit)
    ensures Walk(page, Describe(1, limit, |xs|).pages.value) == xs
  {
    var n := Describe(1, limit, |xs|).pages.value;
    WalkWindows(xs, page, limit, n);
    AllPagesCover(xs, limit);
  }
}

=== FILE: patterns.dfy ===
/** The input patterns the two sign-up pages share: the e-mail/phone test of the login and
    registration forms and the digit filter of the OTP field. */
module Patterns {
  import opened Text
  import opened Collections

  /** `/\S+@\S+\.\S+/`, unanchored: a non-space character, `@`, at least one non-space
      character, `.`, and a non-space character. */
  predicate EmailLike(s: string) {
    exists i, j ::
      && 1 <= i && i + 1 < j && j + 1 < |s|
      && s[i] == '@' && s[j] == '.' && !IsSpace(s[i - 1]) && !IsSpace(s[j + 1])
      && NoSpaceWithin(s, i, j)
  }

  /** No whitespace strictly between positions `i` and `j`. */
  predicate NoSpaceWithin(s: string, i: int, j: int)
    requires 0 <= i <= j <= |s|
  {
    forall k :: i < k < j ==> !IsSpace(s[k])
  }

  /** `/^\d{10}$/`. */
  predicate TenDigits(s: string) { |s| == 10 && AllDigits(s) }

  /** What the forms accept as an e-mail or phone number. */
  predicate ContactLike(s: string) { EmailLike(s) || TenDigits(s) }

  /** The backend routes a contact by `includes('@')`: whatever passes as an e-mail address is
      sent as one, and a ten-digit number as a phone number. */
  lemma ContactRouted(s: string)
    ensures EmailLike(s) ==> IsEmailTarget(s)
    ensures TenDigits(s) ==> !IsEmailTarget(s)
  {
  }

  /** The OTP input keeps only the digits typed (`replace(/\D/g, '')`). */
  function OtpInput(raw: string): (r: string)
    ensures AllDigits(r) && |r| <= |raw|
    ensures forall i :: 0 <= i < |raw| && IsDigit(raw[i]) ==> raw[i] in r
  {
    Filter(raw, IsDigit)
  }

  /** Stripping non-digits from digits changes nothing, so re-filtering the field is harmless. */
  lemma OtpInputIdempotent(raw: string)
    ensures OtpInput(OtpInput(raw)) == OtpInput(raw)
  {
    FilterAll(OtpInput(raw), IsDigit);
  }
}

=== FILE: products.dfy ===
/** Products: the document with its slug hook and schema bounds, and the `/products` routes —
    create, list, read, update, delete, image upload and the featured list. The collection is a
    map from id to document; list endpoints take the collection already in the requested sort
    order (the database's sort), except the featured list, whose order is modelled. */
module Products {

  import opened Wrappers
  import opened Text
  import opened Http
  import opened Records
  import opened Validation
  import opened Paging
  import opened Sorting
  import opened AuthMiddleware

  const ProductStatuses: seq<string> := ["draft", "active", "inactive", "out_of_stock", "under_review", "rejected"]

  /** The roles `authorize` lets create products. */
  const SellingRoles: seq<string> := ["farmer", "reseller", "agritech_startup"]

  datatype Image = Image(url: string, alt: string, isPrimary: bool)

  datatype Location = Location(state: Option<string>, district: Option<string>, pinCode: Option<string>)

  datatype FarmerInfo = FarmerInfo(name: string, location: string, farmingMethod: string, harvestDate: int)

  datatype Product = Product(
    id: string,
    sellerId: string,
    title: string,
    description: string,
    images: seq<Image>,
    price: real,
    unit: string,
    stock: int,
    category: string,
    organic: bool,
    farmerInfo: Option<FarmerInfo>,
    location: Option<Location>,
    viewCount: int,
    orderCount: int,
    rating: real,
    status: string,
    slug: Option<string>,
    featuredUntil: Option<int>)

  /** The schema's own checks on a saved document. */
  predicate SchemaValid(p: Product) {
    && p.title != "" && JsLength(p.title) <= 200
    && p.description != "" && JsLength(p.description) <= 2000
    && p.price >= 0.0 && p.stock >= 0
    && p.unit in Units && p.category in Categories
    && p.status in ProductStatuses
    && 0.0 <= p.rating <= 5.0
  }

  // ---------------------------------------------------------------------------
  // Slug

  predicate NoDoubleDash(s: string) {
    forall i :: 0 <= i < |s| - 1 ==> !(s[i] == '-' && s[i + 1] == '-')
  }

  predicate SlugChar(c: char) { IsLower(c) || IsDigit(c) || c == '-' }

  /** `replace(/[^a-zA-Z0-9]/g, '-')`. */
  function DashNonAlnum(s: string): (r: string)
    ensures |r| == |s|
    ensures forall i :: 0 <= i < |s| ==> r[i] == if IsAlnum(s[i]) then s[i] else '-'
  {
    seq(|s|, i requires 0 <= i < |s| => if IsAlnum(s[i]) then s[i] else '-')
  }

  /** `replace(/-+/g, '-')`. */
  function CollapseDashes(s: string): (r: string)
    ensures NoDoubleDash(r)
    ensures |r| <= |s|
    ensures |s| > 0 ==> |r| > 0 && r[0] == s[0] && r[|r| - 1] == s[|s| - 1]
    ensures forall c :: c in r ==> c in s
  {
    if |s| == 0 then []
    else if s[0] == '-' && |s| > 1 && s[1] == '-' then CollapseDashes(s[1..])
    else
      var rest := CollapseDashes(s[1..]);
      assert forall c :: c in rest ==> c in s by {
        forall c | c in rest ensures c in s { assert c in s[1..]; }
      }
      [s[0]] + rest
  }

  /** `replace(/^-|-$/g, '')`: one leading and one trailing dash. */
  function StripDashes(s: string): (r: string)
    ensures |r| <= |s|
    ensures forall c :: c in r ==> c in s
    ensures NoDoubleDash(s) ==> NoDoubleDash(r)
    ensures NoDoubleDash(s) ==> r == [] || (r[0] != '-' && r[|r| - 1] != '-')
  {
    var a := if |s| > 0 && s[0] == '-' then s[1..] else s;
    assert forall c :: c in a ==> c in s;
    assert NoDoubleDash(s) ==> NoDoubleDash(a) && (|a| > 0 && |a| < |s| ==> a[0] == s[1]);
    var r := if |a| > 0 && a[|a| - 1] == '-' then a[..|a| - 1] else a;
    assert forall c :: c in r ==> c in a;
    r
  }

  /** The base of a slug: lower-cased, every other character a dash, runs of dashes collapsed
      and a dash at either end removed. */
  function SlugBase(title: string): (r: string)
    ensures NoDoubleDash(r)
    ensures forall c :: c in r ==> SlugChar(c)
    ensures r == [] || (r[0] != '-' && r[|r| - 1] != '-')
  {
    var d := DashNonAlnum(Lower(title));
    assert forall c :: c in d ==> SlugChar(c) by {
      forall c | c in d ensures SlugChar(c) {
        var i :| 0 <= i < |d| && d[i] == c;
        assert IsAlnum(Lower(title)[i]) ==> IsLower(Lower(title)[i]) || IsDigit(Lower(title)[i]);
      }
    }
    StripDashes(CollapseDashes(d))
  }

  /** `_id.slice(-6)`. */
  function IdSuffix(id: string): (r: string)
    ensures |id| >= 6 ==> |r| == 6
    ensures HasSuffix(id, r)
  {
    if |id| >= 6 then id[|id| - 6..] else id
  }

  function Slug(title: string, id: string): (r: string)
    ensures HasSuffix(r, "-" + IdSuffix(id))
    ensures HasPrefix(r, SlugBase(title))
    ensures |r| == |SlugBase(title)| + 1 + |IdSuffix(id)|
  {
    var b := SlugBase(title);
    var r := b + "-" + IdSuffix(id);
    assert r[|r| - |"-" + IdSuffix(id)|..] == "-" + IdSuffix(id);
    assert r[..|b|] == b;
    r
  }

  /** A slug base is its own slug base: the normaliser is idempotent. */
  lemma SlugBaseIdempotent(title: string)
    ensures SlugBase(SlugBase(title)) == SlugBase(title)
  {
    var b := SlugBase(title);
    SlugCharsKept(b);
    CollapseKeeps(b);
    StripKeeps(b);
  }

  /** Lower-casing and dashing leave a string of slug characters as it is. */
  lemma SlugCharsKept(b: string)
    requires forall c :: c in b ==> SlugChar(c)
    ensures DashNonAlnum(Lower(b)) == b
  {
    assert forall i :: 0 <= i < |b| ==> SlugChar(b[i]) by {
      forall i | 0 <= i < |b| ensures SlugChar(b[i]) { assert b[i] in b; }
    }
    assert Lower(b) == b;
  }

  /** Stripping leaves a string with no dash at either end as it is. */
  lemma StripKeeps(b: string)
    requires b == [] || (b[0] != '-' && b[|b| - 1] != '-')
    ensures StripDashes(b) == b
  {
  }

  lemma {:induction false} CollapseKeeps(s: string)
    requires NoDoubleDash(s)
    ensures CollapseDashes(s) == s
  {
    if |s| > 0 {
      assert NoDoubleDash(s[1..]);
      CollapseKeeps(s[1..]);
    }
  }

  /** The pre-save hook: a slug is made only when the title changed and there is none yet. */
  function PreSave(p: Product, titleModified: bool): (r: Product)
    ensures titleModified && !Present(p.slug) ==> r == p.(slug := Some(Slug(p.title, p.id)))
    ensures !(titleModified && !Present(p.slug)) ==> r == p
  {
    if titleModified && !Present(p.slug) then p.(slug := Some(Slug(p.title, p.id))) else p
  }

  // ---------------------------------------------------------------------------
  // Create

  /** The schema paths a request body may carry besides the validated ones. The create handler
      spreads the whole body into the new document and the update handler `$set`s it, so each
      one given reaches the stored product. */
  datatype ProductExtras = ProductExtras(
    id: Option<string>,
    sellerId: Option<string>,
    images: Option<seq<Image>>,
    organic: Option<bool>,
    farmerInfo: Option<FarmerInfo>,
    location: Option<Location>,
    viewCount: Option<int>,
    orderCount: Option<int>,
    rating: Option<real>,
    status: Option<string>,
    slug: Option<string>,
    featuredUntil: Option<int>)

  const NoExtras := ProductExtras(None, None, None, None, None, None, None, None, None, None, None, None)

  datatype CreateEnv = CreateEnv(productId: string, now: int)

  /** The location copied from the seller's address: its state, its city as district, its pin code. */
  function AddressLocation(a: Address): Location {
    Location(a.state, a.city, a.pinCode)
  }

  /** `req.user.address?.city || 'Unknown'`. */
  function FarmCity(caller: User): string {
    if caller.address.Some? then OrElse(caller.address.value.city, "Unknown") else "Unknown"
  }

  /** The document the create handler saves, before the slug hook: the body's fields with the
      caller as seller and `'draft'` as status written over it, the seller's address as location
      when the body has none, and the farmer's traceability record for a farmer. */
  function NewProduct(caller: User, input: ProductInput, extras: ProductExtras, env: CreateEnv): (p: Product)
    requires AllPass(ProductCreateChecks(input))
    ensures p.id == extras.id.GetOr(env.productId)
    ensures p.sellerId == caller.id && p.status == "draft"
    ensures p.title == Trim(input.title.value) && p.description == Trim(input.description.value)
    ensures p.price == input.price.value && p.stock as real == input.stock.value
    ensures p.unit == input.unit.value && p.category == input.category.value
    ensures p.images == extras.images.GetOr([]) && p.organic == extras.organic.GetOr(false)
    ensures p.viewCount == extras.viewCount.GetOr(0) && p.orderCount == extras.orderCount.GetOr(0)
    ensures p.rating == extras.rating.GetOr(0.0)
    ensures p.slug == extras.slug && p.featuredUntil == extras.featuredUntil
    ensures extras.location.Some? ==> p.location == extras.location
    ensures extras.location.None? ==>
      p.location == if caller.address.Some? then Some(AddressLocation(caller.address.value)) else None
    ensures caller.role != "farmer" ==> p.farmerInfo == extras.farmerInfo
    ensures caller.role == "farmer" ==>
      p.farmerInfo == Some(FarmerInfo(caller.name, FarmCity(caller), "Organic", env.now))
  {
    var location :=
      if extras.location.Some? then extras.location
      else if caller.address.Some? then Some(AddressLocation(caller.address.value))
      else None;
    var farmer := if caller.role == "farmer" then Some(FarmerInfo(caller.name, FarmCity(caller), "Organic", env.now))
                  else extras.farmerInfo;
    Product(extras.id.GetOr(env.productId), caller.id, Trim(input.title.value), Trim(input.description.value),
            extras.images.GetOr([]), input.price.value, input.unit.value, WholeStock(input.stock.value),
            input.category.value, extras.organic.GetOr(false), farmer, location,
            extras.viewCount.GetOr(0), extras.orderCount.GetOr(0), extras.rating.GetOr(0.0), "draft",
            extras.slug, extras.featuredUntil)
  }

  /** The unique, sparse slug index: another product than `except` already holds this slug. */
  predicate SlugTaken(store: map<string, Product>, slug: Option<string>, except: string) {
    slug.Some? && exists k :: k in store && k != except && store[k].slug == slug
  }

  /** What `save()` accepts: a new id, a free slug, and a document the schema's validators pass.
      The create chain counts characters and the schema counts UTF-16 code units, so a title the
      chain lets through can still be too long to save. */
  predicate Saveable(p: Product, store: map<string, Product>) {
    p.id !in store && !SlugTaken(store, p.slug, p.id) && SchemaValid(p)
  }

  /** `POST /products` after authentication: the role gate, the create chain, then the save. */
  function CreateProduct(caller: User, input: ProductInput, extras: ProductExtras,
                         store: map<string, Product>, env: CreateEnv)
    : (r: (Reply<Product>, map<string, Product>))
    ensures caller.role !in SellingRoles ==> r == (Fail(403, "Insufficient permissions"), store)
    ensures caller.role in SellingRoles && !AllPass(ProductCreateChecks(input)) ==>
      r == (Fail(400, "Validation failed"), store)
    ensures r.0.Ok? <==>
      caller.role in SellingRoles && AllPass(ProductCreateChecks(input))
      && Saveable(PreSave(NewProduct(caller, input, extras, env), true), store)
    ensures r.0.Ok? ==>
      && r.0.status == 201
      && r.0.data == PreSave(NewProduct(caller, input, extras, env), true)
      && r.1 == store[r.0.data.id := r.0.data]
    ensures r.0.Err? ==> r.1 == store
    ensures r.0.Err? && caller.role in SellingRoles && AllPass(ProductCreateChecks(input)) ==>
      r.0 == Fail(500, InternalError)
  {
    match Authorize(SellingRoles, Some(caller))
    case Some((s, m)) => (Fail(s, m), store)
    case None =>
      if HandleValidationErrors(ProductCreateChecks(input)).Some? then (Fail(400, "Validation failed"), store)
      else
        var p := PreSave(NewProduct(caller, input, extras, env), true);
        if !Saveable(p, store) then (Fail(500, InternalError), store)
        else (Ok(201, "Product created successfully", p), store[p.id := p])
  }

  /** A created product passes the schema, belongs to its creator and is a draft, and so is not
      listed until its status changes, whatever the body said about seller and status. Its slug
      is the body's when that is non-empty, and otherwise ends in its id's last six characters. */
  lemma CreatedProductShape(caller: User, input: ProductInput, extras: ProductExtras,
                            store: map<string, Product>, env: CreateEnv)
    requires CreateProduct(caller, input, extras, store, env).0.Ok?
    ensures var p := CreateProduct(caller, input, extras, store, env).0.data;
      && SchemaValid(p)
      && p.sellerId == caller.id && p.status == "draft"
      && p.id !in store && p.slug.Some?
      && (Present(extras.slug) ==> p.slug == extras.slug)
      && (!Present(extras.slug) ==> HasSuffix(p.slug.value, "-" + IdSuffix(p.id)))
  {
  }

  /** The body cannot choose the seller or skip the draft status, but it does choose the
      featuring and the order count the featured list ranks by. */
  lemma CreateKeepsBodyRanking(caller: User, input: ProductInput, store: map<string, Product>, env: CreateEnv,
                               until: int, orders: int)
    requires CreateProduct(caller, input, NoExtras.(featuredUntil := Some(until), orderCount := Some(orders),
                                                    sellerId := Some("x"), status := Some("active")), store, env).0.Ok?
    ensures var p := CreateProduct(caller, input, NoExtras.(featuredUntil := Some(until), orderCount := Some(orders),
                                                            sellerId := Some("x"), status := Some("active")), store, env).0.data;
      p.featuredUntil == Some(until) && p.orderCount == orders && p.sellerId == caller.id && p.status == "draft"
  {
  }

  // ---------------------------------------------------------------------------
  // List and featured

  /** The list filters; price bounds arrive parsed, `organic` as the raw query string. */
  datatype ListQuery = ListQuery(
    category: Option<string>,
    organic: Option<string>,
    sellerId: Option<string>,
    location: Option<string>,
    minPrice: Option<real>,
    maxPrice: Option<real>,
    page: int,
    limit: int)

  predicate Listed(p: Product, q: ListQuery) {
    && p.status == "active"
    && (Present(q.category) ==> p.category == q.category.value)
    && (Present(q.organic) ==> p.organic == (q.organic.value == "true"))
    && (Present(q.sellerId) ==> p.sellerId == q.sellerId.value)
    && (Present(q.location) ==> p.location.Some? && p.location.value.pinCode == q.location)
    && (q.minPrice.Some? ==> p.price >= q.minPrice.value)
    && (q.maxPrice.Some? ==> p.price <= q.maxPrice.value)
  }

  /** The filter over a collection in sort order. */
  function Matching(catalog: seq<Product>, q: ListQuery): (r: seq<Product>)
    ensures |r| <= |catalog|
    ensures forall p :: p in r ==> p in catalog && Listed(p, q)
    ensures forall p :: p in catalog && Listed(p, q) ==> p in r
  {
    if |catalog| == 0 then []
    else
      var rest := Matching(catalog[1..], q);
      assert forall p :: p in catalog <==> p == catalog[0] || p in catalog[1..];
      if Listed(catalog[0], q) then [catalog[0]] + rest else rest
  }

  datatype ProductPage = ProductPage(products: seq<Product>, pagination: Pagination)

  /** `GET /products` (without the full-text search). */
  function ListProducts(catalog: seq<Product>, q: ListQuery): (r: Reply<ProductPage>)
    ensures r.Err? <==> Skip(q.page, q.limit) < 0
    ensures r.Ok? ==>
      && r.data.pagination == Describe(q.page, q.limit, |Matching(catalog, q)|)
      && r.data.products == Window(Matching(catalog, q), q.page, q.limit).value
      && forall p :: p in r.data.products ==> p.status == "active" && Listed(p, q)
  {
    var all := Matching(catalog, q);
    match Window(all, q.page, q.limit)
    case None => Fail(500, InternalError)
    case Some(w) =>
      assert forall p :: p in w ==> p in all;
      Ok(200, "", ProductPage(w, Describe(q.page, q.limit, |all|)))
  }

  predicate Featured(p: Product, now: int) {
    p.status == "active" && p.featuredUntil.Some? && p.featuredUntil.value >= now
  }

  function FeaturedKey(p: Product): Key { Key(p.orderCount as real, p.rating) }

  function FeaturedCandidates(catalog: seq<Product>, now: int): (r: seq<Product>)
    ensures forall p :: p in r <==> p in catalog && Featured(p, now)
  {
    if |catalog| == 0 then []
    else
      var rest := FeaturedCandidates(catalog[1..], now);
      assert forall p :: p in catalog <==> p == catalog[0] || p in catalog[1..];
      if Featured(catalog[0], now) then [catalog[0]] + rest else rest
  }

  /** `GET /products/meta/featured`: active products whose featuring has not ended, by order
      count and then rating, both descending, at most ten. */
  function FeaturedProducts(catalog: seq<Product>, now: int): (r: seq<Product>)
    ensures |r| <= 10
    ensures forall p :: p in r ==> p in catalog && Featured(p, now)
    ensures SortedDesc(r, FeaturedKey)
    ensures multiset(r) <= multiset(FeaturedCandidates(catalog, now))
    ensures |r| == Min(10, |FeaturedCandidates(catalog, now)|)
    ensures |FeaturedCandidates(catalog, now)| <= 10 ==>
      multiset(r) == multiset(FeaturedCandidates(catalog, now))
  {
    var sorted := SortDesc(FeaturedCandidates(catalog, now), FeaturedKey);
    var r := Take(sorted, 10);
    TakeTop(sorted, FeaturedKey, 10);
    assert forall p :: p in r ==> p in multiset(r);
    r
  }

  /** The ten listed are the top ten: no featured product left out has a higher order count, or
      the same order count and a higher rating, than one listed. */
  lemma FeaturedAreTop(catalog: seq<Product>, now: int, i: int, q: Product)
    requires 0 <= i < |FeaturedProducts(catalog, now)|
    requires q in catalog && Featured(q, now) && q !in FeaturedProducts(catalog, now)
    ensures KeyGe(FeaturedKey(FeaturedProducts(catalog, now)[i]), FeaturedKey(q))
    ensures FeaturedProducts(catalog, now)[i].orderCount >= q.orderCount
  {
    var sorted := SortDesc(FeaturedCandidates(catalog, now), FeaturedKey);
    assert q in multiset(sorted);
    LeftOutRanksLower(sorted, FeaturedKey, 10, i, q);
  }

  // ---------------------------------------------------------------------------
  // Read, update, delete

  /** `GET /products/:id`: the document as read, with its view count raised in the store. */
  function GetProduct(id: string, store: map<string, Product>): (r: (Reply<Product>, map<string, Product>))
    ensures r.0.Ok? <==> id in store
    ensures r.0.Err? ==> r == (Fail(404, "Product not found"), store)
    ensures r.0.Ok? ==>
      && r.0.data == store[id]
      && r.1 == store[id := store[id].(viewCount := store[id].viewCount + 1)]
  {
    if id !in store then (Fail(404, "Product not found"), store)
    else (Ok(200, "", store[id]), store[id := store[id].(viewCount := store[id].viewCount + 1)])
  }

  /** Mongoose's cast of a validated stock to the schema's integer; the chain admits only whole
      numbers, which it keeps. */
  function WholeStock(x: real): (n: int)
    ensures IsInteger(x) ==> n as real == x
    ensures x >= 0.0 ==> n >= 0
  {
    x.Floor
  }

  /** `$set: req.body`: each path the body gives replaces the stored one and every other path
      keeps its value. Title and description arrive trimmed by the update chain. */
  function ApplyUpdate(p: Product, u: ProductInput, extras: ProductExtras): (r: Product)
    ensures r.id == p.id
    ensures r.title == u.title.GetOr(p.title)
    ensures r.description == u.description.GetOr(p.description)
    ensures r.price == u.price.GetOr(p.price)
    ensures r.unit == u.unit.GetOr(p.unit)
    ensures r.category == u.category.GetOr(p.category)
    ensures u.stock.None? ==> r.stock == p.stock
    ensures u.stock.Some? && IsInteger(u.stock.value) ==> r.stock as real == u.stock.value
    ensures r.sellerId == extras.sellerId.GetOr(p.sellerId) && r.status == extras.status.GetOr(p.status)
    ensures r.images == extras.images.GetOr(p.images) && r.organic == extras.organic.GetOr(p.organic)
    ensures r.viewCount == extras.viewCount.GetOr(p.viewCount) && r.orderCount == extras.orderCount.GetOr(p.orderCount)
    ensures r.rating == extras.rating.GetOr(p.rating)
    ensures r.farmerInfo == (if extras.farmerInfo.Some? then extras.farmerInfo else p.farmerInfo)
    ensures r.location == (if extras.location.Some? then extras.location else p.location)
    ensures r.slug == (if extras.slug.Some? then extras.slug else p.slug)
    ensures r.featuredUntil == (if extras.featuredUntil.Some? then extras.featuredUntil else p.featuredUntil)
  {
    p.(title := u.title.GetOr(p.title),
       description := u.description.GetOr(p.description),
       price := u.price.GetOr(p.price),
       unit := u.unit.GetOr(p.unit),
       stock := if u.stock.Some? then WholeStock(u.stock.value) else p.stock,
       category := u.category.GetOr(p.category),
       sellerId := extras.sellerId.GetOr(p.sellerId),
       images := extras.images.GetOr(p.images),
       organic := extras.organic.GetOr(p.organic),
       farmerInfo := if extras.farmerInfo.Some? then extras.farmerInfo else p.farmerInfo,
       location := if extras.location.Some? then extras.location else p.location,
       viewCount := extras.viewCount.GetOr(p.viewCount),
       orderCount := extras.orderCount.GetOr(p.orderCount),
       rating := extras.rating.GetOr(p.rating),
       status := extras.status.GetOr(p.status),
       slug := if extras.slug.Some? then extras.slug else p.slug,
       featuredUntil := if extras.featuredUntil.Some? then extras.featuredUntil else p.featuredUntil)
  }

  /** What the update of product `id` can still fail on once the update chain has passed: the
      validators `runValidators` applies to the set paths (the title and description lengths in
      UTF-16 code units, the enums, the rating bounds, a non-empty seller), the immutable `_id`,
      and the unique slug index. */
  predicate UpdateValid(id: string, u: ProductInput, extras: ProductExtras, store: map<string, Product>) {
    && (u.unit.None? || u.unit.value in Units) && (u.category.None? || u.category.value in Categories)
    && (extras.status.None? || extras.status.value in ProductStatuses)
    && (extras.rating.None? || 0.0 <= extras.rating.value <= 5.0)
    && (extras.sellerId.None? || extras.sellerId.value != "")
    && (extras.id.None? || extras.id.value == id)
    && (u.title.None? || JsLength(Trim(u.title.value)) <= 200)
    && (u.description.None? || JsLength(Trim(u.description.value)) <= 2000)
    && !SlugTaken(store, extras.slug, id)
  }

  /** `PUT /products/:id`: the update chain, then existence, then ownership; the slug is not
      recomputed, because the update bypasses the save hook. */
  function UpdateProduct(caller: User, id: string, input: ProductInput, extras: ProductExtras,
                         store: map<string, Product>)
    : (r: (Reply<Product>, map<string, Product>))
    ensures !AllPass(ProductUpdateChecks(input)) ==> r == (Fail(400, "Validation failed"), store)
    ensures AllPass(ProductUpdateChecks(input)) && id !in store ==> r == (Fail(404, "Product not found"), store)
    ensures AllPass(ProductUpdateChecks(input)) && id in store && store[id].sellerId != caller.id ==>
      r == (Fail(403, "Not authorized to update this product"), store)
    ensures r.0.Ok? <==>
      && AllPass(ProductUpdateChecks(input)) && id in store && store[id].sellerId == caller.id
      && UpdateValid(id, input, extras, store)
    ensures r.0.Ok? ==>
      && r.0.data == ApplyUpdate(store[id], Sanitised(input), extras)
      && r.1 == store[id := r.0.data]
      && (extras.slug.None? ==> r.0.data.slug == store[id].slug)
    ensures r.0.Err? ==> r.1 == store
  {
    if HandleValidationErrors(ProductUpdateChecks(input)).Some? then (Fail(400, "Validation failed"), store)
    else if id !in store then (Fail(404, "Product not found"), store)
    else if store[id].sellerId != caller.id then (Fail(403, "Not authorized to update this product"), store)
    else if !UpdateValid(id, input, extras, store) then (Fail(500, InternalError), store)
    else
      var p := ApplyUpdate(store[id], Sanitised(input), extras);
      (Ok(200, "Product updated successfully", p), store[id := p])
  }

  /** A successful update keeps a schema-valid product schema-valid. */
  lemma UpdateKeepsSchema(caller: User, id: string, input: ProductInput, extras: ProductExtras,
                          store: map<string, Product>)
    requires id in store && SchemaValid(store[id])
    requires UpdateProduct(caller, id, input, extras, store).0.Ok?
    ensures SchemaValid(UpdateProduct(caller, id, input, extras, store).0.data)
  {
    var s := Sanitised(input);
    assert s.title.Some? ==> 2 <= |s.title.value|;
    assert s.description.Some? ==> 10 <= |s.description.value|;
    assert input.stock.Some? ==> WholeStock(input.stock.value) >= 0;
  }

  const EmptyInput := ProductInput(None, None, None, None, None, None)

  /** Nothing in the update route reserves the status to moderation: the owner of a draft
      publishes it, and it is listed, by sending `{status: 'active'}`. */
  lemma OwnerPublishes(caller: User, id: string, store: map<string, Product>)
    requires id in store && store[id].sellerId == caller.id && store[id].status == "draft"
    ensures var r := UpdateProduct(caller, id, EmptyInput, NoExtras.(status := Some("active")), store);
      && r.0.Ok? && r.1[id].status == "active"
      && Listed(r.1[id], ListQuery(None, None, None, None, None, None, 1, 20))
  {
    CreateImpliesUpdate(EmptyInput);
  }

  /** An empty body changes nothing: the stored product comes back as it was. */
  lemma EmptyUpdateKeeps(caller: User, id: string, store: map<string, Product>)
    requires id in store && store[id].sellerId == caller.id
    ensures UpdateProduct(caller, id, EmptyInput, NoExtras, store) ==
      (Ok(200, "Product updated successfully", store[id]), store)
  {
    CreateImpliesUpdate(EmptyInput);
    assert store[id := store[id]] == store;
  }

  /** `DELETE /products/:id`: the owner or an admin removes the document. */
  function DeleteProduct(caller: User, id: string, store: map<string, Product>)
    : (r: (Reply<()>, map<string, Product>))
    ensures id !in store ==> r == (Fail(404, "Product not found"), store)
    ensures r.0.Ok? <==> id in store && (store[id].sellerId == caller.id || caller.role == "admin")
    ensures r.0.Ok? ==> r.1 == store - {id}
    ensures id in store && !r.0.Ok? ==> r == (Fail(403, "Not authorized to delete this product"), store)
  {
    if id !in store then (Fail(404, "Product not found"), store)
    else if store[id].sellerId != caller.id && caller.role != "admin" then
      (Fail(403, "Not authorized to delete this product"), store)
    else (Ok(200, "Product deleted successfully", ()), store - {id})
  }

  // ---------------------------------------------------------------------------
  // Images

  /** The image records for freshly uploaded files: alt text "<title> image <n>", and the first
      one primary only when the product had no images before. */
  function NewImages(title: string, hadImages: bool, urls: seq<string>): (r: seq<Image>)
    ensures |r| == |urls|
    ensures forall i :: 0 <= i < |urls| ==>
      r[i] == Image(urls[i], title + " image " + DecimalString(i + 1), i == 0 && !hadImages)
  {
    seq(|urls|, i requires 0 <= i < |urls| => Image(urls[i], title + " image " + DecimalString(i + 1), i == 0 && !hadImages))
  }

  predicate AtMostOnePrimary(images: seq<Image>) {
    forall i, j :: 0 <= i < j < |images| ==> !(images[i].isPrimary && images[j].isPrimary)
  }

  /** `POST /products/:id/images`, after the upload middleware: `uploaded` holds the stored
      files' URLs, or nothing when the middleware produced no result. */
  function AddImages(caller: User, id: string, uploaded: Option<seq<string>>, store: map<string, Product>)
    : (r: (Reply<Product>, map<string, Product>))
    ensures uploaded.None? ==> r == (Fail(400, "No images uploaded"), store)
    ensures r.0.Ok? <==> uploaded.Some? && id in store && store[id].sellerId == caller.id
    ensures r.0.Ok? ==>
      var p := store[id];
      && r.0.data.images == p.images + NewImages(p.title, |p.images| > 0, uploaded.value)
      && r.0.data == p.(images := r.0.data.images)
      && r.1 == store[id := r.0.data]
    ensures r.0.Err? ==> r.1 == store
  {
    if uploaded.None? then (Fail(400, "No images uploaded"), store)
    else if id !in store then (Fail(404, "Product not found"), store)
    else if store[id].sellerId != caller.id then (Fail(403, "Not authorized to update this product"), store)
    else
      var p := store[id];
      var q := PreSave(p.(images := p.images + NewImages(p.title, |p.images| > 0, uploaded.value)), false);
      (Ok(200, "Images uploaded successfully", q), store[id := q])
  }

  /** Uploading never adds a second primary image: with at most one primary before, there is at
      most one after, and a product that had no images gets its first upload as primary. */
  lemma AddImagesPrimary(caller: User, id: string, uploaded: Option<seq<string>>, store: map<string, Product>)
    requires id in store && AtMostOnePrimary(store[id].images)
    requires AddImages(caller, id, uploaded, store).0.Ok?
    ensures AtMostOnePrimary(AddImages(caller, id, uploaded, store).0.data.images)
    ensures |store[id].images| == 0 && |uploaded.value| > 0 ==>
      AddImages(caller, id, uploaded, store).0.data.images[0].isPrimary
  {
    var p := store[id];
    var added := NewImages(p.title, |p.images| > 0, uploaded.value);
    var all := AddImages(caller, id, uploaded, store).0.data.images;
    assert all == p.images + added;
    forall i, j | 0 <= i < j < |all| ensures !(all[i].isPrimary && all[j].isPrimary) {
      if j >= |p.images| {
        assert all[j] == added[j - |p.images|];
        if i >= |p.images| {
          assert all[i] == added[i - |p.images|];
        } else {
          assert all[i] == p.images[i];
        }
      } else {
        assert all[i] == p.images[i] && all[j] == p.images[j];
      }
    }
  }

  /** The category list `GET /products/meta/categories` serves: the schema's categories, capitalised. */
  const MetaCategories: seq<string> :=
    ["Vegetables", "Fruits", "Grains", "Spices", "Oils", "Dairy", "Pulses", "Seeds", "Nuts", "Herbs"]

  /** Lower-casing the served names gives back the schema's categories, in the same order. */
  lemma MetaCategoriesMatchSchema()
    ensures |MetaCategories| == |Categories|
    ensures forall i :: 0 <= i < |MetaCategories| ==> Lower(MetaCategories[i]) == Categories[i]
  {
    forall i | 0 <= i < |MetaCategories| ensures Lower(MetaCategories[i]) == Categories[i] {
      var m := MetaCategories[i];
      assert LowerChar(m[0]) == Categories[i][0];
      assert forall k :: 1 <= k < |m| ==> !IsUpper(m[k]);
    }
  }
}

=== FILE: records.dfy ===
/** The user document and the user collection: the fields the handlers read and write, the
    schema's setters (trimmed name, trimmed lower-case e-mail, trimmed phone), the schema's
    validators, and the `$or` lookup by e-mail or phone that signup and login share. */
module Records {

  import opened Wrappers
  import opened Text

  const Roles: set<string> :=
    {"customer", "mitra", "farmer", "reseller", "agritech_startup", "service_provider", "admin"}

  const SubscriptionTypes: set<string> := {"subscription", "donation"}

  const NameMaxLength: nat := 100
  const PasswordMinLength: nat := 6

  /** A bcrypt hash of `secret`. The model keeps only what `bcrypt.compare` depends on. */
  datatype Digest = Digest(secret: string)

  /** `user.comparePassword(candidate)`. */
  predicate PasswordMatches(d: Digest, candidate: string) {
    candidate == d.secret
  }

  datatype Address = Address(
    street: Option<string>,
    city: Option<string>,
    state: Option<string>,
    pinCode: Option<string>,
    country: string)

  datatype Notifications = Notifications(email: bool, sms: bool, push: bool)

  /** The mitra sub-document; each field is absent until the schema default or a write sets it. */
  datatype MitraDetails = MitraDetails(
    investmentAmount: Option<int>,
    expectedValue: Option<int>,
    joinedDate: Option<int>,
    currentROI: Option<int>,
    monthlyKitStatus: Option<string>)

  const DefaultMitraDetails := MitraDetails(Some(42000), Some(54000), None, Some(0), Some("pending"))
  const DefaultNotifications := Notifications(true, true, true)

  datatype User = User(
    id: string,
    name: string,
    email: string,
    phone: Option<string>,
    password: Digest,
    role: string,
    verified: bool,
    subscriptionType: Option<string>,
    paymentAmount: int,
    creditsEarned: int,
    subscriptionStatus: Option<string>,
    subscriptionDate: Option<int>,
    profilePic: Option<string>,
    videoUrl: Option<string>,
    lastLogin: Option<int>,
    loginCount: nat,
    preferredLanguage: string,
    notifications: Notifications,
    address: Option<Address>,
    mitraDetails: MitraDetails,
    createdAt: int)

  /** A user document with the schema defaults for every field the caller does not set. */
  function NewUser(id: string, name: string, email: string, phone: Option<string>, password: string,
                   role: string, now: int): User
  {
    User(id, name, email, phone, Digest(password), role, false, None, 0, 0, None, None, None, None,
         None, 0, "en", DefaultNotifications, None, DefaultMitraDetails, now)
  }

  /** The e-mail setter: `trim` then `lowercase` (query filters go through the same cast). */
  function NormEmail(s: string): string { Lower(Trim(s)) }

  /** The phone setter: `trim`. */
  function NormPhone(s: string): string { Trim(s) }

  /** The `$or: [{email: x.toLowerCase()}, {phone: x}]` filter. */
  predicate LoginMatches(u: User, x: string) {
    KeyMatches(u, NormEmail(x), NormPhone(x))
  }

  predicate KeyMatches(u: User, email: string, phone: string) {
    u.email == email || u.phone == Some(phone)
  }

  /** `User.findOne($or …)`: the first matching user in natural order. */
  function FindByLogin(users: seq<User>, x: string): (r: Option<nat>)
    ensures r.None? <==> forall i :: 0 <= i < |users| ==> !LoginMatches(users[i], x)
    ensures r.Some? ==> r.value < |users| && LoginMatches(users[r.value], x)
    ensures r.Some? ==> forall j :: 0 <= j < r.value ==> !LoginMatches(users[j], x)
  {
    FindByKey(users, NormEmail(x), NormPhone(x))
  }

  function FindByKey(users: seq<User>, email: string, phone: string): (r: Option<nat>)
    ensures r.None? <==> forall i :: 0 <= i < |users| ==> !KeyMatches(users[i], email, phone)
    ensures r.Some? ==> r.value < |users| && KeyMatches(users[r.value], email, phone)
    ensures r.Some? ==> forall j :: 0 <= j < r.value ==> !KeyMatches(users[j], email, phone)
  {
    if |users| == 0 then None
    else if KeyMatches(users[0], email, phone) then Some(0)
    else
      var k := FindByKey(users[1..], email, phone);
      if k.None? then None else Some(k.value + 1)
  }

  /** Phone sign-ups get a placeholder e-mail so the required, unique e-mail field is filled. */
  const TempEmailDomain := "@temp.agrivalah.com"

  /** The e-mail a sign-up stores for a login identifier. */
  function ContactEmail(e: string): string {
    if IsEmailTarget(e) then Lower(e) else e + TempEmailDomain
  }

  /** The phone a sign-up stores for a login identifier. */
  function ContactPhone(e: string): Option<string> {
    if IsEmailTarget(e) then None else Some(e)
  }

  /** A user stored from identifier `e` is found again by the `$or` lookup on `e`. */
  lemma ContactFoundAgain(u: User, e: string)
    requires u.email == ContactEmail(e) && u.phone == ContactPhone(e)
    ensures LoginMatches(Normalised(u), e)
  {
    if IsEmailTarget(e) {
      TrimLower(e);
      LowerIdempotent(Trim(e));
    }
  }

  /** A user appended behind users that do not match is the one the lookup finds. */
  lemma FoundAtEnd(users: seq<User>, u: User, e: string)
    requires FindByLogin(users, e).None? && LoginMatches(u, e)
    ensures FindByLogin(users + [u], e) == Some(|users|)
  {
    var all := users + [u];
    assert all[|users|] == u;
    assert forall j :: 0 <= j < |users| ==> all[j] == users[j];
  }

  /** `User.findById(id)`. */
  function FindById(users: seq<User>, id: string): (r: Option<nat>)
    ensures r.None? <==> forall i :: 0 <= i < |users| ==> users[i].id != id
    ensures r.Some? ==> r.value < |users| && users[r.value].id == id
    ensures r.Some? ==> forall j :: 0 <= j < r.value ==> users[j].id != id
  {
    if |users| == 0 then None
    else if users[0].id == id then Some(0)
    else
      var k := FindById(users[1..], id);
      if k.None? then None else Some(k.value + 1)
  }

  /** A user appended with an id nobody has is the one `findById` finds. */
  lemma IdAtEnd(users: seq<User>, u: User)
    requires FindById(users, u.id).None?
    ensures FindById(users + [u], u.id) == Some(|users|)
  {
    var all := users + [u];
    assert all[|users|] == u;
    assert forall j :: 0 <= j < |users| ==> all[j] == users[j];
  }

  /** What the schema setters store for a document. */
  function Normalised(u: User): User {
    u.(name := Trim(u.name), email := NormEmail(u.email),
       phone := if u.phone.Some? then Some(NormPhone(u.phone.value)) else None)
  }

  /** The schema validators for a new document. They run before the pre-save hook that hashes
      the password, so `minlength` applies to the password as typed; both bounds count UTF-16
      code units. */
  predicate SchemaValid(u: User) {
    && Trim(u.name) != "" && JsLength(Trim(u.name)) <= NameMaxLength
    && NormEmail(u.email) != ""
    && JsLength(u.password.secret) >= PasswordMinLength
    && u.role in Roles
    && (u.subscriptionType.None? || u.subscriptionType.value in SubscriptionTypes)
  }

  /** No other document holds this (normalised) e-mail: the unique index. */
  predicate EmailFree(users: seq<User>, email: string) {
    forall i :: 0 <= i < |users| ==> users[i].email != email
  }

  /** `new User(data).save()`: `None` when a validator or the unique index rejects it. */
  function InsertUser(users: seq<User>, u: User): (r: Option<seq<User>>)
    ensures r.Some? <==> SchemaValid(u) && EmailFree(users, NormEmail(u.email))
    ensures r.Some? ==> |r.value| == |users| + 1 && r.value[..|users|] == users
    ensures r.Some? ==> var v := r.value[|users|];
      v.id == u.id && v.name == Trim(u.name) && v.email == NormEmail(u.email) && v.role == u.role
      && v.password == u.password && v.verified == u.verified
  {
    if SchemaValid(u) && EmailFree(users, NormEmail(u.email)) then Some(users + [Normalised(u)])
    else None
  }

  /** Inserting keeps e-mails unique across the collection. */
  ghost predicate EmailsUnique(users: seq<User>) {
    forall i, j :: 0 <= i < j < |users| ==> users[i].email != users[j].email
  }

  lemma InsertKeepsEmailsUnique(users: seq<User>, u: User)
    requires EmailsUnique(users)
    ensures InsertUser(users, u).Some? ==> EmailsUnique(InsertUser(users, u).value)
  {
  }

  /** `user.updateLoginMeta()`. */
  function RecordLogin(u: User, now: int): (r: User)
    ensures r.loginCount == u.loginCount + 1 && r.lastLogin == Some(now)
    ensures r.(loginCount := u.loginCount, lastLogin := u.lastLogin) == u
  {
    u.(lastLogin := Some(now), loginCount := u.loginCount + 1)
  }
}

=== FILE: search.dfy ===
/** The unified search and the suggestion routes. The database's text index and regular-expression
    matches are outside the model: the candidates each query would return arrive already matched
    and in the order the query sorts them by, and `mentions` stands for the service filter's
    pattern match. What the route itself decides is modelled: the query gate, the per-kind limits,
    the merge and relevance sort of the combined mode, the counts, and the category suggestions. */
module Search {

  import opened Wrappers
  import opened Text
  import opened Http
  import opened Records
  import opened Paging
  import opened Sorting
  import opened Collections
  import Products
  import Sellers

  datatype Hit =
    | ProductHit(product: Products.Product)
    | SellerHit(user: User, profile: Option<Sellers.SellerProfile>)
    | ServiceHit(service: Sellers.SellerProfile)

  /** `(metrics?.orderCount || 0) + (businessMetrics?.customerRating || 0) * 20`: products carry
      only the first term, service profiles only the second, users neither. */
  function Score(h: Hit): real {
    match h
    case ProductHit(p) => p.orderCount as real
    case SellerHit(_, _) => 0.0
    case ServiceHit(s) => s.customerRating * 20.0
  }

  function ScoreKey(h: Hit): Key { Key(Score(h), 0.0) }

  const QueryMessage := "Search query must be at least 2 characters long"

  /** `!query || query.trim().length < 2`. */
  predicate QueryTooShort(q: Option<string>) {
    !Present(q) || JsLength(Trim(q.value)) < 2
  }

  // ---------------------------------------------------------------------------
  // The service filter

  /** The filter as the route writes it: `sellerType: 'service'`. */
  predicate ServiceSelectedAsWritten(p: Sellers.SellerProfile, mentions: Sellers.SellerProfile -> bool) {
    p.sellerType == "service" && p.kycStatus == "approved" && p.isActive && mentions(p)
  }

  /** No profile the schema accepts has the seller type `'service'`, so the services part of a
      search is always empty. */
  lemma ServicesNeverFound(profiles: seq<Sellers.SellerProfile>, mentions: Sellers.SellerProfile -> bool)
    requires forall i :: 0 <= i < |profiles| ==> profiles[i].sellerType in Sellers.SellerTypes
    ensures Filter(profiles, (p: Sellers.SellerProfile) => ServiceSelectedAsWritten(p, mentions)) == []
  {
    assert "service" !in Sellers.SellerTypes;
    FilterNone(profiles, (p: Sellers.SellerProfile) => ServiceSelectedAsWritten(p, mentions));
  }

  /** The filter as evidently intended: the schema's service-provider type. */
  predicate ServiceSelected(p: Sellers.SellerProfile, mentions: Sellers.SellerProfile -> bool) {
    p.sellerType == "service_provider" && p.kycStatus == "approved" && p.isActive && mentions(p)
  }

  /** The approved, active service providers whose services or area match, in rating order. */
  function Services(profiles: seq<Sellers.SellerProfile>, mentions: Sellers.SellerProfile -> bool)
    : (r: seq<Sellers.SellerProfile>)
    ensures forall i :: 0 <= i < |r| ==> r[i] in profiles && ServiceSelected(r[i], mentions)
    ensures forall i :: 0 <= i < |profiles| && ServiceSelected(profiles[i], mentions) ==> profiles[i] in r
  {
    Filter(profiles, (p: Sellers.SellerProfile) => ServiceSelected(p, mentions))
  }

  /** With the intended filter, an approved and active provider that matches is found. */
  lemma ProviderFound(profiles: seq<Sellers.SellerProfile>, mentions: Sellers.SellerProfile -> bool, i: int)
    requires 0 <= i < |profiles|
    requires profiles[i].sellerType == "service_provider" && profiles[i].sellerType in Sellers.SellerTypes
    requires profiles[i].kycStatus == "approved" && profiles[i].isActive && mentions(profiles[i])
    ensures profiles[i] in Services(profiles, mentions)
    ensures !ServiceSelectedAsWritten(profiles[i], mentions)
  {
  }

  // ---------------------------------------------------------------------------
  // Hits

  function ProductHits(xs: seq<Products.Product>): (r: seq<Hit>)
    ensures |r| == |xs| && forall i :: 0 <= i < |xs| ==> r[i] == ProductHit(xs[i])
  {
    seq(|xs|, i requires 0 <= i < |xs| => ProductHit(xs[i]))
  }

  /** Each matched user enriched with their seller profile, if any. */
  function SellerHits(users: seq<User>, profiles: seq<Sellers.SellerProfile>): (r: seq<Hit>)
    ensures |r| == |users| && forall i :: 0 <= i < |users| ==> r[i].SellerHit? && r[i].user == users[i]
    ensures forall i :: 0 <= i < |users| ==>
      (r[i].profile.Some? <==> exists j :: 0 <= j < |profiles| && profiles[j].userId == users[i].id)
  {
    seq(|users|, i requires 0 <= i < |users| =>
      SellerHit(users[i], match Sellers.FindProfile(profiles, users[i].id)
                          case None => None
                          case Some(k) => Some(profiles[k])))
  }

  function ServiceHits(xs: seq<Sellers.SellerProfile>): (r: seq<Hit>)
    ensures |r| == |xs| && forall i :: 0 <= i < |xs| ==> r[i] == ServiceHit(xs[i])
  {
    seq(|xs|, i requires 0 <= i < |xs| => ServiceHit(xs[i]))
  }

  /** `Array.prototype.slice(start, end)`: negative positions count from the end, positions
      past the end stop there, and an empty range gives nothing. */
  function JsSlice<T>(xs: seq<T>, start: int, end: int): (r: seq<T>)
    ensures 0 <= start && start <= end ==> |r| <= end - start
    ensures 0 <= start ==> r == xs[Min(start, |xs|)..Min(Min(start, |xs|) + |r|, |xs|)]
  {
    var s := if start < 0 then (if |xs| + start < 0 then 0 else |xs| + start) else Min(start, |xs|);
    var e := if end < 0 then (if |xs| + end < 0 then 0 else |xs| + end) else Min(end, |xs|);
    if s < e then xs[s..e] else []
  }

  // ---------------------------------------------------------------------------
  // GET /search

  datatype SearchQuery = SearchQuery(q: Option<string>, kind: Option<string>, page: Option<int>, limit: Option<int>)

  /** What the three database queries match, each in its own sort order. */
  datatype Candidates = Candidates(
    products: seq<Products.Product>,
    sellers: seq<User>,
    profiles: seq<Sellers.SellerProfile>,
    mentions: Sellers.SellerProfile -> bool)

  datatype Breakdown = Breakdown(products: nat, sellers: nat, services: nat)

  datatype SearchPage = SearchPage(results: seq<Hit>, breakdown: Option<Breakdown>, pagination: Pagination)

  /** The first five of each kind, in kind order: what the combined mode merges. */
  function Merged(c: Candidates): (r: (seq<Hit>, Breakdown))
    ensures r.1 == Breakdown(Min(5, |c.products|), Min(5, |c.sellers|), Min(5, |Services(c.profiles, c.mentions)|))
    ensures |r.0| == r.1.products + r.1.sellers + r.1.services
  {
    var ps := ProductHits(Take(c.products, 5));
    var ss := SellerHits(Take(c.sellers, 5), c.profiles);
    var vs := ServiceHits(Take(Services(c.profiles, c.mentions), 5));
    (ps + ss + vs, Breakdown(|ps|, |ss|, |vs|))
  }

  /** The combined mode: the merged hits by non-increasing score, then `slice(skip, skip + limit)`. */
  function AllResults(c: Candidates, page: int, limit: int): (r: SearchPage)
    ensures r.breakdown == Some(Merged(c).1)
    ensures r.pagination == Describe(page, limit, |Merged(c).0|)
    ensures 0 <= Skip(page, limit) && 0 <= limit ==> |r.results| <= limit
  {
    var (all, counts) := Merged(c);
    var skip := Skip(page, limit);
    SearchPage(JsSlice(SortDesc(all, ScoreKey), skip, skip + limit), Some(counts), Describe(page, limit, |all|))
  }

  /** The combined results are ranked: a page of them is in non-increasing score order, and each
      is one of the merged hits. */
  lemma AllResultsRanked(c: Candidates, page: int, limit: int)
    requires 0 <= Skip(page, limit)
    ensures SortedDesc(AllResults(c, page, limit).results, ScoreKey)
    ensures forall i :: 0 <= i < |AllResults(c, page, limit).results| ==>
      AllResults(c, page, limit).results[i] in Merged(c).0
  {
    var all := Merged(c).0;
    var sorted := SortDesc(all, ScoreKey);
    var skip := Skip(page, limit);
    var r := AllResults(c, page, limit).results;
    AllResultsWindow(c, page, limit);
    var s := Min(skip, |sorted|);
    SliceSorted(sorted, ScoreKey, s, s + |r|);
    SliceMembers(all, sorted, s, r);
  }

  lemma AllResultsWindow(c: Candidates, page: int, limit: int)
    requires 0 <= Skip(page, limit)
    ensures var sorted := SortDesc(Merged(c).0, ScoreKey);
      var r := AllResults(c, page, limit).results;
      var s := Min(Skip(page, limit), |sorted|);
      s + |r| <= |sorted| && r == sorted[s..s + |r|]
  {
    var skip := Skip(page, limit);
    AllResultsSlice(c, page, limit);
    JsSliceWindow(SortDesc(Merged(c).0, ScoreKey), skip, skip + limit);
  }

  lemma AllResultsSlice(c: Candidates, page: int, limit: int)
    ensures AllResults(c, page, limit).results
         == JsSlice(SortDesc(Merged(c).0, ScoreKey), Skip(page, limit), Skip(page, limit) + limit)
  {
  }

  /** A slice from a non-negative start is a window of the sequence from that start. */
  lemma JsSliceWindow<T>(xs: seq<T>, start: int, end: int)
    requires 0 <= start
    ensures var r := JsSlice(xs, start, end);
      Min(start, |xs|) + |r| <= |xs| && r == xs[Min(start, |xs|)..Min(start, |xs|) + |r|]
  {
  }

  /** Every element of a window of a permutation is an element of the original. */
  lemma SliceMembers<T>(all: seq<T>, sorted: seq<T>, s: nat, w: seq<T>)
    requires multiset(sorted) == multiset(all) && s + |w| <= |sorted| && w == sorted[s..s + |w|]
    ensures forall i :: 0 <= i < |w| ==> w[i] in all
  {
    forall i | 0 <= i < |w| ensures w[i] in all {
      assert w[i] == sorted[s + i];
      assert sorted[s + i] in multiset(all);
    }
  }

  /** One kind only: the database applies the skip and the limit, and the reply's `total` is
      the length of that page. */
  function KindResults(hits: seq<Hit>, page: int, limit: int): (r: Reply<SearchPage>)
    ensures r.Err? <==> Skip(page, limit) < 0
    ensures r.Err? ==> r == Fail(500, "Search failed")
    ensures r.Ok? ==>
      && r.data.results == Window(hits, page, limit).value && r.data.breakdown.None?
      && r.data.pagination == Describe(page, limit, |r.data.results|)
  {
    match Window(hits, page, limit)
    case None => Fail(500, "Search failed")
    case Some(w) => Ok(200, "", SearchPage(w, None, Describe(page, limit, |w|)))
  }

  /** `GET /search`; `type` defaults to `'all'`, page to 1 and limit to 20. A type outside the
      four known ones runs no query and replies with nothing. */
  function UnifiedSearch(q: SearchQuery, c: Candidates): (r: Reply<SearchPage>)
    ensures QueryTooShort(q.q) ==> r == Fail(400, QueryMessage)
    ensures !QueryTooShort(q.q) && q.kind.GetOr("all") == "all" ==>
      r == Ok(200, "", AllResults(c, q.page.GetOr(1), q.limit.GetOr(20)))
    ensures !QueryTooShort(q.q) && q.kind == Some("products") ==>
      r == KindResults(ProductHits(c.products), q.page.GetOr(1), q.limit.GetOr(20))
    ensures !QueryTooShort(q.q) && q.kind == Some("sellers") ==>
      r == KindResults(SellerHits(c.sellers, c.profiles), q.page.GetOr(1), q.limit.GetOr(20))
    ensures !QueryTooShort(q.q) && q.kind == Some("services") ==>
      r == KindResults(ServiceHits(Services(c.profiles, c.mentions)), q.page.GetOr(1), q.limit.GetOr(20))
    ensures !QueryTooShort(q.q) && q.kind.Some? && q.kind.value !in {"all", "products", "sellers", "services"} ==>
      r == Ok(200, "", SearchPage([], None, Describe(q.page.GetOr(1), q.limit.GetOr(20), 0)))
  {
    if QueryTooShort(q.q) then Fail(400, QueryMessage)
    else
      var kind := q.kind.GetOr("all");
      var page := q.page.GetOr(1);
      var limit := q.limit.GetOr(20);
      if kind == "all" then Ok(200, "", AllResults(c, page, limit))
      else if kind == "products" then KindResults(ProductHits(c.products), page, limit)
      else if kind == "sellers" then KindResults(SellerHits(c.sellers, c.profiles), page, limit)
      else if kind == "services" then KindResults(ServiceHits(Services(c.profiles, c.mentions)), page, limit)
      else Ok(200, "", SearchPage([], None, Describe(page, limit, 0)))
  }

  /** In the combined mode each kind contributes at most five hits and the total is their sum. */
  lemma CombinedCounts(q: SearchQuery, c: Candidates)
    requires !QueryTooShort(q.q) && q.kind.GetOr("all") == "all"
    ensures var r := UnifiedSearch(q, c);
      && r.Ok? && r.data.breakdown.Some?
      && var b := r.data.breakdown.value;
      && b.products <= 5 && b.sellers <= 5 && b.services <= 5
      && r.data.pagination.total == b.products + b.sellers + b.services
  {
  }

  /** A query of blanks around a single character of the Basic Multilingual Plane is refused,
      however it is padded. */
  lemma PaddedQueryRefused(c: Candidates, ch: char, pad: string)
    requires !IsSpace(ch) && ch <= '\U{FFFF}' && forall i :: 0 <= i < |pad| ==> IsSpace(pad[i])
    ensures UnifiedSearch(SearchQuery(Some(pad + [ch] + pad), None, None, None), c) == Fail(400, QueryMessage)
  {
    TrimPadded(ch, pad);
    assert JsLength([ch]) == 1;
  }

  /** A single character beyond the Basic Multilingual Plane, an emoji say, is two code units
      long and so passes the two-character minimum on its own. */
  lemma WideCharQueryAccepted(ch: char, pad: string)
    requires ch > '\U{FFFF}' && forall i :: 0 <= i < |pad| ==> IsSpace(pad[i])
    ensures !QueryTooShort(Some(pad + [ch] + pad))
  {
    assert !IsSpace(ch);
    TrimPadded(ch, pad);
    assert JsLength([ch]) == 2 by { assert [ch][1..] == []; }
  }

  lemma TrimPadded(ch: char, pad: string)
    requires !IsSpace(ch) && forall i :: 0 <= i < |pad| ==> IsSpace(pad[i])
    ensures Trim(pad + [ch] + pad) == [ch]
  {
    TrimStartPad(pad, [ch] + pad);
    assert pad + [ch] + pad == pad + ([ch] + pad);
    TrimEndPad([ch], pad);
  }

  lemma {:induction false} TrimStartPad(pad: string, s: string)
    requires forall i :: 0 <= i < |pad| ==> IsSpace(pad[i])
    requires |s| > 0 && !IsSpace(s[0])
    ensures TrimStart(pad + s) == s
  {
    if |pad| > 0 {
      assert (pad + s)[1..] == pad[1..] + s;
      TrimStartPad(pad[1..], s);
    }
  }

  lemma {:induction false} TrimEndPad(s: string, pad: string)
    requires forall i :: 0 <= i < |pad| ==> IsSpace(pad[i])
    requires |s| > 0 && !IsSpace(s[|s| - 1])
    ensures TrimEnd(s + pad) == s
  {
    if |pad| > 0 {
      var p' := pad[..|pad| - 1];
      assert (s + pad)[..|s + pad| - 1] == s + p';
      TrimEndPad(s, p');
    }
  }

  // ---------------------------------------------------------------------------
  // GET /search/suggestions

  const SuggestionCategories: seq<string> :=
    ["vegetables", "fruits", "grains", "spices", "oils", "dairy", "pulses", "seeds", "nuts", "herbs"]

  /** `cat.charAt(0).toUpperCase() + cat.slice(1)`. */
  function Capitalize(s: string): (r: string)
    ensures |r| == |s|
    ensures |s| > 0 ==> r[0] == UpperChar(s[0]) && r[1..] == s[1..]
  {
    if |s| == 0 then s else [UpperChar(s[0])] + s[1..]
  }

  /** `cat.toLowerCase().includes(query.toLowerCase())`. */
  predicate Names(cat: string, query: string) {
    Contains(Lower(cat), Lower(query))
  }

  function Capitalized(xs: seq<string>): (r: seq<string>)
    ensures |r| == |xs| && forall i :: 0 <= i < |xs| ==> r[i] == Capitalize(xs[i])
  {
    seq(|xs|, i requires 0 <= i < |xs| => Capitalize(xs[i]))
  }

  /** The categories whose name contains the query, ignoring case, capitalised, in list order. */
  function CategoryMatches(cats: seq<string>, query: string): (r: seq<string>)
    ensures |r| <= |cats|
    ensures forall i :: 0 <= i < |r| ==> exists j :: 0 <= j < |cats| && Names(cats[j], query) && r[i] == Capitalize(cats[j])
    ensures forall j :: 0 <= j < |cats| && Names(cats[j], query) ==> Capitalize(cats[j]) in r
  {
    var kept := Filter(cats, (cat: string) => Names(cat, query));
    var r := Capitalized(kept);
    forall j | 0 <= j < |cats| && Names(cats[j], query) ensures Capitalize(cats[j]) in r {
      var k :| 0 <= k < |kept| && kept[k] == cats[j];
      assert r[k] == Capitalize(cats[j]);
    }
    forall i | 0 <= i < |r| ensures exists j :: 0 <= j < |cats| && Names(cats[j], query) && r[i] == Capitalize(cats[j]) {
      var j :| 0 <= j < |cats| && cats[j] == kept[i];
    }
    r
  }

  datatype Suggestion = Suggestion(text: string, kind: string, category: Option<string>)

  function ProductSuggestions(xs: seq<Products.Product>): (r: seq<Suggestion>)
    ensures |r| == |xs| && forall i :: 0 <= i < |xs| ==> r[i] == Suggestion(xs[i].title, "product", Some(xs[i].category))
  {
    seq(|xs|, i requires 0 <= i < |xs| => Suggestion(xs[i].title, "product", Some(xs[i].category)))
  }

  function CategorySuggestions(names: seq<string>): (r: seq<Suggestion>)
    ensures |r| == |names| && forall i :: 0 <= i < |names| ==> r[i] == Suggestion(names[i], "category", None)
  {
    seq(|names|, i requires 0 <= i < |names| => Suggestion(names[i], "category", None))
  }

  /** `GET /search/suggestions`; `limit` defaults to 10. `titled` are the active products whose
      title matches the query, in natural order. A query shorter than two characters (untrimmed)
      gives an empty success. Half the limit goes to each source; the database's `$limit` stage
      refuses a count that is not a positive integer, which makes an odd or non-positive limit
      a 500. */
  function Suggestions(query: Option<string>, limit: Option<int>, titled: seq<Products.Product>)
    : (r: Reply<seq<Suggestion>>)
    ensures !Present(query) || JsLength(query.value) < 2 ==> r == Ok(200, "", [])
    ensures r.Err? <==> Present(query) && JsLength(query.value) >= 2 && (limit.GetOr(10) <= 0 || limit.GetOr(10) % 2 != 0)
    ensures r.Err? ==> r == Fail(500, "Failed to get suggestions")
    ensures r.Ok? ==> |r.data| <= limit.GetOr(10) || |r.data| == 0
    ensures r.Ok? && Present(query) && JsLength(query.value) >= 2 ==>
      var half := limit.GetOr(10) / 2;
      var products := Take(titled, half);
      var categories := Take(CategoryMatches(SuggestionCategories, query.value), half);
      && |r.data| == |products| + |categories|
      && r.data[..|products|] == ProductSuggestions(products)
      && r.data[|products|..] == CategorySuggestions(categories)
  {
    if !Present(query) || JsLength(query.value) < 2 then Ok(200, "", [])
    else
      var l := limit.GetOr(10);
      if l <= 0 || l % 2 != 0 then Fail(500, "Failed to get suggestions")
      else
        var half := l / 2;
        var all := ProductSuggestions(Take(titled, half)) + CategorySuggestions(Take(CategoryMatches(SuggestionCategories, query.value), half));
        Ok(200, "", Take(all, l))
  }

  lemma CategoryCount()
    ensures |SuggestionCategories| == 10
  {
  }

  lemma TakeAll<T>(xs: seq<T>, n: int)
    requires |xs| <= n
    ensures Take(xs, n) == xs
  {
  }

  /** A query naming part of a category suggests that category, when the limit leaves room for
      every matching category. */
  lemma CategorySuggested(query: string, j: int, titled: seq<Products.Product>)
    requires 0 <= j < |SuggestionCategories| && JsLength(query) >= 2
    requires Names(SuggestionCategories[j], query)
    ensures var r := Suggestions(Some(query), Some(20), titled);
      r.Ok? && Suggestion(Capitalize(SuggestionCategories[j]), "category", None) in r.data
  {
    var r := Suggestions(Some(query), Some(20), titled);
    assert Present(Some(query));
    assert r.Ok?;
    var cats := CategoryMatches(SuggestionCategories, query);
    CategoryCount();
    TakeAll(cats, 10);
    var products := Take(titled, 10);
    assert r.data[|products|..] == CategorySuggestions(cats);
    SuggestedFromTail(r.data, |products|, cats, Capitalize(SuggestionCategories[j]));
  }

  lemma SuggestedFromTail(data: seq<Suggestion>, p: nat, cats: seq<string>, name: string)
    requires p <= |data| && data[p..] == CategorySuggestions(cats) && name in cats
    ensures Suggestion(name, "category", None) in data
  {
    var k :| 0 <= k < |cats| && cats[k] == name;
    assert data[p + k] == data[p..][k];
  }

}

=== FILE: sellers.dfy ===
/** Seller onboarding (`/sellers`): registration creates an unverified user with the seller role
    for the designation plus an inactive, KYC-pending profile; the demo OTP step verifies the user
    and activates the profile, moving the application from "pending_approval" to the waiting list. */
module Sellers {

  import opened Wrappers
  import opened Text
  import opened Http
  import opened Records

  const Designations: seq<string> := ["farmer", "reseller", "startup", "service"]

  const SellerTypes: set<string> := {"farmer", "reseller", "agritech_startup", "service_provider"}

  const KycStatuses: set<string> := {"pending", "under_review", "approved", "rejected"}

  /** The fixed code the demo OTP step accepts. */
  const DemoOtp := "123456"

  datatype SellerProfile = SellerProfile(
    id: string,
    userId: string,
    sellerType: string,
    kycStatus: string,
    isActive: bool,
    verifiedAt: Option<int>,
    suspensionReason: Option<string>,
    customerRating: real)

  /** The role a registration creates, by the nested conditional: anything past the first three
      designations becomes a service provider. */
  function SellerRole(designation: string): (r: string)
    ensures r in Roles && r in SellerTypes
    ensures designation == "farmer" ==> r == "farmer"
    ensures designation == "reseller" ==> r == "reseller"
    ensures designation == "startup" ==> r == "agritech_startup"
    ensures designation !in {"farmer", "reseller", "startup"} ==> r == "service_provider"
  {
    if designation == "farmer" then "farmer"
    else if designation == "reseller" then "reseller"
    else if designation == "startup" then "agritech_startup"
    else "service_provider"
  }

  /** The `sellerTypeMapping` lookup table. */
  const SellerTypeMapping: map<string, string> :=
    map["farmer" := "farmer", "reseller" := "reseller",
        "startup" := "agritech_startup", "service" := "service_provider"]

  /** For every accepted designation the table and the conditional agree, and the profile's
      seller type is a schema value: user role and profile type always match. */
  lemma MappingsAgree(designation: string)
    requires designation in Designations
    ensures designation in SellerTypeMapping
    ensures SellerTypeMapping[designation] == SellerRole(designation)
    ensures SellerTypeMapping[designation] in SellerTypes
  {
  }

  datatype RegisterRequest = RegisterRequest(
    designation: Option<string>,
    name: Option<string>,
    email: Option<string>,
    password: Option<string>,
    confirmPassword: Option<string>)

  datatype SellerState = SellerState(users: seq<User>, profiles: seq<SellerProfile>)

  /** Fresh ids for the new user and profile, and the clock. */
  datatype RegisterEnv = RegisterEnv(userId: string, profileId: string, now: int)

  datatype Application = Application(userId: string, sellerId: string, status: string)

  /** The seller's user document. The handler also sets a `status` field, which the user schema
      does not declare, so strict mode drops it before saving. */
  function SellerUser(req: RegisterRequest, env: RegisterEnv): (u: User)
    requires Present(req.designation) && Present(req.name) && Present(req.email) && Present(req.password)
    ensures u.role == SellerRole(req.designation.value) && !u.verified
    ensures u.email == ContactEmail(req.email.value) && u.phone == ContactPhone(req.email.value)
  {
    var e := req.email.value;
    NewUser(env.userId, Trim(req.name.value), ContactEmail(e), ContactPhone(e), req.password.value,
            SellerRole(req.designation.value), env.now)
  }

  /** `POST /sellers/register`: the checks run in order (missing field, password mismatch,
      unknown designation, existing user), each answering 400 with nothing written. */
  function Register(req: RegisterRequest, st: SellerState, env: RegisterEnv)
    : (r: (Reply<Application>, SellerState))
    ensures !(Present(req.designation) && Present(req.name) && Present(req.email) && Present(req.password)) ==>
      r == (Fail(400, "All basic fields are required"), st)
    ensures Present(req.designation) && Present(req.name) && Present(req.email) && Present(req.password) ==>
      && (req.password != req.confirmPassword ==> r == (Fail(400, "Passwords do not match"), st))
      && (req.password == req.confirmPassword && req.designation.value !in Designations ==>
            r == (Fail(400, "Invalid seller type"), st))
      && (req.password == req.confirmPassword && req.designation.value in Designations
          && FindByLogin(st.users, req.email.value).Some? ==>
            r == (Fail(400, "User already exists with this email/phone"), st))
    ensures r.0.Ok? ==>
      && req.designation.value in Designations
      && r.0 == Ok(200, "Seller application submitted successfully. You have been added to our waiting list.",
                   Application(env.userId, env.profileId, "pending_approval"))
      && r.1.users == st.users + [Normalised(SellerUser(req, env))]
      && r.1.profiles == st.profiles + [SellerProfile(env.profileId, env.userId,
                                          SellerRole(req.designation.value), "pending", false, None, None, 0.0)]
    ensures r.0.Err? ==> r.1 == st
  {
    if !(Present(req.designation) && Present(req.name) && Present(req.email) && Present(req.password)) then
      (Fail(400, "All basic fields are required"), st)
    else if req.password != req.confirmPassword then
      (Fail(400, "Passwords do not match"), st)
    else if req.designation.value !in Designations then
      (Fail(400, "Invalid seller type"), st)
    else if FindByLogin(st.users, req.email.value).Some? then
      (Fail(400, "User already exists with this email/phone"), st)
    else Enrol(req, st, env)
  }

  /** The writes of an accepted registration: the user document, then the profile whose seller
      type comes from `sellerTypeMapping`. */
  function Enrol(req: RegisterRequest, st: SellerState, env: RegisterEnv)
    : (r: (Reply<Application>, SellerState))
    requires Present(req.designation) && Present(req.name) && Present(req.email) && Present(req.password)
    requires req.designation.value in Designations
    ensures r.0.Ok? ==>
      && r.0 == Ok(200, "Seller application submitted successfully. You have been added to our waiting list.",
                   Application(env.userId, env.profileId, "pending_approval"))
      && r.1.users == st.users + [Normalised(SellerUser(req, env))]
      && r.1.profiles == st.profiles + [SellerProfile(env.profileId, env.userId,
                                          SellerRole(req.designation.value), "pending", false, None, None, 0.0)]
    ensures r.0.Err? ==> r == (Fail(500, InternalError), st)
  {
    var d := req.designation.value;
    match InsertUser(st.users, SellerUser(req, env))
    case None => (Fail(500, InternalError), st)
    case Some(users') =>
      MappingsAgree(d);
      var profile := SellerProfile(env.profileId, env.userId, SellerTypeMapping[d], "pending", false,
                                   None, None, 0.0);
      (Ok(200, "Seller application submitted successfully. You have been added to our waiting list.",
          Application(env.userId, env.profileId, "pending_approval")),
       SellerState(users', st.profiles + [profile]))
  }

  /** `SellerProfile.findOne({userId})`. */
  function FindProfile(profiles: seq<SellerProfile>, userId: string): (r: Option<nat>)
    ensures r.None? <==> forall i :: 0 <= i < |profiles| ==> profiles[i].userId != userId
    ensures r.Some? ==> r.value < |profiles| && profiles[r.value].userId == userId
    ensures r.Some? ==> forall j :: 0 <= j < r.value ==> profiles[j].userId != userId
  {
    if |profiles| == 0 then None
    else if profiles[0].userId == userId then Some(0)
    else
      var k := FindProfile(profiles[1..], userId);
      if k.None? then None else Some(k.value + 1)
  }

  datatype Verified = Verified(userId: string, verified: bool, status: string)

  /** The profile update of the OTP step: the user's profile, if any, is activated with its KYC
      status (re)set to pending; every other profile is untouched. */
  function ActivateProfile(profiles: seq<SellerProfile>, userId: string): (r: seq<SellerProfile>)
    ensures |r| == |profiles|
    ensures FindProfile(profiles, userId).None? ==> r == profiles
    ensures FindProfile(profiles, userId).Some? ==>
      var k := FindProfile(profiles, userId).value;
      && r[k] == profiles[k].(kycStatus := "pending", isActive := true)
      && forall j :: 0 <= j < |profiles| && j != k ==> r[j] == profiles[j]
  {
    match FindProfile(profiles, userId)
    case None => profiles
    case Some(k) => profiles[k := profiles[k].(kycStatus := "pending", isActive := true)]
  }

  /** `POST /sellers/verify-otp` (the demo check against the fixed code). */
  function VerifySellerOtp(userId: Option<string>, emailOrPhone: Option<string>, otp: Option<string>,
                           st: SellerState): (r: (Reply<Verified>, SellerState))
    ensures !(Present(userId) && Present(emailOrPhone) && Present(otp)) ==>
      r == (Fail(400, "User ID, email/phone, and OTP are required"), st)
    ensures Present(userId) && Present(emailOrPhone) && Present(otp) && otp.value != DemoOtp ==>
      r == (Fail(400, "Invalid OTP. Use 123456 for demo."), st)
    ensures r.0.Ok? <==>
      && Present(userId) && Present(emailOrPhone) && Present(otp) && otp.value == DemoOtp
      && FindById(st.users, userId.value).Some?
    ensures r.0.Ok? ==>
      var i := FindById(st.users, userId.value).value;
      && r.0.data == Verified(userId.value, true, "waiting_list")
      && r.1.users == st.users[i := st.users[i].(verified := true)]
      && r.1.profiles == ActivateProfile(st.profiles, userId.value)
    ensures r.0.Err? ==> r.1 == st
  {
    if !(Present(userId) && Present(emailOrPhone) && Present(otp)) then
      (Fail(400, "User ID, email/phone, and OTP are required"), st)
    else if otp.value != DemoOtp then
      (Fail(400, "Invalid OTP. Use 123456 for demo."), st)
    else
      var i := FindById(st.users, userId.value);
      if i.None? then (Fail(404, "User not found"), st)
      else
        (Ok(200, "OTP verified successfully! Your application is in our waiting list for approval.",
            Verified(userId.value, true, "waiting_list")),
         SellerState(st.users[i.value := st.users[i.value].(verified := true)],
                     ActivateProfile(st.profiles, userId.value)))
  }

  /** Registration followed by the demo OTP: the new user is verified and the new profile is
      active and still awaiting KYC review. */
  lemma RegisterThenVerify(req: RegisterRequest, st: SellerState, env: RegisterEnv, contact: string)
    requires Register(req, st, env).0.Ok?
    requires FindById(st.users, env.userId).None?
    requires FindProfile(st.profiles, env.userId).None?
    requires contact != "" && env.userId != ""
    ensures var st1 := Register(req, st, env).1;
      var (r, st2) := VerifySellerOtp(Some(env.userId), Some(contact), Some(DemoOtp), st1);
      && r.Ok? && r.data.status == "waiting_list"
      && |st.users| < |st2.users| && |st.profiles| < |st2.profiles|
      && st2.users[|st.users|].verified
      && st2.profiles[|st.profiles|].isActive && st2.profiles[|st.profiles|].kycStatus == "pending"
      && st2.profiles[|st.profiles|].sellerType == SellerRole(req.designation.value)
  {
    var u := Normalised(SellerUser(req, env));
    var p := SellerProfile(env.profileId, env.userId, SellerRole(req.designation.value), "pending", false,
                           None, None, 0.0);
    assert Register(req, st, env).1 == SellerState(st.users + [u], st.profiles + [p]);
    VerifyNewSeller(st, u, p, contact);
  }

  /** The demo OTP for a user and profile just appended verifies that user and activates that
      profile. */
  lemma VerifyNewSeller(st: SellerState, u: User, p: SellerProfile, contact: string)
    requires FindById(st.users, u.id).None? && FindProfile(st.profiles, u.id).None?
    requires p.userId == u.id && u.id != "" && contact != ""
    ensures var (r, st2) := VerifySellerOtp(Some(u.id), Some(contact), Some(DemoOtp),
                                            SellerState(st.users + [u], st.profiles + [p]));
      && r.Ok? && r.data.status == "waiting_list"
      && |st.users| < |st2.users| && |st.profiles| < |st2.profiles|
      && st2.users[|st.users|] == u.(verified := true)
      && st2.profiles[|st.profiles|] == p.(kycStatus := "pending", isActive := true)
  {
    IdAtEnd(st.users, u);
    ProfileAtEnd(st.profiles, p);
  }

  lemma ProfileAtEnd(profiles: seq<SellerProfile>, p: SellerProfile)
    requires FindProfile(profiles, p.userId).None?
    ensures FindProfile(profiles + [p], p.userId) == Some(|profiles|)
  {
    var all := profiles + [p];
    assert all[|profiles|] == p;
    assert forall j :: 0 <= j < |profiles| ==> all[j] == profiles[j];
  }

  /** `POST /sellers/send-otp`: a mock that succeeds whenever an identifier is given. */
  function SendSellerOtp(emailOrPhone: Option<string>): (r: Reply<()>)
    ensures r.Ok? <==> Present(emailOrPhone)
    ensures r.Err? ==> r == Fail(400, "Email or phone is required")
  {
    if !Present(emailOrPhone) then Fail(400, "Email or phone is required")
    else Ok(200, "OTP sent successfully! Use 123456 for demo.", ())
  }

  /** `GET /sellers/:id`: the profile of the user with that id. */
  function GetProfile(id: string, profiles: seq<SellerProfile>): (r: Reply<SellerProfile>)
    ensures r.Ok? <==> exists i :: 0 <= i < |profiles| && profiles[i].userId == id
    ensures r.Ok? ==> r.data.userId == id && r.data in profiles
    ensures r.Err? ==> r == Fail(404, "Seller profile not found")
  {
    match FindProfile(profiles, id)
    case None => Fail(404, "Seller profile not found")
    case Some(i) => Ok(200, "", profiles[i])
  }
}

=== FILE: sellersignup.dfy ===
/** The seller registration wizard (`frontend/src/pages/SellerSignup.jsx`): a three-step form
    (basic information, type-specific details, OTP) ending in a success screen. The form is a map
    from field names to string or array values, exactly as the component's `formData` object is
    updated by computed keys; the network calls are parameters that say how each request ended. */
module SellerSignup {
  import opened Wrappers
  import opened Text
  import opened Collections
  import opened Patterns
  import Validation
  import Sellers
  import Http

  /** The keys of `formData`, and `general`, the extra key of the `errors` object. */
  datatype Key =
    | Designation | Name | Email | Password | ConfirmPassword | Otp
    | Acres | SoilType | CropsGrown | CropDetails | Location | PinCode | Language
    | BusinessName | BusinessType | GstNumber | BusinessAddress | PreferredCategories
    | CompanyName | RegistrationNumber | CompanyAddress | NatureOfBusiness | YearsInOperation | CollaborationAreas
    | SelectedServices | VehicleNumber | Model | RentPerDay | ServiceArea | EquipmentDetails | Capacity
    | ServiceCharges | StorageCapacity | StorageType | RentalModel
    | General

  datatype Value = Str(s: string) | List(items: seq<string>)

  type Form = map<Key, Value>

  /** The `errors` object: key to message. */
  type Errors = map<Key, string>

  const ListFields: set<Key> := {CropsGrown, PreferredCategories, CollaborationAreas, SelectedServices}

  /** The form's initial state: every field empty, the four multi-selects as `[]`. */
  const InitialForm: Form := map k: Key | k in AllFields :: if k in ListFields then List([]) else Str("")

  const AllFields: set<Key> := {
    Designation, Name, Email, Password, ConfirmPassword, Otp,
    Acres, SoilType, CropsGrown, CropDetails, Location, PinCode, Language,
    BusinessName, BusinessType, GstNumber, BusinessAddress, PreferredCategories,
    CompanyName, RegistrationNumber, CompanyAddress, NatureOfBusiness, YearsInOperation, CollaborationAreas,
    SelectedServices, VehicleNumber, Model, RentPerDay, ServiceArea, EquipmentDetails, Capacity,
    ServiceCharges, StorageCapacity, StorageType, RentalModel
  }

  /** `formData[f]` read as a string; `undefined` when the field is missing or holds an array. */
  function TextOf(form: Form, f: Key): (r: Option<string>)
    ensures r.Some? <==> f in form && form[f].Str?
    ensures r.Some? ==> form[f] == Str(r.value)
  {
    if f in form && form[f].Str? then Some(form[f].s) else None
  }

  /** `formData[f]` as an array; every array field starts as `[]`. */
  function ListOf(form: Form, f: Key): (r: seq<string>)
    ensures f in form && form[f].List? ==> r == form[f].items
    ensures !(f in form && form[f].List?) ==> r == []
  {
    if f in form && form[f].List? then form[f].items else []
  }

  /** `!formData[f]` is false. */
  predicate Filled(form: Form, f: Key) { Present(TextOf(form, f)) }

  // ---------------------------------------------------------------------------
  // Field handlers

  /** `handleInputChange(field, value)`: one field takes the value and only that field's error is
      cleared, and only if it was showing. */
  function HandleInputChange(form: Form, errors: Errors, field: Key, value: string): (r: (Form, Errors))
    ensures TextOf(r.0, field) == Some(value)
    ensures forall k :: k != field ==> (k in r.0 <==> k in form) && (k in form ==> r.0[k] == form[k])
    ensures forall k :: k != field ==> (k in r.1 <==> k in errors) && (k in errors ==> r.1[k] == errors[k])
    ensures field in errors ==> field in r.1 && r.1[field] == ""
    ensures field !in errors ==> field !in r.1
  {
    var errors' := if field in errors && errors[field] != "" then errors[field := ""] else errors;
    (form[field := Str(value)], errors')
  }

  function Without(v: string): string -> bool {
    (x: string) => x != v
  }

  /** `handleMultiSelect(field, value, checked)`: checking appends the value, unchecking removes
      every occurrence of it and keeps the rest in order; no other field changes. */
  function HandleMultiSelect(form: Form, field: Key, value: string, checked: bool): (r: Form)
    ensures field in r && r[field].List?
    ensures checked ==> r[field].items == ListOf(form, field) + [value]
    ensures !checked ==> value !in r[field].items && r[field].items == Filter(ListOf(form, field), Without(value))
    ensures !checked ==> forall x :: x in ListOf(form, field) && x != value ==> x in r[field].items
    ensures forall k :: k != field ==> (k in r <==> k in form) && (k in form ==> r[k] == form[k])
  {
    var items := ListOf(form, field);
    var kept := Filter(items, Without(value));
    form[field := List(if checked then items + [value] else kept)]
  }

  /** Ticking a box that was clear and then clearing it again restores the list. */
  lemma CheckThenUncheck(form: Form, field: Key, value: string)
    requires field in form && form[field].List? && value !in form[field].items
    ensures HandleMultiSelect(HandleMultiSelect(form, field, value, true), field, value, false) == form
  {
    var items := form[field].items;
    var once := HandleMultiSelect(form, field, value, true);
    FilterAppend(items, [value], Without(value));
    FilterAll(items, Without(value));
    FilterNone([value], Without(value));
    assert Filter(items + [value], Without(value)) == items;
  }

  /** Clearing a box twice is the same as clearing it once. */
  lemma UncheckIdempotent(form: Form, field: Key, value: string)
    ensures var once := HandleMultiSelect(form, field, value, false);
      HandleMultiSelect(once, field, value, false) == once
  {
    var once := HandleMultiSelect(form, field, value, false);
    var kept := once[field].items;
    FilterAll(kept, Without(value));
  }

  // ---------------------------------------------------------------------------
  // Validation

  const Step1Keys: set<Key> := {Designation, Name, Email, Password, ConfirmPassword}

  /** The message `validateStep1` sets for field `k`, if any: each of the five fields is checked
      on its own, the e-mail and password first for presence and then for form. */
  function Step1Problem(form: Form, k: Key): (r: Option<string>)
    ensures k == Designation ==> (r.Some? <==> !Filled(form, Designation))
    ensures k == Name ==> (r.Some? <==> !Filled(form, Name))
    ensures k == Email ==>
      && (r.Some? <==> !Filled(form, Email) || !(EmailLike(TextOf(form, Email).value) || TenDigits(TextOf(form, Email).value)))
      && (r.Some? ==>
            r.value == (if Filled(form, Email) then "Enter a valid email or 10-digit phone number" else "Email/Phone is required"))
    ensures k == Password ==> (r.Some? <==> !Filled(form, Password) || JsLength(TextOf(form, Password).value) < 6)
    ensures k == ConfirmPassword ==>
      (r.Some? <==> !Filled(form, ConfirmPassword) || TextOf(form, Password) != TextOf(form, ConfirmPassword))
    ensures k !in Step1Keys ==> r.None?
  {
    var email := TextOf(form, Email);
    var password := TextOf(form, Password);
    if k == Designation then
      (if !Filled(form, Designation) then Some("Please select your designation") else None)
    else if k == Name then
      (if !Filled(form, Name) then Some("Name is required") else None)
    else if k == Email then
      (if !Present(email) then Some("Email/Phone is required")
       else if !EmailLike(email.value) && !TenDigits(email.value) then Some("Enter a valid email or 10-digit phone number")
       else None)
    else if k == Password then
      (if !Present(password) then Some("Password is required")
       else if JsLength(password.value) < 6 then Some("Password must be at least 6 characters")
       else None)
    else if k == ConfirmPassword then
      (if !Filled(form, ConfirmPassword) then Some("Please confirm your password")
       else if password != TextOf(form, ConfirmPassword) then Some("Passwords do not match")
       else None)
    else None
  }

  /** `validateStep1`: one error per failing field, and nothing else. */
  function ValidateStep1(form: Form): (errs: Errors)
    ensures forall k :: k in errs <==> Step1Problem(form, k).Some?
    ensures forall k :: k in errs ==> errs[k] == Step1Problem(form, k).value
  {
    map k | k in Step1Keys && Step1Problem(form, k).Some? :: Step1Problem(form, k).value
  }

  /** What step 1 demands of the form, field by field. */
  predicate Step1Valid(form: Form) {
    && Filled(form, Designation) && Filled(form, Name)
    && Filled(form, Email) && (EmailLike(TextOf(form, Email).value) || TenDigits(TextOf(form, Email).value))
    && Filled(form, Password) && JsLength(TextOf(form, Password).value) >= 6
    && TextOf(form, ConfirmPassword) == TextOf(form, Password)
  }

  lemma Step1Errors(form: Form)
    ensures ValidateStep1(form) == map[] <==> Step1Valid(form)
  {
    var errs := ValidateStep1(form);
    if errs == map[] {
      assert Designation !in errs && Name !in errs && Email !in errs && Password !in errs && ConfirmPassword !in errs;
    } else {
      var k :| k in errs;
      assert k in Step1Keys;
    }
  }


  /** The four seller-type cards; `selectedType` starts as `''`, which is `None` here. */
  datatype SellerKind = Farmer | Reseller | Startup | Service

  /** The card's `type`, which is also what `designation` receives. */
  function KindName(t: SellerKind): (r: string)
    ensures r in Sellers.Designations
  {
    match t
    case Farmer => "farmer"
    case Reseller => "reseller"
    case Startup => "startup"
    case Service => "service"
  }

  /** `selectedType` as the string the page sends. */
  function TypeString(t: Option<SellerKind>): string {
    if t.Some? then KindName(t.value) else ""
  }

  /** The fields `validateStep2` checks for each seller type. */
  function Step2Keys(selectedType: Option<SellerKind>): set<Key> {
    match selectedType
    case Some(Farmer) => {Acres, SoilType, CropsGrown, Location, PinCode}
    case Some(Reseller) => {BusinessName, BusinessType, BusinessAddress}
    case Some(Startup) => {CompanyName, CompanyAddress, NatureOfBusiness}
    case Some(Service) => {SelectedServices}
    case None => {}
  }

  /** What step 2 demands of one field: a ticked box for a multi-select, text for the rest. */
  predicate Passes(form: Form, k: Key) {
    if k in ListFields then |ListOf(form, k)| > 0 else Filled(form, k)
  }

  /** The message `validateStep2` sets for a required field that fails. */
  function Step2Message(k: Key): string {
    match k
    case Acres => "Acres of land is required"
    case SoilType => "Soil type is required"
    case CropsGrown => "Select at least one crop type"
    case Location => "Location is required"
    case PinCode => "Pin code is required"
    case BusinessName => "Business name is required"
    case BusinessType => "Business type is required"
    case BusinessAddress => "Business address is required"
    case CompanyName => "Company name is required"
    case CompanyAddress => "Company address is required"
    case NatureOfBusiness => "Nature of business is required"
    case SelectedServices => "Select at least one service type"
    case _ => ""
  }

  /** `validateStep2`: an error for each field the selected type requires and the form lacks,
      each with a message; with no type selected there is nothing to check. */
  function ValidateStep2(selectedType: Option<SellerKind>, form: Form): (errs: Errors)
    ensures forall k :: k in errs <==> k in Step2Keys(selectedType) && !Passes(form, k)
    ensures forall k :: k in errs ==> errs[k] == Step2Message(k) && errs[k] != ""
    ensures selectedType.None? ==> errs == map[]
  {
    MessagesShown(selectedType);
    map k | k in Step2Keys(selectedType) && !Passes(form, k) :: Step2Message(k)
  }

  /** Every field a seller type requires has a message to show. */
  lemma MessagesShown(selectedType: Option<SellerKind>)
    ensures forall k :: k in Step2Keys(selectedType) ==> Step2Message(k) != ""
  {
    match selectedType
    case None =>
    case Some(Farmer) =>
      assert forall k :: k in Step2Keys(selectedType) ==> k in {Acres, SoilType, CropsGrown, Location, PinCode};
    case Some(Reseller) =>
    case Some(Startup) =>
    case Some(Service) =>
  }

  /** What step 2 demands of the form: every field the seller type requires passes. */
  predicate Step2Valid(selectedType: Option<SellerKind>, form: Form) {
    forall k :: k in Step2Keys(selectedType) ==> Passes(form, k)
  }

  /** Step 2 shows no error exactly when the form meets what the selected type demands. */
  lemma Step2Errors(selectedType: Option<SellerKind>, form: Form)
    ensures ValidateStep2(selectedType, form) == map[] <==> Step2Valid(selectedType, form)
  {
    var errs := ValidateStep2(selectedType, form);
    if Step2Valid(selectedType, form) {
      assert errs.Keys == {};
    }
  }



  // ---------------------------------------------------------------------------
  // The wizard

  /** How a request ended: `response.data.success` truthy, falsy, or a thrown error carrying the
      server's `message` when there was a response. */
  datatype Reply = Succeeded(userId: string) | Declined | Threw(message: Option<string>)

  datatype Wizard = Wizard(step: int, selectedType: Option<SellerKind>, form: Form, errors: Errors, sellerId: Option<string>)

  const InitialWizard := Wizard(1, None, InitialForm, map[], None)

  /** Clicking a seller-type card selects it and copies it into `designation`. */
  function SelectType(w: Wizard, t: SellerKind): (r: Wizard)
    ensures r.selectedType == Some(t) && TextOf(r.form, Designation) == Some(KindName(t))
    ensures r.step == w.step && r.errors == w.errors && r.sellerId == w.sellerId
    ensures forall k :: k != Designation ==> (k in r.form <==> k in w.form) && (k in w.form ==> r.form[k] == w.form[k])
  {
    w.(selectedType := Some(t), form := w.form[Designation := Str(KindName(t))])
  }

  /** `error.response?.data?.message || fallback`. */
  function ErrorMessage(m: Option<string>, fallback: string): (r: string)
    ensures Present(m) ==> r == m.value
    ensures !Present(m) ==> r == fallback
  {
    OrElse(m, fallback)
  }

  /** `getProgressPercentage`. */
  function Progress(step: int): (p: int)
    ensures step == 1 ==> p == 33
    ensures step == 2 ==> p == 66
    ensures step == 3 ==> p == 90
    ensures step !in {1, 2, 3} ==> p == 100
  {
    if step == 1 then 33 else if step == 2 then 66 else if step == 3 then 90 else 100
  }

  /** The bar never moves back as the wizard moves forward from step 1. */
  lemma ProgressMonotone(a: int, b: int)
    requires 1 <= a <= b
    ensures Progress(a) <= Progress(b)
  {
  }

  /** `handleNext`. Step 1 validates and posts the basic information (`reply`); step 2 validates
      and posts the details (`reply`), then requests the OTP (`sent`). A step advances only on a
      successful reply; a thrown error shows its message under `general`. */
  function HandleNext(w: Wizard, reply: Reply, sent: Reply): (r: Wizard)
    ensures r.form == w.form && r.selectedType == w.selectedType
    ensures r.step == w.step || r.step == w.step + 1
    ensures w.step == 1 ==>
      && (r.step == 2 <==> Step1Valid(w.form) && reply.Succeeded?)
      && (r.step == 2 ==> r.sellerId == Some(reply.userId) && r.errors == map[])
      && (!Step1Valid(w.form) ==> r.errors == ValidateStep1(w.form) && r.sellerId == w.sellerId)
      && (Step1Valid(w.form) && reply.Threw? ==>
            r == w.(errors := map[General := ErrorMessage(reply.message, "Something went wrong")]))
      && (Step1Valid(w.form) && reply.Declined? ==> r == w.(errors := map[]))
    ensures w.step == 2 ==>
      && r.sellerId == w.sellerId
      && (r.step == 3 <==>
            Step2Valid(w.selectedType, w.form) && w.selectedType.Some? && reply.Succeeded? && !sent.Threw?)
      && (!Step2Valid(w.selectedType, w.form) ==> r.errors == ValidateStep2(w.selectedType, w.form))
    ensures w.step == 2 && Step2Valid(w.selectedType, w.form) && w.selectedType.Some? ==>
      && (reply.Threw? ==>
            r == w.(errors := map[General := ErrorMessage(reply.message, "Something went wrong")]))
      && (reply.Succeeded? && sent.Threw? ==>
            r == w.(errors := map[General := ErrorMessage(sent.message, "Something went wrong")]))
      && (reply.Declined? ==> r == w.(errors := map[]))
    ensures w.step !in {1, 2} ==> r == w
  {
    Step1Errors(w.form);
    Step2Errors(w.selectedType, w.form);
    if w.step == 1 then
      var errs := ValidateStep1(w.form);
      if errs != map[] then w.(errors := errs)
      else
        match reply
        case Succeeded(uid) => w.(errors := errs, sellerId := Some(uid), step := 2)
        case Declined => w.(errors := errs)
        case Threw(m) => w.(errors := map[General := ErrorMessage(m, "Something went wrong")])
    else if w.step == 2 then
      var errs := ValidateStep2(w.selectedType, w.form);
      if errs != map[] || w.selectedType.None? then w.(errors := errs)
      else
        match reply
        case Succeeded(_) =>
          (match sent
           case Threw(m) => w.(errors := map[General := ErrorMessage(m, "Something went wrong")])
           case _ => w.(errors := errs, step := 3))
        case Declined => w.(errors := errs)
        case Threw(m) => w.(errors := map[General := ErrorMessage(m, "Something went wrong")])
    else w
  }

  /** The Back buttons of steps 2 and 3. */
  function Back(w: Wizard): (r: Wizard)
    ensures w.step in {2, 3} ==> r == w.(step := w.step - 1)
    ensures w.step !in {2, 3} ==> r == w
  {
    if w.step == 2 || w.step == 3 then w.(step := w.step - 1) else w
  }

  /** `handleOTPSubmit`, the submit handler of the step-3 form: the OTP must be six characters
      before it is sent; success moves to the final screen, a thrown error shows its message under
      `otp`. */
  function HandleOtpSubmit(w: Wizard, reply: Reply): (r: Wizard)
    requires w.step == 3
    ensures r.form == w.form && r.selectedType == w.selectedType && r.sellerId == w.sellerId
    ensures !(Filled(w.form, Otp) && JsLength(TextOf(w.form, Otp).value) == 6) ==>
      r == w.(errors := map[Otp := "Please enter a valid 6-digit OTP"])
    ensures r.step != w.step <==> Filled(w.form, Otp) && JsLength(TextOf(w.form, Otp).value) == 6 && reply.Succeeded?
    ensures r.step != w.step ==> r.step == 4
    ensures Filled(w.form, Otp) && JsLength(TextOf(w.form, Otp).value) == 6 && reply.Threw? ==>
      r.errors == map[Otp := ErrorMessage(reply.message, "Invalid OTP")]
  {
    var otp := TextOf(w.form, Otp);
    if !Present(otp) || JsLength(otp.value) != 6 then w.(errors := map[Otp := "Please enter a valid 6-digit OTP"])
    else
      match reply
      case Succeeded(_) => w.(step := 4)
      case Declined => w
      case Threw(m) => w.(errors := map[Otp := ErrorMessage(m, "Invalid OTP")])
  }

  /** An OTP typed into the input reaches the server only as six digits. */
  lemma OtpSentIsSixDigits(w: Wizard, errors: Errors, raw: string, reply: Reply)
    requires w.step == 3
    ensures var typed := w.(form := HandleInputChange(w.form, errors, Otp, OtpInput(raw)).0);
      HandleOtpSubmit(typed, reply).step == 4 ==>
        JsLength(OtpInput(raw)) == 6 && AllDigits(OtpInput(raw)) && reply.Succeeded?
  {
  }

  /** A form valid at both steps, with every request succeeding, reaches the success screen. */
  lemma HappyPath(w: Wizard, uid: string, otp: string)
    requires w.step == 1 && Step1Valid(w.form) && w.selectedType.Some?
    requires Step2Valid(w.selectedType, w.form)
    requires TextOf(w.form, Otp) == Some(otp) && JsLength(otp) == 6
    ensures var w2 := HandleNext(w, Succeeded(uid), Declined);
      var w3 := HandleNext(w2, Succeeded(uid), Succeeded(uid));
      && w2.step == 2 && w3.step == 3 && w3.sellerId == Some(uid)
      && HandleOtpSubmit(w3, Succeeded(uid)).step == 4
  {
    var w2 := HandleNext(w, Succeeded(uid), Declined);
    var w3 := HandleNext(w2, Succeeded(uid), Succeeded(uid));
    assert w3.form == w.form;
  }

  // ---------------------------------------------------------------------------
  // Requests the wizard sends

  /** The methods of the `sellerAPI` object the page imports from the API client. */
  const SellerApiMethods: set<string> := {"register", "verifyOTP", "sendOTP", "getProfile"}

  /** The client method `handleNext` posts each seller type's details with. */
  function DetailsMethod(t: SellerKind): string {
    match t
    case Farmer => "farmerDetails"
    case Reseller => "resellerDetails"
    case Startup => "startupDetails"
    case Service => "serviceProviderDetails"
  }

  /** How `await sellerAPI.<name>(…)` ends: a method the client defines ends as the server
      answers; calling one it does not define throws a `TypeError` before any request is made,
      and that error carries no `response`. */
  function CallSellerApi(name: string, answer: Reply): (r: Reply)
    ensures name in SellerApiMethods ==> r == answer
    ensures name !in SellerApiMethods ==> r == Threw(None)
  {
    if name in SellerApiMethods then answer else Threw(None)
  }

  /** As written, step 1 calls `sellerAPI.initSeller`, which the client does not define: a
      step-1-valid form never reaches the server, and Next shows "Something went wrong" and stays
      on step 1, whatever the server would have answered. */
  lemma StuckAtStep1(w: Wizard, answer: Reply, sent: Reply)
    requires w.step == 1 && Step1Valid(w.form)
    ensures HandleNext(w, CallSellerApi("initSeller", answer), sent)
         == w.(errors := map[General := "Something went wrong"])
  {
    assert "initSeller" !in SellerApiMethods;
  }

  /** Step 2 fares the same: none of the four details methods exists in the client. */
  lemma StuckAtStep2(w: Wizard, answer: Reply, sent: Reply)
    requires w.step == 2 && Step2Valid(w.selectedType, w.form) && w.selectedType.Some?
    ensures HandleNext(w, CallSellerApi(DetailsMethod(w.selectedType.value), answer), CallSellerApi("sendOTP", sent))
         == w.(errors := map[General := "Something went wrong"])
  {
    assert DetailsMethod(w.selectedType.value) !in SellerApiMethods;
  }

  /** Posted through the client's `register`, the first request does reach the server, and the
      wizard moves to step 2 exactly when the server accepts it. */
  lemma RegisterReached(w: Wizard, answer: Reply, sent: Reply)
    requires w.step == 1 && Step1Valid(w.form)
    ensures HandleNext(w, CallSellerApi("register", answer), sent).step == 2 <==> answer.Succeeded?
  {
    assert "register" in SellerApiMethods;
  }

  /** The first request as written: it sends `formData.fullName` as the name, a key the form
      never has, so the name is always missing. */
  function InitPayloadAsWritten(w: Wizard): (p: Sellers.RegisterRequest)
    ensures p.name == None
    ensures p.designation == Some(TypeString(w.selectedType)) && p.email == TextOf(w.form, Email)
    ensures p.password == TextOf(w.form, Password) && p.confirmPassword == TextOf(w.form, ConfirmPassword)
  {
    Sellers.RegisterRequest(Some(TypeString(w.selectedType)), None, TextOf(w.form, Email),
                            TextOf(w.form, Password), TextOf(w.form, ConfirmPassword))
  }

  /** The first request with the name taken from the field the name input writes. */
  function InitPayload(w: Wizard): (p: Sellers.RegisterRequest)
    ensures p.name == TextOf(w.form, Name)
    ensures Step1Valid(w.form) ==> Present(p.name) && Present(p.email) && Present(p.password)
    ensures Step1Valid(w.form) ==> p.password == p.confirmPassword
  {
    Sellers.RegisterRequest(Some(TypeString(w.selectedType)), TextOf(w.form, Name), TextOf(w.form, Email),
                            TextOf(w.form, Password), TextOf(w.form, ConfirmPassword))
  }

  /** Were the first request as written delivered to the backend's register, it would be answered
      with 400 "All basic fields are required", whatever the user typed. */
  lemma NameNeverSent(w: Wizard, st: Sellers.SellerState, env: Sellers.RegisterEnv)
    ensures Sellers.Register(InitPayloadAsWritten(w), st, env) == (Http.Fail(400, "All basic fields are required"), st)
  {
  }

  /** With the name read from `name`, the first request of a step-1-valid form for a chosen
      seller type passes the backend's missing-field, password-match and designation checks. */
  lemma NameSent(w: Wizard)
    requires Step1Valid(w.form) && w.selectedType.Some?
    ensures var p := InitPayload(w);
      && Present(p.designation) && Present(p.name) && Present(p.email) && Present(p.password)
      && p.password == p.confirmPassword && p.designation.value in Sellers.Designations
  {
  }

  // ---------------------------------------------------------------------------
  // Option values of the step-2 selects

  const StartupLabels: seq<string> :=
    ["Agri SaaS", "Farm Equipment", "Agri-fintech", "Logistics", "Advisory", "Drone Services", "IoT Solutions"]

  /** `s.replace(' ', '_')`: only the first space. */
  function ReplaceFirstSpace(s: string): (r: string)
    ensures |r| == |s|
    ensures forall i :: 0 <= i < |s| ==> r[i] == (if s[i] == ' ' && ' ' !in s[..i] then '_' else s[i])
  {
    match FirstIndex(s, ' ')
    case None => s
    case Some(k) =>
      var r := s[..k] + "_" + s[k + 1..];
      forall i | 0 <= i < |s| ensures r[i] == (if s[i] == ' ' && ' ' !in s[..i] then '_' else s[i]) {
        if i < k {
          assert s[i] == s[..k][i];
        } else if i > k {
          assert s[..i][k] == ' ';
        }
      }
      r
  }

  /** `caption.toLowerCase().replace(' ', '_')`, the option value of the business and startup selects. */
  function OptionValueAsWritten(caption: string): (r: string)
    ensures |r| == |caption|
    ensures forall i :: 0 <= i < |caption| && caption[i] != ' ' ==> r[i] == LowerChar(caption[i])
  {
    ReplaceFirstSpace(Lower(caption))
  }

  /** Lower-cased, with every space or hyphen turned into `_`: the enum spelling the backend uses. */
  function OptionValue(caption: string): (r: string)
    ensures |r| == |caption|
    ensures forall i :: 0 <= i < |caption| ==> r[i] == (if caption[i] in " -" then '_' else LowerChar(caption[i]))
  {
    seq(|caption|, i requires 0 <= i < |caption| => if caption[i] in " -" then '_' else LowerChar(caption[i]))
  }

  /** The form offers a value with a hyphen for `Agri-fintech`, which the startup details check
      does not accept: no accepted nature of business has a hyphen there. */
  lemma AgriFintechRejected()
    ensures OptionValueAsWritten(StartupLabels[2])[4] == '-'
    ensures OptionValueAsWritten(StartupLabels[2]) !in Validation.NaturesOfBusiness
  {
    assert StartupLabels[2][4] == '-';
    NaturesUnhyphenated();
  }

  /** No accepted nature of business has a hyphen as its fifth character. */
  lemma NaturesUnhyphenated()
    ensures forall e :: e in Validation.NaturesOfBusiness ==> |e| > 4 && e[4] != '-'
  {
    var n := Validation.NaturesOfBusiness;
    forall i | 0 <= i < |n| ensures |n[i]| > 4 && n[i][4] != '-' {
    }
  }

  /** Every startup option, spelt as the backend expects, passes the nature-of-business check. */
  lemma StartupOptionsAccepted()
    ensures forall i :: 0 <= i < |StartupLabels| ==> OptionValue(StartupLabels[i]) == Validation.NaturesOfBusiness[i]
  {
    assert OptionValue("Agri SaaS") == "agri_saas";
    assert OptionValue("Farm Equipment") == "farm_equipment";
    assert OptionValue("Agri-fintech") == "agri_fintech";
    assert OptionValue("Logistics") == "logistics";
    assert OptionValue("Advisory") == "advisory";
    assert OptionValue("Drone Services") == "drone_services";
    assert OptionValue("IoT Solutions") == "iot_solutions";
  }
}

=== FILE: server.dfy ===
/** The route table of the Express application (`backend/server.js`): the health check, the API
    documentation and each API router, in registration order, and the catch-all
    `404 Route not found` behind them. Paths are the request's path without its query string. */
module Server {
  import opened Text

  datatype Router = HealthCheck | DocsRouter | AuthRouter | UsersRouter | SellersRouter | ProductsRouter
                  | OrdersRouter | AdminRouter | UploadRouter | SearchRouter

  /** `app.get(path, handler)` answers that one path to GET and HEAD requests; `app.use(prefix,
      router)` hands the router every request at or below the prefix. */
  datatype Mount =
    | Get(path: string, router: Router)
    | Use(prefix: string, router: Router)

  /** The health check, the documentation and the seven `app.use('/api/v1/…', router)` lines, in
      registration order. The search router is imported but never mounted. */
  const MountsAsWritten: seq<Mount> := [
    Get("/health", HealthCheck),
    Use("/docs", DocsRouter),
    Use("/api/v1/auth", AuthRouter),
    Use("/api/v1/users", UsersRouter),
    Use("/api/v1/sellers", SellersRouter),
    Use("/api/v1/products", ProductsRouter),
    Use("/api/v1/orders", OrdersRouter),
    Use("/api/v1/admin", AdminRouter),
    Use("/api/v1/upload", UploadRouter)
  ]

  /** The table with the imported search router mounted after the others. */
  const MountsIntended: seq<Mount> := MountsAsWritten + [Use("/api/v1/search", SearchRouter)]

  /** Express compiles a mount path to a case-insensitive regular expression. Every path in the
      table is ASCII, and a case-insensitive match without the Unicode flag never pairs a
      non-ASCII character with an ASCII one, so folding ASCII letters is the whole comparison. */
  predicate SameText(a: string, b: string) { Lower(a) == Lower(b) }

  /** A mount path claims the request path itself and every path below it, in any letter case. */
  predicate Under(path: string, prefix: string) {
    && |prefix| <= |path| && SameText(path[..|prefix|], prefix)
    && (|path| == |prefix| || path[|prefix|] == '/')
  }

  /** A route path matches the path itself, with or without one trailing slash, in any case. */
  predicate At(path: string, route: string) {
    SameText(path, route) || SameText(path, route + "/")
  }

  predicate Claims(m: Mount, verb: string, path: string) {
    match m
    case Get(route, _) => (verb == "GET" || verb == "HEAD") && At(path, route)
    case Use(prefix, _) => Under(path, prefix)
  }

  /** What the router sees of the path: the rest below the mount prefix. */
  function Rest(m: Mount, path: string): string
    requires m.Use? ==> |m.prefix| <= |path|
  {
    match m
    case Get(_, _) => path
    case Use(prefix, _) => path[|prefix|..]
  }

  datatype Outcome =
    | Routed(router: Router, rest: string)
    | NotFound(status: int, message: string)

  /** Express tries the table in registration order and hands the request to the first entry that
      claims it; otherwise the catch-all answers 404. */
  function Route(mounts: seq<Mount>, verb: string, path: string): (r: Outcome)
    ensures r.NotFound? <==> forall i :: 0 <= i < |mounts| ==> !Claims(mounts[i], verb, path)
    ensures r.NotFound? ==> r == NotFound(404, "Route not found")
    ensures r.Routed? ==> exists i ::
      && 0 <= i < |mounts|
      && Claims(mounts[i], verb, path)
      && r == Routed(mounts[i].router, Rest(mounts[i], path))
      && forall j :: 0 <= j < i ==> !Claims(mounts[j], verb, path)
  {
    if |mounts| == 0 then NotFound(404, "Route not found")
    else if Claims(mounts[0], verb, path) then Routed(mounts[0].router, Rest(mounts[0], path))
    else
      var r := Route(mounts[1..], verb, path);
      assert forall i :: 1 <= i < |mounts| ==> mounts[i] == mounts[1..][i - 1];
      r
  }

  /** Letter case never changes which entry a request reaches. */
  lemma {:induction false} RouteIgnoresCase(mounts: seq<Mount>, verb: string, path: string)
    ensures Route(mounts, verb, Lower(path)).NotFound? <==> Route(mounts, verb, path).NotFound?
    ensures Route(mounts, verb, path).Routed? ==>
      Route(mounts, verb, Lower(path)).router == Route(mounts, verb, path).router
  {
    if |mounts| > 0 {
      ClaimsIgnoresCase(mounts[0], verb, path);
      RouteIgnoresCase(mounts[1..], verb, path);
    }
  }

  lemma ClaimsIgnoresCase(m: Mount, verb: string, path: string)
    ensures Claims(m, verb, Lower(path)) <==> Claims(m, verb, path)
  {
    LowerIdempotent(path);
    if m.Use? && |m.prefix| <= |path| {
      assert Lower(path)[..|m.prefix|] == Lower(path[..|m.prefix|]);
      LowerIdempotent(path[..|m.prefix|]);
      if |path| > |m.prefix| {
        assert Lower(path)[|m.prefix|] == LowerChar(path[|m.prefix|]);
      }
    }
  }

  /** The health check answers GET `/health`, with or without a trailing slash and in any case. */
  lemma HealthAnswers(path: string)
    requires Lower(path) == "/health" || Lower(path) == "/health/"
    ensures Route(MountsAsWritten, "GET", path) == Routed(HealthCheck, path)
  {
    assert Lower("/health") == "/health";
    assert Lower("/health/") == "/health/";
  }

  /** The documentation is served at `/docs` and below, ahead of the catch-all. */
  lemma DocsServed(rest: string)
    requires rest == "" || rest[0] == '/'
    ensures Route(MountsAsWritten, "GET", "/docs" + rest) == Routed(DocsRouter, rest)
  {
    var path := "/docs" + rest;
    assert path[..5] == "/docs";
    assert Lower("/docs") == "/docs";
    assert !At(path, "/health") by {
      assert Lower(path)[1] == 'd';
      assert Lower("/health")[1] == 'h' && Lower("/health/")[1] == 'h';
    }
    assert path[5..] == rest;
  }

  /** No request reaches the search router under the table as written: every request at or below
      `/api/v1/search` gets the catch-all 404. */
  lemma SearchUnreachable(verb: string, path: string)
    ensures Route(MountsAsWritten, verb, path).Routed? ==>
      Route(MountsAsWritten, verb, path).router != SearchRouter
    ensures Under(path, "/api/v1/search") ==>
      Route(MountsAsWritten, verb, path) == NotFound(404, "Route not found")
  {
    WrittenRouters();
    if Under(path, "/api/v1/search") {
      NoneClaimsSearch(verb, path);
    }
  }

  /** No entry of the table as written claims a path at or below `/api/v1/search`. */
  lemma NoneClaimsSearch(verb: string, path: string)
    requires Under(path, "/api/v1/search")
    ensures forall i :: 0 <= i < |MountsAsWritten| ==> !Claims(MountsAsWritten[i], verb, path)
  {
    var s := "/api/v1/search";
    assert Lower(s) == s;
    assert Lower(path)[1] == 'a' by {
      assert Lower(path)[1] == Lower(path[..|s|])[1];
    }
    assert !At(path, "/health") by {
      assert Lower("/health")[1] == 'h' && Lower("/health/")[1] == 'h';
    }
    assert !Under(path, "/docs") by {
      assert Lower(path[..5])[1] == Lower(path)[1];
      assert Lower("/docs")[1] == 'd';
    }
    forall i | 2 <= i < |MountsAsWritten| ensures !Claims(MountsAsWritten[i], verb, path) {
      DistinctPrefix(path, s, MountsAsWritten[i].prefix);
    }
  }

  lemma WrittenRouters()
    ensures forall i :: 0 <= i < |MountsAsWritten| ==> MountsAsWritten[i].router != SearchRouter
  {
  }

  /** Two mount prefixes whose tenth characters differ in any case never claim the same path. */
  lemma DistinctPrefix(path: string, p: string, q: string)
    requires |p| > 10 && |q| > 10 && LowerChar(p[10]) != LowerChar(q[10])
    requires Under(path, p)
    ensures !Under(path, q)
  {
    TenthChar(path, p);
    TenthChar(path, q);
  }

  lemma TenthChar(path: string, p: string)
    requires |p| > 10
    ensures Under(path, p) ==> LowerChar(path[10]) == LowerChar(p[10])
  {
    if Under(path, p) {
      assert Lower(path[..|p|])[10] == Lower(p)[10];
    }
  }

  /** With the search router mounted, every request at or below `/api/v1/search` reaches it with
      the prefix stripped, and every other request is dispatched exactly as before. */
  lemma SearchReachable(verb: string, path: string)
    ensures Under(path, "/api/v1/search") ==>
      Route(MountsIntended, verb, path) == Routed(SearchRouter, path[|"/api/v1/search"|..])
    ensures !Under(path, "/api/v1/search") ==>
      Route(MountsIntended, verb, path) == Route(MountsAsWritten, verb, path)
  {
    var last := Use("/api/v1/search", SearchRouter);
    RouteAppend(MountsAsWritten, last, verb, path);
    if Under(path, "/api/v1/search") {
      NoneClaimsSearch(verb, path);
      assert Route(MountsAsWritten, verb, path).NotFound?;
    } else {
      assert Route([last], verb, path) == NotFound(404, "Route not found");
    }
  }

  /** An entry registered last only sees the requests every earlier entry declined. */
  lemma {:induction false} RouteAppend(mounts: seq<Mount>, last: Mount, verb: string, path: string)
    ensures Route(mounts, verb, path).Routed? ==>
      Route(mounts + [last], verb, path) == Route(mounts, verb, path)
    ensures Route(mounts, verb, path).NotFound? ==>
      Route(mounts + [last], verb, path) == Route([last], verb, path)
  {
    if |mounts| > 0 {
      assert (mounts + [last])[0] == mounts[0];
      assert (mounts + [last])[1..] == mounts[1..] + [last];
      RouteAppend(mounts[1..], last, verb, path);
    } else {
      assert mounts + [last] == [last];
    }
  }
}

=== FILE: sorting.dfy ===
/** A stable sort in non-increasing key order, as `Array.prototype.sort` with a
    `(a, b) => key(b) - key(a)` comparator performs it, and as the database's multi-field
    descending sorts are read here. Keys compare lexicographically. */
module Sorting {

  datatype Key = Key(primary: real, secondary: real)

  /** `a` may come before `b` in a descending order. */
  predicate KeyGe(a: Key, b: Key) {
    a.primary > b.primary || (a.primary == b.primary && a.secondary >= b.secondary)
  }

  predicate SortedDesc<T>(xs: seq<T>, key: T -> Key) {
    forall i, j :: 0 <= i < j < |xs| ==> KeyGe(key(xs[i]), key(xs[j]))
  }

  /** The elements whose key equals `k`, in their order: a stable sort keeps each such
      subsequence as it was. */
  function WithKey<T>(xs: seq<T>, key: T -> Key, k: Key): seq<T> {
    if |xs| == 0 then []
    else (if key(xs[0]) == k then [xs[0]] else []) + WithKey(xs[1..], key, k)
  }

  /** Places `x` before the first element whose key it is at least. */
  function Insert<T>(x: T, ys: seq<T>, key: T -> Key): (r: seq<T>)
    requires SortedDesc(ys, key)
    ensures SortedDesc(r, key)
    ensures multiset(r) == multiset(ys) + multiset{x}
    ensures |r| == |ys| + 1
  {
    if |ys| == 0 || KeyGe(key(x), key(ys[0])) then
      assert forall i :: 0 <= i < |ys| ==> KeyGe(key(ys[0]), key(ys[i]));
      [x] + ys
    else
      var rest := Insert(x, ys[1..], key);
      assert multiset(ys) == multiset{ys[0]} + multiset(ys[1..]) by {
        assert ys == [ys[0]] + ys[1..];
      }
      HeadAboveInserted(x, ys, key, rest);
      [ys[0]] + rest
  }

  /** Everything inserted below the head of a sorted sequence, `x` included when it ranks lower,
      ranks no higher than the head. */
  lemma HeadAboveInserted<T>(x: T, ys: seq<T>, key: T -> Key, rest: seq<T>)
    requires SortedDesc(ys, key) && |ys| > 0 && !KeyGe(key(x), key(ys[0]))
    requires multiset(rest) == multiset(ys[1..]) + multiset{x}
    ensures forall i :: 0 <= i < |rest| ==> KeyGe(key(ys[0]), key(rest[i]))
  {
    forall i | 0 <= i < |rest| ensures KeyGe(key(ys[0]), key(rest[i])) {
      assert rest[i] in multiset(rest);
      if rest[i] != x {
        assert rest[i] in multiset(ys[1..]);
        var j :| 0 <= j < |ys[1..]| && ys[1..][j] == rest[i];
        assert ys[j + 1] == rest[i];
      }
    }
  }

  function SortDesc<T>(xs: seq<T>, key: T -> Key): (r: seq<T>)
    ensures SortedDesc(r, key)
    ensures multiset(r) == multiset(xs)
    ensures |r| == |xs|
  {
    if |xs| == 0 then []
    else
      assert xs == [xs[0]] + xs[1..];
      Insert(xs[0], SortDesc(xs[1..], key), key)
  }

  lemma {:induction false} WithKeyAppend<T>(a: seq<T>, b: seq<T>, key: T -> Key, k: Key)
    ensures WithKey(a + b, key, k) == WithKey(a, key, k) + WithKey(b, key, k)
  {
    if |a| == 0 {
      assert a + b == b;
    } else {
      assert (a + b)[0] == a[0];
      assert (a + b)[1..] == a[1..] + b;
      WithKeyAppend(a[1..], b, key, k);
    }
  }

  /** Inserting `x` in front of its equals keeps the equal-key subsequences: `x` lands before
      every element whose key equals its own. */
  lemma {:induction false} InsertStable<T>(x: T, ys: seq<T>, key: T -> Key, k: Key)
    requires SortedDesc(ys, key)
    ensures WithKey(Insert(x, ys, key), key, k) == WithKey([x] + ys, key, k)
  {
    if |ys| == 0 || KeyGe(key(x), key(ys[0])) {
    } else {
      var rest := Insert(x, ys[1..], key);
      InsertStable(x, ys[1..], key, k);
      assert Insert(x, ys, key) == [ys[0]] + rest;
      WithKeyAppend([ys[0]], rest, key, k);
      WithKeyAppend([x], ys[1..], key, k);
      WithKeyAppend([ys[0]], ys[1..], key, k);
      WithKeyAppend([x], ys, key, k);
      assert ys == [ys[0]] + ys[1..];
      assert key(ys[0]) != key(x);
      if key(x) == k {
        assert key(ys[0]) != k;
      }
      if key(ys[0]) == k {
        assert key(x) != k;
      }
    }
  }

  /** The sort is stable: elements with equal keys keep their relative order. */
  lemma {:induction false} SortStable<T>(xs: seq<T>, key: T -> Key, k: Key)
    ensures WithKey(SortDesc(xs, key), key, k) == WithKey(xs, key, k)
  {
    if |xs| > 0 {
      var sorted := SortDesc(xs[1..], key);
      calc {
        WithKey(SortDesc(xs, key), key, k);
        WithKey(Insert(xs[0], sorted, key), key, k);
        { InsertStable(xs[0], sorted, key, k); }
        WithKey([xs[0]] + sorted, key, k);
        { WithKeyAppend([xs[0]], sorted, key, k); }
        WithKey([xs[0]], key, k) + WithKey(sorted, key, k);
        { SortStable(xs[1..], key, k); }
        WithKey([xs[0]], key, k) + WithKey(xs[1..], key, k);
        { WithKeyAppend([xs[0]], xs[1..], key, k); assert xs == [xs[0]] + xs[1..]; }
        WithKey(xs, key, k);
      }
    }
  }

  /** A contiguous run of a sorted sequence is sorted. */
  lemma SliceSorted<T>(xs: seq<T>, key: T -> Key, a: int, b: int)
    requires SortedDesc(xs, key) && 0 <= a <= b <= |xs|
    ensures SortedDesc(xs[a..b], key)
  {
    forall i, j | 0 <= i < j < b - a ensures KeyGe(key(xs[a..b][i]), key(xs[a..b][j])) {
      assert xs[a..b][i] == xs[a + i] && xs[a..b][j] == xs[a + j];
    }
  }

  /** `slice(0, n)`. */
  function Take<T>(xs: seq<T>, n: nat): (r: seq<T>)
    ensures |r| <= n && |r| <= |xs|
    ensures r == xs[..|r|]
    ensures |xs| >= n ==> |r| == n
  {
    if |xs| <= n then xs else xs[..n]
  }

  /** The first `n` of a sorted sequence are drawn from it, and nothing after them ranks above
      any of them. */
  lemma TakeTop<T>(xs: seq<T>, key: T -> Key, n: nat)
    requires SortedDesc(xs, key)
    ensures multiset(Take(xs, n)) <= multiset(xs)
    ensures forall i, j :: 0 <= i < |Take(xs, n)| <= j < |xs| ==> KeyGe(key(Take(xs, n)[i]), key(xs[j]))
  {
    var r := Take(xs, n);
    assert xs == r + xs[|r|..];
    assert multiset(xs) == multiset(r) + multiset(xs[|r|..]);
  }

  /** An element of a sorted sequence missing from its first `n` ranks no higher than any of them. */
  lemma LeftOutRanksLower<T>(xs: seq<T>, key: T -> Key, n: nat, i: int, q: T)
    requires SortedDesc(xs, key) && 0 <= i < |Take(xs, n)|
    requires q in xs && q !in Take(xs, n)
    ensures KeyGe(key(Take(xs, n)[i]), key(q))
  {
    var r := Take(xs, n);
    TakeTop(xs, key, n);
    var j :| 0 <= j < |xs| && xs[j] == q;
    assert forall k :: 0 <= k < |r| ==> xs[k] == r[k] && r[k] != q;
    assert |r| <= j;
  }
}

=== FILE: text.dfy ===
/** Character classes and string helpers shared by the handlers and page logic.
    Case mapping is ASCII-only; whitespace is JavaScript's `\s` class. */
module Text {

  import opened Wrappers

  predicate IsDigit(c: char) { '0' <= c <= '9' }
  predicate IsLower(c: char) { 'a' <= c <= 'z' }
  predicate IsUpper(c: char) { 'A' <= c <= 'Z' }
  predicate IsLetter(c: char) { IsLower(c) || IsUpper(c) }
  predicate IsAlnum(c: char) { IsLetter(c) || IsDigit(c) }

  /** JavaScript's `\s`: the WhiteSpace and LineTerminator code points (also what `trim` removes). */
  predicate IsSpace(c: char) {
    || c == ' ' || c == '\t' || c == '\n' || c == '\r' || c == '\U{B}' || c == '\U{C}'
    || c == '\U{A0}' || c == '\U{1680}' || ('\U{2000}' <= c <= '\U{200A}')
    || c == '\U{2028}' || c == '\U{2029}' || c == '\U{202F}' || c == '\U{205F}'
    || c == '\U{3000}' || c == '\U{FEFF}'
  }

  /** How the backend tells an e-mail address from a phone number: `s.includes('@')`. */
  predicate IsEmailTarget(s: string) { '@' in s }

  predicate AllDigits(s: string) { forall i :: 0 <= i < |s| ==> IsDigit(s[i]) }

  /** JavaScript's `length`, which Mongoose's `minlength` and `maxlength` also read: UTF-16 code
      units, so a character beyond the Basic Multilingual Plane counts twice. */
  function JsLength(s: string): (r: nat)
    ensures |s| <= r <= 2 * |s|
  {
    if |s| == 0 then 0 else (if s[0] > '\U{FFFF}' then 2 else 1) + JsLength(s[1..])
  }

  /** The validator library's `isLength` count: the UTF-16 length less one per surrogate pair and
      one per variation selector (U+FE0E, U+FE0F), that is, the characters other than those
      selectors. */
  function GlyphLength(s: string): (r: nat)
    ensures r <= |s|
  {
    if |s| == 0 then 0
    else (if s[0] == '\U{FE0E}' || s[0] == '\U{FE0F}' then 0 else 1) + GlyphLength(s[1..])
  }

  /** Text below the variation selectors, where all three counts agree. */
  predicate Narrow(s: string) { forall i :: 0 <= i < |s| ==> s[i] < '\U{FE0E}' }

  /** JavaScript counts each character once exactly when none lies beyond the Basic Multilingual
      Plane. */
  lemma {:induction false} JsLengthExact(s: string)
    ensures JsLength(s) == |s| <==> forall i :: 0 <= i < |s| ==> s[i] <= '\U{FFFF}'
  {
    if |s| > 0 {
      JsLengthExact(s[1..]);
      assert forall i :: 1 <= i < |s| ==> s[i] == s[1..][i - 1];
    }
  }

  /** The validator counts each character exactly when the text holds no variation selector. */
  lemma {:induction false} GlyphLengthExact(s: string)
    ensures GlyphLength(s) == |s| <==> forall i :: 0 <= i < |s| ==> s[i] != '\U{FE0E}' && s[i] != '\U{FE0F}'
  {
    if |s| > 0 {
      GlyphLengthExact(s[1..]);
      assert forall i :: 1 <= i < |s| ==> s[i] == s[1..][i - 1];
    }
  }

  lemma NarrowLengths(s: string)
    requires Narrow(s)
    ensures JsLength(s) == |s| && GlyphLength(s) == |s|
  {
    JsLengthExact(s);
    GlyphLengthExact(s);
  }

  lemma DigitsNarrow(s: string)
    requires AllDigits(s)
    ensures JsLength(s) == |s| && GlyphLength(s) == |s|
  {
    NarrowLengths(s);
  }

  /** Three emoji are three characters to `isLength` but six to JavaScript and Mongoose. */
  lemma EmojiLengths()
    ensures var s := "\U{1F600}\U{1F600}\U{1F600}";
      |s| == 3 && GlyphLength(s) == 3 && JsLength(s) == 6
  {
    var s := "\U{1F600}\U{1F600}\U{1F600}";
    assert s[1..][1..][1..] == [];
  }

  function LowerChar(c: char): (r: char)
    ensures IsUpper(c) ==> IsLower(r) && r as int == c as int + 32
    ensures !IsUpper(c) ==> r == c
  {
    if IsUpper(c) then (c as int + 32) as char else c
  }

  function UpperChar(c: char): (r: char)
    ensures IsLower(c) ==> IsUpper(r) && r as int == c as int - 32
    ensures !IsLower(c) ==> r == c
  {
    if IsLower(c) then (c as int - 32) as char else c
  }

  /** `String.prototype.toLowerCase`, restricted to ASCII letters. */
  function Lower(s: string): (r: string)
    ensures |r| == |s|
    ensures forall i :: 0 <= i < |s| ==> r[i] == LowerChar(s[i])
  {
    seq(|s|, i requires 0 <= i < |s| => LowerChar(s[i]))
  }

  lemma LowerIdempotent(s: string)
    ensures Lower(Lower(s)) == Lower(s)
  {
  }

  lemma LowerConcat(a: string, b: string)
    ensures Lower(a + b) == Lower(a) + Lower(b)
  {
  }

  predicate HasPrefix(s: string, p: string) { |p| <= |s| && s[..|p|] == p }
  predicate HasSuffix(s: string, p: string) { |p| <= |s| && s[|s| - |p|..] == p }

  /** `sub` occurs in `s` starting at index `i`. */
  predicate OccursAt(s: string, sub: string, i: int) {
    0 <= i && i + |sub| <= |s| && s[i..i + |sub|] == sub
  }

  /** `String.prototype.includes`. */
  predicate Contains(s: string, sub: string) {
    exists i | 0 <= i <= |s| - |sub| :: OccursAt(s, sub, i)
  }

  lemma ContainsEmpty(s: string)
    ensures Contains(s, "")
  {
    assert OccursAt(s, "", 0);
  }

  lemma ContainsChar(s: string, c: char)
    ensures Contains(s, [c]) <==> c in s
  {
    if c in s {
      var i :| 0 <= i < |s| && s[i] == c;
      assert OccursAt(s, [c], i);
    }
    if Contains(s, [c]) {
      var i :| 0 <= i <= |s| - 1 && OccursAt(s, [c], i);
      assert s[i] == s[i..i + 1][0] == c;
    }
  }

  /** Removes leading whitespace. */
  function TrimStart(s: string): (r: string)
    ensures |r| <= |s| && r == s[|s| - |r|..]
    ensures r == [] || !IsSpace(r[0])
    ensures forall i :: 0 <= i < |s| - |r| ==> IsSpace(s[i])
  {
    if |s| > 0 && IsSpace(s[0]) then TrimStart(s[1..]) else s
  }

  /** Removes trailing whitespace. */
  function TrimEnd(s: string): (r: string)
    ensures |r| <= |s| && r == s[..|r|]
    ensures r == [] || !IsSpace(r[|r| - 1])
    ensures forall i :: |r| <= i < |s| ==> IsSpace(s[i])
  {
    if |s| > 0 && IsSpace(s[|s| - 1]) then TrimEnd(s[..|s| - 1]) else s
  }

  /** `String.prototype.trim`. */
  function Trim(s: string): string {
    TrimEnd(TrimStart(s))
  }

  lemma TrimNoSpace(s: string)
    requires forall i :: 0 <= i < |s| ==> !IsSpace(s[i])
    ensures Trim(s) == s
  {
  }

  /** Lower-casing and trimming commute: case mapping never turns a space into a letter or back. */
  lemma TrimLower(s: string)
    ensures Trim(Lower(s)) == Lower(Trim(s))
  {
    TrimStartLower(s);
    TrimEndLower(TrimStart(s));
  }

  lemma LowerCharSpace(c: char)
    ensures IsSpace(LowerChar(c)) == IsSpace(c)
  {
  }

  lemma {:induction false} TrimStartLower(s: string)
    ensures TrimStart(Lower(s)) == Lower(TrimStart(s))
  {
    if |s| > 0 {
      assert Lower(s)[1..] == Lower(s[1..]);
      assert Lower(s)[0] == LowerChar(s[0]);
      LowerCharSpace(s[0]);
      if IsSpace(s[0]) {
        TrimStartLower(s[1..]);
      }
    }
  }

  lemma {:induction false} TrimEndLower(s: string)
    ensures TrimEnd(Lower(s)) == Lower(TrimEnd(s))
  {
    if |s| > 0 {
      assert Lower(s)[..|s| - 1] == Lower(s[..|s| - 1]);
      assert Lower(s)[|s| - 1] == LowerChar(s[|s| - 1]);
      LowerCharSpace(s[|s| - 1]);
      if IsSpace(s[|s| - 1]) {
        TrimEndLower(s[..|s| - 1]);
      }
    }
  }

  /** Index of the first occurrence of `c`, if any. */
  function FirstIndex(s: string, c: char): (r: Option<nat>)
    ensures r.None? <==> c !in s
    ensures r.Some? ==> r.value < |s| && s[r.value] == c && c !in s[..r.value]
  {
    if |s| == 0 then None
    else if s[0] == c then Some(0)
    else
      var k := FirstIndex(s[1..], c);
      if k.None? then None else Some(k.value + 1)
  }

  /** The text before the first `c` (`s.split(c)[0]`). */
  function BeforeFirst(s: string, c: char): (r: string)
    ensures HasPrefix(s, r) && c !in r
    ensures |r| < |s| ==> s[|r|] == c
  {
    if |s| == 0 then []
    else if s[0] == c then []
    else [s[0]] + BeforeFirst(s[1..], c)
  }

  /** The text after the last `c` (`s.split(c).pop()`). */
  function AfterLast(s: string, c: char): (r: string)
    ensures HasSuffix(s, r) && c !in r
    ensures |r| < |s| ==> s[|s| - |r| - 1] == c
  {
    if |s| == 0 then []
    else if s[|s| - 1] == c then []
    else AfterLast(s[..|s| - 1], c) + [s[|s| - 1]]
  }

  /** `s.split(c)[1]`: the field between the first and the second `c`, if `s` has a first `c`. */
  function SecondField(s: string, c: char): (r: Option<string>)
    ensures r.None? <==> c !in s
  {
    var k := FirstIndex(s, c);
    if k.None? then None else Some(BeforeFirst(s[k.value + 1..], c))
  }

  function DigitChar(d: nat): (r: char)
    requires d < 10
    ensures IsDigit(r)
  {
    ('0' as int + d) as char
  }

  function DigitValue(c: char): (r: nat)
    requires IsDigit(c)
    ensures r < 10
  {
    c as int - '0' as int
  }

  /** `Number.prototype.toString()` on a non-negative integer. */
  function DecimalString(n: nat): (r: string)
    ensures |r| >= 1 && AllDigits(r)
  {
    if n < 10 then [DigitChar(n)] else DecimalString(n / 10) + [DigitChar(n % 10)]
  }

  /** The value of a string of decimal digits. */
  function DecimalValue(s: string): nat
    requires AllDigits(s)
  {
    if |s| == 0 then 0 else DecimalValue(s[..|s| - 1]) * 10 + DigitValue(s[|s| - 1])
  }

  lemma {:induction false} DecimalRoundTrip(n: nat)
    ensures DecimalValue(DecimalString(n)) == n
  {
    if n >= 10 {
      DecimalRoundTrip(n / 10);
      var s := DecimalString(n);
      assert s[..|s| - 1] == DecimalString(n / 10);
    }
  }

  function Pow10(k: nat): (r: nat)
    ensures r >= 1
  {
    if k == 0 then 1 else 10 * Pow10(k - 1)
  }

  /** A number in [10^k, 10^(k+1)) is written with exactly k+1 digits. */
  lemma {:induction false} DecimalLength(n: nat, k: nat)
    requires Pow10(k) <= n < Pow10(k + 1)
    ensures |DecimalString(n)| == k + 1
  {
    if k > 0 {
      DecimalLength(n / 10, k - 1);
    }
  }

  /** `String.prototype.padStart(len, c)` with a one-character pad. */
  function PadStart(s: string, len: nat, c: char): (r: string)
    ensures |s| >= len ==> r == s
    ensures |s| < len ==> |r| == len
    ensures HasSuffix(r, s)
    ensures forall i :: 0 <= i < |r| - |s| ==> r[i] == c
  {
    if |s| >= len then s else seq(len - |s|, _ => c) + s
  }
}

=== FILE: tokens.dfy ===
/** The refresh-token collection: one document per issued refresh JWT, revocable one at a time or
    all at once for a user, and purged once expired or long revoked. */
module RefreshTokens {

  import opened Wrappers

  const DayMs: int := 24 * 60 * 60 * 1000

  /** A stored token expires thirty days after issue. */
  const LifetimeMs: int := 30 * DayMs

  /** Revoked tokens are kept seven days before the clean-up removes them. */
  const RevokedRetentionMs: int := 7 * DayMs

  datatype TokenRecord = TokenRecord(
    id: string,
    userId: string,
    token: string,
    revoked: bool,
    revokedAt: Option<int>,
    revokedBy: Option<string>,
    expiresAt: int,
    lastUsed: int)

  /** `RefreshToken.create(…)` for a freshly signed token: `None` when the unique index on `token`
      already holds it. */
  function Issue(store: seq<TokenRecord>, id: string, userId: string, token: string, now: int)
    : (r: Option<seq<TokenRecord>>)
    ensures r.Some? <==> forall i :: 0 <= i < |store| ==> store[i].token != token
    ensures r.Some? ==> r.value == store + [TokenRecord(id, userId, token, false, None, None, now + LifetimeMs, now)]
  {
    if exists i :: 0 <= i < |store| && store[i].token == token then None
    else Some(store + [TokenRecord(id, userId, token, false, None, None, now + LifetimeMs, now)])
  }

  /** The unique index on `token`. */
  ghost predicate TokensUnique(store: seq<TokenRecord>) {
    forall i, j :: 0 <= i < j < |store| ==> store[i].token != store[j].token
  }

  lemma IssueKeepsTokensUnique(store: seq<TokenRecord>, id: string, userId: string, token: string, now: int)
    requires TokensUnique(store)
    ensures Issue(store, id, userId, token, now).Some? ==>
      TokensUnique(Issue(store, id, userId, token, now).value)
  {
  }

  /** `findOne({token, revoked: false})`. */
  function FindActive(store: seq<TokenRecord>, token: string): (r: Option<nat>)
    ensures r.None? <==> forall i :: 0 <= i < |store| ==> !(store[i].token == token && !store[i].revoked)
    ensures r.Some? ==> r.value < |store| && store[r.value].token == token && !store[r.value].revoked
  {
    if |store| == 0 then None
    else if store[0].token == token && !store[0].revoked then Some(0)
    else
      var k := FindActive(store[1..], token);
      if k.None? then None else Some(k.value + 1)
  }

  /** `findOne({token})`, whatever its revocation state. */
  function FindToken(store: seq<TokenRecord>, token: string): (r: Option<nat>)
    ensures r.None? <==> forall i :: 0 <= i < |store| ==> store[i].token != token
    ensures r.Some? ==> r.value < |store| && store[r.value].token == token
    ensures r.Some? ==> forall j :: 0 <= j < r.value ==> store[j].token != token
  {
    if |store| == 0 then None
    else if store[0].token == token then Some(0)
    else
      var k := FindToken(store[1..], token);
      if k.None? then None else Some(k.value + 1)
  }

  /** `token.revoke(revokedBy)`. */
  function Revoke(t: TokenRecord, revoker: string, now: int): (r: TokenRecord)
    ensures r.revoked && r.revokedAt == Some(now) && r.revokedBy == Some(revoker)
    ensures r.(revoked := t.revoked, revokedAt := t.revokedAt, revokedBy := t.revokedBy) == t
  {
    t.(revoked := true, revokedAt := Some(now), revokedBy := Some(revoker))
  }

  /** A token the user can still present: it belongs to the user and is not revoked. */
  predicate LiveFor(t: TokenRecord, userId: string) {
    t.userId == userId && !t.revoked
  }

  function CountLive(store: seq<TokenRecord>, userId: string): nat {
    if |store| == 0 then 0
    else (if LiveFor(store[0], userId) then 1 else 0) + CountLive(store[1..], userId)
  }

  /** `RefreshToken.revokeAllForUser(userId)`: revokes every live token of the user (recording the
      user as the revoker) and reports how many it changed. */
  function RevokeAllForUser(store: seq<TokenRecord>, userId: string, now: int): (r: (seq<TokenRecord>, nat))
    ensures |r.0| == |store|
    ensures forall i :: 0 <= i < |store| ==>
      r.0[i] == if LiveFor(store[i], userId) then Revoke(store[i], userId, now) else store[i]
  {
    if |store| == 0 then ([], 0)
    else
      var (rest, n) := RevokeAllForUser(store[1..], userId, now);
      if LiveFor(store[0], userId) then ([Revoke(store[0], userId, now)] + rest, n + 1)
      else ([store[0]] + rest, n)
  }

  /** The count `revokeAllForUser` returns is the number of live tokens the user had, and none
      is left afterwards. */
  lemma {:induction false} RevokeAllCount(store: seq<TokenRecord>, userId: string, now: int)
    ensures RevokeAllForUser(store, userId, now).1 == CountLive(store, userId)
    ensures CountLive(RevokeAllForUser(store, userId, now).0, userId) == 0
  {
    if |store| > 0 {
      RevokeAllCount(store[1..], userId, now);
      var r := RevokeAllForUser(store, userId, now).0;
      assert r[1..] == RevokeAllForUser(store[1..], userId, now).0;
    }
  }

  /** Revoking all twice: the second call changes nothing and reports zero. */
  lemma RevokeAllIdempotent(store: seq<TokenRecord>, userId: string, now: int, later: int)
    ensures var once := RevokeAllForUser(store, userId, now).0;
      RevokeAllForUser(once, userId, later) == (once, 0)
  {
    var once := RevokeAllForUser(store, userId, now).0;
    RevokeAllCount(store, userId, now);
    RevokeAllCount(once, userId, later);
    NoLiveNoChange(once, userId, later);
  }

  lemma {:induction false} NoLiveNoChange(store: seq<TokenRecord>, userId: string, now: int)
    requires CountLive(store, userId) == 0
    ensures RevokeAllForUser(store, userId, now).0 == store
  {
    if |store| > 0 {
      NoLiveNoChange(store[1..], userId, now);
    }
  }

  /** Removed by the clean-up: expired, or revoked more than seven days ago. */
  predicate Stale(t: TokenRecord, now: int) {
    t.expiresAt < now || (t.revoked && t.revokedAt.Some? && t.revokedAt.value < now - RevokedRetentionMs)
  }

  /** `RefreshToken.cleanupExpired()`: the surviving documents and the deleted count. */
  function CleanupExpired(store: seq<TokenRecord>, now: int): (r: (seq<TokenRecord>, nat))
    ensures forall x :: x in r.0 <==> x in store && !Stale(x, now)
    ensures r.1 == |store| - |r.0|
  {
    if |store| == 0 then ([], 0)
    else
      var (rest, n) := CleanupExpired(store[1..], now);
      if Stale(store[0], now) then (rest, n + 1) else ([store[0]] + rest, n)
  }
}

=== FILE: upload.dfy ===
/** The upload service (`backend/src/services/uploadService.js`): multer's acceptance of the
    multipart files under the configured limits and type filter, the object key built for each
    stored file, and the two middlewares that stop a request before anything is stored. S3 itself
    is a parameter (`put` answers with the stored object's location, or nothing on failure), and
    so are `Date.now()` and `uuidv4()`. */
module Uploads {
  import opened Wrappers
  import opened Text
  import Sorting

  /** `limits.fileSize`: 10 MB per file. */
  const MaxFileSize: nat := 10 * 1024 * 1024
  /** `limits.files`: at most five files per request. */
  const MaxFiles: nat := 5
  /** Signed upload URLs expire after ten minutes. */
  const SignedUrlExpirySeconds: nat := 60 * 10

  /** The accepted mimetypes and the extensions listed for each; only the mimetype is consulted. */
  const AllowedTypes: map<string, seq<string>> := map[
    "image/jpeg" := [".jpg", ".jpeg"],
    "image/png" := [".png"],
    "image/gif" := [".gif"],
    "image/webp" := [".webp"],
    "application/pdf" := [".pdf"],
    "application/msword" := [".doc"],
    "application/vnd.openxmlformats-officedocument.wordprocessingml.document" := [".docx"]
  ]

  const InvalidType := "Invalid file type. Only images and documents are allowed."

  /** `fileFilter`: the error handed to multer's callback, or `None` when the file is accepted. */
  function FileFilter(mimetype: string): (r: Option<string>)
    ensures r.None? <==> mimetype in AllowedTypes
    ensures r.Some? ==> r.value == InvalidType
  {
    if mimetype in AllowedTypes then None else Some(InvalidType)
  }

  /** Exactly the seven listed mimetypes pass the filter, whatever the file is called. */
  lemma AcceptedTypes(mimetype: string)
    ensures FileFilter(mimetype).None? <==>
      mimetype in {"image/jpeg", "image/png", "image/gif", "image/webp", "application/pdf",
                   "application/msword",
                   "application/vnd.openxmlformats-officedocument.wordprocessingml.document"}
  {
  }

  /** The text after the last `c` that has something other than `c` after it. */
  function StripTrailing(s: string, c: char): (r: string)
    ensures HasPrefix(s, r)
    ensures |r| > 0 ==> r[|r| - 1] != c
    ensures forall i :: |r| <= i < |s| ==> s[i] == c
  {
    if |s| == 0 || s[|s| - 1] != c then s else StripTrailing(s[..|s| - 1], c)
  }

  /** Index of the last occurrence of `c`, if any. */
  function LastIndex(s: string, c: char): (r: Option<nat>)
    ensures r.None? <==> c !in s
    ensures r.Some? ==> r.value < |s| && s[r.value] == c && c !in s[r.value + 1..]
  {
    if |s| == 0 then None
    else if s[|s| - 1] == c then Some(|s| - 1)
    else
      var k := LastIndex(s[..|s| - 1], c);
      assert s[..|s| - 1] + [s[|s| - 1]] == s;
      if k.None? then None
      else
        assert s[k.value + 1..] == s[..|s| - 1][k.value + 1..] + [s[|s| - 1]];
        Some(k.value)
  }

  /** Node's `path.extname`: trailing slashes are ignored, and within the last path segment the
      extension runs from the last `.` to the end, except that a segment whose only `.` is its
      first character, and the segment `..`, have none. */
  function ExtName(name: string): (r: string)
    ensures r == "" || (r[0] == '.' && '.' !in r[1..] && '/' !in r)
  {
    var base := AfterLast(StripTrailing(name, '/'), '/');
    var d := LastIndex(base, '.');
    if d.None? || d.value == 0 || base == ".." then ""
    else
      ExtTail(base, d.value);
      base[d.value..]
  }

  /** From the last `.` of a segment on: a dot, then neither dot nor slash. */
  lemma ExtTail(base: string, k: nat)
    requires '/' !in base && LastIndex(base, '.') == Some(k)
    ensures base[k..] != "" && base[k..][0] == '.' && '.' !in base[k..][1..] && '/' !in base[k..]
  {
    assert base[k..][1..] == base[k + 1..];
    assert forall i :: 0 <= i < |base[k..]| ==> base[k..][i] == base[k + i];
  }

  /** A plain `stem.ext` file name has the extension `.ext`. */
  lemma ExtOfStemExt(stem: string, ext: string)
    requires |stem| > 0 && stem[0] != '.' && '/' !in stem
    requires '.' !in ext && '/' !in ext
    ensures ExtName(stem + "." + ext) == "." + ext
  {
    var name := stem + "." + ext;
    NoSlashJoined(stem, ext);
    assert StripTrailing(name, '/') == name;
    AfterLastAbsent(name, '/');
    LastDotJoined(stem, ext);
    assert name[|stem|..] == "." + ext;
  }

  lemma NoSlashJoined(stem: string, ext: string)
    requires '/' !in stem && '/' !in ext
    ensures '/' !in stem + "." + ext
  {
    var name := stem + "." + ext;
    forall i | 0 <= i < |name| ensures name[i] != '/' {
      if i < |stem| { assert name[i] == stem[i]; }
      else if i > |stem| { assert name[i] == ext[i - |stem| - 1]; }
    }
  }

  lemma LastDotJoined(stem: string, ext: string)
    requires '.' !in ext
    ensures LastIndex(stem + "." + ext, '.') == Some(|stem|)
  {
    var name := stem + "." + ext;
    assert name[|stem|] == '.';
  }

  /** A name without any `.` has no extension. */
  lemma NoDotNoExt(name: string)
    requires '.' !in name
    ensures ExtName(name) == ""
  {
    var base := AfterLast(StripTrailing(name, '/'), '/');
    assert '.' !in base by {
      forall i | 0 <= i < |base| ensures base[i] != '.' {
        var s := StripTrailing(name, '/');
        assert base[i] == s[|s| - |base| + i];
        assert s[|s| - |base| + i] == name[|s| - |base| + i];
      }
    }
  }

  lemma AfterLastAbsent(s: string, c: char)
    requires c !in s
    ensures AfterLast(s, c) == s
  {
  }

  lemma ConcatEnds(a: string, b: string, c: string)
    ensures HasPrefix(a + b + c, a) && HasSuffix(a + b + c, c)
  {
    assert (a + b + c)[..|a|] == a;
    assert (a + b + c)[|a + b|..] == c;
  }

  /** `generateFileName`: `folder/userId/timestamp-random` followed by the lower-cased extension of
      the original name, where `random` is the first eight characters of a UUID and the folder
      defaults to `general`. */
  function FileKey(originalName: string, userId: string, folder: Option<string>, now: nat, uuid: string)
    : (r: string)
    ensures HasPrefix(r, folder.GetOr("general") + "/" + userId + "/")
    ensures HasSuffix(r, Lower(ExtName(originalName)))
  {
    var prefix := folder.GetOr("general") + "/" + userId + "/";
    var stem := DecimalString(now) + "-" + Sorting.Take(uuid, 8);
    var ext := Lower(ExtName(originalName));
    ConcatEnds(prefix, stem, ext);
    prefix + stem + ext
  }

  /** Keys built for the same user, folder and file name at different instants or from different
      UUID prefixes are different. */
  lemma KeysDistinct(name: string, userId: string, folder: Option<string>,
                     t1: nat, u1: string, t2: nat, u2: string)
    requires |u1| >= 8 && |u2| >= 8
    requires t1 != t2 || u1[..8] != u2[..8]
    ensures FileKey(name, userId, folder, t1, u1) != FileKey(name, userId, folder, t2, u2)
  {
    var prefix := folder.GetOr("general") + "/" + userId + "/";
    var ext := Lower(ExtName(name));
    var d1, d2 := DecimalString(t1), DecimalString(t2);
    var r1, r2 := Sorting.Take(u1, 8), Sorting.Take(u2, 8);
    if FileKey(name, userId, folder, t1, u1) == FileKey(name, userId, folder, t2, u2) {
      SameMiddle(prefix, d1 + "-" + r1, d2 + "-" + r2, ext);
      StemInjective(d1, r1, d2, r2);
      DecimalRoundTrip(t1);
      DecimalRoundTrip(t2);
    }
  }

  /** Equal strings with the same ends have the same middle. */
  lemma SameMiddle(p: string, a: string, b: string, e: string)
    requires p + a + e == p + b + e
    ensures a == b
  {
    var k := p + a + e;
    assert |a| == |b|;
    assert a == k[|p|..|p| + |a|];
  }

  /** A `-` after a digit string, followed by a part of fixed length, splits the same way. */
  lemma StemInjective(d1: string, r1: string, d2: string, r2: string)
    requires |r1| == |r2| && d1 + "-" + r1 == d2 + "-" + r2
    ensures d1 == d2 && r1 == r2
  {
    var m := d1 + "-" + r1;
    assert |d1| == |d2|;
    assert d1 == m[..|d1|];
    assert r1 == m[|d1| + 1..];
  }

  /** A part of a multipart request as multer sees it. */
  datatype IncomingFile = IncomingFile(field: string, originalName: string, mimetype: string, size: nat)

  /** What multer makes of the `i`-th file of the request (counting from 0) when the route expects
      at most `maxCount` files under `field`: the error that aborts the request, if any. The file
      count limit is hit before the field check, the field check before the type filter, and the
      size limit last. */
  function FileError(f: IncomingFile, i: nat, field: string, maxCount: int): (r: Option<string>)
    ensures r.None? <==> i < MaxFiles && f.field == field && i < maxCount
                         && f.mimetype in AllowedTypes && f.size <= MaxFileSize
  {
    if i >= MaxFiles then Some("Too many files")
    else if f.field != field || i >= maxCount then Some("Unexpected field")
    else if FileFilter(f.mimetype).Some? then FileFilter(f.mimetype)
    else if f.size > MaxFileSize then Some("File too large")
    else None
  }

  /** Every file of the request is one multer lets through. */
  predicate Acceptable(files: seq<IncomingFile>, field: string, maxCount: int) {
    forall i :: 0 <= i < |files| ==> FileError(files[i], i, field, maxCount).None?
  }

  /** Multer's parse of the request's files, from file `from` on: the first file's error aborts the
      whole request. */
  function ParseFrom(files: seq<IncomingFile>, from: nat, field: string, maxCount: int): (r: Option<string>)
    requires from <= |files|
    ensures r.None? <==> forall i :: from <= i < |files| ==> FileError(files[i], i, field, maxCount).None?
    ensures r.Some? ==> exists i ::
      && from <= i < |files|
      && r == FileError(files[i], i, field, maxCount)
      && forall j :: from <= j < i ==> FileError(files[j], j, field, maxCount).None?
    decreases |files| - from
  {
    if from == |files| then None
    else
      var e := FileError(files[from], from, field, maxCount);
      if e.Some? then e else ParseFrom(files, from + 1, field, maxCount)
  }

  /** The multer error of the request, if any. */
  function MulterError(files: seq<IncomingFile>, field: string, maxCount: int): (r: Option<string>)
    ensures r.None? <==> Acceptable(files, field, maxCount)
    ensures r.None? ==> |files| <= MaxFiles && (|files| == 0 || |files| <= maxCount)
  {
    var r := ParseFrom(files, 0, field, maxCount);
    assert r.None? && |files| > 0 ==> FileError(files[|files| - 1], |files| - 1, field, maxCount).None?;
    r
  }

  /** The record `uploadToS3` returns for a stored file. */
  datatype Stored = Stored(key: string, url: string, size: nat, mimetype: string, originalName: string)

  /** `uploadToS3` once its key is built: the file is stored under `key`; a failed put gives
      nothing (the service throws "File upload failed"). */
  function StoreFile(f: IncomingFile, key: string, put: string -> Option<string>): (r: Option<Stored>)
    ensures r.None? <==> put(key).None?
    ensures r.Some? ==> r.value.key == key && Some(r.value.url) == put(key)
                        && r.value.size == f.size && r.value.mimetype == f.mimetype
  {
    var loc := put(key);
    if loc.None? then None else Some(Stored(key, loc.value, f.size, f.mimetype, f.originalName))
  }

  /** The keys of a batch, file `i` built at instant `stamps(i)` from the UUID `uuids(i)`. */
  function BatchKeys(files: seq<IncomingFile>, userId: string, folder: Option<string>,
                     stamps: nat -> nat, uuids: nat -> string): (r: seq<string>)
    ensures |r| == |files|
    ensures forall i :: 0 <= i < |files| ==> r[i] == FileKey(files[i].originalName, userId, folder, stamps(i), uuids(i))
  {
    seq(|files|, i requires 0 <= i < |files| => FileKey(files[i].originalName, userId, folder, stamps(i), uuids(i)))
  }

  /** The puts of `uploadMultipleToS3` from file `from` on. */
  function StoreFrom(files: seq<IncomingFile>, keys: seq<string>, from: nat, put: string -> Option<string>)
    : (r: Option<seq<Stored>>)
    requires from <= |files| == |keys|
    ensures r.Some? ==>
      && |r.value| == |files| - from
      && forall i :: from <= i < |files| ==> Some(r.value[i - from]) == StoreFile(files[i], keys[i], put)
    ensures r.None? <==> exists i :: from <= i < |files| && put(keys[i]).None?
    decreases |files| - from
  {
    if from == |files| then Some([])
    else
      var s := StoreFile(files[from], keys[from], put);
      var rest := StoreFrom(files, keys, from + 1, put);
      if s.None? || rest.None? then None else Some([s.value] + rest.value)
  }

  /** `uploadMultipleToS3`: every file is stored under its own key; a single failed put fails the
      whole batch. */
  function StoreAll(files: seq<IncomingFile>, keys: seq<string>, put: string -> Option<string>)
    : (r: Option<seq<Stored>>)
    requires |files| == |keys|
    ensures r.Some? ==>
      && |r.value| == |files|
      && forall i :: 0 <= i < |files| ==> Some(r.value[i]) == StoreFile(files[i], keys[i], put)
    ensures r.None? <==> exists i :: 0 <= i < |files| && put(keys[i]).None?
  {
    StoreFrom(files, keys, 0, put)
  }

  /** How a middleware ends: it answers the request itself, or hands the stored files on. */
  datatype Step<T> = Halt(status: int, message: string) | Next(result: T)

  /** `single(fieldName, folder)`: a multer error or a missing file is answered with 400 before
      anything is stored; a failed store is a 500. */
  function Single(files: seq<IncomingFile>, fieldName: string, folder: Option<string>, userId: string,
                  now: nat, uuid: string, put: string -> Option<string>): (r: Step<Stored>)
    ensures MulterError(files, fieldName, 1).Some? ==> r == Halt(400, MulterError(files, fieldName, 1).value)
    ensures MulterError(files, fieldName, 1).None? && |files| == 0 ==> r == Halt(400, "No file uploaded")
    ensures r.Next? ==>
      && |files| == 1 && files[0].field == fieldName && files[0].mimetype in AllowedTypes
      && Some(r.result) == StoreFile(files[0], FileKey(files[0].originalName, userId, folder, now, uuid), put)
    ensures r.Halt? && r.status != 400 ==> r == Halt(500, "File upload failed")
  {
    var e := MulterError(files, fieldName, 1);
    if e.Some? then Halt(400, e.value)
    else if |files| == 0 then Halt(400, "No file uploaded")
    else
      assert FileError(files[0], 0, fieldName, 1).None?;
      var s := StoreFile(files[0], FileKey(files[0].originalName, userId, folder, now, uuid), put);
      if s.None? then Halt(500, "File upload failed") else Next(s.value)
  }

  /** `multiple(fieldName, maxCount, folder)`, with `maxCount` defaulting to five. */
  function Multiple(files: seq<IncomingFile>, fieldName: string, maxCount: Option<int>, folder: Option<string>,
                    userId: string, stamps: nat -> nat, uuids: nat -> string, put: string -> Option<string>)
    : (r: Step<seq<Stored>>)
    ensures var m := maxCount.GetOr(5);
      MulterError(files, fieldName, m).Some? ==> r == Halt(400, MulterError(files, fieldName, m).value)
    ensures MulterError(files, fieldName, maxCount.GetOr(5)).None? && |files| == 0 ==> r == Halt(400, "No files uploaded")
    ensures r.Next? ==>
      && 1 <= |files| <= MaxFiles && |files| <= maxCount.GetOr(5)
      && Acceptable(files, fieldName, maxCount.GetOr(5))
      && Some(r.result) == StoreAll(files, BatchKeys(files, userId, folder, stamps, uuids), put)
    ensures r.Halt? && r.status != 400 ==> r == Halt(500, "Multiple file upload failed")
  {
    var e := MulterError(files, fieldName, maxCount.GetOr(5));
    if e.Some? then Halt(400, e.value)
    else if |files| == 0 then Halt(400, "No files uploaded")
    else
      var s := StoreAll(files, BatchKeys(files, userId, folder, stamps, uuids), put);
      if s.None? then Halt(500, "Multiple file upload failed") else Next(s.value)
  }

  /** The 400 answers of `single` come before any upload: whatever the store would have done, the
      request is answered the same way. */
  lemma SingleRejectsBeforeStoring(files: seq<IncomingFile>, fieldName: string, folder: Option<string>,
                                   userId: string, now: nat, uuid: string,
                                   put1: string -> Option<string>, put2: string -> Option<string>)
    requires Single(files, fieldName, folder, userId, now, uuid, put1).Halt?
    requires Single(files, fieldName, folder, userId, now, uuid, put1).status == 400
    ensures Single(files, fieldName, folder, userId, now, uuid, put2)
         == Single(files, fieldName, folder, userId, now, uuid, put1)
  {
  }

  /** Likewise for `multiple`. */
  lemma MultipleRejectsBeforeStoring(files: seq<IncomingFile>, fieldName: string, maxCount: Option<int>,
                                     folder: Option<string>, userId: string, stamps: nat -> nat, uuids: nat -> string,
                                     put1: string -> Option<string>, put2: string -> Option<string>)
    requires Multiple(files, fieldName, maxCount, folder, userId, stamps, uuids, put1).Halt?
    requires Multiple(files, fieldName, maxCount, folder, userId, stamps, uuids, put1).status == 400
    ensures Multiple(files, fieldName, maxCount, folder, userId, stamps, uuids, put2)
         == Multiple(files, fieldName, maxCount, folder, userId, stamps, uuids, put1)
  {
  }

  /** A sixth file is refused whatever it is. */
  lemma SixFilesRefused(files: seq<IncomingFile>, fieldName: string, folder: Option<string>, userId: string,
                        stamps: nat -> nat, uuids: nat -> string, put: string -> Option<string>)
    requires |files| > MaxFiles
    ensures Multiple(files, fieldName, Some(5), folder, userId, stamps, uuids, put).Halt?
    ensures Multiple(files, fieldName, Some(5), folder, userId, stamps, uuids, put).status == 400
  {
  }

  /** The signed-upload answer: the key, the pre-signed URL and the public URL of the object. */
  datatype SignedUpload = SignedUpload(uploadUrl: string, key: string, publicUrl: string)

  /** `generateSignedUploadUrl`: `sign(key, seconds)` stands for S3's URL signer. */
  function SignedUploadUrl(fileName: string, userId: string, folder: Option<string>, now: nat, uuid: string,
                           bucket: string, region: string, sign: (string, nat) -> string): (r: SignedUpload)
    ensures r.key == FileKey(fileName, userId, folder, now, uuid)
    ensures r.uploadUrl == sign(r.key, 600)
    ensures HasPrefix(r.publicUrl, "https://" + bucket + ".s3.") && HasSuffix(r.publicUrl, "/" + r.key)
  {
    var key := FileKey(fileName, userId, folder, now, uuid);
    var pre := "https://" + bucket + ".s3.";
    var url := pre + (region + ".amazonaws.com") + ("/" + key);
    ConcatEnds(pre, region + ".amazonaws.com", "/" + key);
    SignedUpload(sign(key, SignedUrlExpirySeconds), key, url)
  }
}

=== FILE: userroutes.dfy ===
/** The signed-in user's own routes: reading and updating the profile, the profile file upload,
    the public profile QR payload, the dashboard statistics and the password change. The request
    body of `PUT /me` is kept as the JSON object it arrives as, so the whitelist is a property of
    the handler rather than of a request type. */
module Users {

  import opened Wrappers
  import opened Text
  import opened Http
  import opened Records
  import AuthRoutes

  /** A JSON value as a request body carries it. */
  datatype Json =
    | JStr(s: string)
    | JBool(b: bool)
    | JNum(n: int)
    | JObj(fields: map<string, Json>)
    | JNull

  /** JavaScript truthiness. */
  predicate Truthy(v: Json) {
    match v
    case JStr(s) => s != ""
    case JBool(b) => b
    case JNum(n) => n != 0
    case JObj(_) => true
    case JNull => false
  }

  /** The own enumerable properties `{...v}` copies (objects only). */
  function Spread(v: Json): map<string, Json> {
    if v.JObj? then v.fields else map[]
  }

  /** `GET /users/me`. */
  function GetMe(callerId: string, users: seq<User>): (r: Reply<User>)
    ensures r.Ok? <==> exists i :: 0 <= i < |users| && users[i].id == callerId
    ensures r.Ok? ==> r.data.id == callerId && r.data in users
    ensures r.Err? ==> r == Fail(404, "User not found")
  {
    match FindById(users, callerId)
    case None => Fail(404, "User not found")
    case Some(i) => Ok(200, "", users[i])
  }

  // ---------------------------------------------------------------------------
  // PUT /me

  const AllowedUpdates: set<string> :=
    {"name", "phone", "address", "meta.preferredLanguage", "meta.notifications"}

  const AddressKeys: seq<string> := ["street", "city", "state", "pinCode"]

  /** A stored address as the object the spread reads. */
  function AddressObject(a: Option<Address>): (r: map<string, Json>)
    ensures a.None? ==> r == map[]
    ensures forall k :: k in AddressKeys ==> (k in r <==> AddressField(a, k).Some?)
    ensures forall k :: k in AddressKeys && k in r ==> r[k] == JStr(AddressField(a, k).value)
  {
    if a.None? then map[]
    else
      var x := a.value;
      var m := map["country" := JStr(x.country)];
      var m := if x.street.Some? then m["street" := JStr(x.street.value)] else m;
      var m := if x.city.Some? then m["city" := JStr(x.city.value)] else m;
      var m := if x.state.Some? then m["state" := JStr(x.state.value)] else m;
      if x.pinCode.Some? then m["pinCode" := JStr(x.pinCode.value)] else m
  }

  function AddressField(a: Option<Address>, k: string): Option<string> {
    if a.None? then None
    else if k == "street" then a.value.street
    else if k == "city" then a.value.city
    else if k == "state" then a.value.state
    else if k == "pinCode" then a.value.pinCode
    else None
  }

  function NotificationsObject(n: Notifications): map<string, Json> {
    map["email" := JBool(n.email), "sms" := JBool(n.sms), "push" := JBool(n.push)]
  }

  /** The `$set` document: the whitelisted keys of the body, then the merged address and the
      merged notification preferences. */
  function ProfileUpdates(body: map<string, Json>, caller: User): (r: map<string, Json>)
    ensures r.Keys <= AllowedUpdates
    ensures forall k :: k in AllowedUpdates && k in body ==> k in r
    ensures forall k :: k in r && k != "address" && k != "meta.notifications" ==> k in body && r[k] == body[k]
    ensures "address" in r <==> "address" in body
    ensures "meta.notifications" in r <==>
      "meta.notifications" in body || ("notifications" in body && Truthy(body["notifications"]))
    ensures "address" in body ==>
      r["address"] == if Truthy(body["address"]) then JObj(AddressObject(caller.address) + Spread(body["address"]))
                      else body["address"]
    ensures "notifications" in body && Truthy(body["notifications"]) ==>
      r["meta.notifications"] == JObj(NotificationsObject(caller.notifications) + Spread(body["notifications"]))
    ensures !("notifications" in body && Truthy(body["notifications"])) && "meta.notifications" in body ==>
      r["meta.notifications"] == body["meta.notifications"]
  {
    var picked := map k | k in body && k in AllowedUpdates :: body[k];
    var withAddress :=
      if "address" in body && Truthy(body["address"]) then
        picked["address" := JObj(AddressObject(caller.address) + Spread(body["address"]))]
      else picked;
    if "notifications" in body && Truthy(body["notifications"]) then
      withAddress["meta.notifications" := JObj(NotificationsObject(caller.notifications) + Spread(body["notifications"]))]
    else withAddress
  }

  /** A whole JavaScript number in decimal, as `String(n)` writes it. */
  function NumberText(n: int): (r: string)
    ensures n >= 0 ==> r == DecimalString(n)
    ensures n < 0 ==> r == "-" + DecimalString(-n)
  {
    if n < 0 then "-" + DecimalString(-n) else DecimalString(n)
  }

  /** Mongoose's String cast: text as it is, a number in decimal, a boolean as its name, `null`
      as no value; an object does not cast. */
  function CastString(v: Json): (r: Option<Option<string>>)
    ensures r.None? <==> v.JObj?
    ensures r == Some(None) <==> v.JNull?
    ensures v.JStr? ==> r == Some(Some(v.s))
    ensures v.JNum? ==> r == Some(Some(NumberText(v.n)))
    ensures v.JBool? ==> r == Some(Some(if v.b then "true" else "false"))
  {
    match v
    case JStr(s) => Some(Some(s))
    case JNum(n) => Some(Some(NumberText(n)))
    case JBool(b) => Some(Some(if b then "true" else "false"))
    case JNull => Some(None)
    case JObj(_) => None
  }

  /** Mongoose's Boolean cast: `true`, `'true'`, `1`, `'1'` and `'yes'` are true; `false`,
      `'false'`, `0`, `'0'` and `'no'` are false; anything else does not cast. */
  function CastBool(v: Json): (r: Option<bool>)
    ensures r == Some(true) <==> v in {JBool(true), JStr("true"), JNum(1), JStr("1"), JStr("yes")}
    ensures r == Some(false) <==> v in {JBool(false), JStr("false"), JNum(0), JStr("0"), JStr("no")}
  {
    match v
    case JBool(b) => Some(b)
    case JNum(n) => if n == 1 then Some(true) else if n == 0 then Some(false) else None
    case JStr(s) =>
      if s == "true" || s == "1" || s == "yes" then Some(true)
      else if s == "false" || s == "0" || s == "no" then Some(false)
      else None
    case _ => None
  }

  /** The String cast, the name setter (`trim`) and the validators `runValidators` applies
      (required, at most 100 UTF-16 code units). */
  function CastName(v: Json): (r: Option<string>)
    ensures r.Some? <==>
      CastString(v).Some? && CastString(v).value.Some?
      && Trim(CastString(v).value.value) != "" && JsLength(Trim(CastString(v).value.value)) <= NameMaxLength
    ensures r.Some? ==> r.value == Trim(CastString(v).value.value)
  {
    match CastString(v)
    case Some(Some(s)) => if Trim(s) != "" && JsLength(Trim(s)) <= NameMaxLength then Some(Trim(s)) else None
    case _ => None
  }

  /** The String cast and the phone setter (`trim`); `null` clears the phone. */
  function CastPhone(v: Json): (r: Option<Option<string>>)
    ensures r.None? <==> v.JObj?
    ensures r == Some(None) <==> v.JNull?
    ensures CastString(v).Some? && CastString(v).value.Some? ==> r == Some(Some(Trim(CastString(v).value.value)))
  {
    match CastString(v)
    case None => None
    case Some(None) => Some(None)
    case Some(Some(s)) => Some(Some(Trim(s)))
  }

  function CastOptionalString(f: map<string, Json>, k: string): Option<Option<string>> {
    if k !in f then Some(None) else CastString(f[k])
  }

  /** The address object cast to the schema; a missing country takes the schema default. */
  function CastAddress(v: Json): Option<Option<Address>> {
    match v
    case JNull => Some(None)
    case JObj(f) =>
      var street := CastOptionalString(f, "street");
      var city := CastOptionalString(f, "city");
      var state := CastOptionalString(f, "state");
      var pin := CastOptionalString(f, "pinCode");
      var country := if "country" !in f then Some(Some("India")) else CastString(f["country"]);
      if street.None? || city.None? || state.None? || pin.None? || country.None? || country.value.None? then None
      else Some(Some(Address(street.value, city.value, state.value, pin.value, country.value.value)))
    case _ => None
  }

  function CastFlag(f: map<string, Json>, k: string): Option<bool> {
    if k !in f then Some(true) else CastBool(f[k])
  }

  /** A flag the body gives, cast, or the stored one. */
  function FlagOr(f: map<string, Json>, k: string, stored: bool): bool {
    if k in f && CastBool(f[k]).Some? then CastBool(f[k]).value else stored
  }

  /** The notification object cast to the schema; a missing flag takes its default (on). */
  function CastNotifications(v: Json): Option<Notifications> {
    if !v.JObj? then None
    else
      var e := CastFlag(v.fields, "email");
      var s := CastFlag(v.fields, "sms");
      var p := CastFlag(v.fields, "push");
      if e.None? || s.None? || p.None? then None else Some(Notifications(e.value, s.value, p.value))
  }

  /** `findByIdAndUpdate(id, {$set: updates}, {runValidators: true})`: `None` when a value does
      not cast or fails a validator. */
  function ApplyUpdates(u: User, up: map<string, Json>): (r: Option<User>)
    requires up.Keys <= AllowedUpdates
    ensures r.Some? ==>
      r.value.(name := u.name, phone := u.phone, address := u.address,
               preferredLanguage := u.preferredLanguage, notifications := u.notifications) == u
    ensures r.Some? ==>
      && ("name" !in up ==> r.value.name == u.name)
      && ("phone" !in up ==> r.value.phone == u.phone)
      && ("address" !in up ==> r.value.address == u.address)
      && ("meta.preferredLanguage" !in up ==> r.value.preferredLanguage == u.preferredLanguage)
      && ("meta.notifications" !in up ==> r.value.notifications == u.notifications)
    ensures r.Some? && "name" in up ==> CastName(up["name"]) == Some(r.value.name)
    ensures r.Some? && "phone" in up ==> CastPhone(up["phone"]) == Some(r.value.phone)
    ensures r.Some? && "meta.preferredLanguage" in up ==>
      CastString(up["meta.preferredLanguage"]) == Some(Some(r.value.preferredLanguage))
    ensures r.Some? && "address" in up ==> CastAddress(up["address"]) == Some(r.value.address)
    ensures r.Some? && "meta.notifications" in up ==> CastNotifications(up["meta.notifications"]) == Some(r.value.notifications)
  {
    var name := if "name" in up then CastName(up["name"]) else Some(u.name);
    var phone := if "phone" in up then CastPhone(up["phone"]) else Some(u.phone);
    var address := if "address" in up then CastAddress(up["address"]) else Some(u.address);
    var lang := if "meta.preferredLanguage" !in up then Some(u.preferredLanguage)
                else match CastString(up["meta.preferredLanguage"])
                  case Some(Some(l)) => Some(l)
                  case _ => None;
    var notes := if "meta.notifications" in up then CastNotifications(up["meta.notifications"]) else Some(u.notifications);
    if name.None? || phone.None? || address.None? || lang.None? || notes.None? then None
    else Some(u.(name := name.value, phone := phone.value, address := address.value,
                 preferredLanguage := lang.value, notifications := notes.value))
  }

  /** `PUT /users/me`. `data` is `None` when the document no longer exists (`null`). */
  function UpdateMe(caller: User, body: map<string, Json>, users: seq<User>): (r: (Reply<Option<User>>, seq<User>))
    ensures r.0.Err? ==> r == (Fail(500, InternalError), users)
    ensures r.0.Ok? ==> r.0.message == "Profile updated successfully"
    ensures r.0.Ok? && r.0.data.None? ==> r.1 == users && FindById(users, caller.id).None?
    ensures r.0.Ok? && r.0.data.Some? ==> FindById(users, caller.id).Some?
    ensures r.0.Ok? && r.0.data.Some? && FindById(users, caller.id).Some? ==>
      var i := FindById(users, caller.id).value;
      var u := users[i];
      var v := r.0.data.value;
      && r.1 == users[i := v]
      && v.(name := u.name, phone := u.phone, address := u.address,
            preferredLanguage := u.preferredLanguage, notifications := u.notifications) == u
      && ("name" !in body ==> v.name == u.name)
      && ("phone" !in body ==> v.phone == u.phone)
      && ("address" !in body ==> v.address == u.address)
      && ("meta.preferredLanguage" !in body ==> v.preferredLanguage == u.preferredLanguage)
      && ("meta.notifications" !in body && !("notifications" in body && Truthy(body["notifications"])) ==>
            v.notifications == u.notifications)
    ensures r.0.Ok? && r.0.data.Some? ==>
      var v := r.0.data.value;
      && ("name" in body ==> CastName(body["name"]) == Some(v.name))
      && ("phone" in body ==> CastPhone(body["phone"]) == Some(v.phone))
      && ("meta.preferredLanguage" in body ==>
            CastString(body["meta.preferredLanguage"]) == Some(Some(v.preferredLanguage)))
      && ("address" in body && Truthy(body["address"]) ==>
            CastAddress(JObj(AddressObject(caller.address) + Spread(body["address"]))) == Some(v.address))
      && ("address" in body && !Truthy(body["address"]) ==> CastAddress(body["address"]) == Some(v.address))
      && ("notifications" in body && Truthy(body["notifications"]) ==>
            CastNotifications(JObj(NotificationsObject(caller.notifications) + Spread(body["notifications"])))
              == Some(v.notifications))
      && (!("notifications" in body && Truthy(body["notifications"])) && "meta.notifications" in body ==>
            CastNotifications(body["meta.notifications"]) == Some(v.notifications))
  {
    var up := ProfileUpdates(body, caller);
    match FindById(users, caller.id)
    case None => (Ok(200, "Profile updated successfully", None), users)
    case Some(i) =>
      match ApplyUpdates(users[i], up)
      case None => (Fail(500, InternalError), users)
      case Some(v) => (Ok(200, "Profile updated successfully", Some(v)), users[i := v])
  }

  /** The address is merged field by field: a field the body gives wins, any other keeps the
      caller's stored value. */
  lemma AddressMerged(caller: User, body: map<string, Json>, users: seq<User>, k: string)
    requires FindById(users, caller.id).Some? && users[FindById(users, caller.id).value] == caller
    requires "address" in body && body["address"].JObj?
    requires k in AddressKeys
    requires UpdateMe(caller, body, users).0.Ok?
    ensures var v := UpdateMe(caller, body, users).0.data.value;
      var f := body["address"].fields;
      && v.address.Some?
      && (k in f ==> CastString(f[k]) == Some(AddressField(v.address, k)))
      && (k !in f ==> AddressField(v.address, k) == AddressField(caller.address, k))
  {
    var i := FindById(users, caller.id).value;
    var up := ProfileUpdates(body, caller);
    var merged := AddressObject(caller.address) + body["address"].fields;
    assert up["address"] == JObj(merged);
    var v := ApplyUpdates(users[i], up).value;
    assert CastAddress(JObj(merged)) == Some(v.address);
    MergedAddress(caller.address, body["address"].fields, k);
  }

  lemma MergedAddress(a: Option<Address>, f: map<string, Json>, k: string)
    requires k in AddressKeys
    requires CastAddress(JObj(AddressObject(a) + f)).Some?
    ensures var c := CastAddress(JObj(AddressObject(a) + f)).value;
      && c.Some?
      && (k in f ==> CastString(f[k]) == Some(AddressField(c, k)))
      && (k !in f ==> AddressField(c, k) == AddressField(a, k))
  {
    var m := AddressObject(a) + f;
    assert k in m <==> k in f || AddressField(a, k).Some?;
  }

  /** The notification preferences are merged the same way, body flags winning. */
  lemma NotificationsMerged(caller: User, body: map<string, Json>, users: seq<User>)
    requires FindById(users, caller.id).Some? && users[FindById(users, caller.id).value] == caller
    requires "notifications" in body && body["notifications"].JObj?
    requires UpdateMe(caller, body, users).0.Ok?
    ensures var n := UpdateMe(caller, body, users).0.data.value.notifications;
      var f := body["notifications"].fields;
      && n.email == FlagOr(f, "email", caller.notifications.email)
      && n.sms == FlagOr(f, "sms", caller.notifications.sms)
      && n.push == FlagOr(f, "push", caller.notifications.push)
  {
    var i := FindById(users, caller.id).value;
    var up := ProfileUpdates(body, caller);
    var merged := NotificationsObject(caller.notifications) + body["notifications"].fields;
    assert up["meta.notifications"] == JObj(merged);
    var v := ApplyUpdates(users[i], up).value;
    assert CastNotifications(JObj(merged)) == Some(v.notifications);
    assert UpdateMe(caller, body, users).0.data.value == v;
    MergedNotifications(caller.notifications, body["notifications"].fields);
  }

  lemma MergedNotifications(n: Notifications, f: map<string, Json>)
    requires CastNotifications(JObj(NotificationsObject(n) + f)).Some?
    ensures var c := CastNotifications(JObj(NotificationsObject(n) + f)).value;
      && c.email == FlagOr(f, "email", n.email)
      && c.sms == FlagOr(f, "sms", n.sms)
      && c.push == FlagOr(f, "push", n.push)
  {
  }

  /** A body that names no whitelisted key leaves the stored user exactly as it was, whatever
      else (a role, a verified flag, a password) it carries. */
  lemma NothingWhitelistedNoChange(caller: User, body: map<string, Json>, users: seq<User>)
    requires forall k :: k in body ==> k !in AllowedUpdates
    requires !("notifications" in body && Truthy(body["notifications"]))
    requires UpdateMe(caller, body, users).0.Ok?
    ensures UpdateMe(caller, body, users).1 == users
  {
    var up := ProfileUpdates(body, caller);
    assert up == map[];
    if FindById(users, caller.id).Some? {
      var i := FindById(users, caller.id).value;
      assert ApplyUpdates(users[i], up) == Some(users[i]);
      assert users[i := users[i]] == users;
    }
  }

  // ---------------------------------------------------------------------------
  // POST /me/upload

  datatype Uploaded = Uploaded(key: string, url: string)

  datatype UploadReply = UploadReply(user: Option<User>, uploadedFile: Uploaded)

  /** The field an upload of the given `type` writes. */
  function UploadField(kind: string): (r: string)
    ensures r == "videoUrl" <==> kind == "video"
    ensures r == "videoUrl" || r == "profilePic"
  {
    if kind == "video" then "videoUrl" else "profilePic"
  }

  /** `POST /users/me/upload`, after the upload middleware; `type` defaults to `'image'`. */
  function UploadProfileFile(callerId: string, uploadResult: Option<Uploaded>, kind: Option<string>,
                             users: seq<User>): (r: (Reply<UploadReply>, seq<User>))
    ensures uploadResult.None? ==> r == (Fail(400, "No file uploaded"), users)
    ensures r.0.Ok? <==> uploadResult.Some?
    ensures r.0.Ok? ==> r.0.message == "Profile " + kind.GetOr("image") + " uploaded successfully"
    ensures r.0.Ok? && FindById(users, callerId).Some? ==> r.0.data.user.Some?
    ensures r.0.Ok? && FindById(users, callerId).Some? && r.0.data.user.Some? ==>
      var i := FindById(users, callerId).value;
      var url := uploadResult.value.url;
      && r.1 == users[i := r.0.data.user.value]
      && (kind == Some("video") ==> r.1[i] == users[i].(videoUrl := Some(url)))
      && (kind != Some("video") ==> r.1[i] == users[i].(profilePic := Some(url)))
    ensures FindById(users, callerId).None? ==> r.1 == users
  {
    if uploadResult.None? then (Fail(400, "No file uploaded"), users)
    else
      var t := kind.GetOr("image");
      var url := uploadResult.value.url;
      match FindById(users, callerId)
      case None => (Ok(200, "Profile " + t + " uploaded successfully", UploadReply(None, uploadResult.value)), users)
      case Some(i) =>
        var v := if UploadField(t) == "videoUrl" then users[i].(videoUrl := Some(url))
                 else users[i].(profilePic := Some(url));
        (Ok(200, "Profile " + t + " uploaded successfully", UploadReply(Some(v), uploadResult.value)),
         users[i := v])
  }

  // ---------------------------------------------------------------------------
  // GET /:id/profile-qr

  datatype QrReply =
    | ProfileLink(profileUrl: string)
    | QrImage(contentType: string, payloadUrl: string)

  /** `GET /users/:id/profile-qr`; `format` defaults to `'png'`, and the QR rendering itself is
      outside the model. */
  function ProfileQr(id: string, format: Option<string>, users: seq<User>, protocol: string, host: string)
    : (r: Reply<QrReply>)
    ensures r.Err? <==> FindById(users, id).None?
    ensures r.Err? ==> r == Fail(404, "User not found")
    ensures r.Ok? ==> var url := protocol + "://" + host + "/profile/" + id;
      && (format == Some("url") ==> r.data == ProfileLink(url))
      && (format == Some("svg") ==> r.data == QrImage("image/svg+xml", url))
      && (format != Some("url") && format != Some("svg") ==> r.data == QrImage("image/png", url))
  {
    if FindById(users, id).None? then Fail(404, "User not found")
    else
      var url := protocol + "://" + host + "/profile/" + id;
      var f := format.GetOr("png");
      if f == "url" then Ok(200, "", ProfileLink(url))
      else Ok(200, "", QrImage(if f == "svg" then "image/svg+xml" else "image/png", url))
  }

  // ---------------------------------------------------------------------------
  // GET /stats

  datatype UserInfo = UserInfo(id: string, name: string, email: string, role: string, joinedDate: int,
                               lastLogin: Option<int>)

  datatype DashboardFigures =
    | MitraFigures(investmentAmount: int, expectedValue: int, currentROI: int, monthlyKitStatus: string,
                   joinedDate: int)
    | CustomerFigures(totalOrders: int, totalSpent: int, totalSaved: int, favoriteProducts: int)
    | NoFigures

  /** `x || d` on an optional number: a missing value and 0 both give the default. */
  function NumberOr(x: Option<int>, d: int): (r: int)
    ensures x.Some? && x.value != 0 ==> r == x.value
    ensures x.None? || x.value == 0 ==> r == d
  {
    if x.Some? && x.value != 0 then x.value else d
  }

  /** `GET /users/stats`: figures by role; a mitra's missing or zero figures show the fixed
      defaults. */
  function Stats(u: User): (r: (UserInfo, DashboardFigures))
    ensures r.0 == UserInfo(u.id, u.name, u.email, u.role, u.createdAt, u.lastLogin)
    ensures r.1.MitraFigures? <==> u.role == "mitra"
    ensures r.1.CustomerFigures? <==> u.role == "customer"
    ensures r.1.CustomerFigures? ==> r.1 == CustomerFigures(0, 0, 0, 0)
    ensures r.1.MitraFigures? ==>
      && r.1.investmentAmount != 0 && r.1.expectedValue != 0 && r.1.currentROI != 0
      && r.1.monthlyKitStatus != ""
      && (u.mitraDetails.investmentAmount.Some? && u.mitraDetails.investmentAmount.value != 0 ==>
            r.1.investmentAmount == u.mitraDetails.investmentAmount.value)
      && (u.mitraDetails.joinedDate.None? ==> r.1.joinedDate == u.createdAt)
  {
    var m := u.mitraDetails;
    var figures :=
      if u.role == "mitra" then
        MitraFigures(NumberOr(m.investmentAmount, 42000), NumberOr(m.expectedValue, 54000),
                     NumberOr(m.currentROI, 12000), OrElse(m.monthlyKitStatus, "pending"),
                     m.joinedDate.GetOr(u.createdAt))
      else if u.role == "customer" then CustomerFigures(0, 0, 0, 0)
      else NoFigures;
    (UserInfo(u.id, u.name, u.email, u.role, u.createdAt, u.lastLogin), figures)
  }

  /** A mitra with the schema's default details sees 42000 / 54000 / 12000 / pending and their
      sign-up date: the stored ROI of 0 is replaced by the 12000 fallback. */
  lemma DefaultMitraFigures(u: User)
    requires u.role == "mitra" && u.mitraDetails == DefaultMitraDetails
    ensures Stats(u).1 == MitraFigures(42000, 54000, 12000, "pending", u.createdAt)
  {
  }

  /** Roles other than mitra and customer get an empty figures object. */
  lemma OtherRolesNoFigures(u: User)
    requires u.role in Roles - {"mitra", "customer"}
    ensures Stats(u).1 == NoFigures
  {
  }

  // ---------------------------------------------------------------------------
  // POST /change-password

  /** `POST /users/change-password`. A missing user makes `comparePassword` throw, and a new
      password under six characters fails the schema's `minlength` on save (validation runs
      before the hashing hook): both are 500s. */
  function ChangePassword(callerId: string, current: Option<string>, next: Option<string>, users: seq<User>)
    : (r: (Reply<()>, seq<User>))
    ensures !(Present(current) && Present(next)) ==>
      r == (Fail(400, "Current password and new password are required"), users)
    ensures Present(current) && Present(next) && FindById(users, callerId).Some? &&
            !PasswordMatches(users[FindById(users, callerId).value].password, current.value) ==>
      r == (Fail(400, "Current password is incorrect"), users)
    ensures r.0.Err? ==> r.1 == users
    ensures r.0.Ok? <==>
      && Present(current) && Present(next) && FindById(users, callerId).Some?
      && PasswordMatches(users[FindById(users, callerId).value].password, current.value)
      && JsLength(next.value) >= PasswordMinLength
    ensures r.0.Ok? ==> var i := FindById(users, callerId).value;
      && r.0.message == "Password changed successfully"
      && r.1 == users[i := users[i].(password := Digest(next.value))]
  {
    if !(Present(current) && Present(next)) then
      (Fail(400, "Current password and new password are required"), users)
    else
      match FindById(users, callerId)
      case None => (Fail(500, InternalError), users)
      case Some(i) =>
        if !PasswordMatches(users[i].password, current.value) then
          (Fail(400, "Current password is incorrect"), users)
        else if JsLength(next.value) < PasswordMinLength then (Fail(500, InternalError), users)
        else (Ok(200, "Password changed successfully", ()), users[i := users[i].(password := Digest(next.value))])
  }

  /** A user found by a login identifier is found by it again after a change that keeps every
      e-mail and phone. */
  lemma {:induction false} FindByKeyKeeps(a: seq<User>, b: seq<User>, email: string, phone: string)
    requires |a| == |b|
    requires forall i :: 0 <= i < |a| ==> a[i].email == b[i].email && a[i].phone == b[i].phone
    ensures FindByKey(a, email, phone) == FindByKey(b, email, phone)
  {
    if |a| > 0 {
      FindByKeyKeeps(a[1..], b[1..], email, phone);
    }
  }

  /** After a password change, logging in with the old password is refused as invalid
      credentials, and the new password passes the password check. */
  lemma ChangeThenLogin(callerId: string, current: string, next: string, login: string,
                        st: AuthRoutes.AuthState, env: AuthRoutes.Env)
    requires ChangePassword(callerId, Some(current), Some(next), st.users).0.Ok?
    requires login != "" && FindByLogin(st.users, login) == FindById(st.users, callerId)
    requires current != next
    ensures var st' := st.(users := ChangePassword(callerId, Some(current), Some(next), st.users).1);
      && AuthRoutes.Login(Some(login), Some(current), st', env).0 == Fail(401, "Invalid credentials")
      && AuthRoutes.Login(Some(login), Some(next), st', env).0 != Fail(401, "Invalid credentials")
  {
    var users' := ChangePassword(callerId, Some(current), Some(next), st.users).1;
    var i := FindById(st.users, callerId).value;
    assert forall j :: 0 <= j < |st.users| ==>
      users'[j].email == st.users[j].email && users'[j].phone == st.users[j].phone;
    FindByKeyKeeps(users', st.users, NormEmail(login), NormPhone(login));
    assert FindByLogin(users', login) == Some(i);
    assert users'[i].password == Digest(next);
  }
}

=== FILE: validation.dfy ===
/** The express-validator chains: each chain is a list of field checks in declaration order,
    and `handleValidationErrors` answers 400 "Validation failed" with the failing checks, or lets
    the request through when none failed. Absent fields fail every non-optional check (the
    library validates them as empty strings). Library validators whose definitions live outside
    this repository (`isEmail`, `isMobilePhone('en-IN')`, `isPostalCode('IN')`) are parameters;
    `isMongoId` is 24 hexadecimal digits. JSON numbers are `real`. */
module Validation {

  import opened Wrappers
  import opened Text

  datatype Check = Check(field: string, ok: bool, message: string)

  datatype FieldError = FieldError(field: string, message: string)

  /** The failing checks, in chain order. */
  function Failures(cs: seq<Check>): (r: seq<FieldError>)
    ensures |r| <= |cs|
    ensures |r| == 0 <==> AllPass(cs)
    ensures forall e :: e in r ==> exists c :: c in cs && !c.ok && e == FieldError(c.field, c.message)
    ensures forall c :: c in cs && !c.ok ==> FieldError(c.field, c.message) in r
  {
    if |cs| == 0 then []
    else
      var rest := Failures(cs[1..]);
      assert forall c :: c in cs <==> c == cs[0] || c in cs[1..];
      if cs[0].ok then rest else [FieldError(cs[0].field, cs[0].message)] + rest
  }

  // The messages the chains attach to their validators.
  const AcresMessage := "Acres must be a positive number"
  const CropsMessage := "At least one crop type must be selected"
  const ServicesMessage := "At least one service must be selected"
  const BusinessAddressMessage := "Business address is required"
  const BusinessNameMessage := "Business name is required"
  const CompanyAddressMessage := "Company address is required"
  const CompanyNameMessage := "Company name is required"
  const DeliveryNameMessage := "Delivery name is required"
  const DescriptionMessage := "Description must be between 10 and 2000 characters"
  const EmailOrPhoneMessage := "Email or phone is required"
  const BusinessTypeMessage := "Invalid business type"
  const CategoryMessage := "Invalid category"
  const NatureOfBusinessMessage := "Invalid nature of business"
  const PinCodeMessage := "Invalid pin code"
  const ProductIdMessage := "Invalid product ID"
  const DesignationMessage := "Invalid seller type"
  const SoilTypeMessage := "Invalid soil type"
  const UnitMessage := "Invalid unit"
  const DefaultMessage := "Invalid value"
  const LocationMessage := "Location is required"
  const NameLettersMessage := "Name can only contain letters and spaces"
  const NameLengthMessage := "Name must be between 2 and 100 characters"
  const OtpMessage := "OTP must be a 6-digit number"
  const ItemsMessage := "Order must contain at least one item"
  const PasswordRequiredMessage := "Password is required"
  const EmailMessage := "Please provide a valid email"
  const PriceMessage := "Price must be a positive number"
  const TitleMessage := "Product title must be between 2 and 200 characters"
  const QuantityMessage := "Quantity must be a positive integer"
  const RoleMessage := "Role must be either customer or mitra"
  const StockMessage := "Stock must be a non-negative integer"
  const DeliveryPhoneMessage := "Valid phone number is required"
  const DeliveryPinCodeMessage := "Valid pin code is required"

  /** No check of the chain failed. */
  predicate AllPass(cs: seq<Check>) { forall c :: c in cs ==> c.ok }

  lemma AllPassAppend(a: seq<Check>, b: seq<Check>)
    ensures AllPass(a + b) <==> AllPass(a) && AllPass(b)
  {
    assert forall c :: c in a + b <==> c in a || c in b;
  }

  /** A check followed by the rest of its chain. */
  function Then(c: Check, rest: seq<Check>): (cs: seq<Check>)
    ensures cs == [c] + rest
    ensures AllPass(cs) <==> c.ok && AllPass(rest)
  {
    assert forall x :: x in [c] + rest <==> x == c || x in rest;
    [c] + rest
  }

  datatype Rejection = Rejection(status: int, message: string, errors: seq<FieldError>)

  /** `handleValidationErrors`: `None` passes the request on. */
  function HandleValidationErrors(cs: seq<Check>): (r: Option<Rejection>)
    ensures r.None? <==> AllPass(cs)
    ensures r.Some? ==>
      && r.value.status == 400 && r.value.message == "Validation failed"
      && r.value.errors == Failures(cs) && |r.value.errors| > 0
  {
    var errs := Failures(cs);
    if |errs| == 0 then None else Some(Rejection(400, "Validation failed", errs))
  }

  // ---------------------------------------------------------------------------
  // Field rules

  predicate IsLineTerminator(c: char) {
    c == '\n' || c == '\r' || c == '\U{2028}' || c == '\U{2029}'
  }

  /** The regular-expression lookahead `(?=.*X)` anchored at the start: `.` stops at line
      terminators, so the wanted character must come before the first one. */
  predicate DotStarThen(s: string, wanted: char -> bool) {
    if |s| == 0 then false
    else if wanted(s[0]) then true
    else if IsLineTerminator(s[0]) then false
    else DotStarThen(s[1..], wanted)
  }

  /** The lookahead holds iff a wanted character occurs with no line terminator before it. */
  lemma {:induction false} DotStarThenMeaning(s: string, wanted: char -> bool)
    ensures DotStarThen(s, wanted) <==>
      exists i :: 0 <= i < |s| && wanted(s[i]) && forall j :: 0 <= j < i ==> !IsLineTerminator(s[j])
  {
    if |s| > 0 && !wanted(s[0]) && !IsLineTerminator(s[0]) {
      DotStarThenMeaning(s[1..], wanted);
      if DotStarThen(s, wanted) {
        var i :| 0 <= i < |s[1..]| && wanted(s[1..][i])
          && forall j :: 0 <= j < i ==> !IsLineTerminator(s[1..][j]);
        assert wanted(s[i + 1]);
        assert forall j :: 0 <= j < i + 1 ==> !IsLineTerminator(s[j]) by {
          forall j | 0 <= j < i + 1 ensures !IsLineTerminator(s[j]) {
            if j > 0 { assert s[j] == s[1..][j - 1]; }
          }
        }
      }
      if exists i :: 0 <= i < |s| && wanted(s[i]) && forall j :: 0 <= j < i ==> !IsLineTerminator(s[j]) {
        var i :| 0 <= i < |s| && wanted(s[i]) && forall j :: 0 <= j < i ==> !IsLineTerminator(s[j]);
        assert i > 0;
        assert wanted(s[1..][i - 1]);
        assert forall j :: 0 <= j < i - 1 ==> !IsLineTerminator(s[1..][j]) by {
          forall j | 0 <= j < i - 1 ensures !IsLineTerminator(s[1..][j]) {
            assert s[1..][j] == s[j + 1];
          }
        }
      }
    }
  }

  /** The common password rule: at least six characters, and a lower-case letter, an upper-case
      letter and a digit, each before any line break. */
  predicate StrongPassword(p: string) {
    GlyphLength(p) >= 6 && DotStarThen(p, IsLower) && DotStarThen(p, IsUpper) && DotStarThen(p, IsDigit)
  }

  /** On a single-line password the rule is the plain reading: long enough and containing a
      lower-case letter, an upper-case letter and a digit. */
  lemma StrongPasswordSingleLine(p: string)
    requires forall i :: 0 <= i < |p| ==> !IsLineTerminator(p[i])
    ensures StrongPassword(p) <==>
      && GlyphLength(p) >= 6
      && (exists i :: 0 <= i < |p| && IsLower(p[i]))
      && (exists i :: 0 <= i < |p| && IsUpper(p[i]))
      && (exists i :: 0 <= i < |p| && IsDigit(p[i]))
  {
    DotStarThenMeaning(p, IsLower);
    DotStarThenMeaning(p, IsUpper);
    DotStarThenMeaning(p, IsDigit);
  }

  const PasswordLengthMessage := "Password must be at least 6 characters long"
  const PasswordClassesMessage :=
    "Password must contain at least one lowercase letter, one uppercase letter, and one number"

  /** `commonValidations.password`: both validators run, so a short password without the
      required characters collects both messages. */
  function PasswordChecks(p: Option<string>): (cs: seq<Check>)
    ensures |cs| == 2
    ensures (AllPass(cs)) <==> p.Some? && StrongPassword(p.value)
  {
    var s := p.GetOr("");
    var length := Check("password", GlyphLength(s) >= 6, PasswordLengthMessage);
    var classes := Check("password", DotStarThen(s, IsLower) && DotStarThen(s, IsUpper) && DotStarThen(s, IsDigit),
                         PasswordClassesMessage);
    Then(length, Then(classes, []))
  }

  /** The common name rule, on the trimmed value: 2 to 100 characters, letters and whitespace. */
  predicate ValidName(n: string) {
    var t := Trim(n);
    2 <= GlyphLength(t) <= 100 && forall i :: 0 <= i < |t| ==> IsLetter(t[i]) || IsSpace(t[i])
  }

  /** `commonValidations.name`, after its `trim()` sanitizer. */
  function NameChecks(n: Option<string>): (cs: seq<Check>)
    ensures |cs| == 2
    ensures (AllPass(cs)) <==> n.Some? && ValidName(n.value)
  {
    var t := Trim(n.GetOr(""));
    var length := Check("name", 2 <= GlyphLength(t) <= 100, NameLengthMessage);
    var letters := Check("name", |t| > 0 && forall i :: 0 <= i < |t| ==> IsLetter(t[i]) || IsSpace(t[i]),
                         NameLettersMessage);
    Then(length, Then(letters, []))
  }

  predicate IsHexDigit(c: char) { IsDigit(c) || 'a' <= c <= 'f' || 'A' <= c <= 'F' }

  /** `isMongoId`: 24 hexadecimal digits. */
  predicate IsMongoId(s: string) { |s| == 24 && forall i :: 0 <= i < |s| ==> IsHexDigit(s[i]) }

  predicate IsInteger(x: real) { x.Floor as real == x }

  /** `isIn(values)` on an optional field. */
  predicate InEnum(v: Option<string>, values: seq<string>) { v.Some? && v.value in values }

  /** `isArray({min: 1})`. */
  predicate NonEmptyArray<T>(v: Option<seq<T>>) { v.Some? && |v.value| >= 1 }

  /** The validators the chains take from the library. */
  datatype Library = Library(
    isEmail: string -> bool,
    isNumeric: string -> bool,
    isMobilePhoneIN: string -> bool,
    isPostalCodeIN: string -> bool)

  // ---------------------------------------------------------------------------
  // User and seller chains

  const SelfServiceRoles: seq<string> := ["customer", "mitra"]
  const Designations: seq<string> := ["farmer", "reseller", "startup", "service"]
  const SoilTypes: seq<string> := ["sandy", "loamy", "clay", "alluvial", "black", "laterite", "red"]
  const BusinessTypes: seq<string> :=
    ["individual_reseller", "retail_shop", "online_seller", "wholesale_distributor"]
  const NaturesOfBusiness: seq<string> :=
    ["agri_saas", "farm_equipment", "agri_fintech", "logistics", "advisory", "drone_services", "iot_solutions"]

  function EmailCheck(lib: Library, email: Option<string>): (c: Check)
    ensures c.ok <==> email.Some? && lib.isEmail(email.value)
  {
    Check("email", email.Some? && lib.isEmail(email.value), EmailMessage)
  }

  /** `userValidation.register`. */
  function RegisterChecks(lib: Library, name: Option<string>, email: Option<string>,
                          password: Option<string>, role: Option<string>): (cs: seq<Check>)
    ensures AllPass(cs) <==>
      && name.Some? && ValidName(name.value)
      && email.Some? && lib.isEmail(email.value)
      && password.Some? && StrongPassword(password.value)
      && (role.None? || role.value in SelfServiceRoles)
  {
    var n := NameChecks(name);
    var p := PasswordChecks(password);
    var last := Then(Check("role", role.None? || role.value in SelfServiceRoles, RoleMessage), []);
    AllPassAppend(p, last);
    var rest := Then(EmailCheck(lib, email), p + last);
    AllPassAppend(n, rest);
    n + rest
  }

  /** `userValidation.login`. */
  function LoginChecks(emailOrPhone: Option<string>, password: Option<string>): (cs: seq<Check>)
    ensures AllPass(cs) <==> Present(emailOrPhone) && Present(password)
  {
    Then(Check("emailOrPhone", Present(emailOrPhone), EmailOrPhoneMessage),
    Then(Check("password", Present(password), PasswordRequiredMessage), []))
  }

  /** `userValidation.verifyOTP`: the length check keeps the library's default message. */
  function VerifyOtpChecks(lib: Library, emailOrPhone: Option<string>, otp: Option<string>): (cs: seq<Check>)
    ensures AllPass(cs) <==>
      Present(emailOrPhone) && otp.Some? && GlyphLength(otp.value) == 6 && lib.isNumeric(otp.value)
  {
    var o := otp.GetOr("");
    Then(Check("emailOrPhone", Present(emailOrPhone), EmailOrPhoneMessage),
    Then(Check("otp", GlyphLength(o) == 6, DefaultMessage),
    Then(Check("otp", otp.Some? && lib.isNumeric(o), OtpMessage), [])))
  }

  /** `sellerValidation.initSeller`. */
  function InitSellerChecks(lib: Library, name: Option<string>, email: Option<string>,
                            password: Option<string>, designation: Option<string>): (cs: seq<Check>)
    ensures AllPass(cs) <==>
      && name.Some? && ValidName(name.value)
      && email.Some? && lib.isEmail(email.value)
      && password.Some? && StrongPassword(password.value)
      && InEnum(designation, Designations)
  {
    var n := NameChecks(name);
    var p := PasswordChecks(password);
    var last := Then(Check("designation", InEnum(designation, Designations), DesignationMessage), []);
    AllPassAppend(p, last);
    var rest := Then(EmailCheck(lib, email), p + last);
    AllPassAppend(n, rest);
    n + rest
  }

  datatype FarmerDetails = FarmerDetails(acres: Option<real>, soilType: Option<string>,
                                         cropsGrown: Option<seq<string>>, location: Option<string>,
                                         pinCode: Option<string>)

  /** `sellerValidation.farmerDetails`. */
  function FarmerChecks(lib: Library, d: FarmerDetails): (cs: seq<Check>)
    ensures AllPass(cs) <==>
      && d.acres.Some? && d.acres.value >= 0.1
      && InEnum(d.soilType, SoilTypes)
      && NonEmptyArray(d.cropsGrown)
      && Present(d.location)
      && d.pinCode.Some? && lib.isPostalCodeIN(d.pinCode.value)
  {
    Then(Check("acres", d.acres.Some? && d.acres.value >= 0.1, AcresMessage),
    Then(Check("soilType", InEnum(d.soilType, SoilTypes), SoilTypeMessage),
    Then(Check("cropsGrown", NonEmptyArray(d.cropsGrown), CropsMessage),
    Then(Check("location", Present(d.location), LocationMessage),
    Then(Check("pinCode", d.pinCode.Some? && lib.isPostalCodeIN(d.pinCode.value), PinCodeMessage), [])))))
  }

  datatype ResellerDetails = ResellerDetails(businessName: Option<string>, businessType: Option<string>,
                                             businessAddress: Option<string>)

  /** `sellerValidation.resellerDetails`. */
  function ResellerChecks(d: ResellerDetails): (cs: seq<Check>)
    ensures AllPass(cs) <==>
      && GlyphLength(Trim(d.businessName.GetOr(""))) >= 2
      && InEnum(d.businessType, BusinessTypes)
      && Present(d.businessAddress)
  {
    Then(Check("businessName", GlyphLength(Trim(d.businessName.GetOr(""))) >= 2, BusinessNameMessage),
    Then(Check("businessType", InEnum(d.businessType, BusinessTypes), BusinessTypeMessage),
    Then(Check("businessAddress", Present(d.businessAddress), BusinessAddressMessage), [])))
  }

  datatype StartupDetails = StartupDetails(companyName: Option<string>, companyAddress: Option<string>,
                                           natureOfBusiness: Option<string>)

  /** `sellerValidation.startupDetails`. */
  function StartupChecks(d: StartupDetails): (cs: seq<Check>)
    ensures AllPass(cs) <==>
      && GlyphLength(Trim(d.companyName.GetOr(""))) >= 2
      && Present(d.companyAddress)
      && InEnum(d.natureOfBusiness, NaturesOfBusiness)
  {
    Then(Check("companyName", GlyphLength(Trim(d.companyName.GetOr(""))) >= 2, CompanyNameMessage),
    Then(Check("companyAddress", Present(d.companyAddress), CompanyAddressMessage),
    Then(Check("natureOfBusiness", InEnum(d.natureOfBusiness, NaturesOfBusiness), NatureOfBusinessMessage), [])))
  }

  /** `sellerValidation.serviceDetails`. */
  function ServiceChecks(selectedServices: Option<seq<string>>): (cs: seq<Check>)
    ensures AllPass(cs) <==> NonEmptyArray(selectedServices)
  {
    Then(Check("selectedServices", NonEmptyArray(selectedServices), ServicesMessage), [])
  }

  // ---------------------------------------------------------------------------
  // Product chains

  const Units: seq<string> := ["kg", "g", "L", "ml", "piece", "bunch", "dozen", "quintal", "ton"]
  const Categories: seq<string> :=
    ["vegetables", "fruits", "grains", "spices", "oils", "dairy", "pulses", "seeds", "nuts", "herbs"]

  datatype ProductInput = ProductInput(
    title: Option<string>,
    description: Option<string>,
    price: Option<real>,
    unit: Option<string>,
    stock: Option<real>,
    category: Option<string>)

  predicate TitleOk(t: Option<string>) { t.Some? && 2 <= GlyphLength(Trim(t.value)) <= 200 }
  predicate DescriptionOk(d: Option<string>) { d.Some? && 10 <= GlyphLength(Trim(d.value)) <= 2000 }
  predicate PriceOk(p: Option<real>) { p.Some? && p.value >= 0.01 }
  predicate StockOk(s: Option<real>) { s.Some? && IsInteger(s.value) && s.value >= 0.0 }

  /** The body after the chains' `trim()` sanitizers: title and description are trimmed. */
  function Sanitised(p: ProductInput): (r: ProductInput)
    ensures r.title.Some? <==> p.title.Some?
    ensures r.title.Some? ==> r.title.value == Trim(p.title.value)
    ensures r.description.Some? <==> p.description.Some?
    ensures r.description.Some? ==> r.description.value == Trim(p.description.value)
    ensures r.(title := p.title, description := p.description) == p
  {
    p.(title := if p.title.Some? then Some(Trim(p.title.value)) else None,
       description := if p.description.Some? then Some(Trim(p.description.value)) else None)
  }

  /** `productValidation.create`. */
  function ProductCreateChecks(p: ProductInput): (cs: seq<Check>)
    ensures AllPass(cs) <==>
      && TitleOk(p.title) && DescriptionOk(p.description) && PriceOk(p.price)
      && InEnum(p.unit, Units) && StockOk(p.stock) && InEnum(p.category, Categories)
  {
    Then(Check("title", TitleOk(p.title), TitleMessage),
    Then(Check("description", DescriptionOk(p.description), DescriptionMessage),
    Then(Check("price", PriceOk(p.price), PriceMessage),
    Then(Check("unit", InEnum(p.unit, Units), UnitMessage),
    Then(Check("stock", StockOk(p.stock), StockMessage),
    Then(Check("category", InEnum(p.category, Categories), CategoryMessage), []))))))
  }

  /** `productValidation.update`: the same rules for title, description, price and stock, each
      applied only when the field is present; unit and category are not checked. */
  function ProductUpdateChecks(p: ProductInput): (cs: seq<Check>)
    ensures AllPass(cs) <==>
      && (p.title.None? || TitleOk(p.title)) && (p.description.None? || DescriptionOk(p.description))
      && (p.price.None? || PriceOk(p.price)) && (p.stock.None? || StockOk(p.stock))
  {
    Then(Check("title", p.title.None? || TitleOk(p.title), TitleMessage),
    Then(Check("description", p.description.None? || DescriptionOk(p.description), DescriptionMessage),
    Then(Check("price", p.price.None? || PriceOk(p.price), PriceMessage),
    Then(Check("stock", p.stock.None? || StockOk(p.stock), StockMessage), []))))
  }

  /** Every body the create chain accepts passes the update chain too; the converse fails, since
      the update chain lets an empty body through. */
  lemma CreateImpliesUpdate(p: ProductInput)
    ensures AllPass(ProductCreateChecks(p)) ==> AllPass(ProductUpdateChecks(p))
    ensures AllPass(ProductUpdateChecks(ProductInput(None, None, None, None, None, None)))
    ensures !AllPass(ProductCreateChecks(ProductInput(None, None, None, None, None, None)))
  {
  }

  // ---------------------------------------------------------------------------
  // Order chain

  datatype ItemInput = ItemInput(productId: Option<string>, quantity: Option<real>)

  /** The delivery address of an order body: the three fields the chain checks, and the address
      type, which only the order schema checks. */
  datatype DeliveryInput = DeliveryInput(name: Option<string>, phone: Option<string>, pinCode: Option<string>,
                                         addressType: Option<string>)

  predicate QuantityOk(q: Option<real>) { q.Some? && IsInteger(q.value) && q.value >= 1.0 }

  predicate ItemOk(it: ItemInput) { ProductIdOk(it) && QuantityOk(it.quantity) }

  predicate ProductIdOk(it: ItemInput) { it.productId.Some? && IsMongoId(it.productId.value) }

  /** The path a wildcard check reports for one array element: `items[k].productId`. */
  function ItemPath(k: nat, field: string): string { "items[" + DecimalString(k) + "]." + field }

  /** The wildcard chain `items.*.productId` runs over every element first, then the chain
      `items.*.quantity` over every element, each check named by the element's index. */
  function ItemChecks(items: seq<ItemInput>): (cs: seq<Check>)
    ensures |cs| == 2 * |items|
    ensures forall k :: 0 <= k < |items| ==>
      cs[k] == Check(ItemPath(k, "productId"), ProductIdOk(items[k]), ProductIdMessage)
    ensures forall k :: 0 <= k < |items| ==>
      cs[|items| + k] == Check(ItemPath(k, "quantity"), QuantityOk(items[k].quantity), QuantityMessage)
    ensures AllPass(cs) <==> forall k :: 0 <= k < |items| ==> ItemOk(items[k])
  {
    var ids := seq(|items|, k requires 0 <= k < |items| =>
      Check(ItemPath(k, "productId"), ProductIdOk(items[k]), ProductIdMessage));
    var quantities := seq(|items|, k requires 0 <= k < |items| =>
      Check(ItemPath(k, "quantity"), QuantityOk(items[k].quantity), QuantityMessage));
    var cs := ids + quantities;
    assert AllPass(cs) <==> forall k :: 0 <= k < |items| ==> ItemOk(items[k]) by {
      if AllPass(cs) {
        forall k | 0 <= k < |items| ensures ItemOk(items[k]) {
          assert cs[k] in cs && cs[|items| + k] in cs;
        }
      }
      if forall k :: 0 <= k < |items| ==> ItemOk(items[k]) {
        forall c | c in cs ensures c.ok {
          var i :| 0 <= i < |cs| && cs[i] == c;
          if i >= |items| { assert ItemOk(items[i - |items|]); }
        }
      }
    }
    cs
  }

  predicate DeliveryOk(lib: Library, d: DeliveryInput) {
    && Trim(d.name.GetOr("")) != ""
    && d.phone.Some? && lib.isMobilePhoneIN(d.phone.value)
    && d.pinCode.Some? && lib.isPostalCodeIN(d.pinCode.value)
  }

  /** `orderValidation.create`. */
  function OrderChecks(lib: Library, items: Option<seq<ItemInput>>, d: DeliveryInput): (cs: seq<Check>)
    ensures AllPass(cs) <==>
      && NonEmptyArray(items)
      && (forall k :: 0 <= k < |items.value| ==> ItemOk(items.value[k]))
      && DeliveryOk(lib, d)
  {
    var perItem := if items.Some? then ItemChecks(items.value) else [];
    var tail :=
      Then(Check("deliveryAddress.name", Trim(d.name.GetOr("")) != "", DeliveryNameMessage),
      Then(Check("deliveryAddress.phone", d.phone.Some? && lib.isMobilePhoneIN(d.phone.value),
                 DeliveryPhoneMessage),
      Then(Check("deliveryAddress.pinCode", d.pinCode.Some? && lib.isPostalCodeIN(d.pinCode.value),
                 DeliveryPinCodeMessage), [])));
    AllPassAppend(perItem, tail);
    Then(Check("items", NonEmptyArray(items), ItemsMessage), perItem + tail)
  }

  /** The delivery address after the chain's `trim()` sanitizer on its name. */
  function SanitisedDelivery(d: DeliveryInput): (r: DeliveryInput)
    ensures r.name.Some? <==> d.name.Some?
    ensures r.name.Some? ==> r.name.value == Trim(d.name.value)
    ensures r.phone == d.phone && r.pinCode == d.pinCode && r.addressType == d.addressType
  {
    d.(name := if d.name.Some? then Some(Trim(d.name.value)) else None)
  }
}

=== FILE: wrappers.dfy ===
/** Optional values, standing in for JavaScript's `undefined`/`null` request fields. */
module Wrappers {

  datatype Option<+T> = None | Some(value: T) {

    /** Returns the carried value, or `default` when there is none (JavaScript's `x ?? d`). */
    function GetOr(default: T): T {
      match this
      case Some(v) => v
      case None => default
    }
  }

  /** A JavaScript string field is truthy iff it is present and non-empty. */
  predicate Present(o: Option<string>) {
    o.Some? && o.value != ""
  }

  /** JavaScript's `x || d` on an optional string. */
  function OrElse(o: Option<string>, d: string): string {
    if Present(o) then o.value else d
  }
}
